=== FILE: README.md ===
# Positron / nide editor core in Dafny

This project models the logic at the heart of the Positron code editor (and
of its predecessor nide), and proves properties of that model.

The centre is `DirectoryTree` (`positron/analyze/tree.py`), the incremental
project indexer.
- It keeps a cache from directory to its last listing, a flat set of every
  indexed path, and a lazily re-sorted list of them.
- A `reindex` pass reconciles the cache with the disk as a worklist. Every
  cached directory is seeded into the worklist and each is handled at most
  once. An unchanged directory (same modification time) is left alone, a
  changed one is relisted and its folders queued, and a vanished one is
  dropped.
- At most one sort runs per pass, and a time budget can abort the pass.

Around it sit the smaller pieces that use the index or live next to it:
- the project-tree search and its quick file (`gui/editor/tree.py`);
- the directory walkers and tree printers (`util/file.py`,
  `nide/util/directory.py`);
- the selectable list widget (`kex/widgets/list.py`);
- the session's cursor cache, path display and icons
  (`analyze/session.py`);
- the flake8 report parser (`analyze/linter.py`);
- the settings flattening and merge (three copies);
- the code editor's helpers (`gui/editor/code.py`);
- the code entry's line shifting, undo, find and modal logic
  (`nide/gui/kex/widgets/uix.py`);
- the disk browser (`gui/editor/disk.py`);
- the panel container (`gui/editor/container.py`).

Modelling choices:
- The disk is a map from path to `Dir(mtime, entries)` or `File(mtime)`.
- A path is `Path(absolute, parts)` in `pathlib`'s normal form (`paths.dfy`).
- Python's `sorted` is a stable insertion sort (`sorting.dfy`).
- Python slicing, negative indexes included, is `Seqs.PySlice`.
- Python's `int()` on ASCII text is `Strings.ParseInt`, and `str.lower()`
  on ASCII letters is `Strings.Lower` (see Left out for the rest of Unicode).
- The indexing timeout is a `fuel` budget: one unit per loop iteration,
  checked before the next directory is popped.
- `last_modified` is a counter that moves once per relisted directory.

Files, one module each:
- `wrappers.dfy`, `strings.dfy`, `seqs.dfy`, `paths.dfy`, `sorting.dfy`:
  shared vocabulary.
- `sort_keys.dfy`: the two sort keys of the indexer.
- `directory_tree.dfy`: the indexer.
- `project_tree.dfy`: the search modal.
- `file_util.dfy`, `nide_directory.dfy`: walkers and tree text.
- `list_widget.dfy`: the list widget.
- `session.dfy`: the session.
- `linter.dfy`: the linter's parser.
- `settings.dfy`: the settings.
- `code_editor.dfy`: the editor helpers.
- `code_entry.dfy`: the code entry and its screen manager and modal.
- `disk_browser.dfy`: the disk browser.
- `container.dfy`: the container.

## Model

| member | source | states |
|---|---|---|
| `DirectoryTree.GetChildrenFromDisk` | positron/analyze/tree.py:108-122 | The listing is sorted folders-first. A path is in it exactly when the disk lists it under the directory, it passes the extension filter when asked, and it matches no ignore pattern when the path filter is asked for. When no directory on disk lists an entry twice, no path appears twice. |
| `DirectoryTree.ListingMembers` | positron/analyze/tree.py:115-121 | Filtering the raw listing by ignore patterns (only when some exist) keeps exactly the children `Listed` describes. |
| `DirectoryTree.ListedInside` | positron/analyze/tree.py:116-122 | Every listed child lies directly inside the listed directory and exists on disk. |
| `DirectoryTree.Relist` | positron/analyze/tree.py:90-102 | A relisted entry records the disk's modification time and the fresh listing. Its child set holds the same paths as the list. `folders` and `files` split the children by `is_dir`, each keeping the listing's order. |
| `DirectoryTree.Initial` | positron/analyze/tree.py:34-40 | Before the first pass the cache holds only the root, marked never listed (-1). The path set is `{root}` and the sorted list is `[root]`. |
| `DirectoryTree.Step` | positron/analyze/tree.py:70-104 | One directory's step. A vanished directory loses its entry, its own path and its last-known children. A directory whose mtime matches is untouched. A changed one gets a fresh listing, the path set becomes (old − old children) ∪ new children, and the stamp moves by one. No other entry changes. |
| `DirectoryTree.StepValid` | positron/analyze/tree.py:74-104 | A step keeps the representation invariant: entries keyed by their path, child sets matching the children, and everything under the root. |
| `DirectoryTree.SortPaths` | positron/analyze/tree.py:105-106 | Sorting the path set gives a folders-first-ordered permutation of it. |
| `DirectoryTree.PassStep` | positron/analyze/tree.py:70-104 | Handling an unhandled directory keeps the pass invariant. That invariant covers: each directory handled once, handled ones matching the disk, up-to-date entries kept, a sort pending exactly when the stamp moved, and new folders queued. |
| `DirectoryTree.StepEffect` | positron/analyze/tree.py:74-102 | One directory's step changes the path set by what it drops and adds. A vanished directory drops itself; a changed one drops its old children and adds its new ones; an up-to-date one changes nothing. |
| `DirectoryTree.StepPaths` | positron/analyze/tree.py:70-104 | Each step keeps the pass's path-set invariant: the set holds exactly the paths some visited directory added, plus the old paths no visited directory dropped. |
| `DirectoryTree.PassSkip` | positron/analyze/tree.py:70-72 | Popping a directory already handled in this pass changes nothing. |
| `DirectoryTree.PassEnd` | positron/analyze/tree.py:65-65 | When the worklist is empty every cached directory exists with its recorded mtime. A cache that covered every listed folder still does. |
| `DirectoryTree.Reindex` | positron/analyze/tree.py:59-106 | The pass keeps the invariant and handles each directory at most once. Each handled directory was cached before or queued as a folder of a directory handled before it. Afterwards each handled directory holds its old entry if that was up to date and a fresh listing otherwise, a vanished one is gone, and every other entry is untouched. The path set holds exactly the new children of the relisted directories, plus the old paths that no handled directory dropped. `last_modified` moves on by exactly the number of relistings, so it changes exactly when some handled directory was stale. The steps taken are at most the fuel, and a timeout spends all of it. On a settled cache the pass changes nothing. On timeout it keeps the old sorted list. When it completes, the cache is settled, every folder of a listing made in the pass has been handled too, and the list is re-sorted as a permutation of the path set exactly when the stamp moved. | |
| `DirectoryTree.ReindexAgain` | positron/analyze/tree.py:86-106 | After a completed pass, a second pass over an unchanged disk returns the same state: paths, sorted list and `last_modified` included. |
| `DirectoryTree.SortedTreeUnique` | positron/analyze/tree.py:106-106 | Any two folders-first-sorted arrangements of the indexed paths are equal: the sorted list is determined by the path set. |
| `DirectoryTree.New` | positron/analyze/tree.py:34-41 | Construction fails exactly when the root is not a directory. Otherwise the first pass has settled a cache covering every listed folder, all under the root. Every cached directory on disk answers `get_children` with its fresh disk listing. |
| `DirectoryTree.GetChildren` | positron/analyze/tree.py:124-126 | The lookup succeeds exactly for a cached directory and returns that entry's cached children, each directly inside it. |
| `SortKeys.FolderKey` | positron/analyze/tree.py:138-146 | The folders-first key starts with '1' exactly for files and ends with the path string. |
| `SortKeys.FoldersBeforeFiles` | positron/analyze/tree.py:141-146 | Anything that is not a file sorts before every file. |
| `SortKeys.ShallowerFilesFirst` | positron/analyze/tree.py:143-145 | Between files of depth below 1000, the shallower one sorts first. |
| `SortKeys.PadThree` | positron/analyze/tree.py:145-145 | The zero-padded depth field spells the depth's hundreds, tens and units digits. |
| `SortKeys.FolderKeyInjective` | positron/analyze/tree.py:139-146 | Distinct absolute normal paths get distinct folders-first keys. |
| `SortKeys.FolderKeyInjectiveOn` | positron/analyze/tree.py:106-106 | Over any set of indexed paths the sort key has no ties. |
| `SortKeys.TreeKeyChild` | positron/analyze/tree.py:131-136 | A child's tree key is its parent's key, "/", and the child's own segment. |
| `SortKeys.ParentBeforeChild` | positron/analyze/tree.py:134-136 | A directory's tree key sorts before that of each of its children. |
| `SortKeys.AncestorBeforeDescendant` | positron/analyze/tree.py:134-136 | A directory's tree key sorts before that of anything inside it, at any depth. |
| `SortKeys.DirBeforeFileSibling` | positron/analyze/tree.py:135-135 | Among siblings, a directory sorts before a non-directory. |
| `Sorting.SortBy` | positron/analyze/tree.py:122-122 | `sorted(..., key=...)` yields an ordered permutation of its input. |
| `Sorting.SortByInt` | positron/analyze/session.py:80-80 | `sorted(..., key=...)` with an integer key yields an ordered permutation of its input, and it is stable: the elements with any one key come in their input order. |
| `Sorting.InsertIntStableAt` | positron/analyze/session.py:80-80 | Inserting an element into a sorted list places it before every element with the same key, so each key's elements keep their order. |
| `Sorting.StableOneKey` | positron/analyze/session.py:80-80 | A stable permutation of a list whose elements all share one key is the list itself. |
| `Sorting.SortedUnique` | positron/analyze/tree.py:106-106 | With no two elements sharing a key, the sorted order is unique. |
| `ProjectTree.TreeSearchMode` | positron/gui/editor/tree.py:151-189 | With a search text, an index of at most the threshold count of paths is searched with the fuzzy matcher, and a larger one by plain substring. |
| `ProjectTree.GetTreeFiles` | positron/gui/editor/tree.py:151-175 | The result is always sorted folders-first. With an empty pattern it is a permutation of all indexed paths. Otherwise a path is kept exactly when the matcher accepts the lower-cased pattern against its lower-cased root-relative string: substring containment unless fuzzy search is on. Each kept path appears as often as in the index, and each other path not at all. |
| `ProjectTree.TreeFilesDefined` | positron/gui/editor/tree.py:161-161 | Every indexed path lies under the root, so making it relative never fails. |
| `ProjectTree.QuickFile` | positron/gui/editor/tree.py:141-145 | The quick file is the first listed path that is a file, and there is none exactly when no listed path is a file. |
| `ProjectTree.RowColor` | positron/gui/editor/tree.py:135-140 | Folders, files and missing paths each get their own colour. |
| `ProjectTree.RefreshTree` | positron/gui/editor/tree.py:127-148 | The list is never empty. For no results it holds the root alone, uncoloured, with no quick file. Otherwise there is one escaped `$/`-prefixed relative row per result, in order and coloured by kind. The quick file is the path of the first row coloured as a file, and there is none exactly when no row is. |
| `ProjectTree.RefreshTitle` | positron/gui/editor/tree.py:177-185 | The title is recomputed exactly when the index's stamp differs from the last one seen. The stamp seen afterwards is the index's, and the file count never exceeds the number of indexed paths. |
| `ProjectTree.RefreshTitleOnce` | positron/gui/editor/tree.py:178-180 | A second refresh without a reindex in between recomputes nothing. |
| `FileUtil.TryRelative` | positron/util/file.py:71-72 | Inside `dir` the result is relative and joins back to the path; outside it the path comes back unchanged. |
| `FileUtil.TryRelativeJoin` | positron/util/file.py:71-72 | For an absolute path, joining the result onto `dir` always gives the path back. |
| `FileUtil.FormatLinesAsWritten` | positron/util/file.py:75-90 | The tree text as written has a header line (the relative directory, "/" by default) and one line per path. |
| `FileUtil.FormatLines` | positron/util/file.py:80-89 | The intended tree text has the header, then per path two spaces, the path relative to the directory, and "/" exactly when the path is a directory. |
| `FileUtil.FormatDirTreeLines` | positron/util/file.py:82-90 | With no newline in any path, the joined text splits back into exactly 1 + \|files\| lines, the intended ones. |
| `FileUtil.FormatAsWrittenInRelativeDir` | positron/util/file.py:84-85 | Run from the directory the paths are shown relative to, the code as written agrees with the intended text. |
| `FileUtil.FormatAsWrittenMissesDirectory` | positron/util/file.py:84-88 | Run from `/`, the directory `/p/d` listed relative to `/p` loses its trailing "/". |
| `FileUtil.SearchFiles` | positron/util/file.py:93-146 | It yields exactly the paths its walk reaches. A path is reached under one of the first `max_branching` entries of `dir` when three things hold. Each directory on the way exists, has depth left, and lists the next step among its first 100 entries. No name or match on the way is ignored. The path itself is a file passing the extension and fuzzy filters, or a directory where the depth runs out. The paths come grouped by entry of `dir`, in `child_sort` order of those entries. When no directory on disk lists an entry twice, no path is yielded twice. |
| `FileUtil.SearchChildren` | positron/util/file.py:113-146 | The loop over the sorted children yields exactly the walked paths under those children, grouped in the children's order. With distinct children and listings it yields no path twice. |
| `FileUtil.BlockOnly` | positron/util/file.py:114-122 | A child that is not descended into contributes itself when it is yielded directly and nothing otherwise. This covers an ignored child, a file, and a directory where the depth is used up. |
| `FileUtil.BlockBelow` | positron/util/file.py:120-131 | Under a child that is descended into, the walked paths are exactly what the walk of that child reaches with one less depth. |
| `FileUtil.Assemble` | positron/util/file.py:113-113 | The first child's paths followed by the rest's are the walked paths under all the children, still grouped in the children's order. |
| `FileUtil.ReachedAtDepthZero` | positron/util/file.py:120-122 | At depth 0 a walk yields exactly the entries it looks at that it yields directly. |
| `NideDirectory.RecursiveFiles` | nide/util/directory.py:12-32 | It yields exactly the paths a walk of the whole listing reaches: through existing directories with depth left, with no ignored name or match on the way, ending at a file of an allowed extension or at a directory where the depth runs out. They come grouped by entry of the directory, directories first. When no directory on disk lists an entry twice, no path is yielded twice. |
| `NideDirectory.Walk` | nide/util/directory.py:17-32 | The loop over the sorted children yields exactly the walked paths under those children, grouped in the children's order. With distinct children and listings it yields no path twice. |
| `NideDirectory.FileFilter` | nide/util/directory.py:29-31 | A file passes exactly when no extensions are configured or its extension without the dot is one of them. |
| `NideDirectory.WalkAgreesWithSearch` | nide/util/directory.py:13-32 | At depth 0 the walk yields exactly what `search_files` yields with no pattern and depth-first order. |
| `NideDirectory.RecursiveFilesAtDepthZero` | nide/util/directory.py:12-28 | At depth 0 `_recursive_files` equals `search_files` with no pattern, depth-first order and no branching limit. |
| `NideDirectory.FormatDirTreeAsWritten` | nide/util/directory.py:35-48 | The tree text as written starts with the directory and has one line per walked path. |
| `NideDirectory.FormatDirTree` | nide/util/directory.py:41-48 | The intended text has one indented relative line per walked path, with "/" exactly for directories. |
| `NideDirectory.FormatDirTreeMarksDirectories` | nide/util/directory.py:43-44 | Every walked directory's line ends in "/" in the intended text. |
| `NideDirectory.SampleWalk` | nide/util/directory.py:12-26 | Walking `/p`, which holds only the empty directory `d`, yields `/p/d`. |
| `NideDirectory.FormatAsWrittenMissesDirectory` | nide/util/directory.py:37-44 | Run from `/`, walking `/p` shows its sub-directory `d` without the "/". |
| `ListWidget.Initial` | positron/gui/kex/widgets/list.py:35-39 | A new list holds one placeholder item, selected and scrolled to, and is valid. |
| `ListWidget.SetScroll` | positron/gui/kex/widgets/list.py:163-171 | The scroll is clamped between the least scroll that still shows the selection and the selection itself. A value already in range is kept, the flag reports a change, and the selection ends up on screen. |
| `ListWidget.Select` | positron/gui/kex/widgets/list.py:66-71 | The new selection is the index (the current one by default) plus the delta, clamped to the items. The items are unchanged and validity is kept. |
| `ListWidget.SetItems` | positron/gui/kex/widgets/list.py:58-61 | New non-empty items keep a selection still in range, and a selection past the end moves to the last item. Validity, on-screen selection included, is kept. |
| `ListWidget.RemoveAt` | positron/gui/kex/widgets/list.py:227-227 | Popping index i shortens the list by one and moves every later item down by one. |
| `ListWidget.InsertAt` | positron/gui/kex/widgets/list.py:230-230 | Inserting at i puts the item there and moves every later item up by one. |
| `ListWidget.ShiftTarget` | positron/gui/kex/widgets/list.py:228-229 | The moved item's new index always lies inside the list. |
| `ListWidget.Moved` | positron/gui/kex/widgets/list.py:226-230 | Moving an item gives a permutation of the items with the moved one at index + delta, clamped. |
| `ListWidget.Shift` | positron/gui/kex/widgets/list.py:221-231 | A zero delta changes nothing. Otherwise the items become the moved permutation, the length is unchanged, and the selection index and validity are kept. |
| `ListWidget.ArrowStep` | positron/gui/kex/widgets/list.py:207-209 | The step is all items with ctrl and 1 for plain arrows. For page keys it is the larger of 2 and the page: `paging_size` when set and non-zero, otherwise half the rows. |
| `ListWidget.HandleArrowKey` | positron/gui/kex/widgets/list.py:200-219 | An arrow key keeps the list valid and the items a permutation. The items change only with shifting enabled and shift held. |
| `ListWidget.ArrowMovesSelection` | positron/gui/kex/widgets/list.py:212-219 | Without shifting, the selection moves by minus the step for up keys and plus the step for down keys, clamped. |
| `ListWidget.ShiftedItemStaysSelected` | positron/gui/kex/widgets/list.py:216-219 | With shifting, the selection still points at the item that was selected before. |
| `ListWidget.SelectionVisible` | positron/gui/kex/widgets/list.py:126-137 | In a valid list the row that `_refresh_items` fills at the selection's offset shows the selected item, and that offset, where `_refresh_selection_graphics` puts the rectangle, lies on screen. |
| `ListWidget.KeyDown` | positron/gui/kex/widgets/list.py:183-198 | The list stays valid, and an invocation always names the selection and its item. A key is passed on exactly when it is not an arrow, page, enter or number key. |
| `ListWidget.NumberKeyInvokes` | positron/gui/kex/widgets/list.py:187-194 | A number key selects that index, clamped to the last item, and invokes it. |
| `Session.EncodeCursor` | positron/analyze/session.py:315-316 | An encoded cursor starts with the path string, and its last "::" is the one right after the path. |
| `Session.ParseInts` | positron/analyze/session.py:311-311 | Parsing succeeds exactly when every field is an integer, and then gives each field's value. |
| `Session.DecodeCursor` | positron/analyze/session.py:306-312 | Without "::" the whole string is the path, with the default cursor. With "::" the path is everything before the last one, and the cursor has one number per comma-separated field. |
| `Session.CursorRoundTrip` | positron/analyze/session.py:306-316 | Decoding an encoded cursor gives it back, even when the path itself contains "::". |
| `Session.DecodeAtLastSeparator` | positron/analyze/session.py:309-312 | `f::fields` with no colon in the fields decodes to path `f` and the parsed fields, or fails as the fields do. |
| `Session.FieldsRoundTrip` | positron/analyze/session.py:311-316 | Two written integers read back as themselves. |
| `Session.EmptyCursorFails` | positron/analyze/session.py:311-311 | An empty cursor field makes the entry fail to decode. |
| `Session.NewSession` | positron/analyze/session.py:103-108 | A path that is not a directory opens its parent in single-file mode; a directory opens as itself. |
| `Session.FileModeInsideProject` | positron/analyze/session.py:105-107 | In single-file mode the file lies inside the project directory. |
| `Session.DecodeAll` | positron/analyze/session.py:235-235 | Decoding the cached list succeeds exactly when every entry decodes, and then gives them in order. |
| `Session.GetFileCursors` | positron/analyze/session.py:223-238 | Single-file mode gives the file alone, an unknown project gives nothing, and a cached project gives its decoded entries. |
| `Session.EncodeAllRoundTrip` | positron/analyze/session.py:235-247 | Decoding the encoded cursors gives back the same cursors in order. |
| `Session.SaveFileCursors` | positron/analyze/session.py:240-259 | Single-file mode saves nothing. Otherwise only the project's entry changes: the new cursors, followed by the old entries beyond their count when the old list was longer. |
| `Session.SaveThenGet` | positron/analyze/session.py:223-259 | Reading back after saving gives the saved cursors first, and exactly them when the cache held no longer list. |
| `Session.StoredDecodes` | positron/analyze/session.py:247-258 | The first stored entries decode to the saved cursors. |
| `Session.SaveIdempotent` | positron/analyze/session.py:253-258 | Saving the same cursors twice stores the same as saving them once. |
| `Session.RelativeWithoutEmpty` | positron/analyze/session.py:300-303 | For a normal path the result is empty exactly when the path is the base itself. |
| `Session.RelativeWithoutEmptyResolves` | positron/analyze/session.py:300-303 | The shown relative part joined to the base gives the path back. |
| `Session.ExpandAbsolute` | positron/analyze/session.py:78-78 | A configured replacement path, with a leading "~" expanded to the home directory, is absolute. |
| `Session.ParseCustom` | positron/analyze/session.py:76-79 | Reading the replacements succeeds exactly when each entry splits into exactly two fields on ";", and then gives, in order, each original made absolute and resolved, with its label. |
| `Session.CustomEntry` | positron/analyze/session.py:77-79 | An entry `original;new` with no other ";" unpacks to its two halves. |
| `Session.UpdatePrefixes` | positron/analyze/session.py:69-89 | The labels are read as they are. The replacements are a permutation of the parsed entries, deepest path first. Entries at one depth keep their order in the settings, as Python's stable sort keeps them. A malformed entry fails the update. |
| `Session.EqualDepthKeepsOrder` | positron/analyze/session.py:76-80 | When all replacement paths lie at one depth, the sort leaves the parsed entries exactly as listed in the settings. |
| `Session.FirstEligible` | positron/analyze/session.py:274-282 | The replacement chosen is the first holding the path, skipping those holding the project when showing paths relative to it. It is absent exactly when no replacement is eligible. |
| `Session.DisplayBase` | positron/analyze/session.py:272-287 | The base has this precedence: the config directory, then the first eligible replacement, then the project (when asked), then home, else none. Any base chosen holds the path. |
| `Session.ReprFullPath` | positron/analyze/session.py:261-287 | A path with no base is shown as its string. Otherwise it is the icon, the base's caption, "/", and the rest relative to the base. |
| `Session.ReprFullPathResolves` | positron/analyze/session.py:273-286 | What follows the caption and "/" leads back to the path from its base. |
| `Session.DeepestReplacementChosen` | positron/analyze/session.py:274-282 | With the replacements sorted deepest first, the one chosen is the deepest eligible one. |
| `Session.ProjectReplacementSkipped` | positron/analyze/session.py:275-277 | When showing paths relative to the project, a replacement holding the project is never chosen. |
| `Session.IconKey` | positron/analyze/session.py:297-297 | The intended lookup key is ".tar.gz" for such archives and the path's suffix otherwise. |
| `Session.GetPathIcon` | positron/analyze/session.py:290-297 | Icon precedence is ".git" in the name, then "LICENSE", then a directory (home or folder icon), then the extension table with its default. |
| `Session.IconAgreesOffTarGz` | positron/analyze/session.py:297-297 | For every name not ending in ".tar.gz" the corrected lookup agrees with the code as written. |
| `Session.TarGzUnreachable` | positron/analyze/session.py:36-36 | No name has ".tar.gz" as its `suffix`, so that table entry is never reached as written. |
| `Session.TarGzEntries` | positron/analyze/session.py:36-36 | The table maps ".tar.gz" to the archive icon and has no ".gz" entry. |
| `Session.TarGzName` | positron/analyze/session.py:290-297 | "a.tar.gz" is neither a git path nor a licence, its `suffix` is ".gz", and the corrected key is ".tar.gz". |
| `Session.TarGzIcon` | positron/analyze/session.py:290-297 | `/a.tar.gz` gets the default icon as written and the archive icon as intended. |
| `Linter.Column` | positron/analyze/linter.py:76-76 | The reported column is never negative and is flake8's column minus one. |
| `Linter.ParseLine` | positron/analyze/linter.py:66-80 | An empty or foreign line is skipped. A report's column is never negative. A line raises on unpacking exactly when it is from the file and has fewer than two ':' after the file name. |
| `Linter.Collect` | positron/analyze/linter.py:64-81 | Collecting fails exactly when some line cannot be unpacked, naming the first such line; otherwise it gives every report in line order. |
| `Linter.ParseLines` | positron/analyze/linter.py:66-80 | Reading the report gives the errors of its readable lines in order, or the unpacking error of the first short line. No column is negative. |
| `Linter.ReportsBound` | positron/analyze/linter.py:66-68 | There are at most as many errors as non-empty lines. |
| `Linter.LintText` | positron/analyze/linter.py:54-81 | The report is read exactly when every output line has enough fields. It then holds the error of each readable line, in line order, at most one per non-empty line, with no negative column. Otherwise the error names the first line with too few fields. |
| `Linter.ParseLinesAppend` | positron/analyze/linter.py:64-80 | Errors come out in the order of the lines that carry them: reading two parts of a report is reading each in turn. |
| `Linter.FormatParse` | positron/analyze/linter.py:72-80 | A well-formed flake8 line reads back as its message, its line and its column minus one. |
| `Linter.BadNumberSkipped` | positron/analyze/linter.py:74-79 | A line field `int()` rejects makes the line be skipped, not raised. |
| `Linter.ShortLineRaises` | positron/analyze/linter.py:72-72 | A file line with only one ':' after the name fails to unpack. |
| `Settings.ToMap` | positron/util/settings.py:28-30 | The dict comprehension has every yielded key, and a repeated key keeps the value of its last pair. |
| `Settings.YieldSound` | positron/util/settings.py:16-25 | Every yielded pair is a leaf of the document, keyed by its dot-joined key path. |
| `Settings.EmptyTableVanishes` | positron/util/settings.py:19-25 | An empty nested table contributes no settings. |
| `Settings.UnknownDropped` | positron/util/settings.py:41-47 | After loading, a name is a setting exactly when the defaults have it: unknown user keys are dropped. |
| `Settings.YieldComplete` | nide/settings.py:15-24 | Every leaf reached through the remaining items is yielded under its dotted key. |
| `Settings.FlattenLeaves` | nide/settings.py:27-29 | A dotted name is a setting exactly when some key path to a leaf joins to it, and its value is such a leaf. |
| `Settings.FirstStartLoadsDefaults` | nide/settings.py:36-42 | On a first start, where the user file is copied from the defaults, the load gives the defaults. |
| `Settings.MergeIdempotent` | nide/settings.py:43-49 | Merging again with the same defaults changes nothing. |
| `Settings.Merge` | nide/util/settings.py:43-49 | The merged keys are exactly the defaults' keys. The user's value wins where the user sets the key; otherwise the default stays. |
| `Settings.FlattenSound` | nide/util/settings.py:27-29 | Each flattened setting is a leaf of the document whose key path joins to its name. |
| `Settings.FlattenComplete` | nide/util/settings.py:15-24 | Each leaf of the document is flattened under its joined key path. |
| `Settings.GetAfterLoad` | nide/util/settings.py:32-57 | After loading, `get` succeeds exactly for the dotted leaf paths of the defaults, and gives the user's value when the user file sets that name. |
| `CodeEditor.FormatHumanized` | positron/gui/editor/code.py:53-62 | No time gives the empty string; any time is shown in brackets followed by a space. |
| `CodeEditor.HumanizedCount` | positron/gui/editor/code.py:57-62 | "N unit ago" is shown as the count and the unit's letter in brackets. |
| `CodeEditor.HumanizedMinute` | positron/gui/editor/code.py:58-59 | "a minute ago" is shown as "[1m] ". |
| `CodeEditor.HumanizedVerbatim` | positron/gui/editor/code.py:60-62 | A time with no unit word is shown unchanged in brackets. |
| `CodeEditor.ReplaceAllUnit` | positron/gui/editor/code.py:60-61 | The chained replacements turn a count and one unit word into the count and that unit's abbreviation. |
| `CodeEditor.LastWord` | positron/gui/editor/code.py:342-358 | The word before the cursor is the longest whitespace-free end of the text: what follows its last whitespace run. |
| `CodeEditor.LastWordScan` | positron/gui/editor/code.py:350-358 | Every scan of the loop as written returns an end of the text. |
| `CodeEditor.LastWordAsWritten` | positron/gui/editor/code.py:342-358 | The code as written always returns an end of its input. |
| `CodeEditor.ScanWordOrText` | positron/gui/editor/code.py:350-358 | A scan returns the last word or the whole text, and the last word whenever the window reaches the last whitespace. |
| `CodeEditor.LastWordNearCursor` | positron/gui/editor/code.py:348-355 | When the last min(10, len) characters hold whitespace, the code as written returns the last word. |
| `CodeEditor.LastWordNoSpace` | positron/gui/editor/code.py:356-358 | A text with no whitespace is its own last word. |
| `CodeEditor.LastWordMissesEarlySpace` | positron/gui/editor/code.py:356-358 | For "ab cdefghijklmn" the code as written returns the whole text instead of "cdefghijklmn". |
| `CodeEditor.FirstReached` | positron/gui/editor/code.py:527-533 | The first error at (or strictly after) the cursor; there is none exactly when no error is reached. |
| `CodeEditor.NextError` | positron/gui/editor/code.py:523-534 | Nothing exactly without errors. Otherwise it is the first error reached from the cursor, or, when none is reached, the first error. |
| `CodeEditor.NextErrorOffCursor` | positron/gui/editor/code.py:529-532 | With no error exactly at the cursor, including the cursor's position or not gives the same error. |
| `CodeEditor.ScrollDown` | positron/gui/editor/code.py:423-426 | Scrolling down rotates by one: the first completion goes to the end. |
| `CodeEditor.ScrollUp` | positron/gui/editor/code.py:428-431 | Scrolling up rotates back by one: the last completion comes to the front. |
| `CodeEditor.ScrollRoundTrip` | positron/gui/editor/code.py:423-431 | Down then up, or up then down, restores the list. |
| `CodeEditor.TailSliceEnds` | positron/gui/editor/code.py:404-404 | `last_word[-len(name):]` is always an end of the last word, of the name's length when the word is at least that long. |
| `CodeEditor.KeepOfferedSound` | positron/gui/editor/code.py:402-405 | Every kept entry is one of the engine's names that the last word does not already end with. |
| `CodeEditor.KeepOfferedComplete` | positron/gui/editor/code.py:402-405 | Every engine name the last word does not already end with is kept. |
| `CodeEditor.KeepOfferedCount` | positron/gui/editor/code.py:402-405 | Each engine name the last word does not already end with is kept as often as the engine gives it, and every other name not at all. |
| `CodeEditor.OfferedExactly` | positron/gui/editor/code.py:404-404 | A name drops out exactly when the last word ends with it; the empty name drops out only for an empty last word. |
| `CodeEditor.Entries` | positron/gui/editor/code.py:406-410 | The list starts with exactly the snippets for the last word, none for an empty word, and the rest are engine entries. Each offered engine name appears as often as the engine gives it, and every other name not at all. |
| `CodeEditor.FindCompletions` | positron/gui/editor/code.py:379-410 | Nothing is offered with a selection, at the start of the text, or after a disabling character. Otherwise the list starts with exactly the snippets for the word before the cursor, every later entry comes from the engine, and each engine name that word does not already end with appears as an engine entry as often as the engine gives it, and no other engine entry appears. |
| `CodeEditor.InsertSnippet` | positron/gui/editor/code.py:326-340 | A negative move puts the cursor back at the original index. A negative select selects exactly the inserted span. A zero selection selects nothing. |
| `CodeEditor.SnippetSelectAllAtStart` | positron/gui/editor/code.py:331-338 | Moving to the start and selecting all leaves the cursor at the start with nothing selected. |
| `CodeEditor.CursorPath` | positron/gui/editor/code.py:481-484 | A file under the project is shown as "$/…", otherwise under home as "~/…", otherwise as its full path. |
| `CodeEditor.CursorFull` | positron/gui/editor/code.py:477-489 | The status text starts with the humanized age and the shown path, and ends with the left-aligned column. |
| `CodeEditor.ProjectBeforeHome` | positron/gui/editor/code.py:481-484 | A file under both the project and home is shown relative to the project. |
| `CodeEntry.RearrangeBlocks` | nide/gui/kex/widgets/uix.py:352-357 | For non-overlapping offsets the rearrangement swaps the two middle pieces: a permutation of the same length. |
| `CodeEntry.ShiftSwapsBlocks` | nide/gui/kex/widgets/uix.py:333-369 | For adjacent blocks a shift swaps the moved block with its neighbour. The rows before and after stay in place, and the result is a permutation of the same length. |
| `CodeEntry.ShiftUndoRestores` | nide/gui/kex/widgets/uix.py:371-386 | The recorded undo rows are adjacent for the opposite direction. Shifting with them puts every row back, and the cursor moves back by as much as the shift moved it. |
| `CodeEntry.ShiftKeepsPairs` | nide/gui/kex/widgets/uix.py:352-369 | Lines, labels and rects are rearranged identically, so each label and rect stays with its line. |
| `CodeEntry.ShiftLines` | nide/gui/kex/widgets/uix.py:296-387 | A pending selection blocks a shift unless it comes from an undo. With rows, lines, labels and rects are rearranged and the cursor row moves by the neighbour's height. A shift not from an undo records the undo and redo commands and clears the redo list. |
| `CodeEntry.ShiftPermutes` | nide/gui/kex/widgets/uix.py:346-369 | A shift of adjacent blocks keeps lines, flags, labels and rects permutations of themselves, aligned with each other. |
| `CodeEntry.ShiftThenUndo` | nide/gui/kex/widgets/uix.py:379-386 | Running the recorded undo command restores every line, flag, label, rect and the cursor. |
| `CodeEntry.UndoThenRedo` | nide/gui/kex/widgets/uix.py:382-387 | Redoing after the undo gives back the shifted state, cursor included. |
| `CodeEntry.CustomShiftDuplicates` | nide/gui/kex/widgets/uix.py:292-294 | Shifting the first of two lines up through the custom rows, as written, duplicates it: ["a", "b"] becomes ["a", "a", "b"]. |
| `CodeEntry.CustomShiftPermutes` | nide/gui/kex/widgets/uix.py:287-294 | With the guard against shifting above the first line, a custom shift of a range inside the text only permutes the lines. |
| `CodeEntry.FirstFrom` | nide/gui/kex/widgets/uix.py:403-403 | The search from an offset finds the first occurrence at or after it, and nothing only when there is none. |
| `CodeEntry.FindNext` | nide/gui/kex/widgets/uix.py:395-415 | Nothing exactly for an empty pattern or no occurrence. Otherwise the first occurrence at or after the cursor, or, when there is none, the first occurrence in the text. |
| `CodeEntry.Matches` | nide/gui/kex/widgets/uix.py:425-425 | `finditer` reports non-overlapping occurrences left to right. Each starts at or after the search start. Each next one starts no earlier than the previous one's end, with no occurrence starting in the gap. None starts before the first one, and none at or after the last one's end. |
| `CodeEntry.MatchesUnique` | nide/gui/kex/widgets/uix.py:425-425 | For a non-empty pattern, those properties hold of exactly one list of starts: the one `finditer` reports. |
| `CodeEntry.MatchesRun` | nide/gui/kex/widgets/uix.py:425-425 | In "aaaaaa" the pattern "aa" is reported at 0, 2 and 4, not at the overlapping 1 and 3. |
| `CodeEntry.LastMatch` | nide/gui/kex/widgets/uix.py:430-431 | There is a last match exactly when `finditer` reports any. It is then the last start reported, an occurrence with no occurrence starting after its end. |
| `CodeEntry.PrefixOccurrences` | nide/gui/kex/widgets/uix.py:425-428 | Searching `text[:n]` finds exactly the occurrences of the text that end by `n`. |
| `CodeEntry.FindPrevBefore` | nide/gui/kex/widgets/uix.py:424-431 | Nothing exactly for an empty pattern or no occurrence. When an occurrence ends within `text[:bound]`, the result is the last match `finditer` reports in `text[:bound]`. Otherwise it is the last match of the whole text. |
| `CodeEntry.FindPrevSkipsOverlap` | nide/gui/kex/widgets/uix.py:424-431 | In "aaa" with pattern "aa" there is an occurrence at 1, yet the search over the whole text returns (0, 2), because `finditer` skips the overlapping one. |
| `CodeEntry.FindPrevAtStartMissesLast` | nide/gui/kex/widgets/uix.py:424-425 | At cursor 0 in "abab" the code as written finds (0, 2); the intended search wraps to the last match (2, 4). |
| `CodeEntry.FindPrev` | nide/gui/kex/widgets/uix.py:417-435 | Nothing exactly for an empty pattern or no occurrence. When an occurrence ends by `cursor - 1`, the result is the last match `finditer` reports in `text[:cursor - 1]`. Otherwise, including at the very start, it wraps to the last match of the text. |
| `CodeEntry.SelectedLineRange` | nide/gui/kex/widgets/uix.py:255-261 | The range is the selection's end rows in order, or the cursor row twice without a selection. |
| `CodeEntry.Position` | nide/gui/kex/widgets/uix.py:650-651 | `index` finds the first position of the name. |
| `CodeEntry.SwitchName` | nide/gui/kex/widgets/uix.py:642-658 | The current screen answers at once, and a running transition refuses. An unknown name raises. Otherwise the switch slides left exactly when the new screen comes later in the list. |
| `CodeEntry.SwitchBack` | nide/gui/kex/widgets/uix.py:650-652 | Switching to another screen and back slides one way and then the other. |
| `CodeEntry.Open` | nide/gui/kex/widgets/uix.py:698-701 | Opening attaches, leaves an attached modal alone, and keeps the input manager active exactly while attached. |
| `CodeEntry.Dismiss` | nide/gui/kex/widgets/uix.py:703-706 | Dismissing detaches, leaves a detached modal alone, and keeps the invariant. |
| `CodeEntry.Toggle` | nide/gui/kex/widgets/uix.py:690-696 | Toggling with no answer flips attachment; with one it sets it. |
| `CodeEntry.ModalLaws` | nide/gui/kex/widgets/uix.py:690-709 | Open and dismiss are idempotent, and toggling twice gives back the modal. |
| `DiskBrowser.ColorOf` | positron/gui/editor/disk.py:165-170 | Folders, files and missing paths each get their own colour. |
| `DiskBrowser.TreeItems` | positron/gui/editor/disk.py:99-105 | One item per representation: the top prefix first, middle rows with the child prefix, and the last (when there are two or more) with the last-child prefix. |
| `DiskBrowser.TreeItemsKeepReprs` | positron/gui/editor/disk.py:101-104 | Each item is its prefix followed by the representation unchanged. |
| `DiskBrowser.Climb` | positron/gui/editor/disk.py:83-84 | The climb ends at an existing directory holding the path, and no nearer ancestor is one. |
| `DiskBrowser.SetDir` | positron/gui/editor/disk.py:82-92 | The first row is the parent of the nearest existing directory, shown as its escaped full representation. The other rows are exactly the unfiltered children of that directory, in the listing's order, each shown by name. |
| `DiskBrowser.Bookmark` | positron/gui/editor/disk.py:69-76 | A bookmark unpacks to a resolved path and a label in the path's colour. The label is the given name, or with no name the path's full representation (with "/" for a folder), coloured twice over. More than one ';' raises. |
| `DiskBrowser.Bookmarks` | positron/gui/editor/disk.py:68-76 | The bookmarks in order, or the error of the first that cannot be unpacked; it fails exactly when some bookmark fails. |
| `DiskBrowser.CreateBookmarks` | positron/gui/editor/disk.py:64-80 | A `None` header row, then one row per unpacked bookmark in order, then the project folder. |
| `DiskBrowser.CreateBookmarksRows` | positron/gui/editor/disk.py:64-80 | The view fails exactly when some bookmark cannot be unpacked; otherwise row `i + 1` holds bookmark `i`'s path and label. |
| `DiskBrowser.BrowseBack` | positron/gui/editor/disk.py:107-110 | On the bookmark view (header first) nothing happens; otherwise the first row's directory is listed. |
| `DiskBrowser.BackListsCurrent` | positron/gui/editor/disk.py:82-89 | Browsing back from a directory lists its parent, and the directory just left is one of the rows. |
| `Container.DefaultCursorsInProject` | positron/gui/editor/container.py:28-34 | Every default cursor sits at line 1, column 0. An entry starting with "./" names a file inside the project, whose path relative to the project is the entry; any other entry is taken as it is. |
| `Container.PadTo` | positron/gui/editor/container.py:35-36 | Padding keeps the cursors as a prefix and fills up to the panel count with the settings file. |
| `Container.PanelCursorsShape` | positron/gui/editor/container.py:25-37 | There is exactly one cursor per panel: the collected ones as a prefix, then the settings file. |
| `Container.CachedCursorsFirst` | positron/gui/editor/container.py:27-28 | A session with cursors opens them, and the defaults are used only when it has none. |
| `Container.RegisterHotkeys` | positron/gui/editor/container.py:74-82 | A focus hotkey for each of the first four panels, in order, then "Reload all". |
| `Container.LaterPanelsUnbound` | positron/gui/editor/container.py:76-81 | No panel beyond the fourth gets a focus hotkey. |
| `Container.FocusHotkeyInjective` | positron/gui/editor/container.py:78-80 | Different panels get different hotkeys. |
| `Container.Chain` | positron/gui/editor/container.py:71-71 | The parent chain starts at the widget, follows `parent` links, and ends at a widget with no parent or at the window, which is its own parent. |
| `Container.CheckDescendent` | positron/gui/editor/container.py:67-72 | The walk, stopping at the window, answers true exactly when the container is on the widget's parent chain, which is exactly when the walk as written answers true. |
| `Container.DescendentWalkOutcome` | positron/gui/editor/container.py:67-72 | The walk as written answers true exactly when the container is on the chain. Off the chain it never ends exactly when the chain reaches the window, and otherwise it answers false. |
| `Container.OutsideWidgetHangs` | positron/gui/editor/container.py:67-72 | For a widget under the window but outside the container, the walk as written never ends. |
| `Container.DescendentClosed` | positron/gui/editor/container.py:67-72 | The container lies inside itself, and so does every widget whose parent does. |

## Left out

- Kivy itself is not modelled: widget construction, canvases, textures, fonts, colours as floats, layout, clock scheduling and input-manager wiring. A scheduled call is modelled as a direct call.
- jedi-backed analysis is not modelled: completions, context, help, references, project search and syntax errors. The engine's answer is a parameter of `CodeEditor.FindCompletions`.
- `Strings.Lower`: lowers the ASCII letters only. Python's `str.lower()` also lowers other Unicode letters, some of them into several characters. Strings are sequences of characters with no case tables.
- `Strings.ParseInt`: accepts ASCII digits only, with no '_' separators. Python's `int()` also accepts a single '_' between digits and every Unicode decimal digit.
- `ProjectTree.GetTreeFiles`: the pattern and each path's text are lowered by `Strings.Lower`, so non-ASCII letters match case-sensitively here.
- `FileUtil.FileWanted`: the pattern and the path are lowered by `Strings.Lower`, with the same ASCII-only effect.
- `Session.ParseInts`: a field written with '_' or non-ASCII digits is a parse error here, where Python's `int()` accepts it (see `Strings.ParseInt`).
- `Session.DecodeCursor`: inherits the ASCII-only `Strings.ParseInt` through `Session.ParseInts`.
- `Linter.ParseLine`: inherits the ASCII-only `Strings.ParseInt`, so a row or column written with '_' or non-ASCII digits drops the line.
- Subprocesses and file I/O are not modelled: running flake8, opening paths, reading and writing JSON and TOML, copying the settings file. The linter's output, the session cache and the parsed documents are parameters.
- `positron/analyze/tree.py` imports `yield_children` from `positron/util/file.py`, which does not define it. It is modelled as the directory's listing, keeping directories and files whose suffix is allowed; a non-directory lists nothing.
- `DirectoryTree.Ignored`: the `RE_IGNORE_PATHS` regular expression is read as "some ignore entry occurs as a substring", so regex metacharacters are not interpreted.
- `CodeEntry.FindNext`: the pattern is searched as a literal string, not as a regular expression; the same holds for `CodeEntry.FindPrev` and `CodeEntry.Matches`.
- `ProjectTree.GetTreeFiles`: the fuzzy matcher is an uninterpreted parameter, and so it is in `FileUtil.SearchFiles`.
- `DirectoryTree.Reindex`: the millisecond timeout is a fuel budget, and `arrow.now()` is a counter that moves by one per relisted directory.
- `DirectoryTree.Reindex`: convergence after a timeout is not claimed. Folders queued but not reached never get cache entries, and their parent's new time is already recorded.
- `DirectoryTree.Reindex`: a vanished directory does not trigger a sort, so the sorted list can keep removed paths until a later pass relists something.
- `ProjectTree.RefreshTitle`: the title's text is reduced to its file count, fuzzy flag and root. `ProjectTree.FileCount` is only bounded by the number of paths.
- `Session.NewSession`: the project path is taken as already expanded and resolved; `expanduser().resolve()` is not modelled.
- `Session.EncodeCursor`: requires a cursor of at least two numbers, where `session.py` would raise `IndexError` on a shorter one.
- `Session.ReprFullPath`: the path is taken as already resolved, and the user and home directories are parameters.
- `Session.ReprFullPath`: the icon comes from the corrected `Session.GetPathIcon`. So for a ".tar.gz" file the model shows the archive icon where the code as written shows the default (see Findings). `Session.IconAgreesOffTarGz` states that the two agree on every other path.
- `CodeEditor.FindCompletions`: the word before the cursor comes from the corrected `CodeEditor.LastWord`. So when whitespace lies only beyond the code's search window, the model offers completions of the last word where the code as written uses the whole text (see Findings). `CodeEditor.LastWordNearCursor` states when the two agree.
- `Session.ExpandAbsolute`: only a bare leading "~" is expanded; "~user" is kept as a path component, where `expanduser` would look up that user's home.
- `Session.ParseCustom`: `resolve()`'s collapsing of ".." and following of symbolic links is a parameter `resolve`, applied after "~" is expanded and the path made absolute; so is it in `Session.UpdatePrefixes`.
- `DiskBrowser.Bookmark`: `Path(file).expanduser().resolve()` is a parameter `resolve`, and `repr_full_path` is a parameter `fullRepr`.
- `DiskBrowser.SetDir`: Kivy's `escape_markup` is a parameter `escape`; only the first row's representation goes through it.
- `DiskBrowser.SetDir`: requires the path's anchor to be an existing directory. Otherwise the climbing loop of `_set_dir` never ends.
- `_on_invoked`, `_browse_project`, `_open_path` and `_explore_path` of the disk browser are not modelled (a load, a subprocess, an OS call). `_on_invoked` on the bookmarks header would call `is_dir()` on `None`.
- `CodeEntry.ShiftLines`: the branch without rows only recomputes the selection (through `_expand_range`, which is not part of this model), so the model leaves the lines unchanged there.
- `CodeEntry.ShiftLines`: Kivy's own movement of entries between the undo and redo stacks is not modelled; an undo or redo runs the recorded command directly.
- `CodeEntry.CustomShiftPermutes`: requires a direction of ±1 (the only values callers pass) and a range inside the text.
- `CodeEntry.SelectedLineRange`: the rows of the selection's ends are inputs; mapping text indexes to rows is Kivy's.
- `ListWidget.KeyDown`: a number key is a string of ASCII digits; other Unicode numerals accepted by `isnumeric()` are not modelled.
- `ListWidget.Shift`: an explicit index must lie inside the list; Python's negative indexes for `pop` are not modelled, and the only caller passes none.
- `ListWidget.SetItems`: the list widget asserts its items are never empty; assigning an empty list is excluded.
- Resizing the list widget (recomputing the row count) is not modelled, so the scroll is re-clamped only when the selection changes.
- `Container.CheckDescendent`: the widget tree comes with a rank that makes every chain of parent links other than the window's own link finite. It stops at the window, as `_check_focus` does (line 62), where the code as written loops (see Findings); the only caller passes a panel of this container, on whose chain the container lies.
- `Container.RegisterHotkeys`: `_check_focus`, `reload_all`, `clean_up` and the panels themselves are not modelled.
- `CodeEditor.CursorFull`: only the beginning and the end of the status text are stated; the right-aligned line number between them is not.
- `Settings.Load`: TOML parsing is not modelled; documents are trees of tables and leaves with distinct keys. The "Unknown setting" message is not modelled.
- `Settings.Get`: the module-level load at import time is a separate step, `Settings.Load`.
- `FileUtil.SearchFiles`: the order of a directory's listing is the order of its entries in the model's file system.
- `FileUtil.SearchFiles`: the order is stated between the entries of `dir` only. Within one entry's block the order is that of the recursive call, which its own contract states, but the top-level contract does not repeat it.
- `FileUtil.SearchFiles`: a top-level `dir` that is a file or does not exist yields nothing, where `dir.iterdir()` at file.py:112 raises `NotADirectoryError` or `FileNotFoundError`. Below the top level the code only recurses into directories, so the difference is confined to the first call.
- `NideDirectory.RecursiveFiles`: a top-level `dir` that is a file or does not exist yields nothing, where `dir.iterdir()` at directory.py:14 raises. The order is stated between the entries of `dir` only; within one entry's block it is that of the recursive call.
- `get_usr_dir`, `open_path`, `file_load`, `file_dump` and `toml_load` of `positron/util/file.py` are I/O and not modelled.

## Findings

| source | as written | input that shows it | evidently intended | confidence | as-written member | corrected member |
|---|---|---|---|---|---|---|
| positron/gui/editor/code.py:356-358 | Once the doubled window passes the text's length, the whole text is returned without searching the rest for whitespace | "ab cdefghijklmn": the last 10 characters have no space and 20 > 15 | "cdefghijklmn", the word after the last whitespace run | not executed; high | `CodeEditor.LastWordMissesEarlySpace` (on `CodeEditor.LastWordAsWritten`) | `CodeEditor.LastWord` (used by `CodeEditor.FindCompletions`) |
| positron/util/file.py:84-85 | Each path is made relative before `is_dir()` is asked, so the check resolves against the working directory | working directory `/`, directory `/p/d`, listed relative to `/p`: line "  d" | "  d/", since `/p/d` is a directory | not executed; high | `FileUtil.FormatAsWrittenMissesDirectory` (on `FileUtil.FormatLinesAsWritten`) | `FileUtil.FormatLines` (with `FileUtil.FormatDirTreeLines`) |
| nide/util/directory.py:37-43 | The walked paths are made relative to `dir` before `is_dir()` is asked | working directory `/`, walking `/p` which holds directory `d`: line "  d" | "  d/" | not executed; high | `NideDirectory.FormatAsWrittenMissesDirectory` (on `NideDirectory.FormatDirTreeAsWritten`) | `NideDirectory.FormatDirTree` (with `NideDirectory.FormatDirTreeMarksDirectories`) |
| nide/gui/kex/widgets/uix.py:292-294 | Shifting up from the first line builds neighbour rows (-1, 0); the slice `lines[:-1]` then copies lines in front | lines ["a", "b"], cursor on row 0, no selection, direction -1: ["a", "a", "b"] | no shift above the first line, as the standard path guards with `srow > 0` (line 326) | not executed; medium | `CodeEntry.CustomShiftDuplicates` (on `CodeEntry.ShiftLinesCustomAsWritten`) | `CodeEntry.ShiftLinesCustom` (with `CodeEntry.CustomShiftPermutes`) |
| nide/gui/kex/widgets/uix.py:424-425 | At the start of the text the bound `cursor_index() - 1` is -1, and `text[:-1]` searches almost the whole text | text "abab", pattern "ab", cursor 0: (0, 2) | nothing precedes the cursor, so wrap to the last match (2, 4) | not executed; medium | `CodeEntry.FindPrevAtStartMissesLast` (on `CodeEntry.FindPrevAsWritten`) | `CodeEntry.FindPrev` |
| positron/analyze/session.py:297 | The icon table is looked up by `p.suffix`, which is ".gz" for "a.tar.gz", so the ".tar.gz" entry (line 36) is never reached | plain file `/a.tar.gz`: the default icon | the archive icon | not executed; high | `Session.TarGzIcon` (with `Session.TarGzUnreachable`, on `Session.GetPathIconAsWritten`) | `Session.GetPathIcon` (with `Session.IconKey` and `Session.IconAgreesOffTarGz`) |
| positron/gui/editor/container.py:67-72 | At the window, which is its own parent, `widget = widget.parent` changes nothing, so the loop never ends for a widget outside the container | window 0 (its own parent), container 2 and widget 1 both children of the window: `_check_descendent(1)` | False, stopping at the window as `_check_focus` does at line 62 | not executed; low (Kivy's window being its own parent is assumed from line 62; the only caller passes a panel, inside the container) | `Container.OutsideWidgetHangs` (with `Container.DescendentWalkOutcome`, on `Container.DescendentWalk`) | `Container.CheckDescendent` |

=== FILE: code_editor.dfy ===
/**
 * The code editor's text helpers (`gui/editor/code.py`): the humanized
 * age of the file on disk, the word before the cursor, the next error to
 * jump to, the completion list and its rotation, where a snippet leaves
 * the cursor, and the cursor line of the status bar.
 */
module CodeEditor {
  import opened Wrappers
  import opened Strings
  import opened Paths
  import opened Linter
  import opened Seqs

  // ---------------------------------------------------------------------------
  // _format_humanized
  // ---------------------------------------------------------------------------

  /** The unit words of a humanized age and their abbreviations, in the order they are replaced. */
  const Units: seq<(string, string)> :=
    [(" seconds", "s"), (" minutes", "m"), (" hours", "h"), (" days", "D"), (" months", "M"), (" years", "Y")]

  /** The replacements of `units`, one after the other. */
  function ReplaceAll(m: string, units: seq<(string, string)>): string
    requires forall i | 0 <= i < |units| :: |units[i].0| > 0
    decreases |units|
  {
    if |units| == 0 then m else ReplaceAll(Replace(m, units[0].0, units[0].1), units[1..])
  }

  /**
   * `_format_humanized(m)`: nothing for no time; otherwise the time without
   * " ago", with "a minute" as "1m" and the unit words abbreviated, in
   * brackets and followed by a space.
   */
  function FormatHumanized(m: Option<string>): (r: string)
    ensures m.None? <==> r == ""
    ensures m.Some? ==> StartsWith(r, "[") && EndsWith(r, "] ")
  {
    match m
    case None => ""
    case Some(t) =>
      var t := RemoveSuffix(t, " ago");
      var t := if t == "a minute" then "1m" else t;
      var r := "[" + ReplaceAll(t, Units) + "] ";
      assert r[..1] == "[" && r[|r| - 2..] == "] ";
      r
  }

  /** A unit word: a space, then no other space. */
  predicate UnitWord(u: string)
  {
    |u| > 1 && u[0] == ' ' && ' ' !in u[1..]
  }

  /** The units are unit words, no one the start of another, and abbreviate to words without a space. */
  lemma UnitsWellFormed()
    ensures forall i | 0 <= i < |Units| :: UnitWord(Units[i].0) && ' ' !in Units[i].1
    ensures forall i, j | 0 <= i < |Units| && 0 <= j < |Units| && i != j :: !StartsWith(Units[i].0, Units[j].0)
  {
    var heads := [('s', 'e'), ('m', 'i'), ('h', 'o'), ('d', 'a'), ('m', 'o'), ('y', 'e')];
    assert forall i | 0 <= i < |Units| :: |Units[i].0| >= 3 && (Units[i].0[1], Units[i].0[2]) == heads[i];
    forall i, j | 0 <= i < |Units| && 0 <= j < |Units| && i != j
      ensures !StartsWith(Units[i].0, Units[j].0)
    {
      assert heads[i] != heads[j] by {
        assert i == 0 || i == 1 || i == 2 || i == 3 || i == 4 || i == 5;
        assert j == 0 || j == 1 || j == 2 || j == 3 || j == 4 || j == 5;
      }
      if |Units[j].0| <= |Units[i].0| {
        var p := Units[i].0[..|Units[j].0|];
        assert p[1] == Units[i].0[1] && p[2] == Units[i].0[2];
      }
    }
  }

  /** A string without spaces holds nothing that starts with a space. */
  lemma NoSpaceNoMatch(s: string, t: string)
    requires ' ' !in s && |t| > 0 && t[0] == ' '
    ensures !Contains(s, t)
  {
    forall i | 0 <= i < |s|
      ensures !OccursAt(s, t, i)
    {
      assert s[i] != ' ';
    }
  }

  /** Replacing a unit word that ends the string replaces just that end. */
  lemma {:induction false} ReplaceUnitAtEnd(n: string, u: string, a: string)
    requires ' ' !in n && UnitWord(u)
    ensures Replace(n + u, u, a) == n + a
    decreases |n|
  {
    if |n| == 0 {
      assert n + u == u;
      assert u[|u|..] == "";
      assert Replace(u, u, a) == a + Replace("", u, a);
    } else {
      assert (n + u)[0] == n[0] != ' ';
      assert !StartsWith(n + u, u);
      assert (n + u)[1..] == n[1..] + u;
      ReplaceUnitAtEnd(n[1..], u, a);
      assert n == [n[0]] + n[1..];
    }
  }

  /** Another unit word, not a start of the one ending the string, does not occur in it. */
  lemma OtherUnitAbsent(n: string, u: string, t: string)
    requires ' ' !in n && UnitWord(u) && UnitWord(t) && !StartsWith(u, t)
    ensures !Contains(n + u, t)
  {
    var s := n + u;
    forall i | 0 <= i <= |s|
      ensures !OccursAt(s, t, i)
    {
      if i < |n| {
        assert s[i] == n[i] != ' ';
      } else if |n| < i < |s| {
        assert s[i] == u[1..][i - |n| - 1] != ' ';
      } else if i + |t| <= |s| {
        assert s[i..i + |t|] == u[..|t|];
      }
    }
  }

  /** The replacements leave a string without spaces alone. */
  lemma {:induction false} ReplaceAllNoSpace(m: string, k: nat)
    requires k <= |Units| && ' ' !in m
    ensures ReplaceAll(m, Units[k..]) == m
    decreases |Units| - k
  {
    UnitsWellFormed();
    if k < |Units| {
      NoSpaceNoMatch(m, Units[k].0);
      ReplaceAbsent(m, Units[k].0, Units[k].1);
      assert Units[k..][1..] == Units[k + 1..];
      ReplaceAllNoSpace(m, k + 1);
    }
  }

  /** A count followed by the `j`-th unit word comes out of the replacements as the count and the abbreviation. */
  lemma {:induction false} ReplaceAllUnit(n: string, j: nat, k: nat)
    requires ' ' !in n && k <= j < |Units|
    ensures ReplaceAll(n + Units[j].0, Units[k..]) == n + Units[j].1
    decreases |Units| - k
  {
    UnitsWellFormed();
    var u := Units[j].0;
    assert Units[k..][0] == Units[k] && Units[k..][1..] == Units[k + 1..];
    if k == j {
      ReplaceUnitAtEnd(n, u, Units[j].1);
      assert ' ' !in n + Units[j].1;
      ReplaceAllNoSpace(n + Units[j].1, k + 1);
    } else {
      OtherUnitAbsent(n, u, Units[k].0);
      ReplaceAbsent(n + u, Units[k].0, Units[k].1);
      ReplaceAllUnit(n, j, k + 1);
    }
  }

  /** "5 minutes ago" and its like: the count and the unit's letter in brackets. */
  lemma HumanizedCount(n: string, j: nat)
    requires |n| > 0 && IsDigits(n) && j < |Units|
    ensures FormatHumanized(Some(n + Units[j].0 + " ago")) == "[" + n + Units[j].1 + "] "
  {
    assert ' ' !in n by {
      forall i | 0 <= i < |n|
        ensures n[i] != ' '
      {
        assert IsDigit(n[i]);
      }
    }
    assert n + Units[j].0 != "a minute" by {
      assert (n + Units[j].0)[0] == n[0];
      assert IsDigit(n[0]);
    }
    HumanizedAgo(n + Units[j].0);
    ReplaceAllUnit(n, j, 0);
    assert Units[0..] == Units;
    AppendAssoc("[", n, Units[j].1);
  }

  /** A time ending in " ago" other than "a minute ago" is shown as its replacements in brackets. */
  lemma HumanizedAgo(core: string)
    requires core != "a minute"
    ensures FormatHumanized(Some(core + " ago")) == "[" + ReplaceAll(core, Units) + "] "
  {
    var t := core + " ago";
    assert t[|t| - 4..] == " ago";
    assert t[..|t| - 4] == core;
  }

  /** "a minute ago" becomes "[1m] ". */
  lemma HumanizedMinute()
    ensures FormatHumanized(Some("a minute ago")) == "[1m] "
  {
    assert "a minute ago"[..8] == "a minute";
    ReplaceAllNoSpace("1m", 0);
  }

  /** A time with no unit word, no " ago" and not "a minute" is shown as it is. */
  lemma HumanizedVerbatim(m: string)
    requires ' ' !in m
    ensures FormatHumanized(Some(m)) == "[" + m + "] "
  {
    if |m| >= 4 {
      assert m[|m| - 4..][0] == m[|m| - 4] != ' ';
    }
    assert "a minute"[1] == ' ';
    ReplaceAllNoSpace(m, 0);
  }

  // ---------------------------------------------------------------------------
  // _get_last_word
  // ---------------------------------------------------------------------------

  /** The index of the last whitespace character of `s`, or -1. */
  function LastSpace(s: string): (i: int)
    ensures -1 <= i < |s|
    ensures i >= 0 ==> IsSpace(s[i])
    ensures forall j | i < j < |s| :: !IsSpace(s[j])
  {
    if |s| == 0 then -1
    else if IsSpace(s[|s| - 1]) then |s| - 1
    else LastSpace(s[..|s| - 1])
  }

  /** The last whitespace of a suffix that has one is the last whitespace of the whole string. */
  lemma LastSpaceOfSuffix(s: string, k: nat)
    requires k <= |s| && LastSpace(s[k..]) >= 0
    ensures LastSpace(s) == k + LastSpace(s[k..])
  {
    var i := k + LastSpace(s[k..]);
    assert IsSpace(s[i]) by {
      assert s[i] == s[k..][LastSpace(s[k..])];
    }
    forall j | i < j < |s|
      ensures !IsSpace(s[j])
    {
      assert s[j] == s[k..][j - k];
    }
    LastSpaceUnique(s, i);
  }

  /** A suffix without whitespace leaves the last whitespace, if any, before it. */
  lemma LastSpaceBeforeSuffix(s: string, k: nat)
    requires k <= |s| && LastSpace(s[k..]) < 0
    ensures LastSpace(s) < k
  {
    forall j | k <= j < |s|
      ensures !IsSpace(s[j])
    {
      assert s[j] == s[k..][j - k];
    }
  }

  /** Only one position is whitespace with no whitespace after it. */
  lemma LastSpaceUnique(s: string, i: int)
    requires 0 <= i < |s| && IsSpace(s[i])
    requires forall j | i < j < |s| :: !IsSpace(s[j])
    ensures LastSpace(s) == i
  {
  }

  /**
   * The word before the cursor: the longest end of `text` without
   * whitespace, what follows the last whitespace run.
   */
  function LastWord(text: string): (r: string)
    ensures EndsWith(text, r)
    ensures forall i | 0 <= i < |r| :: !IsSpace(r[i])
    ensures |r| < |text| ==> IsSpace(text[|text| - |r| - 1])
  {
    var r := text[LastSpace(text) + 1..];
    assert forall i | 0 <= i < |r| :: r[i] == text[LastSpace(text) + 1 + i];
    r
  }

  /**
   * The loop of `_get_last_word` as written, from a window of the last
   * `idx` characters: the word after the window's last whitespace run, or
   * the window doubled, or, once doubling passes the text's length, the
   * whole text.
   */
  function LastWordScan(text: string, idx: nat): (r: string)
    requires 0 < idx <= |text|
    ensures EndsWith(text, r)
    decreases |text| - idx
  {
    var partial := text[|text| - idx..];
    if LastSpace(partial) >= 0 then
      var r := partial[LastSpace(partial) + 1..];
      assert text[|text| - |r|..] == r;
      r
    else if idx * 2 > |text| then text
    else LastWordScan(text, idx * 2)
  }

  /** `_get_last_word(text)` as written: windows of 10, 20, 40, ... characters. */
  function LastWordAsWritten(text: string): (r: string)
    ensures EndsWith(text, r)
  {
    if |text| == 0 then "" else LastWordScan(text, if |text| < 10 then |text| else 10)
  }

  /** A scan returns the word before the cursor, or the whole text when its windows missed the whitespace. */
  lemma {:induction false} ScanWordOrText(text: string, idx: nat)
    requires 0 < idx <= |text|
    ensures LastWordScan(text, idx) == LastWord(text) || LastWordScan(text, idx) == text
    ensures LastSpace(text) >= |text| - idx ==> LastWordScan(text, idx) == LastWord(text)
    decreases |text| - idx
  {
    var k := |text| - idx;
    if LastSpace(text[k..]) >= 0 {
      ScanFound(text, idx);
    } else {
      ScanMissed(text, idx);
      if idx * 2 <= |text| {
        ScanWordOrText(text, idx * 2);
      }
    }
  }

  /** A window holding whitespace yields the word before the cursor. */
  lemma ScanFound(text: string, idx: nat)
    requires 0 < idx <= |text|
    requires LastSpace(text[|text| - idx..]) >= 0
    ensures LastWordScan(text, idx) == LastWord(text)
  {
    var k := |text| - idx;
    var partial := text[k..];
    LastSpaceOfSuffix(text, k);
    assert partial[LastSpace(partial) + 1..] == text[LastSpace(text) + 1..];
  }

  /** A window without whitespace means the text's whitespace, if any, lies before the window. */
  lemma ScanMissed(text: string, idx: nat)
    requires 0 < idx <= |text|
    requires LastSpace(text[|text| - idx..]) < 0
    ensures LastSpace(text) < |text| - idx
    ensures idx * 2 > |text| ==> LastWordScan(text, idx) == text
    ensures idx * 2 <= |text| ==> LastWordScan(text, idx) == LastWordScan(text, idx * 2)
  {
    LastSpaceBeforeSuffix(text, |text| - idx);
  }

  /** When the last ten characters hold whitespace, the word is what follows the last whitespace run. */
  lemma LastWordNearCursor(text: string)
    requires |text| > 0
    requires LastSpace(text) >= |text| - (if |text| < 10 then |text| else 10)
    ensures LastWordAsWritten(text) == LastWord(text)
  {
    ScanWordOrText(text, if |text| < 10 then |text| else 10);
  }

  /** With no whitespace at all, both give the whole text. */
  lemma LastWordNoSpace(text: string)
    requires LastSpace(text) == -1
    ensures LastWordAsWritten(text) == LastWord(text) == text
  {
    if |text| > 0 {
      ScanWordOrText(text, if |text| < 10 then |text| else 10);
    }
  }

  /**
   * Fifteen characters whose only space is the third: the 10-character
   * window has no whitespace and doubling it passes the text, so the whole
   * text comes back instead of the last word.
   */
  lemma LastWordMissesEarlySpace()
    ensures LastWordAsWritten("ab cdefghijklmn") == "ab cdefghijklmn"
    ensures LastWord("ab cdefghijklmn") == "cdefghijklmn"
  {
    var text := "ab cdefghijklmn";
    var partial := text[5..];
    assert partial == "efghijklmn";
    assert forall i | 0 <= i < |partial| :: !IsSpace(partial[i]);
    assert LastSpace(partial) == -1;
    assert IsSpace(text[2]);
    LastSpaceUnique(text, 2);
  }

  // ---------------------------------------------------------------------------
  // _get_next_error
  // ---------------------------------------------------------------------------

  /** An error at or after the cursor (strictly after, when the cursor's own position is excluded). */
  predicate Reached(errorIndex: int, cursor: int, includeCursor: bool)
  {
    if includeCursor then errorIndex >= cursor else errorIndex > cursor
  }

  /** The position of the first reached error; `indexOf` is the editor's line-and-column to index map. */
  function FirstReached(errors: seq<CodeError>, cursor: int, includeCursor: bool, indexOf: CodeError -> int)
    : (r: Option<nat>)
    ensures r.None? <==> forall i | 0 <= i < |errors| :: !Reached(indexOf(errors[i]), cursor, includeCursor)
    ensures r.Some? ==>
      r.value < |errors| && Reached(indexOf(errors[r.value]), cursor, includeCursor)
      && forall j | 0 <= j < r.value :: !Reached(indexOf(errors[j]), cursor, includeCursor)
  {
    if |errors| == 0 then None
    else if Reached(indexOf(errors[0]), cursor, includeCursor) then Some(0)
    else
      match FirstReached(errors[1..], cursor, includeCursor, indexOf)
      case None => None
      case Some(i) => Some(i + 1)
  }

  /**
   * `_get_next_error`: nothing without errors; the first error reached
   * from the cursor; else, wrapping around, the first error.
   */
  function NextError(errors: seq<CodeError>, cursor: int, includeCursor: bool, indexOf: CodeError -> int)
    : (r: Option<CodeError>)
    ensures r.None? <==> |errors| == 0
    ensures r.Some? ==> r.value in errors
    ensures (exists i | 0 <= i < |errors| :: Reached(indexOf(errors[i]), cursor, includeCursor)) ==>
      exists i | 0 <= i < |errors| ::
        r == Some(errors[i]) && Reached(indexOf(errors[i]), cursor, includeCursor)
        && forall j | 0 <= j < i :: !Reached(indexOf(errors[j]), cursor, includeCursor)
    ensures |errors| > 0 && (forall i | 0 <= i < |errors| :: !Reached(indexOf(errors[i]), cursor, includeCursor)) ==>
      r == Some(errors[0])
  {
    if |errors| == 0 then None
    else
      match FirstReached(errors, cursor, includeCursor, indexOf)
      case Some(i) => Some(errors[i])
      case None => Some(errors[0])
  }

  /** When no error sits exactly at the cursor, including the cursor's position or not makes no difference. */
  lemma NextErrorOffCursor(errors: seq<CodeError>, cursor: int, indexOf: CodeError -> int)
    requires forall i | 0 <= i < |errors| :: indexOf(errors[i]) != cursor
    ensures NextError(errors, cursor, true, indexOf) == NextError(errors, cursor, false, indexOf)
  {
    assert forall i | 0 <= i < |errors| ::
      Reached(indexOf(errors[i]), cursor, true) == Reached(indexOf(errors[i]), cursor, false);
    var a, b := FirstReached(errors, cursor, true, indexOf), FirstReached(errors, cursor, false, indexOf);
    if a.Some? && b.Some? {
      assert !(a.value < b.value) && !(b.value < a.value);
    }
  }

  // ---------------------------------------------------------------------------
  // Completions
  // ---------------------------------------------------------------------------

  /** `_scroll_down_completions`: the first entry moves to the end, the rest up by one. */
  function ScrollDown<T>(s: seq<T>): (r: seq<T>)
    ensures |r| == |s| && multiset(r) == multiset(s)
    ensures forall i | 1 <= i < |s| :: r[i - 1] == s[i]
    ensures |s| > 0 ==> r[|s| - 1] == s[0]
  {
    if |s| == 0 then s
    else
      assert s == [s[0]] + s[1..];
      s[1..] + [s[0]]
  }

  /** `_scroll_up_completions`: the last entry moves to the front, the rest down by one. */
  function ScrollUp<T>(s: seq<T>): (r: seq<T>)
    ensures |r| == |s| && multiset(r) == multiset(s)
    ensures forall i | 0 <= i < |s| - 1 :: r[i + 1] == s[i]
    ensures |s| > 0 ==> r[0] == s[|s| - 1]
  {
    if |s| == 0 then s
    else
      var n := |s| - 1;
      assert s == s[..n] + [s[n]];
      [s[n]] + s[..n]
  }

  /** Scrolling down then up restores the list. */
  lemma DownThenUp<T>(s: seq<T>)
    ensures ScrollUp(ScrollDown(s)) == s
  {
    if |s| > 0 {
      var d := ScrollDown(s);
      var n := |s| - 1;
      assert d == s[1..] + [s[0]];
      assert d[..n] == s[1..];
    }
  }

  /** Scrolling up then down restores the list. */
  lemma UpThenDown<T>(s: seq<T>)
    ensures ScrollDown(ScrollUp(s)) == s
  {
    if |s| > 0 {
      var u := ScrollUp(s);
      var n := |s| - 1;
      assert u == [s[n]] + s[..n];
      assert u[1..] == s[..n];
    }
  }

  /** Scrolling down then up, or up then down, restores the list. */
  lemma ScrollRoundTrip<T>(s: seq<T>)
    ensures ScrollUp(ScrollDown(s)) == s
    ensures ScrollDown(ScrollUp(s)) == s
  {
    DownThenUp(s);
    UpThenDown(s);
  }

  /** `COMPLETION_DISABLE_AFTER`: after these characters no completion is offered. */
  const CompletionDisableAfter: set<char> :=
    {' ', '\t', '\n', '\r', '!', '#', '$', '%', '&', '(', ')', '*', '+', ',', '-', '/', ':', ';', '<', '=', '>',
     '?', '@', '[', '\\', ']', '^', '{', '|', '}', '~'}

  /** A completion entry: a snippet found for the last word, or a name the analysis engine offered. */
  datatype Completion = SnippetEntry(name: string) | EngineEntry(name: string)

  /** `last_word[-len(name):]`: the last `len(name)` characters, or all of them. */
  function TailSlice(w: string, k: nat): string
  {
    if k == 0 || k >= |w| then w else w[|w| - k..]
  }

  /** The slice is always an end of the word: all of it, or its last `k` characters. */
  lemma TailSliceEnds(w: string, k: nat)
    ensures EndsWith(w, TailSlice(w, k))
    ensures 0 < k <= |w| ==> |TailSlice(w, k)| == k
  {
  }

  /** An engine name survives unless the last word already ends with it. */
  predicate Offered(lastWord: string, name: string)
  {
    name != TailSlice(lastWord, |name|)
  }

  /** The engine names kept, in order. */
  function KeepOffered(lastWord: string, names: seq<string>): (r: seq<Completion>)
    ensures |r| <= |names|
    ensures forall i | 0 <= i < |r| :: r[i].EngineEntry?
  {
    if |names| == 0 then []
    else
      var rest := KeepOffered(lastWord, names[1..]);
      if Offered(lastWord, names[0]) then [EngineEntry(names[0])] + rest else rest
  }

  /** Every kept entry is an engine name the last word does not already end with. */
  lemma {:induction false} KeepOfferedSound(lastWord: string, names: seq<string>, i: nat)
    requires i < |KeepOffered(lastWord, names)|
    ensures KeepOffered(lastWord, names)[i].name in names
    ensures Offered(lastWord, KeepOffered(lastWord, names)[i].name)
    decreases |names|
  {
    var tail := names[1..];
    var rest := KeepOffered(lastWord, tail);
    var r := KeepOffered(lastWord, names);
    if Offered(lastWord, names[0]) {
      assert r == [EngineEntry(names[0])] + rest;
      if i > 0 {
        assert r[i] == rest[i - 1];
        KeepOfferedSound(lastWord, tail, i - 1);
        InTail(names, rest[i - 1].name);
      }
    } else {
      assert r == rest;
      KeepOfferedSound(lastWord, tail, i);
      InTail(names, rest[i].name);
    }
  }

  /** What lies in the tail of a list lies in the list. */
  lemma InTail<T>(names: seq<T>, x: T)
    requires |names| > 0 && x in names[1..]
    ensures x in names
  {
    assert names == [names[0]] + names[1..];
  }

  /** Every engine name the last word does not already end with is kept. */
  lemma {:induction false} KeepOfferedComplete(lastWord: string, names: seq<string>, i: nat)
    requires i < |names| && Offered(lastWord, names[i])
    ensures EngineEntry(names[i]) in KeepOffered(lastWord, names)
    decreases |names|
  {
    var tail := names[1..];
    var rest := KeepOffered(lastWord, tail);
    var r := KeepOffered(lastWord, names);
    if i == 0 {
      assert r == [EngineEntry(names[0])] + rest;
      assert r[0] == EngineEntry(names[i]);
    } else {
      assert tail[i - 1] == names[i];
      KeepOfferedComplete(lastWord, tail, i - 1);
      if Offered(lastWord, names[0]) {
        assert r == [EngineEntry(names[0])] + rest;
      } else {
        assert r == rest;
      }
    }
  }

  /** Each offered name is kept as often as the engine gave it, and no other name is kept at all. */
  lemma {:induction false} KeepOfferedCount(lastWord: string, names: seq<string>, n: string)
    ensures multiset(KeepOffered(lastWord, names))[EngineEntry(n)] == if Offered(lastWord, n) then multiset(names)[n] else 0
    decreases |names|
  {
    if |names| > 0 {
      KeepOfferedCount(lastWord, names[1..], n);
      assert names == [names[0]] + names[1..];
    }
  }

  /** What an engine name must be for the last word to make it drop out. */
  lemma OfferedExactly(lastWord: string, name: string)
    ensures !Offered(lastWord, name) <==> (if name == "" then lastWord == "" else EndsWith(lastWord, name))
  {
  }

  /** Snippet names as completion entries, in order. */
  function SnippetEntries(names: seq<string>): (r: seq<Completion>)
    ensures |r| == |names|
    ensures forall i | 0 <= i < |r| :: r[i] == SnippetEntry(names[i])
  {
    seq(|names|, i requires 0 <= i < |names| => SnippetEntry(names[i]))
  }

  /** No snippet follows an engine entry. */
  predicate SnippetsFirst(r: seq<Completion>)
  {
    forall i, j | 0 <= i < j < |r| && r[i].EngineEntry? :: r[j].EngineEntry?
  }

  /** Snippet entries followed by engine entries keep the snippets first. */
  lemma SnippetsFirstAppend(a: seq<Completion>, b: seq<Completion>)
    requires forall i | 0 <= i < |a| :: a[i].SnippetEntry?
    requires forall i | 0 <= i < |b| :: b[i].EngineEntry?
    ensures SnippetsFirst(a + b)
  {
    forall i, j | 0 <= i < j < |a + b| && (a + b)[i].EngineEntry?
      ensures (a + b)[j].EngineEntry?
    {
      assert i >= |a|;
      assert (a + b)[j] == b[j - |a|];
    }
  }

  /** Snippets followed by the kept engine names: every engine entry is an offered name. */
  lemma EntriesSound(lastWord: string, engine: seq<string>, snips: seq<Completion>)
    requires forall i | 0 <= i < |snips| :: snips[i].SnippetEntry?
    ensures var r := snips + KeepOffered(lastWord, engine);
      forall i | 0 <= i < |r| && r[i].EngineEntry? :: r[i].name in engine && Offered(lastWord, r[i].name)
  {
    var offered := KeepOffered(lastWord, engine);
    var r := snips + offered;
    forall i | 0 <= i < |r| && r[i].EngineEntry?
      ensures r[i].name in engine && Offered(lastWord, r[i].name)
    {
      assert i >= |snips| && r[i] == offered[i - |snips|];
      KeepOfferedSound(lastWord, engine, i - |snips|);
    }
  }

  /** Snippets followed by the kept engine names: each offered name as often as the engine gave it. */
  lemma EntriesCount(lastWord: string, engine: seq<string>, snips: seq<Completion>)
    requires forall i | 0 <= i < |snips| :: snips[i].SnippetEntry?
    ensures var r := snips + KeepOffered(lastWord, engine);
      forall n :: multiset(r)[EngineEntry(n)] == if Offered(lastWord, n) then multiset(engine)[n] else 0
  {
    var r := snips + KeepOffered(lastWord, engine);
    forall n
      ensures multiset(r)[EngineEntry(n)] == if Offered(lastWord, n) then multiset(engine)[n] else 0
    {
      assert EngineEntry(n) !in snips;
      KeepOfferedCount(lastWord, engine, n);
    }
  }

  /** The completion list for a non-empty last word context: the word's snippets, then the engine's kept names. */
  function Entries(lastWord: string, engine: seq<string>, snippets: string -> seq<string>): (r: seq<Completion>)
    ensures SnippetsFirst(r)
    ensures forall i | 0 <= i < |r| && r[i].EngineEntry? :: r[i].name in engine && Offered(lastWord, r[i].name)
    ensures lastWord == "" ==> forall i | 0 <= i < |r| :: r[i].EngineEntry?
    ensures var found := if lastWord != "" then snippets(lastWord) else [];
      |found| <= |r| && forall i | 0 <= i < |found| :: r[i] == SnippetEntry(found[i])
    ensures var found := if lastWord != "" then snippets(lastWord) else [];
      forall i | |found| <= i < |r| :: r[i].EngineEntry?
    ensures forall n :: multiset(r)[EngineEntry(n)] == if Offered(lastWord, n) then multiset(engine)[n] else 0
  {
    var snips := SnippetEntries(if lastWord != "" then snippets(lastWord) else []);
    var offered := KeepOffered(lastWord, engine);
    SnippetsFirstAppend(snips, offered);
    EntriesSound(lastWord, engine, snips);
    EntriesCount(lastWord, engine, snips);
    snips + offered
  }

  /**
   * `_find_code_completions` once the engine has answered: nothing with a
   * selection, at the start of the text or after a disabling character;
   * otherwise the snippets for the last word, then the engine's names that
   * the last word does not already end with. `engine` is the engine's
   * answer and `snippets` the snippet finder.
   */
  function FindCompletions(hasSelection: bool, text: string, cursor: nat, engine: seq<string>,
    snippets: string -> seq<string>): (r: seq<Completion>)
    requires cursor <= |text|
    ensures hasSelection || cursor == 0 ==> r == []
    ensures cursor > 0 && text[cursor - 1] in CompletionDisableAfter ==> r == []
    ensures SnippetsFirst(r)
    ensures forall i | 0 <= i < |r| && r[i].EngineEntry? ::
      r[i].name in engine && Offered(LastWord(text[..cursor]), r[i].name)
    ensures var lastWord := LastWord(text[..cursor]);
      var found := if lastWord != "" then snippets(lastWord) else [];
      !(hasSelection || cursor == 0 || text[cursor - 1] in CompletionDisableAfter) ==>
        |found| <= |r| && (forall i | 0 <= i < |found| :: r[i] == SnippetEntry(found[i]))
        && (forall i | |found| <= i < |r| :: r[i].EngineEntry?)
    ensures !(hasSelection || cursor == 0 || text[cursor - 1] in CompletionDisableAfter) ==>
      forall n :: multiset(r)[EngineEntry(n)] ==
        if Offered(LastWord(text[..cursor]), n) then multiset(engine)[n] else 0
  {
    if hasSelection || cursor == 0 || text[cursor - 1] in CompletionDisableAfter then []
    else Entries(LastWord(text[..cursor]), engine, snippets)
  }

  // ---------------------------------------------------------------------------
  // insert_snippet
  // ---------------------------------------------------------------------------

  /** Where `insert_snippet` leaves the cursor, and the span it selects, if any. */
  datatype SnippetCursor = SnippetCursor(final: int, selection: Option<(int, int)>)

  /**
   * `insert_snippet`: the snippet's text moved the cursor from `original`
   * to `inserted`; the cursor then steps back `move` characters (to
   * `original` when `move` is negative) and `select` characters before it
   * are selected (all of the inserted span when `select` is negative).
   */
  function InsertSnippet(original: int, inserted: int, move: int, select: int): (r: SnippetCursor)
    ensures move < 0 ==> r.final == original
    ensures move >= 0 ==> r.final == inserted - move
    ensures select < 0 ==> r.selection == (if r.final == original then None else Some((original, r.final)))
    ensures select >= 0 ==> r.selection == (if select == 0 then None else Some((r.final - select, r.final)))
  {
    var move := if move < 0 then inserted - original else move;
    var final := inserted - move;
    var select := if select < 0 then final - original else select;
    SnippetCursor(final, if select != 0 then Some((final - select, final)) else None)
  }

  /** Selecting everything after moving to the beginning selects nothing: the cursor is back at the start. */
  lemma SnippetSelectAllAtStart(original: int, inserted: int)
    ensures InsertSnippet(original, inserted, -1, -1) == SnippetCursor(original, None)
  {
  }

  // ---------------------------------------------------------------------------
  // _cursor_full
  // ---------------------------------------------------------------------------

  /** The file in the status bar: "$/" under the project, else "~/" under home, else the full path. */
  function CursorPath(file: Path, project: Path, home: Path): (r: string)
    ensures IsRelativeTo(file, project) ==> r == "$/" + Str(RelativeTo(file, project))
    ensures !IsRelativeTo(file, project) && IsRelativeTo(file, home) ==> r == "~/" + Str(RelativeTo(file, home))
    ensures !IsRelativeTo(file, project) && !IsRelativeTo(file, home) ==> r == Str(file)
  {
    if IsRelativeTo(file, project) then "$/" + Str(RelativeTo(file, project))
    else if IsRelativeTo(file, home) then "~/" + Str(RelativeTo(file, home))
    else Str(file)
  }

  /**
   * `_cursor_full`: the humanized age, the file, "*" when the disk copy
   * differs, then " ::", the line right-aligned in 4 and the column
   * left-aligned in 3.
   */
  function CursorFull(file: Path, project: Path, home: Path, age: Option<string>, diskDiff: bool, line: int, column: int)
    : (r: string)
    ensures StartsWith(r, FormatHumanized(age) + CursorPath(file, project, home))
    ensures EndsWith(r, "," + PadRight(IntToString(column), 3))
  {
    var head := FormatHumanized(age) + CursorPath(file, project, home);
    var tail := "," + PadRight(IntToString(column), 3);
    var r := head + (if diskDiff then "*" else "") + " ::" + PadLeft(IntToString(line), 4, ' ') + tail;
    assert r[..|head|] == head;
    assert r[|r| - |tail|..] == tail;
    r
  }

  /** A file under both the project and home is shown relative to the project. */
  lemma ProjectBeforeHome(file: Path, project: Path, home: Path)
    requires IsRelativeTo(file, project) && IsRelativeTo(file, home)
    ensures StartsWith(CursorPath(file, project, home), "$/")
  {
  }
}

=== FILE: code_entry.dfy ===
/**
 * The code entry widget of `kex/widgets/uix.py` (`XCodeEntry`): moving a
 * block of lines up or down past its neighbour, with the undo record it
 * leaves; find next and previous; the selected rows; the soft tab. Also the
 * screen switch of `XScreenManager` and the attach state of `XModal`.
 */
module CodeEntry {
  import opened Wrappers
  import opened Strings
  import opened Seqs

  // ---------------------------------------------------------------------------
  // _shift_lines: swapping two blocks of rows
  // ---------------------------------------------------------------------------

  /** The rows of a shift: the moved block `[srow, erow)` and its neighbour `[psrow, perow)`. */
  datatype Rows = Rows(srow: int, erow: int, psrow: int, perow: int)

  /**
   * The rearrangement `s[:m1s] + s[m2s:m2e] + s[m1s:m1e] + s[m2e:]`, with
   * Python's slicing: the second block is put in front of the first.
   */
  function Rearrange<T>(s: seq<T>, m1s: int, m1e: int, m2s: int, m2e: int): seq<T>
  {
    PySlice(s, 0, m1s) + PySlice(s, m2s, m2e) + PySlice(s, m1s, m1e) + PySlice(s, m2e, |s|)
  }

  /** The per-line lists rearranged by a shift: up, the neighbour above goes below; down, the one below goes above. */
  function ShiftRows<T>(s: seq<T>, direction: int, rows: Rows): seq<T>
  {
    if direction < 0 then Rearrange(s, rows.psrow, rows.perow, rows.srow, rows.erow)
    else Rearrange(s, rows.srow, rows.erow, rows.psrow, rows.perow)
  }

  /** How far the cursor row moves (`cdiff`): by the neighbour's height, up or down. */
  function CursorDelta(direction: int, rows: Rows): int
  {
    if direction < 0 then rows.psrow - rows.perow else rows.perow - rows.psrow
  }

  /** How far the neighbour moves (`xdiff`): by the moved block's height. */
  function BlockDelta(direction: int, rows: Rows): int
  {
    if direction < 0 then rows.srow - rows.erow else rows.erow - rows.srow
  }

  /** The rows recorded for undoing a shift: both blocks where the shift left them. */
  function UndoRows(direction: int, rows: Rows): Rows
  {
    var c, x := CursorDelta(direction, rows), BlockDelta(direction, rows);
    Rows(rows.srow + c, rows.erow + c, rows.psrow - x, rows.perow - x)
  }

  /** The two blocks lie next to each other inside `n` rows, the neighbour on the side the shift goes. */
  predicate Adjacent(direction: int, rows: Rows, n: nat)
  {
    if direction < 0 then 0 <= rows.psrow <= rows.perow == rows.srow <= rows.erow <= n
    else 0 <= rows.srow <= rows.erow == rows.psrow <= rows.perow <= n
  }

  /** A rearrangement with adjacent blocks, written with plain slices. */
  lemma RearrangeSlices<T>(s: seq<T>, i: int, j: int, k: int)
    requires 0 <= i <= j <= k <= |s|
    ensures Rearrange(s, i, j, j, k) == s[..i] + s[j..k] + s[i..j] + s[k..]
  {
    assert PySlice(s, 0, i) == s[..i];
    assert PySlice(s, j, k) == s[j..k];
    assert PySlice(s, i, j) == s[i..j];
    assert PySlice(s, k, |s|) == s[k..];
  }

  /** The four pieces of a rearrangement that does not overlap: the whole list, reordered. */
  lemma RearrangeBlocks<T>(s: seq<T>, i: int, j: int, k: int)
    requires 0 <= i <= j <= k <= |s|
    ensures Rearrange(s, i, j, j, k) == s[..i] + s[j..k] + s[i..j] + s[k..]
    ensures multiset(Rearrange(s, i, j, j, k)) == multiset(s)
    ensures |Rearrange(s, i, j, j, k)| == |s|
  {
    RearrangeSlices(s, i, j, k);
    Cut(s, i, j, k);
  }

  /** A list is its four pieces cut at three offsets. */
  lemma Cut<T>(s: seq<T>, i: int, j: int, k: int)
    requires 0 <= i <= j <= k <= |s|
    ensures s == s[..i] + s[i..j] + s[j..k] + s[k..]
  {
  }

  /** Swapping back the two middle blocks of a swapped list, at the offsets where they now lie, gives the list. */
  lemma SwapBack<T>(s: seq<T>, i: int, j: int, k: int)
    requires 0 <= i <= j <= k <= |s|
    ensures var t, m := s[..i] + s[j..k] + s[i..j] + s[k..], i + k - j;
      t[..i] + t[m..k] + t[i..m] + t[k..] == s
  {
    var a, b, c, d := s[..i], s[i..j], s[j..k], s[k..];
    var t, m := a + c + b + d, i + k - j;
    assert t[..i] == a;
    assert t[i..m] == c;
    assert t[m..k] == b;
    assert t[k..] == d;
    Cut(s, i, j, k);
  }

  /** Undoing a swap: swapping back the two blocks where they now lie. */
  lemma RearrangeBack<T>(s: seq<T>, i: int, j: int, k: int)
    requires 0 <= i <= j <= k <= |s|
    ensures Rearrange(Rearrange(s, i, j, j, k), i, i + k - j, i + k - j, k) == s
  {
    var t := s[..i] + s[j..k] + s[i..j] + s[k..];
    RearrangeSlices(s, i, j, k);
    RearrangeSlices(t, i, i + k - j, k);
    SwapBack(s, i, j, k);
  }

  /** `RearrangeBack` with the offsets as a shift and its undo compute them. */
  lemma RearrangeBackAt<T>(s: seq<T>, a1: int, a2: int, a3: int, a4: int, b1: int, b2: int, b3: int, b4: int)
    requires 0 <= a1 <= a2 <= a4 <= |s| && a3 == a2
    requires b1 == a1 && b2 == a1 + a4 - a2 && b3 == b2 && b4 == a4
    ensures Rearrange(Rearrange(s, a1, a2, a3, a4), b1, b2, b3, b4) == s
  {
    var x := Rearrange(s, a1, a2, a3, a4);
    assert x == Rearrange(s, a1, a2, a2, a4);
    RearrangeBack(s, a1, a2, a4);
    assert Rearrange(x, b1, b2, b3, b4) == Rearrange(x, a1, a1 + a4 - a2, a1 + a4 - a2, a4);
  }

  /** For adjacent blocks a shift swaps them and leaves the rows before and after in place. */
  lemma ShiftSwapsBlocks<T>(s: seq<T>, direction: int, rows: Rows)
    requires Adjacent(direction, rows, |s|)
    ensures direction < 0 ==> (ShiftRows(s, direction, rows) ==
      s[..rows.psrow] + s[rows.srow..rows.erow] + s[rows.psrow..rows.perow] + s[rows.erow..])
    ensures direction >= 0 ==> (ShiftRows(s, direction, rows) ==
      s[..rows.srow] + s[rows.psrow..rows.perow] + s[rows.srow..rows.erow] + s[rows.perow..])
    ensures multiset(ShiftRows(s, direction, rows)) == multiset(s)
    ensures |ShiftRows(s, direction, rows)| == |s|
  {
    if direction < 0 {
      RearrangeBlocks(s, rows.psrow, rows.perow, rows.erow);
    } else {
      RearrangeBlocks(s, rows.srow, rows.erow, rows.perow);
    }
  }

  /** Undoing a shift up: the neighbour went below the block, and goes back above it. */
  lemma UndoUp<T>(s: seq<T>, direction: int, rows: Rows)
    requires direction < 0 && Adjacent(direction, rows, |s|)
    ensures ShiftRows(ShiftRows(s, direction, rows), -direction, UndoRows(direction, rows)) == s
  {
    var u := UndoRows(direction, rows);
    RearrangeBackAt(s, rows.psrow, rows.perow, rows.srow, rows.erow, u.srow, u.erow, u.psrow, u.perow);
  }

  /** Undoing a shift down: the neighbour went above the block, and goes back below it. */
  lemma UndoDown<T>(s: seq<T>, direction: int, rows: Rows)
    requires direction > 0 && Adjacent(direction, rows, |s|)
    ensures ShiftRows(ShiftRows(s, direction, rows), -direction, UndoRows(direction, rows)) == s
  {
    var u := UndoRows(direction, rows);
    RearrangeBackAt(s, rows.srow, rows.erow, rows.psrow, rows.perow, u.psrow, u.perow, u.srow, u.erow);
  }

  /**
   * Shifting with the undo rows in the opposite direction puts every row
   * back, and moves the cursor back by as much as the shift moved it.
   */
  lemma ShiftUndoRestores<T>(s: seq<T>, direction: int, rows: Rows)
    requires direction != 0 && Adjacent(direction, rows, |s|)
    ensures Adjacent(-direction, UndoRows(direction, rows), |s|)
    ensures ShiftRows(ShiftRows(s, direction, rows), -direction, UndoRows(direction, rows)) == s
    ensures CursorDelta(-direction, UndoRows(direction, rows)) == -CursorDelta(direction, rows)
  {
    if direction < 0 {
      UndoUp(s, direction, rows);
    } else {
      UndoDown(s, direction, rows);
    }
  }

  /** Lines paired with their labels (or rects), row by row. */
  function Zip<A, B>(a: seq<A>, b: seq<B>): (z: seq<(A, B)>)
    requires |a| == |b|
    ensures |z| == |a| && forall i | 0 <= i < |a| :: z[i] == (a[i], b[i])
  {
    seq(|a|, i requires 0 <= i < |a| => (a[i], b[i]))
  }

  lemma ZipSlice<A, B>(a: seq<A>, b: seq<B>, x: int, y: int)
    requires |a| == |b|
    ensures |PySlice(a, x, y)| == |PySlice(b, x, y)|
    ensures PySlice(Zip(a, b), x, y) == Zip(PySlice(a, x, y), PySlice(b, x, y))
  {
  }

  lemma ZipAppend<A, B>(a1: seq<A>, a2: seq<A>, b1: seq<B>, b2: seq<B>)
    requires |a1| == |b1| && |a2| == |b2|
    ensures Zip(a1 + a2, b1 + b2) == Zip(a1, b1) + Zip(a2, b2)
  {
  }

  /**
   * A shift rearranges the paired list as it rearranges each list: labels
   * and rects stay with their lines.
   */
  lemma ShiftKeepsPairs<A, B>(a: seq<A>, b: seq<B>, direction: int, rows: Rows)
    requires |a| == |b|
    ensures |ShiftRows(a, direction, rows)| == |ShiftRows(b, direction, rows)|
    ensures ShiftRows(Zip(a, b), direction, rows) == Zip(ShiftRows(a, direction, rows), ShiftRows(b, direction, rows))
  {
    var m1s, m1e, m2s, m2e :=
      if direction < 0 then rows.psrow else rows.srow, if direction < 0 then rows.perow else rows.erow,
      if direction < 0 then rows.srow else rows.psrow, if direction < 0 then rows.erow else rows.perow;
    var n := |a|;
    ZipSlice(a, b, 0, m1s);
    ZipSlice(a, b, m2s, m2e);
    ZipSlice(a, b, m1s, m1e);
    ZipSlice(a, b, m2e, n);
    var a1, a2, a3, a4 := PySlice(a, 0, m1s), PySlice(a, m2s, m2e), PySlice(a, m1s, m1e), PySlice(a, m2e, n);
    var b1, b2, b3, b4 := PySlice(b, 0, m1s), PySlice(b, m2s, m2e), PySlice(b, m1s, m1e), PySlice(b, m2e, n);
    ZipAppend(a1, a2, b1, b2);
    ZipAppend(a1 + a2, a3, b1 + b2, b3);
    ZipAppend(a1 + a2 + a3, a4, b1 + b2 + b3, b4);
  }

  // ---------------------------------------------------------------------------
  // _shift_lines: the widget's state
  // ---------------------------------------------------------------------------

  /** `reversed(s)`. */
  function Reverse<T>(s: seq<T>): (r: seq<T>)
    ensures |r| == |s| && forall i | 0 <= i < |s| :: r[i] == s[|s| - 1 - i]
  {
    seq(|s|, i requires 0 <= i < |s| => s[|s| - 1 - i])
  }

  lemma ReverseReverse<T>(s: seq<T>)
    ensures Reverse(Reverse(s)) == s
  {
  }

  /** A cursor: column and row. */
  datatype Cursor = Cursor(col: int, row: int)

  /** The `('shiftln', direction, rows, cursor)` command of an undo record. */
  datatype Command = ShiftCommand(direction: int, rows: Rows, cursor: Cursor)

  /** One entry of the undo list: the command that undoes a shift and the one that redoes it. */
  datatype UndoEntry = UndoEntry(undo: Command, redo: Command)

  /**
   * The parts of `XCodeEntry` a shift touches. `flags` are Kivy's per-line
   * flags; `labels` and `rects` stand for the per-line textures and
   * rectangles, as opaque handles. `selecting` is a pending
   * `_selection_callback`.
   */
  datatype Entry = Entry(
    lines: seq<string>,
    flags: seq<int>,
    labels: seq<int>,
    rects: seq<int>,
    cursor: Cursor,
    selecting: bool,
    undo: seq<UndoEntry>,
    redo: seq<UndoEntry>)
  {
    /** Every per-line list has one entry per line. */
    predicate Aligned()
    {
      |flags| == |lines| && |labels| == |lines| && |rects| == |lines|
    }
  }

  /**
   * `_shift_lines(direction, rows, old_cursor, from_undo)`. With a pending
   * selection callback the call does nothing unless it comes from an undo.
   * Without rows only the selection is recomputed, which this model leaves
   * out (see README). With rows the blocks are rearranged (the flags on the
   * reversed list, as the code does), the cursor row moves by `cdiff`, and
   * a call not from an undo records the undo and redo commands and clears
   * the redo list.
   */
  function ShiftLines(e: Entry, direction: int, rows: Option<Rows>, oldCursor: Option<Cursor>, fromUndo: bool): (r: Entry)
    ensures e.selecting && !fromUndo ==> r == e
    ensures !(e.selecting && !fromUndo) ==> r.selecting
    ensures rows.None? ==> r.lines == e.lines && r.flags == e.flags && r.undo == e.undo && r.redo == e.redo
    ensures rows.Some? && !(e.selecting && !fromUndo) ==>
      r.lines == ShiftRows(e.lines, direction, rows.value)
      && r.labels == ShiftRows(e.labels, direction, rows.value)
      && r.rects == ShiftRows(e.rects, direction, rows.value)
      && r.cursor == Cursor(oldCursor.GetOr(e.cursor).col, oldCursor.GetOr(e.cursor).row + CursorDelta(direction, rows.value))
    ensures rows.Some? && !e.selecting && !fromUndo ==>
      r.redo == [] && r.undo == e.undo + [UndoEntry(
        ShiftCommand(-direction, UndoRows(direction, rows.value), r.cursor),
        ShiftCommand(direction, rows.value, e.cursor))]
    ensures fromUndo ==> r.undo == e.undo && r.redo == e.redo
  {
    if e.selecting && !fromUndo then e
    else
      var cur := oldCursor.GetOr(e.cursor);
      match rows
      case None => e.(cursor := cur, selecting := true)
      case Some(rs) =>
        var moved := Cursor(cur.col, cur.row + CursorDelta(direction, rs));
        var shifted := e.(
          lines := ShiftRows(e.lines, direction, rs),
          flags := Reverse(ShiftRows(Reverse(e.flags), direction, rs)),
          labels := ShiftRows(e.labels, direction, rs),
          rects := ShiftRows(e.rects, direction, rs),
          cursor := moved,
          selecting := true);
        if fromUndo then shifted
        else shifted.(
          undo := e.undo + [UndoEntry(
            ShiftCommand(-direction, UndoRows(direction, rs), moved),
            ShiftCommand(direction, rs, e.cursor))],
          redo := [])
  }

  /** Running a recorded command the way an undo or redo runs it. */
  function Run(e: Entry, c: Command): Entry
  {
    ShiftLines(e, c.direction, Some(c.rows), Some(c.cursor), true)
  }

  /**
   * A shift of adjacent blocks keeps every per-line list a permutation of
   * itself and aligned with the lines, labels and rects moving together.
   */
  lemma ShiftPermutes(e: Entry, direction: int, rows: Rows, fromUndo: bool)
    requires e.Aligned() && Adjacent(direction, rows, |e.lines|)
    ensures var r := ShiftLines(e, direction, Some(rows), None, fromUndo);
      r.Aligned()
      && multiset(r.lines) == multiset(e.lines)
      && multiset(r.flags) == multiset(e.flags)
      && multiset(r.labels) == multiset(e.labels)
      && multiset(r.rects) == multiset(e.rects)
  {
    ShiftSwapsBlocks(e.lines, direction, rows);
    ShiftSwapsBlocks(Reverse(e.flags), direction, rows);
    ShiftSwapsBlocks(e.labels, direction, rows);
    ShiftSwapsBlocks(e.rects, direction, rows);
    ReverseMultiset(e.flags);
    ReverseMultiset(ShiftRows(Reverse(e.flags), direction, rows));
  }

  lemma {:induction false} ReverseMultiset<T>(s: seq<T>)
    ensures multiset(Reverse(s)) == multiset(s)
  {
    if |s| > 0 {
      assert Reverse(s) == [s[|s| - 1]] + Reverse(s[..|s| - 1]);
      ReverseMultiset(s[..|s| - 1]);
      assert s == s[..|s| - 1] + [s[|s| - 1]];
    }
  }

  /**
   * Undoing a shift: running the recorded undo command on the shifted
   * entry restores every line, flag, label, rect and the cursor, and leaves
   * the undo list as the shift left it.
   */
  lemma ShiftThenUndo(e: Entry, direction: int, rows: Rows)
    requires e.Aligned() && !e.selecting && direction != 0 && Adjacent(direction, rows, |e.lines|)
    ensures var r := ShiftLines(e, direction, Some(rows), None, false);
      var u := Run(r, r.undo[|r.undo| - 1].undo);
      u.lines == e.lines && u.flags == e.flags && u.labels == e.labels && u.rects == e.rects
      && u.cursor == e.cursor && u.undo == r.undo
  {
    var r := ShiftLines(e, direction, Some(rows), None, false);
    var c := r.undo[|r.undo| - 1].undo;
    assert c == ShiftCommand(-direction, UndoRows(direction, rows), r.cursor);
    ShiftUndoRestores(e.lines, direction, rows);
    ShiftUndoRestores(e.labels, direction, rows);
    ShiftUndoRestores(e.rects, direction, rows);
    ShiftUndoRestores(Reverse(e.flags), direction, rows);
    ReverseReverse(ShiftRows(Reverse(e.flags), direction, rows));
    ReverseReverse(e.flags);
  }

  /** Redoing after the undo: the recorded redo command shifts the blocks again and puts the cursor where the shift did. */
  lemma UndoThenRedo(e: Entry, direction: int, rows: Rows)
    requires e.Aligned() && !e.selecting && direction != 0 && Adjacent(direction, rows, |e.lines|)
    ensures var r := ShiftLines(e, direction, Some(rows), None, false);
      var rec := r.undo[|r.undo| - 1];
      var v := Run(Run(r, rec.undo), rec.redo);
      v.lines == r.lines && v.labels == r.labels && v.rects == r.rects && v.flags == r.flags && v.cursor == r.cursor
  {
    ShiftThenUndo(e, direction, rows);
  }

  // ---------------------------------------------------------------------------
  // _shift_lines_custom
  // ---------------------------------------------------------------------------

  /** The rows `_shift_lines_custom` builds from the selected line range. */
  function CustomRows(direction: int, start: int, end: int): (r: Rows)
    ensures r.srow == start && r.erow == end
    ensures direction > 0 ==> r.psrow == end && r.perow == end + 1
    ensures direction <= 0 ==> r.psrow == start - 1 && r.perow == start
  {
    if direction > 0 then Rows(start, end, end, end + 1) else Rows(start, end, start - 1, start)
  }

  /** `_shift_lines_custom` as written: the rows go to `_shift_lines` even above the first line. */
  function ShiftLinesCustomAsWritten(e: Entry, direction: int, start: int, end: int): Entry
  {
    ShiftLines(e, direction, Some(CustomRows(direction, start, end)), None, false)
  }

  /**
   * Going up from the first line the neighbour rows are `(-1, 0)`, and the
   * slice `lines[:-1]` copies all but the last line in front: the first
   * line is duplicated.
   */
  lemma CustomShiftDuplicates()
    ensures var e := Entry(["a", "b"], [0, 0], [0, 0], [0, 0], Cursor(0, 0), false, [], []);
      ShiftLinesCustomAsWritten(e, -1, 0, 0).lines == ["a", "a", "b"]
  {
    var s: seq<string> := ["a", "b"];
    assert PySlice(s, 0, -1) == ["a"];
    assert PySlice(s, 0, 0) == [];
    assert PySlice(s, -1, 0) == [];
    assert PySlice(s, 0, 2) == s;
  }

  /** `_shift_lines_custom` with the guard the standard path has: no shift up from the first line. */
  function ShiftLinesCustom(e: Entry, direction: int, start: int, end: int): Entry
  {
    if direction <= 0 && start <= 0 then e
    else ShiftLinesCustomAsWritten(e, direction, start, end)
  }

  /** For a selected range inside the text the corrected custom rows are adjacent, so the shift only permutes. */
  lemma CustomShiftPermutes(e: Entry, direction: int, start: int, end: int)
    requires e.Aligned() && direction != 0 && 0 <= start <= end < |e.lines|
    ensures |ShiftLinesCustom(e, direction, start, end).lines| == |e.lines|
    ensures multiset(ShiftLinesCustom(e, direction, start, end).lines) == multiset(e.lines)
    ensures ShiftLinesCustom(e, direction, start, end).Aligned()
  {
    if !(direction <= 0 && start <= 0) {
      assert Adjacent(direction, CustomRows(direction, start, end), |e.lines|);
      ShiftPermutes(e, direction, CustomRows(direction, start, end), false);
    }
  }

  // ---------------------------------------------------------------------------
  // find_next and find_prev, with the pattern read literally
  // ---------------------------------------------------------------------------

  /** The first start of `pat` in `s` at or after `i` (`re.search` on `s[i:]`, offset back). */
  function FirstFrom(s: string, pat: string, i: nat): (r: Option<nat>)
    ensures r.Some? ==> i <= r.value && OccursAt(s, pat, r.value)
    ensures r.Some? ==> forall j | i <= j < r.value :: !OccursAt(s, pat, j)
    ensures r.None? ==> forall j | i <= j :: !OccursAt(s, pat, j)
    decreases |s| - i + 1
  {
    if i > |s| then None
    else if OccursAt(s, pat, i) then Some(i)
    else FirstFrom(s, pat, i + 1)
  }

  /** An occurrence in a suffix is one in the whole text, shifted by the cut. */
  lemma OccursInSuffix(s: string, pat: string, c: nat, j: nat)
    requires c <= |s|
    ensures OccursAt(s[c..], pat, j) <==> OccursAt(s, pat, c + j)
  {
    if OccursAt(s, pat, c + j) {
      assert s[c..][j..j + |pat|] == s[c + j..c + j + |pat|];
    }
    if OccursAt(s[c..], pat, j) {
      assert s[c..][j..j + |pat|] == s[c + j..c + j + |pat|];
    }
  }

  /** A match as a `(start, end)` span. */
  datatype Span = Span(start: nat, end: nat)

  /**
   * `find_next`: the first match in `text[cursor:]`, offset by the cursor;
   * otherwise the first match in the whole text; `None` for an empty pattern
   * or no match at all.
   */
  function FindNext(text: string, cursor: nat, pat: string): (r: Option<Span>)
    requires cursor <= |text|
    ensures r.Some? ==> pat != "" && OccursAt(text, pat, r.value.start) && r.value.end == r.value.start + |pat|
    ensures r.None? <==> pat == "" || forall j | 0 <= j :: !OccursAt(text, pat, j)
    ensures r.Some? && r.value.start >= cursor ==> forall j | cursor <= j < r.value.start :: !OccursAt(text, pat, j)
    ensures r.Some? && r.value.start < cursor ==>
      (forall j | cursor <= j :: !OccursAt(text, pat, j)) && forall j | 0 <= j < r.value.start :: !OccursAt(text, pat, j)
  {
    if pat == "" then None
    else
      var tail := text[cursor..];
      match FirstFrom(tail, pat, 0)
      case Some(k) =>
        OccursInSuffix(text, pat, cursor, k);
        assert forall j | cursor <= j < cursor + k :: !OccursAt(text, pat, j) by {
          forall j | cursor <= j < cursor + k ensures !OccursAt(text, pat, j) {
            OccursInSuffix(text, pat, cursor, j - cursor);
          }
        }
        Some(Span(k + cursor, k + |pat| + cursor))
      case None =>
        assert forall j | cursor <= j :: !OccursAt(text, pat, j) by {
          forall j | cursor <= j ensures !OccursAt(text, pat, j) {
            OccursInSuffix(text, pat, cursor, j - cursor);
          }
        }
        match FirstFrom(text, pat, 0)
        case Some(k) => Some(Span(k, k + |pat|))
        case None => None
  }

  /**
   * What `re.finditer` promises about the starts it reports in `s` from `i`
   * on: each is an occurrence; the first is the first occurrence from `i`;
   * each next one is the first that starts at or after the previous one's
   * end, so matches never overlap and none is skipped; and none follows the
   * last. With no start reported, nothing occurs from `i` on.
   */
  ghost predicate FinditerStarts(s: string, pat: string, i: nat, r: seq<nat>)
  {
    && (forall k | 0 <= k < |r| :: i <= r[k] && OccursAt(s, pat, r[k]))
    && (|r| == 0 ==> forall j | i <= j :: !OccursAt(s, pat, j))
    && (|r| > 0 ==> forall j | i <= j < r[0] :: !OccursAt(s, pat, j))
    && (forall k | 0 <= k < |r| - 1 :: r[k] + |pat| <= r[k + 1])
    && (forall a, b | 0 <= a && b == a + 1 < |r| :: forall j | r[a] + |pat| <= j < r[b] :: !OccursAt(s, pat, j))
    && (|r| > 0 ==> forall j | r[|r| - 1] + |pat| <= j :: !OccursAt(s, pat, j))
  }

  /** The first occurrence from `i`, followed by the starts reported from its end, keeps the promises from `i`. */
  lemma FinditerCons(s: string, pat: string, i: nat, k: nat, rest: seq<nat>)
    requires i <= k && OccursAt(s, pat, k) && forall j | i <= j < k :: !OccursAt(s, pat, j)
    requires FinditerStarts(s, pat, k + |pat|, rest)
    ensures FinditerStarts(s, pat, i, [k] + rest)
  {
    ConsStarts(s, pat, i, k, rest);
    ConsGaps(s, pat, k, rest);
    ConsLast(s, pat, k, rest);
  }

  /** Every start of `[k] + rest` is an occurrence from `i`, a match length after the one before. */
  lemma ConsStarts(s: string, pat: string, i: nat, k: nat, rest: seq<nat>)
    requires i <= k && OccursAt(s, pat, k)
    requires forall q | 0 <= q < |rest| :: k + |pat| <= rest[q] && OccursAt(s, pat, rest[q])
    requires forall q | 0 <= q < |rest| - 1 :: rest[q] + |pat| <= rest[q + 1]
    ensures forall q | 0 <= q < |[k] + rest| :: i <= ([k] + rest)[q] && OccursAt(s, pat, ([k] + rest)[q])
    ensures forall q | 0 <= q < |[k] + rest| - 1 :: ([k] + rest)[q] + |pat| <= ([k] + rest)[q + 1]
  {
    var r := [k] + rest;
    assert forall q | 1 <= q < |r| :: r[q] == rest[q - 1];
  }

  /** Nothing occurs between consecutive starts of `[k] + rest`. */
  lemma ConsGaps(s: string, pat: string, k: nat, rest: seq<nat>)
    requires |rest| > 0 ==> forall j | k + |pat| <= j < rest[0] :: !OccursAt(s, pat, j)
    requires forall a, b | 0 <= a && b == a + 1 < |rest| :: forall j | rest[a] + |pat| <= j < rest[b] :: !OccursAt(s, pat, j)
    ensures forall a, b | 0 <= a && b == a + 1 < |[k] + rest| ::
      forall j | ([k] + rest)[a] + |pat| <= j < ([k] + rest)[b] :: !OccursAt(s, pat, j)
  {
    var r := [k] + rest;
    forall a, b | 0 <= a && b == a + 1 < |r|
      ensures forall j | r[a] + |pat| <= j < r[b] :: !OccursAt(s, pat, j)
    {
      if a > 0 {
        assert r[a] == rest[a - 1] && r[b] == rest[b - 1];
      }
    }
  }

  /** Nothing occurs after the last start of `[k] + rest`. */
  lemma ConsLast(s: string, pat: string, k: nat, rest: seq<nat>)
    requires |rest| == 0 ==> forall j | k + |pat| <= j :: !OccursAt(s, pat, j)
    requires |rest| > 0 ==> forall j | rest[|rest| - 1] + |pat| <= j :: !OccursAt(s, pat, j)
    ensures forall j | ([k] + rest)[|[k] + rest| - 1] + |pat| <= j :: !OccursAt(s, pat, j)
  {
    var r := [k] + rest;
    assert r[|r| - 1] == if |rest| == 0 then k else rest[|rest| - 1];
  }

  /** Reported starts are a match length apart, not only next to each other. */
  lemma {:induction false} FinditerApart(s: string, pat: string, i: nat, r: seq<nat>, a: nat, b: nat)
    requires FinditerStarts(s, pat, i, r) && pat != "" && a < b < |r|
    ensures r[a] + |pat| <= r[b]
    decreases b - a
  {
    if a + 1 < b {
      FinditerApart(s, pat, i, r, a + 1, b);
    }
  }

  /** The last reported start is the greatest. */
  lemma FinditerLast(s: string, pat: string, i: nat, r: seq<nat>)
    requires FinditerStarts(s, pat, i, r) && pat != "" && |r| > 0
    ensures forall m | m in r :: m <= r[|r| - 1]
  {
    forall a | 0 <= a < |r| - 1
      ensures r[a] <= r[|r| - 1]
    {
      FinditerApart(s, pat, i, r, a, |r| - 1);
    }
  }

  /** The starts `re.finditer` reports in `s` from `i` on: non-overlapping, left to right. */
  function Matches(s: string, pat: string, i: nat): (r: seq<nat>)
    requires pat != ""
    ensures FinditerStarts(s, pat, i, r)
    decreases |s| - i + 1
  {
    match FirstFrom(s, pat, i)
    case None => []
    case Some(k) =>
      var rest := Matches(s, pat, k + |pat|);
      FinditerCons(s, pat, i, k, rest);
      [k] + rest
  }

  /**
   * Two lists that keep the promises from `i` agree: every position of the
   * first is one of the second, with the same start.
   */
  lemma {:induction false} FinditerAgree(s: string, pat: string, i: nat, r1: seq<nat>, r2: seq<nat>, q: nat)
    requires FinditerStarts(s, pat, i, r1) && FinditerStarts(s, pat, i, r2)
    requires q < |r1|
    ensures q < |r2| && r1[q] == r2[q]
  {
    if q > 0 {
      FinditerAgree(s, pat, i, r1, r2, q - 1);
      FinditerGap(s, pat, i, r1, q - 1);
      FinditerGap(s, pat, i, r2, q - 1);
    }
  }

  /** The match after position `a`, if any, is the first occurrence from the end of match `a`. */
  lemma FinditerGap(s: string, pat: string, i: nat, r: seq<nat>, a: nat)
    requires FinditerStarts(s, pat, i, r) && a < |r|
    ensures a + 1 < |r| ==> r[a] + |pat| <= r[a + 1]
    ensures a + 1 < |r| ==> forall j | r[a] + |pat| <= j < r[a + 1] :: !OccursAt(s, pat, j)
  {
    var b := a + 1;
    if b < |r| {
      assert r[a] + |pat| <= r[b];
    }
  }

  /** Two lists that keep the promises from `i` have the same length. */
  lemma FinditerSameLength(s: string, pat: string, i: nat, r1: seq<nat>, r2: seq<nat>)
    requires FinditerStarts(s, pat, i, r1) && FinditerStarts(s, pat, i, r2)
    ensures |r1| == |r2|
  {
    if |r1| > 0 {
      FinditerAgree(s, pat, i, r1, r2, |r1| - 1);
    }
    if |r2| > 0 {
      FinditerAgree(s, pat, i, r2, r1, |r2| - 1);
    }
  }

  /** Only one list of starts keeps those promises, and `Matches` is it. */
  lemma MatchesUnique(s: string, pat: string, i: nat, r: seq<nat>)
    requires pat != ""
    ensures FinditerStarts(s, pat, i, r) <==> r == Matches(s, pat, i)
  {
    if FinditerStarts(s, pat, i, r) {
      var m := Matches(s, pat, i);
      FinditerSameLength(s, pat, i, r, m);
      forall q | 0 <= q < |r|
        ensures r[q] == m[q]
      {
        FinditerAgree(s, pat, i, r, m, q);
      }
    }
  }

  /** The last span `re.finditer` reports, if any. */
  function LastMatch(s: string, pat: string): (r: Option<Span>)
    requires pat != ""
    ensures r.Some? <==> |Matches(s, pat, 0)| > 0
    ensures r.Some? ==> r.value.start in Matches(s, pat, 0) && forall m | m in Matches(s, pat, 0) :: m <= r.value.start
    ensures r.None? <==> forall j | 0 <= j :: !OccursAt(s, pat, j)
    ensures r.Some? ==> OccursAt(s, pat, r.value.start) && r.value.end == r.value.start + |pat|
    ensures r.Some? ==> forall j | r.value.end <= j :: !OccursAt(s, pat, j)
  {
    var ms := Matches(s, pat, 0);
    if |ms| == 0 then None
    else
      FinditerLast(s, pat, 0, ms);
      Some(Span(ms[|ms| - 1], ms[|ms| - 1] + |pat|))
  }

  /** The occurrences in the first `n` characters are those of the whole text that end by `n`. */
  lemma PrefixOccurrences(s: string, pat: string, n: nat)
    requires n <= |s|
    ensures forall j :: OccursAt(s[..n], pat, j) <==> OccursAt(s, pat, j) && j + |pat| <= n
  {
    forall j
      ensures OccursAt(s[..n], pat, j) <==> OccursAt(s, pat, j) && j + |pat| <= n
    {
      if 0 <= j && j + |pat| <= n {
        assert s[..n][j..j + |pat|] == s[j..j + |pat|];
      }
    }
  }

  /** Some occurrence of `pat` in `s` ends within the first `n` characters. */
  predicate MatchWithin(s: string, pat: string, n: int)
  {
    exists j | 0 <= j && j + |pat| <= n :: OccursAt(s, pat, j)
  }

  /**
   * `find_prev` searching before `bound`: the last match in `text[:bound]`
   * (Python slicing, so a negative bound counts from the end), otherwise the
   * last match in the whole text.
   */
  function FindPrevBefore(text: string, bound: int, pat: string): (r: Option<Span>)
    ensures r.None? <==> pat == "" || forall j | 0 <= j :: !OccursAt(text, pat, j)
    ensures r.Some? ==> OccursAt(text, pat, r.value.start) && r.value.end == r.value.start + |pat|
    ensures var n := |PySlice(text, 0, bound)|;
      pat != "" && MatchWithin(text, pat, n) ==>
        r.Some? && r.value.end <= n && forall j | r.value.end <= j && j + |pat| <= n :: !OccursAt(text, pat, j)
    ensures var before := PySlice(text, 0, bound);
      pat != "" && MatchWithin(text, pat, |before|) ==>
        r.Some? && r.value.start in Matches(before, pat, 0) && forall m | m in Matches(before, pat, 0) :: m <= r.value.start
    ensures pat != "" && !MatchWithin(text, pat, |PySlice(text, 0, bound)|) ==> r == LastMatch(text, pat)
  {
    if pat == "" then None
    else
      var before := PySlice(text, 0, bound);
      assert before == text[..|before|];
      PrefixOccurrences(text, pat, |before|);
      match LastMatch(before, pat)
      case Some(m) => Some(m)
      case None => LastMatch(text, pat)
  }

  /** `find_prev` as written: the bound is `cursor_index() - 1`, which is `-1` at the very start. */
  function FindPrevAsWritten(text: string, cursor: nat, pat: string): Option<Span>
  {
    FindPrevBefore(text, cursor - 1, pat)
  }

  lemma MatchesAba()
    ensures Matches("aba", "ab", 0) == [0]
  {
    assert OccursAt("aba", "ab", 0);
    assert FinditerStarts("aba", "ab", 0, [0]);
    MatchesUnique("aba", "ab", 0, [0]);
  }

  lemma MatchesAbab()
    ensures Matches("abab", "ab", 0) == [0, 2]
  {
    AbabStarts();
    MatchesUnique("abab", "ab", 0, [0, 2]);
  }

  lemma AbabStarts()
    ensures FinditerStarts("abab", "ab", 0, [0, 2])
  {
    var r: seq<nat> := [0, 2];
    assert "abab"[0..2] == "ab" && "abab"[2..4] == "ab";
    assert forall k | 0 <= k < |r| :: OccursAt("abab", "ab", r[k]);
  }

  /** Matches do not overlap: in "aaaaaa" the pattern "aa" is reported at 0, 2 and 4 only. */
  lemma MatchesRun()
    ensures Matches("aaaaaa", "aa", 0) == [0, 2, 4]
  {
    RunStarts();
    MatchesUnique("aaaaaa", "aa", 0, [0, 2, 4]);
  }

  lemma RunStarts()
    ensures FinditerStarts("aaaaaa", "aa", 0, [0, 2, 4])
  {
    var r: seq<nat> := [0, 2, 4];
    assert "aaaaaa"[0..2] == "aa" && "aaaaaa"[2..4] == "aa" && "aaaaaa"[4..6] == "aa";
    assert forall k | 0 <= k < |r| :: OccursAt("aaaaaa", "aa", r[k]);
    assert forall k | 0 <= k < |r| - 1 :: r[k] + 2 <= r[k + 1];
    assert forall a, b | 0 <= a && b == a + 1 < |r| :: forall j | r[a] + 2 <= j < r[b] :: !OccursAt("aaaaaa", "aa", j);
    assert forall j | r[|r| - 1] + 2 <= j :: !OccursAt("aaaaaa", "aa", j);
  }

  /**
   * Searching back takes the last reported match, not the last occurrence:
   * in "aaa" the pattern "aa" also occurs at 1, inside the match at 0.
   */
  lemma FindPrevSkipsOverlap()
    ensures OccursAt("aaa", "aa", 1)
    ensures FindPrevBefore("aaa", 3, "aa") == Some(Span(0, 2))
  {
    assert PySlice("aaa", 0, 3) == "aaa";
    LastMatchAaa();
  }

  lemma MatchesAaa()
    ensures Matches("aaa", "aa", 0) == [0]
  {
    assert OccursAt("aaa", "aa", 0);
    assert FinditerStarts("aaa", "aa", 0, [0]);
    MatchesUnique("aaa", "aa", 0, [0]);
  }

  lemma LastMatchAaa()
    ensures LastMatch("aaa", "aa") == Some(Span(0, 2))
  {
    MatchesAaa();
  }

  lemma LastMatchAba()
    ensures LastMatch("aba", "ab") == Some(Span(0, 2))
  {
    MatchesAba();
  }

  lemma LastMatchAbab()
    ensures LastMatch("abab", "ab") == Some(Span(2, 4))
  {
    MatchesAbab();
  }

  /** At the start of "abab", searching back for "ab" stops in `text[:-1]` and finds the first match, not the last. */
  lemma FindPrevAtStartMissesLast()
    ensures FindPrevAsWritten("abab", 0, "ab") == Some(Span(0, 2))
    ensures FindPrev("abab", 0, "ab") == Some(Span(2, 4))
  {
    FindPrevBeforeAbab();
    WrapAbab();
    assert FindPrev("abab", 0, "ab") == FindPrevBefore("abab", 0, "ab");
  }

  lemma FindPrevBeforeAbab()
    ensures FindPrevBefore("abab", -1, "ab") == Some(Span(0, 2))
  {
    LastMatchAba();
    DropLastAbab();
    assert LastMatch(PySlice("abab", 0, -1), "ab") == Some(Span(0, 2));
  }

  /** `text[:-1]` drops the last character. */
  lemma DropLastAbab()
    ensures PySlice("abab", 0, -1) == "aba"
  {
    assert "abab"[..3] == "aba";
  }

  lemma WrapAbab()
    ensures FindPrevBefore("abab", 0, "ab") == Some(Span(2, 4))
  {
    assert PySlice("abab", 0, 0) == "";
    assert Matches("", "ab", 0) == [];
    LastMatchAbab();
  }

  /**
   * `find_prev` with the bound kept at 0 at the start of the text, so that
   * it wraps to the last match.
   */
  function FindPrev(text: string, cursor: nat, pat: string): (r: Option<Span>)
    requires cursor <= |text|
    ensures r.None? <==> pat == "" || forall j | 0 <= j :: !OccursAt(text, pat, j)
    ensures r.Some? ==> OccursAt(text, pat, r.value.start) && r.value.end == r.value.start + |pat|
    ensures pat != "" && MatchWithin(text, pat, cursor - 1) ==>
      r.Some? && r.value.end <= cursor - 1 && forall j | r.value.end <= j && j + |pat| <= cursor - 1 :: !OccursAt(text, pat, j)
    ensures var before := PySlice(text, 0, cursor - 1);
      pat != "" && MatchWithin(text, pat, cursor - 1) ==>
        r.Some? && r.value.start in Matches(before, pat, 0) && forall m | m in Matches(before, pat, 0) :: m <= r.value.start
    ensures pat != "" && !MatchWithin(text, pat, cursor - 1) ==> r == LastMatch(text, pat)
  {
    FindPrevBefore(text, if cursor == 0 then 0 else cursor - 1, pat)
  }

  // ---------------------------------------------------------------------------
  // selected_line_range and insert_text
  // ---------------------------------------------------------------------------

  /** `selected_line_range`: the rows of the selection's ends in order, or the cursor row twice. */
  function SelectedLineRange(selection: Option<(int, int)>, cursorRow: int): (r: (int, int))
    ensures r.0 <= r.1
    ensures selection.None? ==> r == (cursorRow, cursorRow)
    ensures selection.Some? ==> {r.0, r.1} == {selection.value.0, selection.value.1}
  {
    match selection
    case None => (cursorRow, cursorRow)
    case Some((a, b)) => if a <= b then (a, b) else (b, a)
  }

  /** The substring `insert_text` passes on: a tab becomes `tab_width` spaces when soft tabs are on. */
  function InsertedText(substring: string, softTab: bool, tabWidth: int): (r: string)
    ensures substring == "\t" && softTab ==> r == Repeat(' ', tabWidth) && '\t' !in r
    ensures !(substring == "\t" && softTab) ==> r == substring
  {
    if substring == "\t" && softTab then Repeat(' ', tabWidth) else substring
  }

  // ---------------------------------------------------------------------------
  // XScreenManager.switch_name
  // ---------------------------------------------------------------------------

  /** The slide direction of a screen switch. */
  datatype Slide = Left | Right

  /** What `switch_name` does: nothing (returns True), nothing mid-transition (returns False), or a slide to the screen. */
  datatype Switch = Stay | Busy | SlideTo(direction: Slide, current: string)

  /** The `ValueError` of `switch_name` (or of `list.index`): a name not among the screens. */
  datatype ScreenError = NoScreen(name: string)

  /** `names.index(x)`: the first position of `x`. */
  function Position(names: seq<string>, x: string): (r: nat)
    requires x in names
    ensures r < |names| && names[r] == x && forall k | 0 <= k < r :: names[k] != x
  {
    if names[0] == x then 0 else 1 + Position(names[1..], x)
  }

  /**
   * `switch_name(name)`. The current screen answers at once; a running
   * transition refuses; an unknown name raises; otherwise the slide goes
   * left when the new screen comes later in the list.
   */
  function SwitchName(names: seq<string>, current: string, midTransition: bool, name: string): (r: Result<Switch, ScreenError>)
    ensures r == Ok(Stay) <==> name == current
    ensures r == Ok(Busy) <==> name != current && midTransition
    ensures r.Err? <==> name != current && !midTransition && (name !in names || current !in names)
    ensures r.Ok? && r.value.SlideTo? ==> r.value.current == name && name in names && current in names
    ensures r.Ok? && r.value.SlideTo? ==> (r.value.direction == Left <==> Position(names, current) < Position(names, name))
  {
    if name == current then Ok(Stay)
    else if midTransition then Ok(Busy)
    else if name !in names then Err(NoScreen(name))
    else if current !in names then Err(NoScreen(current))
    else
      var dir := if Position(names, current) < Position(names, name) then Left else Right;
      Ok(SlideTo(dir, name))
  }

  /** Switching to a screen and back slides one way and then the other. */
  lemma SwitchBack(names: seq<string>, a: string, b: string)
    requires a in names && b in names && a != b
    ensures SwitchName(names, a, false, b).Ok? && SwitchName(names, a, false, b).value.SlideTo?
    ensures var there, back := SwitchName(names, a, false, b).value, SwitchName(names, b, false, a).value;
      back.SlideTo? && back.current == a && (there.direction == Left <==> back.direction == Right)
  {
    var pa, pb := Position(names, a), Position(names, b);
    assert pa != pb;
  }

  // ---------------------------------------------------------------------------
  // XModal
  // ---------------------------------------------------------------------------

  /** An `XModal`: whether it is attached to its container, and whether its input manager is active. */
  datatype Modal = Modal(attached: bool, inputActive: bool)
  {
    /** `_on_parent` keeps the input manager active exactly while attached. */
    predicate Valid()
    {
      inputActive == attached
    }
  }

  /** `open`: attach unless already attached. */
  function Open(m: Modal): (r: Modal)
    ensures r.attached
    ensures m.attached ==> r == m
    ensures m.Valid() ==> r.Valid()
  {
    if m.attached then m else Modal(true, true)
  }

  /** `dismiss`: detach unless already detached. */
  function Dismiss(m: Modal): (r: Modal)
    ensures !r.attached
    ensures !m.attached ==> r == m
    ensures m.Valid() ==> r.Valid()
  {
    if !m.attached then m else Modal(false, false)
  }

  /** `toggle(set_as)`: open or dismiss as asked; without an answer, flip. */
  function Toggle(m: Modal, setAs: Option<bool>): (r: Modal)
    ensures setAs.None? ==> r.attached == !m.attached
    ensures setAs.Some? ==> r.attached == setAs.value
    ensures m.Valid() ==> r.Valid()
  {
    if setAs.GetOr(!m.attached) then Open(m) else Dismiss(m)
  }

  /** Opening and dismissing are idempotent, and toggling twice gives back a valid modal. */
  lemma ModalLaws(m: Modal)
    requires m.Valid()
    ensures Open(Open(m)) == Open(m) && Dismiss(Dismiss(m)) == Dismiss(m)
    ensures Toggle(Toggle(m, None), None) == m
  {
  }
}

=== FILE: container.dfy ===
/**
 * The editor container of `editor/container.py` (`Container`): which files
 * the panels open at start-up, which panels get a focus hotkey, and the
 * walk up the widget tree that decides whether a widget lies inside the
 * container. Panels themselves and the Kivy layout are left out.
 */
module Container {
  import opened Strings
  import opened Paths
  import opened Seqs
  import opened FileUtil

  /** `MAX_EDITOR_HOTKEYS`. */
  const MaxEditorHotkeys: nat := 4

  // ---------------------------------------------------------------------------
  // The files to open
  // ---------------------------------------------------------------------------

  /** A `project.open` entry: one starting with "./" is taken inside the project. */
  function DefaultFile(project: Path, file: string): (p: Path)
    ensures StartsWith(file, "./") ==> p == JoinPath(project, Parse(file))
    ensures !StartsWith(file, "./") ==> p == Parse(file)
  {
    if StartsWith(file, "./") then JoinPath(project, Parse(file)) else Parse(file)
  }

  /** The `project.open` entries as file cursors at the default position. */
  function DefaultCursors(project: Path, files: seq<string>): (fcs: seq<FileCursor>)
    ensures |fcs| == |files|
    ensures forall i | 0 <= i < |files| :: fcs[i] == NewFileCursor(DefaultFile(project, files[i]))
  {
    seq(|files|, i requires 0 <= i < |files| => NewFileCursor(DefaultFile(project, files[i])))
  }

  /**
   * Every default cursor sits at line 1, column 0; an entry starting with
   * "./" names a file inside the project, the rest of the entry being its
   * path relative to the project.
   */
  lemma DefaultCursorsInProject(project: Path, files: seq<string>)
    ensures forall i | 0 <= i < |files| ::
      var fc := DefaultCursors(project, files)[i];
      && fc.cursor == [1, 0]
      && (StartsWith(files[i], "./") ==> IsRelativeTo(fc.file, project) && RelativeTo(fc.file, project) == Parse(files[i]))
      && (!StartsWith(files[i], "./") ==> fc.file == Parse(files[i]))
  {
    var fcs := DefaultCursors(project, files);
    forall i | 0 <= i < |files|
      ensures var fc := fcs[i];
        && fc.cursor == [1, 0]
        && (StartsWith(files[i], "./") ==> IsRelativeTo(fc.file, project) && RelativeTo(fc.file, project) == Parse(files[i]))
        && (!StartsWith(files[i], "./") ==> fc.file == Parse(files[i]))
    {
      if StartsWith(files[i], "./") {
        assert files[i][0] == '.';
        RelativeJoin(project, Parse(files[i]));
      }
    }
  }

  /** The `while` loop of `__init__`: the settings file appended until there are `n` cursors. */
  function PadTo(fcs: seq<FileCursor>, n: int, settingsFile: Path): (r: seq<FileCursor>)
    ensures |r| == if |fcs| < n then n else |fcs|
    ensures r[..|fcs|] == fcs
    ensures forall i | |fcs| <= i < |r| :: r[i] == NewFileCursor(settingsFile)
    decreases n - |fcs|
  {
    if |fcs| < n then
      var r := PadTo(fcs + [NewFileCursor(settingsFile)], n, settingsFile);
      assert r[..|fcs|] == r[..|fcs| + 1][..|fcs|];
      r
    else fcs
  }

  /**
   * The cursors the panels open: the session's, or the defaults when it has
   * none, padded with the settings file and cut to `panelCount`
   * (`ui.cols * ui.rows`).
   */
  function PanelCursors(cached: seq<FileCursor>, project: Path, defaults: seq<string>, settingsFile: Path, panelCount: int)
    : (r: seq<FileCursor>)
  {
    var fcs := if |cached| == 0 then DefaultCursors(project, defaults) else cached;
    PySlice(PadTo(fcs, panelCount, settingsFile), 0, panelCount)
  }

  /**
   * For a non-negative panel count there is one cursor per panel: the
   * collected ones first, then the settings file.
   */
  lemma PanelCursorsShape(cached: seq<FileCursor>, project: Path, defaults: seq<string>, settingsFile: Path, panelCount: nat)
    ensures var r := PanelCursors(cached, project, defaults, settingsFile, panelCount);
      var fcs := if |cached| == 0 then DefaultCursors(project, defaults) else cached;
      |r| == panelCount
      && (forall i | 0 <= i < panelCount && i < |fcs| :: r[i] == fcs[i])
      && (forall i | |fcs| <= i < panelCount :: r[i] == NewFileCursor(settingsFile))
  {
    var fcs := if |cached| == 0 then DefaultCursors(project, defaults) else cached;
    var padded := PadTo(fcs, panelCount, settingsFile);
    assert PySlice(padded, 0, panelCount) == padded[..panelCount];
    forall i | 0 <= i < panelCount && i < |fcs|
      ensures padded[i] == fcs[i]
    {
      assert padded[..|fcs|][i] == padded[i];
    }
  }

  /** A session with cursors opens them (as many as fit); defaults are used only when it has none. */
  lemma CachedCursorsFirst(cached: seq<FileCursor>, project: Path, defaults: seq<string>, settingsFile: Path, panelCount: nat)
    requires 0 < |cached| <= panelCount
    ensures PanelCursors(cached, project, defaults, settingsFile, panelCount)[..|cached|] == cached
  {
    PanelCursorsShape(cached, project, defaults, settingsFile, panelCount);
  }

  // ---------------------------------------------------------------------------
  // register_hotkeys
  // ---------------------------------------------------------------------------

  /** A hotkey registration: its name and key. */
  datatype Hotkey = Hotkey(name: string, key: string)

  /** The focus hotkey of the panel with widget uid `uid`. */
  function FocusHotkey(uid: nat): Hotkey
  {
    Hotkey("Focus Editor " + NatToString(uid), "f" + NatToString(uid + 1))
  }

  /**
   * `register_hotkeys`: a focus hotkey for each of the first
   * `MAX_EDITOR_HOTKEYS` panels, then "Reload all".
   */
  function RegisterHotkeys(uids: seq<nat>): (r: seq<Hotkey>)
    ensures |r| == (if |uids| < MaxEditorHotkeys then |uids| else MaxEditorHotkeys) + 1
    ensures forall i | 0 <= i < |r| - 1 :: r[i] == FocusHotkey(uids[i])
    ensures r[|r| - 1] == Hotkey("Reload all", "^ f5")
  {
    var shown := PySlice(uids, 0, MaxEditorHotkeys);
    seq(|shown|, i requires 0 <= i < |shown| => FocusHotkey(shown[i])) + [Hotkey("Reload all", "^ f5")]
  }

  /** Every panel beyond the fourth has no focus hotkey. */
  lemma LaterPanelsUnbound(uids: seq<nat>, k: nat)
    requires MaxEditorHotkeys <= k < |uids|
    requires forall i, j | 0 <= i < j < |uids| :: uids[i] != uids[j]
    ensures FocusHotkey(uids[k]) !in RegisterHotkeys(uids)
  {
    var r := RegisterHotkeys(uids);
    forall i | 0 <= i < |r|
      ensures r[i] != FocusHotkey(uids[k])
    {
      if i < |r| - 1 {
        if r[i] == FocusHotkey(uids[k]) {
          FocusHotkeyInjective(uids[i], uids[k]);
        }
      } else {
        assert "Reload all"[0] != "Focus Editor "[0];
      }
    }
  }

  /** Different panels have different hotkeys. */
  lemma FocusHotkeyInjective(a: nat, b: nat)
    requires FocusHotkey(a) == FocusHotkey(b)
    ensures a == b
  {
    var p := "Focus Editor ";
    assert (p + NatToString(a))[|p|..] == NatToString(a);
    assert (p + NatToString(b))[|p|..] == NatToString(b);
    DigitsOfNat(a);
    DigitsOfNat(b);
  }

  // ---------------------------------------------------------------------------
  // _check_descendent
  // ---------------------------------------------------------------------------

  /**
   * The widget tree: each widget's parent, if it has one. Kivy's window is
   * its own parent; any other parent link climbs, and `rank` witnesses that
   * a chain of such links ends.
   */
  datatype Widgets = Widgets(parent: map<nat, nat>, rank: map<nat, nat>)
  {
    predicate Valid()
    {
      forall w | w in parent :: w in rank && parent[w] in rank && (parent[w] == w || rank[parent[w]] < rank[w])
    }

    /** A widget with no parent, or the window, which is its own parent. */
    predicate Root(w: nat)
    {
      w !in parent || parent[w] == w
    }

    /** How many steps the walk from `w` can take before a root: its rank, or none for a root. */
    function Height(w: nat): nat
    {
      if !Root(w) && w in rank then rank[w] + 1 else 0
    }
  }

  /** The parent chain of `w`: `w`, its parent, and so on up to a root. */
  function Chain(ws: Widgets, w: nat): (c: seq<nat>)
    requires ws.Valid()
    ensures |c| > 0 && c[0] == w
    ensures forall i | 0 <= i < |c| - 1 :: c[i] in ws.parent && c[i + 1] == ws.parent[c[i]] != c[i]
    ensures ws.Root(c[|c| - 1])
    decreases ws.Height(w)
  {
    if !ws.Root(w) then [w] + Chain(ws, ws.parent[w]) else [w]
  }

  /** What `_check_descendent` comes to: true, false, or a loop that never ends. */
  datatype Walk = Inside | Outside | Hangs

  /**
   * `_check_descendent(widget)` as written: walk up from the widget, true
   * on meeting the container, false on running out of parents. At the
   * window, which is its own parent, `widget = widget.parent` changes
   * nothing, so the loop never ends: `Hangs`.
   */
  function DescendentWalk(ws: Widgets, container: nat, w: nat): (r: Walk)
    requires ws.Valid()
    decreases ws.Height(w)
  {
    if w == container then Inside
    else if w !in ws.parent then Outside
    else if ws.parent[w] == w then Hangs
    else DescendentWalk(ws, container, ws.parent[w])
  }

  /**
   * The walk as written answers true exactly when the container is on the
   * chain; off the chain it hangs exactly when the chain ends at the window.
   */
  lemma {:induction false} DescendentWalkOutcome(ws: Widgets, container: nat, w: nat)
    requires ws.Valid()
    ensures var c := Chain(ws, w);
      && (DescendentWalk(ws, container, w) == Inside <==> container in c)
      && (DescendentWalk(ws, container, w) == Hangs <==> container !in c && c[|c| - 1] in ws.parent)
    decreases ws.Height(w)
  {
    if !ws.Root(w) {
      DescendentWalkOutcome(ws, container, ws.parent[w]);
    }
  }

  /**
   * A panel outside the container, under the window (0, its own parent):
   * the walk as written never ends.
   */
  lemma OutsideWidgetHangs()
    ensures var ws := Widgets(map[0 := 0, 1 := 0, 2 := 0], map[0 := 0, 1 := 1, 2 := 1]);
      ws.Valid() && DescendentWalk(ws, 2, 1) == Hangs
  {
  }

  /**
   * `_check_descendent(widget)`, stopping at the window as `_check_focus`
   * does (line 62): true on meeting the container, false at a root. It
   * agrees with the walk as written whenever that one ends.
   */
  method CheckDescendent(ws: Widgets, container: nat, widget: nat) returns (found: bool)
    requires ws.Valid()
    ensures found <==> container in Chain(ws, widget)
    ensures found <==> DescendentWalk(ws, container, widget) == Inside
  {
    DescendentWalkOutcome(ws, container, widget);
    var w := widget;
    while true
      invariant container in Chain(ws, widget) <==> container in Chain(ws, w)
      decreases ws.Height(w)
    {
      if w == container {
        return true;
      }
      if ws.Root(w) {
        return false;
      }
      assert Chain(ws, w) == [w] + Chain(ws, ws.parent[w]);
      w := ws.parent[w];
    }
  }

  /** The container itself, and every widget whose parent lies inside it, lies inside it. */
  lemma DescendentClosed(ws: Widgets, container: nat, w: nat)
    requires ws.Valid() && w in ws.parent && container in Chain(ws, ws.parent[w])
    ensures container in Chain(ws, w) && container in Chain(ws, container)
  {
  }
}

=== FILE: directory_tree.dfy ===
/**
 * The incremental project indexer (`DirectoryTree`): a cache of directory
 * listings keyed by path, the flat set of every indexed path, and that set
 * sorted folders-first. A reindex pass reconciles the cache with the disk,
 * relisting only directories whose modification time changed.
 */
module DirectoryTree {
  import opened Wrappers
  import opened Strings
  import opened Paths
  import opened Seqs
  import opened Sorting
  import opened SortKeys

  /** The modification time of an entry that was never listed. */
  const Never: int := -1

  /** `_CachedDir`: one directory's last listing. */
  datatype CachedDir = CachedDir(
    path: Path,
    modified: int,
    children: seq<Path>,
    childrenSet: set<Path>,
    files: seq<Path>,
    folders: seq<Path>)

  /** `_CachedDir(path)`: an entry that has never been listed. */
  function Fresh(path: Path): CachedDir
  {
    CachedDir(path, Never, [], {}, [], [])
  }

  /** The settings `project.file_types` and `project.ignore_names`. */
  datatype Config = Config(fileTypes: seq<string>, ignoreNames: seq<string>)

  /** `FILE_TYPES`: each configured extension with a dot in front; an empty one stays empty. */
  function DottedTypes(types: seq<string>): set<string>
  {
    set ft | ft in types :: if ft == "" then "" else "." + ft
  }

  /** `RE_IGNORE_PATHS.search(str(p))`: some ignore pattern occurs in the path string. */
  predicate Ignored(cfg: Config, p: Path)
  {
    exists k | 0 <= k < |cfg.ignoreNames| :: Contains(Str(p), cfg.ignoreNames[k])
  }

  /** What `yield_children` keeps: directories, and files whose suffix is allowed. */
  predicate KeepChild(fs: FileSystem, types: set<string>, c: Path)
  {
    IsDir(fs, c) || (IsFile(fs, c) && (types == {} || Suffix(Name(c)) in types))
  }

  /** `yield_children(path, file_types=types)`, in listing order. */
  function YieldChildren(fs: FileSystem, path: Path, types: set<string>): seq<Path>
  {
    Filter(IterDir(fs, path), c => KeepChild(fs, types, c))
  }

  /** Whether `get_children_from_disk(path, ...)` returns `c`. */
  ghost predicate Listed(fs: FileSystem, cfg: Config, path: Path, c: Path, useFileTypes: bool, usePathFilter: bool)
  {
    c in IterDir(fs, path)
    && KeepChild(fs, if useFileTypes then DottedTypes(cfg.fileTypes) else {}, c)
    && !(usePathFilter && Ignored(cfg, c))
  }

  /**
   * `get_children_from_disk`: the listing, filtered by file type and by the
   * ignore patterns when asked to, sorted folders-first.
   */
  function GetChildrenFromDisk(fs: FileSystem, cfg: Config, path: Path, useFileTypes: bool, usePathFilter: bool): (r: seq<Path>)
    ensures SortedBy(r, FolderKeyOf(fs))
    ensures forall c :: c in r <==> Listed(fs, cfg, path, c, useFileTypes, usePathFilter)
    ensures DistinctListings(fs) ==> Distinct(r)
  {
    var types := if useFileTypes then DottedTypes(cfg.fileTypes) else {};
    var children := YieldChildren(fs, path, types);
    var kept := if usePathFilter && |cfg.ignoreNames| > 0 then Filter(children, c => !Ignored(cfg, c)) else children;
    ListingMembers(fs, cfg, path, useFileTypes, usePathFilter, kept);
    ListingDistinct(fs, cfg, path, useFileTypes, usePathFilter, kept);
    var r := SortBy(kept, FolderKeyOf(fs));
    SameMembers(r, kept);
    if DistinctListings(fs) then
      DistinctPermutation(kept, r);
      r
    else r
  }

  /** Filtering a listing without repeats leaves none. */
  lemma ListingDistinct(fs: FileSystem, cfg: Config, path: Path, useFileTypes: bool, usePathFilter: bool, kept: seq<Path>)
    requires
      var types := if useFileTypes then DottedTypes(cfg.fileTypes) else {};
      var children := YieldChildren(fs, path, types);
      kept == if usePathFilter && |cfg.ignoreNames| > 0 then Filter(children, c => !Ignored(cfg, c)) else children
    ensures DistinctListings(fs) ==> Distinct(kept)
  {
    if DistinctListings(fs) {
      var types := if useFileTypes then DottedTypes(cfg.fileTypes) else {};
      var children := YieldChildren(fs, path, types);
      IterDirDistinct(fs, path);
      FilterDistinct(IterDir(fs, path), c => KeepChild(fs, types, c));
      FilterDistinct(children, c => !Ignored(cfg, c));
    }
  }

  lemma ListingMembers(fs: FileSystem, cfg: Config, path: Path, useFileTypes: bool, usePathFilter: bool, kept: seq<Path>)
    requires
      var types := if useFileTypes then DottedTypes(cfg.fileTypes) else {};
      var children := YieldChildren(fs, path, types);
      kept == if usePathFilter && |cfg.ignoreNames| > 0 then Filter(children, c => !Ignored(cfg, c)) else children
    ensures forall c :: c in kept <==> Listed(fs, cfg, path, c, useFileTypes, usePathFilter)
  {
    var types := if useFileTypes then DottedTypes(cfg.fileTypes) else {};
    var children := YieldChildren(fs, path, types);
    FilterMembers(IterDir(fs, path), c => KeepChild(fs, types, c));
    FilterMembers(children, c => !Ignored(cfg, c));
  }

  /** Everything listed lies directly inside the listed directory and exists. */
  lemma ListedInside(fs: FileSystem, cfg: Config, path: Path, c: Path, useFileTypes: bool, usePathFilter: bool)
    requires Listed(fs, cfg, path, c, useFileTypes, usePathFilter)
    ensures StrictlyBelow(c, path) && Parent(c) == path && c in fs
  {
    var i :| 0 <= i < |IterDir(fs, path)| && IterDir(fs, path)[i] == c;
  }

  /** `c.is_dir()`, as the test the listing is split by. */
  function IsFolder(fs: FileSystem): Path -> bool
  {
    c => IsDir(fs, c)
  }

  /** `not c.is_dir()`: what goes to the files. */
  function IsNotFolder(fs: FileSystem): Path -> bool
  {
    c => !IsDir(fs, c)
  }

  /**
   * A fresh listing of `path`: its children split, each side keeping the
   * listing's order, into files and folders.
   */
  function Relist(fs: FileSystem, cfg: Config, path: Path): (e: CachedDir)
    requires path in fs
    ensures e.path == path && e.modified == fs[path].mtime
    ensures e.children == GetChildrenFromDisk(fs, cfg, path, true, true)
    ensures forall c :: c in e.childrenSet <==> c in e.children
    ensures e.folders == Filter(e.children, IsFolder(fs)) && e.files == Filter(e.children, IsNotFolder(fs))
    ensures forall c :: c in e.folders <==> c in e.children && IsDir(fs, c)
    ensures forall c :: c in e.files <==> c in e.children && !IsDir(fs, c)
  {
    var children := GetChildrenFromDisk(fs, cfg, path, true, true);
    FilterMembers(children, IsNotFolder(fs));
    FilterMembers(children, IsFolder(fs));
    CachedDir(path, fs[path].mtime, children, (set c | c in children),
      Filter(children, IsNotFolder(fs)), Filter(children, IsFolder(fs)))
  }

  /** The indexer's state. `lastModified` counts up once per relisted directory. */
  datatype Tree = Tree(
    root: Path,
    cache: map<Path, CachedDir>,
    allPaths: set<Path>,
    sortedTree: seq<Path>,
    lastModified: int)

  /** The cache entry the pass works on for `path`, creating an unlisted one if there is none. */
  function Known(t: Tree, path: Path): CachedDir
  {
    if path in t.cache then t.cache[path] else Fresh(path)
  }

  // ---------------------------------------------------------------------------
  // Well-formedness
  // ---------------------------------------------------------------------------

  /** Every path the disk can show is absolute and in normal form. */
  ghost predicate FsValid(fs: FileSystem)
  {
    forall p | p in fs :: p.absolute && Canonical(p)
  }

  /** `p` is the root or somewhere below it, in normal form. */
  ghost predicate Inside(p: Path, root: Path)
  {
    IsRelativeTo(p, root) && Canonical(p)
  }

  /** What every cache entry satisfies, whatever the disk says now. */
  ghost predicate EntryValid(p: Path, e: CachedDir, root: Path)
  {
    e.path == p
    && Inside(p, root)
    && (forall c :: c in e.childrenSet <==> c in e.children)
    && (forall c | c in e.children :: StrictlyBelow(c, p) && Parent(c) == p && Canonical(c))
    && (forall c | c in e.folders :: c in e.children)
    && (forall c | c in e.files :: c in e.children)
  }

  /** The representation invariant of a `DirectoryTree`. */
  ghost predicate Valid(t: Tree)
  {
    t.root.absolute && Canonical(t.root)
    && (forall p | p in t.cache :: EntryValid(p, t.cache[p], t.root))
    && (forall p | p in t.allPaths :: Inside(p, t.root))
    && (forall i | 0 <= i < |t.sortedTree| :: Inside(t.sortedTree[i], t.root))
  }

  /** Every cached directory still exists with the modification time it was listed at. */
  ghost predicate Settled(t: Tree, fs: FileSystem)
  {
    forall p | p in t.cache :: p in fs && t.cache[p].modified == fs[p].mtime
  }

  /** Every existing folder of a cached listing has a cache entry of its own. */
  ghost predicate ClosedIn(t: Tree, fs: FileSystem)
  {
    forall p, f | p in t.cache && f in t.cache[p].folders && f in fs :: f in t.cache
  }

  lemma InsideTransitive(c: Path, p: Path, root: Path)
    requires StrictlyBelow(c, p) && IsRelativeTo(p, root) && Canonical(c)
    ensures Inside(c, root)
  {
    assert c.parts[..|root.parts|] == c.parts[..|p.parts|][..|root.parts|];
  }

  // ---------------------------------------------------------------------------
  // Construction
  // ---------------------------------------------------------------------------

  /** The state `DirectoryTree.__init__` sets up before its first pass. */
  function Initial(root: Path): (t: Tree)
    requires root.absolute && Canonical(root)
    ensures Valid(t)
    ensures t.cache.Keys == {root} && t.cache[root].modified == Never
    ensures t.allPaths == {root} && t.sortedTree == [root]
  {
    assert IsRelativeTo(root, root) by {
      assert root.parts[..|root.parts|] == root.parts;
    }
    Tree(root, map[root := Fresh(root)], {root}, [root], Never)
  }

  // ---------------------------------------------------------------------------
  // One step of a pass
  // ---------------------------------------------------------------------------

  /** What a pass did with one directory. */
  datatype Outcome = Vanished | Unchanged | Relisted

  datatype Visit = Visit(tree: Tree, outcome: Outcome)

  /**
   * The body of the reindex loop for a directory not yet handled in this
   * pass: drop it if it no longer exists, leave it if its modification time
   * is what the cache recorded, and otherwise relist it.
   */
  function Step(t: Tree, fs: FileSystem, cfg: Config, path: Path): (v: Visit)
    ensures v.tree.root == t.root && v.tree.sortedTree == t.sortedTree
    ensures forall p | p != path :: (p in v.tree.cache <==> p in t.cache)
    ensures forall p | p != path && p in t.cache :: v.tree.cache[p] == t.cache[p]
    ensures v.outcome == Vanished <==> path !in fs
    ensures v.outcome == Unchanged <==> path in fs && Known(t, path).modified == fs[path].mtime
    ensures v.outcome == Vanished ==>
      && path !in v.tree.cache
      && v.tree.allPaths == t.allPaths - {path} - Known(t, path).childrenSet
      && v.tree.lastModified == t.lastModified
    ensures v.outcome == Unchanged ==>
      && v.tree.cache == t.cache[path := Known(t, path)]
      && v.tree.allPaths == t.allPaths
      && v.tree.lastModified == t.lastModified
    ensures v.outcome == Relisted ==>
      && v.tree.cache == t.cache[path := Relist(fs, cfg, path)]
      && v.tree.allPaths == (t.allPaths - Known(t, path).childrenSet) + v.tree.cache[path].childrenSet
      && v.tree.lastModified == t.lastModified + 1
  {
    var cdir := Known(t, path);
    if path !in fs then
      Visit(t.(cache := t.cache - {path}, allPaths := t.allPaths - {path} - cdir.childrenSet), Vanished)
    else if cdir.modified == fs[path].mtime then
      Visit(t.(cache := t.cache[path := cdir]), Unchanged)
    else
      var e := Relist(fs, cfg, path);
      Visit(t.(cache := t.cache[path := e], allPaths := (t.allPaths - cdir.childrenSet) + e.childrenSet,
        lastModified := t.lastModified + 1), Relisted)
  }

  /** A step keeps the representation invariant. */
  lemma StepValid(t: Tree, fs: FileSystem, cfg: Config, path: Path)
    requires Valid(t) && FsValid(fs)
    requires Inside(path, t.root)
    ensures Valid(Step(t, fs, cfg, path).tree)
  {
    var v := Step(t, fs, cfg, path);
    var cdir := Known(t, path);
    assert EntryValid(path, cdir, t.root);
    if v.outcome == Relisted {
      var e := Relist(fs, cfg, path);
      assert EntryValid(path, e, t.root) by {
        forall c | c in e.children
          ensures StrictlyBelow(c, path) && Parent(c) == path && Canonical(c)
        {
          ListedInside(fs, cfg, path, c, true, true);
        }
      }
      forall c | c in v.tree.allPaths
        ensures Inside(c, t.root)
      {
        if c !in t.allPaths {
          assert c in e.childrenSet;
          InsideTransitive(c, path, t.root);
        }
      }
    }
    ValidAfter(t, v.tree, path);
  }

  /**
   * A tree whose cache differs from a valid one's only at `path`, with a
   * valid entry there and every indexed path under the root, is valid.
   */
  lemma ValidAfter(t: Tree, t2: Tree, path: Path)
    requires Valid(t) && t2.root == t.root && t2.sortedTree == t.sortedTree
    requires forall p | p in t2.cache && p != path :: p in t.cache && t2.cache[p] == t.cache[p]
    requires path in t2.cache ==> EntryValid(path, t2.cache[path], t.root)
    requires forall c | c in t2.allPaths :: Inside(c, t.root)
    ensures Valid(t2)
  {
  }

  // ---------------------------------------------------------------------------
  // The pass
  // ---------------------------------------------------------------------------

  /** How a pass ended: it ran out of directories, or out of budget (`TimeoutError`). */
  datatype Status = Completed | TimedOut

  /** `sorted(paths, key=sort_folders_key)` over a set. */
  method SortPaths(fs: FileSystem, paths: set<Path>) returns (r: seq<Path>)
    ensures SortedBy(r, FolderKeyOf(fs))
    ensures multiset(r) == multiset(paths)
  {
    var s := Enumerate(paths);
    r := SortBy(s, FolderKeyOf(fs));
  }

  // The invariant of the reindex loop, in parts. `t` is the state the pass
  // started from, `r` the state so far, `checkDirs` the worklist, `done` the
  // directories handled (in order: `visited`) and `requireSort` whether
  // anything was relisted.

  /** The state stays well formed and the worklist stays under the root. */
  ghost predicate InvShape(t: Tree, r: Tree, checkDirs: set<Path>)
  {
    && Valid(r) && r.root == t.root && r.sortedTree == t.sortedTree
    && (forall q | q in checkDirs :: Inside(q, t.root))
  }

  /** Each directory is handled once; handled ones match the disk, the others are untouched. */
  ghost predicate InvDone(t: Tree, fs: FileSystem, r: Tree, checkDirs: set<Path>, done: set<Path>, visited: seq<Path>)
  {
    && (forall i, j | 0 <= i < j < |visited| :: visited[i] != visited[j])
    && (forall q :: q in visited <==> q in done)
    && t.cache.Keys <= done + checkDirs
    && (forall p | p in r.cache :: p in done || p in t.cache)
    && (forall p | p in r.cache && p !in done :: r.cache[p] == t.cache[p])
    && (forall p | p in t.cache && p !in done :: p in r.cache)
    && (forall p | p in r.cache && p in done :: p in fs && r.cache[p].modified == fs[p].mtime)
    && (forall p | p in done :: p in fs <==> p in r.cache)
  }

  /** An up-to-date entry is kept; any other entry is a fresh listing of the disk. */
  ghost predicate InvEntries(t: Tree, fs: FileSystem, cfg: Config, r: Tree)
  {
    && (forall p | p in t.cache && p in fs && t.cache[p].modified == fs[p].mtime :: p in r.cache && r.cache[p] == t.cache[p])
    && (forall p | p in r.cache :: r.cache[p] == Known(t, p) || (p in fs && r.cache[p] == Relist(fs, cfg, p)))
  }

  /** A sort is due exactly when the modification stamp moved. */
  ghost predicate InvSort(t: Tree, r: Tree, requireSort: bool)
  {
    (requireSort <==> r.lastModified != t.lastModified) && r.lastModified >= t.lastModified
  }

  /** A pass over a settled cache changes nothing. */
  ghost predicate InvSettled(t: Tree, fs: FileSystem, r: Tree, checkDirs: set<Path>)
  {
    Settled(t, fs) ==> r == t && checkDirs <= t.cache.Keys
  }

  /** Every existing folder of a cached listing is handled or queued. */
  ghost predicate InvClosed(t: Tree, fs: FileSystem, r: Tree, checkDirs: set<Path>, done: set<Path>)
  {
    ClosedIn(t, fs) ==>
      forall p, f | p in r.cache && f in r.cache[p].folders && f in fs :: f in done || f in checkDirs
  }

  /** The cache of `t` records `d` at the disk's modification time, so a pass leaves it alone. */
  ghost predicate UpToDate(t: Tree, fs: FileSystem, d: Path)
  {
    d in fs && Known(t, d).modified == fs[d].mtime
  }

  /**
   * Handling `d` takes `p` out of the indexed paths: `d` itself when it has
   * vanished, and its previously listed children whenever it is not up to date.
   */
  ghost predicate Dropped(t: Tree, fs: FileSystem, d: Path, p: Path)
  {
    (d !in fs && p == d) || (!UpToDate(t, fs, d) && p in Known(t, d).childrenSet)
  }

  /** Handling `d` puts `p` into the indexed paths: `p` is in the fresh listing of an out-of-date `d`. */
  ghost predicate Added(t: Tree, fs: FileSystem, cfg: Config, d: Path, p: Path)
  {
    d in fs && !UpToDate(t, fs, d) && p in Relist(fs, cfg, d).childrenSet
  }

  /**
   * Whether `p` is indexed after the directories `visited` were handled,
   * starting from `t`: some of them listed it afresh, or it was indexed
   * before and none of them dropped it.
   */
  ghost predicate Indexed(t: Tree, fs: FileSystem, cfg: Config, visited: seq<Path>, p: Path)
  {
    (exists d | d in visited :: Added(t, fs, cfg, d, p))
    || (p in t.allPaths && forall d | d in visited :: !Dropped(t, fs, d, p))
  }

  /** The indexed paths are those the handled directories leave indexed. */
  ghost predicate InvPaths(t: Tree, fs: FileSystem, cfg: Config, r: Tree, visited: seq<Path>)
  {
    forall p :: p in r.allPaths <==> Indexed(t, fs, cfg, visited, p)
  }

  /** Handling `d` relists it: it exists and the cache does not record it at the disk's time. */
  ghost predicate Stale(t: Tree, fs: FileSystem, d: Path)
  {
    d in fs && !UpToDate(t, fs, d)
  }

  /** How many of the handled directories were relisted. */
  ghost function Relists(t: Tree, fs: FileSystem, visited: seq<Path>): nat
    decreases |visited|
  {
    if visited == [] then 0
    else Relists(t, fs, visited[..|visited| - 1]) + (if Stale(t, fs, visited[|visited| - 1]) then 1 else 0)
  }

  /** The count of relisted directories is positive exactly when one of them was relisted. */
  lemma {:induction false} RelistsSome(t: Tree, fs: FileSystem, visited: seq<Path>)
    ensures Relists(t, fs, visited) > 0 <==> exists d | d in visited :: Stale(t, fs, d)
    decreases |visited|
  {
    if visited != [] {
      var front := visited[..|visited| - 1];
      RelistsSome(t, fs, front);
      assert visited == front + [visited[|visited| - 1]];
    }
  }

  /** A handled directory that exists holds its old entry when that was up to date, and a fresh listing otherwise. */
  ghost predicate InvVisited(t: Tree, fs: FileSystem, cfg: Config, r: Tree, done: set<Path>)
  {
    forall q | q in done && q in fs ::
      q in r.cache && r.cache[q] == (if UpToDate(t, fs, q) then Known(t, q) else Relist(fs, cfg, q))
  }

  /** The stamp moved once per relisted directory. */
  ghost predicate InvStamp(t: Tree, fs: FileSystem, r: Tree, visited: seq<Path>)
  {
    r.lastModified == t.lastModified + Relists(t, fs, visited)
  }

  /** `q` is a folder in the cached listing of its parent, and that parent was handled. */
  ghost predicate QueuedBy(r: Tree, done: set<Path>, q: Path)
  {
    Parent(q) in done && Parent(q) in r.cache && q in r.cache[Parent(q)].folders
  }

  /**
   * Every directory among `visited` was cached before the pass, or is a
   * folder in the listing of its parent, which was handled before it.
   */
  ghost predicate QueuedInOrder(t: Tree, cache: map<Path, CachedDir>, visited: seq<Path>)
  {
    forall k | 0 <= k < |visited| ::
      visited[k] in t.cache
      || (Parent(visited[k]) in visited[..k] && Parent(visited[k]) in cache && visited[k] in cache[Parent(visited[k])].folders)
  }

  /**
   * What handling the directories `visited` did to the cache, starting from
   * `t`'s: each existing one holds its old entry if that was up to date and
   * a fresh listing otherwise, each vanished one is gone, and every other
   * entry is untouched.
   */
  ghost predicate HandledAsOnDisk(t: Tree, fs: FileSystem, cfg: Config, cache: map<Path, CachedDir>, visited: seq<Path>)
  {
    && (forall q | q in visited :: q in cache <==> q in fs)
    && (forall q | q in visited && q in fs ::
      q in cache && cache[q] == (if UpToDate(t, fs, q) then Known(t, q) else Relist(fs, cfg, q)))
    && (forall p | p in cache :: p in visited || p in t.cache)
    && (forall p | p in t.cache && p !in visited :: p in cache && cache[p] == t.cache[p])
  }

  /** Every folder of a fresh listing made in this pass is handled or still queued (`check_dirs |= set(folders)`). */
  ghost predicate InvRelisted(t: Tree, fs: FileSystem, cfg: Config, checkDirs: set<Path>, done: set<Path>)
  {
    forall d, f | d in done && Stale(t, fs, d) && f in Relist(fs, cfg, d).folders :: f in done || f in checkDirs
  }

  /** A queued or handled directory was cached before the pass, or is a folder of a handled parent's listing. */
  ghost predicate InvQueued(t: Tree, r: Tree, checkDirs: set<Path>, done: set<Path>, visited: seq<Path>)
  {
    && (forall q | q in checkDirs :: q in t.cache || QueuedBy(r, done, q))
    && QueuedInOrder(t, r.cache, visited)
  }

  ghost predicate PassInv(t: Tree, fs: FileSystem, cfg: Config, r: Tree, checkDirs: set<Path>,
    done: set<Path>, visited: seq<Path>, requireSort: bool)
  {
    && InvPaths(t, fs, cfg, r, visited)
    && InvShape(t, r, checkDirs)
    && InvDone(t, fs, r, checkDirs, done, visited)
    && InvEntries(t, fs, cfg, r)
    && InvSort(t, r, requireSort)
    && InvSettled(t, fs, r, checkDirs)
    && InvClosed(t, fs, r, checkDirs, done)
  }

  /** The rest of the invariant: what the pass did to each handled directory, and why it was queued. */
  ghost predicate PassRecord(t: Tree, fs: FileSystem, cfg: Config, r: Tree, checkDirs: set<Path>,
    done: set<Path>, visited: seq<Path>)
  {
    && InvVisited(t, fs, cfg, r, done)
    && InvStamp(t, fs, r, visited)
    && InvQueued(t, r, checkDirs, done, visited)
    && InvRelisted(t, fs, cfg, checkDirs, done)
  }

  /**
   * The accounting of repeated pops: a handled directory back on the
   * worklist was queued again by its handled parent, and one popped a second
   * time (`skipped`) cannot be queued again, its parent having been handled.
   */
  ghost predicate InvRepeat(checkDirs: set<Path>, done: set<Path>, skipped: set<Path>)
  {
    && (forall p | p in checkDirs && p in done :: Parent(p) in done)
    && (forall p | p in skipped :: p in done && Parent(p) in done && p !in checkDirs)
  }

  /** The folders a step queues: those of the directory it relisted. */
  function Queued(v: Visit, path: Path): set<Path>
  {
    if v.outcome == Relisted && path in v.tree.cache then set f | f in v.tree.cache[path].folders else {}
  }

  lemma PassStart(t: Tree, fs: FileSystem, cfg: Config)
    requires Valid(t)
    ensures PassInv(t, fs, cfg, t, t.cache.Keys, {}, [], false)
  {
  }

  /** The folders a step queues lie directly inside the directory handled. */
  lemma QueuedChildren(r: Tree, fs: FileSystem, cfg: Config, path: Path)
    requires Valid(r) && FsValid(fs) && Inside(path, r.root)
    ensures forall f | f in Queued(Step(r, fs, cfg, path), path) :: Parent(f) == path && f != path
  {
    var v := Step(r, fs, cfg, path);
    StepValid(r, fs, cfg, path);
    if path in v.tree.cache {
      assert EntryValid(path, v.tree.cache[path], r.root);
    }
  }

  lemma StepVisited(t: Tree, fs: FileSystem, cfg: Config, r: Tree, checkDirs: set<Path>, done: set<Path>, visited: seq<Path>, path: Path)
    requires InvDone(t, fs, r, checkDirs, done, visited) && InvVisited(t, fs, cfg, r, done)
    requires path !in done
    ensures InvVisited(t, fs, cfg, Step(r, fs, cfg, path).tree, done + {path})
  {
    assert Known(r, path) == Known(t, path);
  }

  lemma StepStamp(t: Tree, fs: FileSystem, cfg: Config, r: Tree, checkDirs: set<Path>, done: set<Path>, visited: seq<Path>, path: Path)
    requires InvDone(t, fs, r, checkDirs, done, visited) && InvStamp(t, fs, r, visited)
    requires path !in done
    ensures InvStamp(t, fs, Step(r, fs, cfg, path).tree, visited + [path])
  {
    assert Known(r, path) == Known(t, path);
    assert (visited + [path])[..|visited|] == visited;
  }

  lemma StepRelisted(t: Tree, fs: FileSystem, cfg: Config, r: Tree, checkDirs: set<Path>, done: set<Path>,
    visited: seq<Path>, path: Path)
    requires InvDone(t, fs, r, checkDirs, done, visited) && InvRelisted(t, fs, cfg, checkDirs, done)
    requires path !in done
    ensures var v := Step(r, fs, cfg, path);
      InvRelisted(t, fs, cfg, checkDirs - {path} + Queued(v, path), done + {path})
  {
    assert Known(r, path) == Known(t, path);
    var v := Step(r, fs, cfg, path);
    var done2, queue2 := done + {path}, checkDirs - {path} + Queued(v, path);
    forall d, f | d in done2 && Stale(t, fs, d) && f in Relist(fs, cfg, d).folders
      ensures f in done2 || f in queue2
    {
      if d == path {
        assert v.outcome == Relisted && v.tree.cache[path] == Relist(fs, cfg, path);
        assert f in Queued(v, path);
      }
    }
  }

  lemma StepQueued(t: Tree, fs: FileSystem, cfg: Config, r: Tree, checkDirs: set<Path>, done: set<Path>,
    visited: seq<Path>, path: Path)
    requires FsValid(fs) && InvShape(t, r, checkDirs) && InvQueued(t, r, checkDirs, done, visited)
    requires forall q :: q in visited <==> q in done
    requires path in checkDirs && path !in done
    ensures var v := Step(r, fs, cfg, path);
      InvQueued(t, v.tree, checkDirs - {path} + Queued(v, path), done + {path}, visited + [path])
  {
    var v := Step(r, fs, cfg, path);
    var done2 := done + {path};
    QueuedChildren(r, fs, cfg, path);
    forall q | q !in t.cache && QueuedBy(r, done, q)
      ensures QueuedBy(v.tree, done2, q)
    {
      assert Parent(q) != path;
    }
    forall q | q in Queued(v, path)
      ensures QueuedBy(v.tree, done2, q)
    {
    }
    OrderAfter(t, r.cache, v.tree.cache, visited, path);
  }

  /**
   * Appending `path` keeps `QueuedInOrder` when the cache changed only at
   * `path` and `path` is cached before the pass or queued by a handled parent.
   */
  lemma OrderAfter(t: Tree, cache: map<Path, CachedDir>, cache2: map<Path, CachedDir>, visited: seq<Path>, path: Path)
    requires QueuedInOrder(t, cache, visited) && path !in visited
    requires forall p | p != path && p in cache :: p in cache2 && cache2[p] == cache[p]
    requires path in t.cache || (Parent(path) in visited && Parent(path) in cache && path in cache[Parent(path)].folders)
    ensures QueuedInOrder(t, cache2, visited + [path])
  {
    var s := visited + [path];
    assert s[..|visited|] == visited;
    forall k | 0 <= k < |s|
      ensures s[k] in t.cache || (Parent(s[k]) in s[..k] && Parent(s[k]) in cache2 && s[k] in cache2[Parent(s[k])].folders)
    {
      if k < |visited| {
        assert s[k] == visited[k] && s[..k] == visited[..k];
        if visited[k] !in t.cache {
          assert Parent(visited[k]) in visited;
        }
      }
    }
  }

  /** Handling a directory not handled yet keeps the accounting of repeated pops. */
  lemma RepeatStep(checkDirs: set<Path>, done: set<Path>, skipped: set<Path>, path: Path, queued: set<Path>)
    requires InvRepeat(checkDirs, done, skipped) && path !in done
    requires forall f | f in queued :: Parent(f) == path && f != path
    ensures InvRepeat(checkDirs - {path} + queued, done + {path}, skipped)
  {
  }

  /** Popping a handled directory a second time records it, and it was not recorded before. */
  lemma RepeatSkip(checkDirs: set<Path>, done: set<Path>, skipped: set<Path>, path: Path)
    requires InvRepeat(checkDirs, done, skipped) && path in checkDirs && path in done
    ensures |skipped + {path}| == |skipped| + 1 && InvRepeat(checkDirs - {path}, done, skipped + {path})
  {
  }

  /** A set of handled directories has no more members than `visited` has entries. */
  lemma {:induction false} FewerThanVisited(skipped: set<Path>, visited: seq<Path>)
    requires forall p | p in skipped :: p in visited
    ensures |skipped| <= |visited|
    decreases |visited|
  {
    if visited != [] {
      var last := visited[|visited| - 1];
      var front := visited[..|visited| - 1];
      assert visited == front + [last];
      FewerThanVisited(skipped - {last}, front);
    }
  }

  lemma StepShape(t: Tree, fs: FileSystem, cfg: Config, r: Tree, checkDirs: set<Path>, path: Path)
    requires FsValid(fs) && InvShape(t, r, checkDirs) && path in checkDirs
    ensures var v := Step(r, fs, cfg, path); InvShape(t, v.tree, checkDirs - {path} + Queued(v, path))
  {
    var v := Step(r, fs, cfg, path);
    StepValid(r, fs, cfg, path);
    forall q | q in Queued(v, path)
      ensures Inside(q, t.root)
    {
      var e := v.tree.cache[path];
      assert EntryValid(path, e, t.root);
      InsideTransitive(q, path, t.root);
    }
  }

  lemma StepDone(t: Tree, fs: FileSystem, cfg: Config, r: Tree, checkDirs: set<Path>, done: set<Path>, visited: seq<Path>, path: Path)
    requires InvDone(t, fs, r, checkDirs, done, visited) && path in checkDirs && path !in done
    ensures var v := Step(r, fs, cfg, path);
      InvDone(t, fs, v.tree, checkDirs - {path} + Queued(v, path), done + {path}, visited + [path])
  {
    var v := Step(r, fs, cfg, path);
    assert path in v.tree.cache <==> path in fs;
    assert path in v.tree.cache ==> v.tree.cache[path].modified == fs[path].mtime;
    DoneAfter(t, fs, r, v.tree, checkDirs, done, visited, path, Queued(v, path));
  }

  /**
   * Handling `path` keeps `InvDone` for any successor whose cache differs
   * from `r`'s only at `path`, holds `path` exactly when it exists, and
   * then holds it at the disk's modification time.
   */
  lemma DoneAfter(t: Tree, fs: FileSystem, r: Tree, r2: Tree, checkDirs: set<Path>, done: set<Path>, visited: seq<Path>,
    path: Path, queued: set<Path>)
    requires InvDone(t, fs, r, checkDirs, done, visited) && path in checkDirs && path !in done
    requires forall p | p != path :: (p in r2.cache <==> p in r.cache)
    requires forall p | p != path && p in r.cache :: r2.cache[p] == r.cache[p]
    requires path in r2.cache <==> path in fs
    requires path in r2.cache ==> r2.cache[path].modified == fs[path].mtime
    ensures InvDone(t, fs, r2, checkDirs - {path} + queued, done + {path}, visited + [path])
  {
    var done2 := done + {path};
    VisitOnce(done, visited, path);
    assert t.cache.Keys <= done2 + (checkDirs - {path} + queued);
    assert forall p | p in r2.cache :: p in done2 || p in t.cache;
    assert forall p | p in r2.cache && p !in done2 :: r2.cache[p] == t.cache[p];
    assert forall p | p in t.cache && p !in done2 :: p in r2.cache;
    forall p | p in done2
      ensures p in fs <==> p in r2.cache
      ensures p in r2.cache ==> p in fs && r2.cache[p].modified == fs[p].mtime
    {
      if p != path {
        assert p in done;
        assert p in r2.cache <==> p in r.cache;
      }
    }
  }

  /** Appending a directory not handled yet keeps `visited` free of repeats and in step with `done`. */
  lemma VisitOnce(done: set<Path>, visited: seq<Path>, path: Path)
    requires forall i, j | 0 <= i < j < |visited| :: visited[i] != visited[j]
    requires forall q :: q in visited <==> q in done
    requires path !in done
    ensures forall i, j | 0 <= i < j < |visited + [path]| :: (visited + [path])[i] != (visited + [path])[j]
    ensures forall q :: q in visited + [path] <==> q in done + {path}
  {
  }

  /** A step handles `path` as `Dropped` and `Added` describe. */
  lemma StepPaths(t: Tree, fs: FileSystem, cfg: Config, r: Tree, checkDirs: set<Path>, done: set<Path>, visited: seq<Path>, path: Path)
    requires InvShape(t, r, checkDirs) && InvDone(t, fs, r, checkDirs, done, visited) && InvPaths(t, fs, cfg, r, visited)
    requires path !in done
    ensures InvPaths(t, fs, cfg, Step(r, fs, cfg, path).tree, visited + [path])
  {
    var r2 := Step(r, fs, cfg, path).tree;
    assert Known(r, path) == Known(t, path);
    StepEffect(t, fs, cfg, r, path);
    forall p
      ensures p in r2.allPaths <==> Indexed(t, fs, cfg, visited + [path], p)
    {
      if exists d | d in visited :: Added(t, fs, cfg, d, p) {
        var d :| d in visited && Added(t, fs, cfg, d, p);
        AddedNotDropped(t, fs, cfg, r, d, path, p);
      }
      IndexedAfter(t, fs, cfg, visited, path, p, p in r.allPaths, p in r2.allPaths);
    }
  }

  /** What a path listed afresh by another directory cannot be: dropped when `path` is handled. */
  lemma AddedNotDropped(t: Tree, fs: FileSystem, cfg: Config, r: Tree, d: Path, path: Path, p: Path)
    requires Added(t, fs, cfg, d, p) && d != path
    requires Valid(r) && Known(r, path) == Known(t, path)
    ensures !Dropped(t, fs, path, p)
  {
    ListedInside(fs, cfg, d, p, true, true);
    if path in r.cache {
      assert EntryValid(path, r.cache[path], r.root);
    }
  }

  /** A step on `path` takes out what `Dropped` names and puts in what `Added` names. */
  lemma StepEffect(t: Tree, fs: FileSystem, cfg: Config, r: Tree, path: Path)
    requires Known(r, path) == Known(t, path)
    ensures forall p :: p in Step(r, fs, cfg, path).tree.allPaths <==>
      (p in r.allPaths && !Dropped(t, fs, path, p)) || Added(t, fs, cfg, path, p)
  {
    var v := Step(r, fs, cfg, path);
    if v.outcome == Relisted {
      assert v.tree.cache[path] == Relist(fs, cfg, path);
    }
  }

  /** One path's membership after handling `path`, given that no earlier listing of it is dropped now. */
  lemma IndexedAfter(t: Tree, fs: FileSystem, cfg: Config, visited: seq<Path>, path: Path, p: Path, before: bool, after: bool)
    requires before <==> Indexed(t, fs, cfg, visited, p)
    requires (exists d | d in visited :: Added(t, fs, cfg, d, p)) ==> !Dropped(t, fs, path, p)
    requires after <==> (before && !Dropped(t, fs, path, p)) || Added(t, fs, cfg, path, p)
    ensures after <==> Indexed(t, fs, cfg, visited + [path], p)
  {
    assert forall d :: d in visited + [path] <==> d in visited || d == path;
  }

  lemma StepEntries(t: Tree, fs: FileSystem, cfg: Config, r: Tree, checkDirs: set<Path>, done: set<Path>, visited: seq<Path>, path: Path)
    requires InvDone(t, fs, r, checkDirs, done, visited) && InvEntries(t, fs, cfg, r)
    requires path !in done
    ensures InvEntries(t, fs, cfg, Step(r, fs, cfg, path).tree)
  {
    assert Known(r, path) == Known(t, path);
  }

  lemma StepSettled(t: Tree, fs: FileSystem, cfg: Config, r: Tree, checkDirs: set<Path>, path: Path)
    requires InvSettled(t, fs, r, checkDirs) && path in checkDirs
    ensures var v := Step(r, fs, cfg, path); InvSettled(t, fs, v.tree, checkDirs - {path} + Queued(v, path))
  {
    if Settled(t, fs) {
      var v := Step(r, fs, cfg, path);
      assert v.outcome == Unchanged;
      assert v.tree.cache == r.cache;
    }
  }

  lemma StepClosed(t: Tree, fs: FileSystem, cfg: Config, r: Tree, checkDirs: set<Path>, done: set<Path>, visited: seq<Path>, path: Path)
    requires InvDone(t, fs, r, checkDirs, done, visited) && InvClosed(t, fs, r, checkDirs, done)
    requires path in checkDirs && path !in done
    ensures var v := Step(r, fs, cfg, path); InvClosed(t, fs, v.tree, checkDirs - {path} + Queued(v, path), done + {path})
  {
    var v := Step(r, fs, cfg, path);
    if ClosedIn(t, fs) {
      forall p, f | p in v.tree.cache && f in v.tree.cache[p].folders && f in fs
        ensures f in done + {path} || f in checkDirs - {path} + Queued(v, path)
      {
        if p == path {
          if v.outcome == Unchanged {
            assert v.tree.cache[p] == Known(t, p);
            assert p in t.cache;
          }
        }
      }
    }
  }

  /** Handling a directory not handled yet keeps the pass invariant. */
  lemma PassStep(t: Tree, fs: FileSystem, cfg: Config, r: Tree, checkDirs: set<Path>,
    done: set<Path>, visited: seq<Path>, requireSort: bool, path: Path)
    requires FsValid(fs)
    requires PassInv(t, fs, cfg, r, checkDirs, done, visited, requireSort)
    requires path in checkDirs && path !in done
    ensures var v := Step(r, fs, cfg, path);
      PassInv(t, fs, cfg, v.tree, checkDirs - {path} + Queued(v, path), done + {path}, visited + [path],
        requireSort || v.outcome == Relisted)
  {
    StepShape(t, fs, cfg, r, checkDirs, path);
    StepPaths(t, fs, cfg, r, checkDirs, done, visited, path);
    StepDone(t, fs, cfg, r, checkDirs, done, visited, path);
    StepEntries(t, fs, cfg, r, checkDirs, done, visited, path);
    StepSettled(t, fs, cfg, r, checkDirs, path);
    StepClosed(t, fs, cfg, r, checkDirs, done, visited, path);
  }

  /** Handling a directory not handled yet keeps the record of the pass. */
  lemma RecordStep(t: Tree, fs: FileSystem, cfg: Config, r: Tree, checkDirs: set<Path>,
    done: set<Path>, visited: seq<Path>, path: Path)
    requires FsValid(fs) && InvShape(t, r, checkDirs) && InvDone(t, fs, r, checkDirs, done, visited)
    requires PassRecord(t, fs, cfg, r, checkDirs, done, visited)
    requires path in checkDirs && path !in done
    ensures var v := Step(r, fs, cfg, path);
      PassRecord(t, fs, cfg, v.tree, checkDirs - {path} + Queued(v, path), done + {path}, visited + [path])
  {
    StepVisited(t, fs, cfg, r, checkDirs, done, visited, path);
    StepStamp(t, fs, cfg, r, checkDirs, done, visited, path);
    StepQueued(t, fs, cfg, r, checkDirs, done, visited, path);
    StepRelisted(t, fs, cfg, r, checkDirs, done, visited, path);
  }

  /** Skipping a directory handled already keeps the pass invariant. */
  lemma PassSkip(t: Tree, fs: FileSystem, cfg: Config, r: Tree, checkDirs: set<Path>,
    done: set<Path>, visited: seq<Path>, requireSort: bool, path: Path)
    requires PassInv(t, fs, cfg, r, checkDirs, done, visited, requireSort)
    requires path in done
    ensures PassInv(t, fs, cfg, r, checkDirs - {path}, done, visited, requireSort)
  {
    SkipParts(t, fs, r, checkDirs, done, visited, path);
  }

  /** The parts of the pass invariant that mention the worklist survive dropping a handled directory from it. */
  lemma SkipParts(t: Tree, fs: FileSystem, r: Tree, checkDirs: set<Path>, done: set<Path>, visited: seq<Path>, path: Path)
    requires InvShape(t, r, checkDirs) && InvDone(t, fs, r, checkDirs, done, visited)
    requires InvSettled(t, fs, r, checkDirs) && InvClosed(t, fs, r, checkDirs, done)
    requires path in done
    ensures InvShape(t, r, checkDirs - {path}) && InvDone(t, fs, r, checkDirs - {path}, done, visited)
    ensures InvSettled(t, fs, r, checkDirs - {path}) && InvClosed(t, fs, r, checkDirs - {path}, done)
  {
  }

  /** Skipping a directory handled already keeps the record of the pass. */
  lemma RecordSkip(t: Tree, fs: FileSystem, cfg: Config, r: Tree, checkDirs: set<Path>,
    done: set<Path>, visited: seq<Path>, path: Path)
    requires PassRecord(t, fs, cfg, r, checkDirs, done, visited)
    requires path in done
    ensures PassRecord(t, fs, cfg, r, checkDirs - {path}, done, visited)
  {
    assert InvRelisted(t, fs, cfg, checkDirs - {path}, done) by {
      forall d, f | d in done && Stale(t, fs, d) && f in Relist(fs, cfg, d).folders
        ensures f in done || f in checkDirs - {path}
      {
      }
    }
  }

  /** With the worklist empty the pass has settled every cached directory. */
  lemma PassEnd(t: Tree, fs: FileSystem, cfg: Config, r: Tree, done: set<Path>, visited: seq<Path>, requireSort: bool)
    requires PassInv(t, fs, cfg, r, {}, done, visited, requireSort)
    ensures Settled(r, fs)
    ensures ClosedIn(t, fs) ==> ClosedIn(r, fs)
  {
  }

  /** The pass invariant, read as facts about the directories handled so far. */
  lemma PassHandled(t: Tree, fs: FileSystem, cfg: Config, r: Tree, checkDirs: set<Path>,
    done: set<Path>, visited: seq<Path>)
    requires InvDone(t, fs, r, checkDirs, done, visited) && InvVisited(t, fs, cfg, r, done)
    ensures HandledAsOnDisk(t, fs, cfg, r.cache, visited)
  {
  }

  /** The stamp counts the relisted directories, so it moved exactly when one was relisted. */
  lemma PassStamp(t: Tree, fs: FileSystem, r: Tree, visited: seq<Path>)
    requires InvStamp(t, fs, r, visited)
    ensures r.lastModified == t.lastModified + Relists(t, fs, visited)
    ensures r.lastModified != t.lastModified <==> exists d | d in visited :: Stale(t, fs, d)
  {
    RelistsSome(t, fs, visited);
  }

  /** The whole invariant of the loop of `reindex`, with its iteration count. */
  ghost predicate LoopInv(t: Tree, fs: FileSystem, cfg: Config, r: Tree, checkDirs: set<Path>, done: set<Path>,
    visited: seq<Path>, requireSort: bool, skipped: set<Path>, steps: nat)
  {
    && PassInv(t, fs, cfg, r, checkDirs, done, visited, requireSort)
    && PassRecord(t, fs, cfg, r, checkDirs, done, visited)
    && InvRepeat(checkDirs, done, skipped)
    && steps == |visited| + |skipped|
  }

  /** One iteration that handles a directory not handled yet. */
  lemma LoopStep(t: Tree, fs: FileSystem, cfg: Config, r: Tree, checkDirs: set<Path>, done: set<Path>,
    visited: seq<Path>, requireSort: bool, skipped: set<Path>, steps: nat, path: Path)
    requires FsValid(fs) && LoopInv(t, fs, cfg, r, checkDirs, done, visited, requireSort, skipped, steps)
    requires path in checkDirs && path !in done
    ensures var v := Step(r, fs, cfg, path);
      LoopInv(t, fs, cfg, v.tree, checkDirs - {path} + Queued(v, path), done + {path}, visited + [path],
        requireSort || v.outcome == Relisted, skipped, steps + 1)
  {
    PassStep(t, fs, cfg, r, checkDirs, done, visited, requireSort, path);
    RecordStep(t, fs, cfg, r, checkDirs, done, visited, path);
    QueuedChildren(r, fs, cfg, path);
    RepeatStep(checkDirs, done, skipped, path, Queued(Step(r, fs, cfg, path), path));
  }

  /** One iteration that pops a directory handled already. */
  lemma LoopSkip(t: Tree, fs: FileSystem, cfg: Config, r: Tree, checkDirs: set<Path>, done: set<Path>,
    visited: seq<Path>, requireSort: bool, skipped: set<Path>, steps: nat, path: Path)
    requires LoopInv(t, fs, cfg, r, checkDirs, done, visited, requireSort, skipped, steps)
    requires path in checkDirs && path in done
    ensures LoopInv(t, fs, cfg, r, checkDirs - {path}, done, visited, requireSort, skipped + {path}, steps + 1)
  {
    PassSkip(t, fs, cfg, r, checkDirs, done, visited, requireSort, path);
    RecordSkip(t, fs, cfg, r, checkDirs, done, visited, path);
    RepeatSkip(checkDirs, done, skipped, path);
  }

  /**
   * The loop of `reindex`: handle directories from the worklist until it is
   * empty or the budget is spent. Every iteration costs one unit of `fuel`.
   */
  method Loop(t: Tree, fs: FileSystem, cfg: Config, fuel: nat)
    returns (r: Tree, status: Status, visited: seq<Path>, steps: nat, requireSort: bool,
      ghost rest: set<Path>, ghost handled: set<Path>, ghost skipped: set<Path>)
    requires Valid(t) && FsValid(fs)
    ensures LoopInv(t, fs, cfg, r, rest, handled, visited, requireSort, skipped, steps)
    ensures status == Completed <==> rest == {}
    ensures steps <= fuel && (status == TimedOut ==> steps == fuel)
  {
    var checkDirs := t.cache.Keys;
    var done: set<Path> := {};
    requireSort := false;
    var budget := fuel;
    skipped := {};
    r := t;
    visited := [];
    steps := 0;
    PassStart(t, fs, cfg);
    assert LoopInv(t, fs, cfg, r, checkDirs, done, visited, requireSort, skipped, steps);
    var more := checkDirs != {};
    while more && budget > 0
      invariant more <==> checkDirs != {}
      invariant LoopInv(t, fs, cfg, r, checkDirs, done, visited, requireSort, skipped, steps)
      invariant steps + budget == fuel
      decreases budget
    {
      var path :| path in checkDirs;
      if path in done {
        LoopSkip(t, fs, cfg, r, checkDirs, done, visited, requireSort, skipped, steps, path);
        checkDirs := checkDirs - {path};
        skipped := skipped + {path};
      } else {
        LoopStep(t, fs, cfg, r, checkDirs, done, visited, requireSort, skipped, steps, path);
        var v := Step(r, fs, cfg, path);
        checkDirs := checkDirs - {path} + Queued(v, path);
        done := done + {path};
        visited := visited + [path];
        requireSort := requireSort || v.outcome == Relisted;
        r := v.tree;
      }
      budget := budget - 1;
      steps := steps + 1;
      more := checkDirs != {};
    }
    status := if more then TimedOut else Completed;
    rest, handled := checkDirs, done;
  }

  /** The iterations: one per handled directory, and at most one more for each. */
  lemma PassCount(visited: seq<Path>, done: set<Path>, checkDirs: set<Path>, skipped: set<Path>, steps: nat)
    requires forall q :: q in visited <==> q in done
    requires InvRepeat(checkDirs, done, skipped) && steps == |visited| + |skipped|
    ensures |visited| <= steps <= 2 * |visited|
  {
    FewerThanVisited(skipped, visited);
  }

  /** What the cache holds for the directories the pass did and did not handle. */
  lemma PassEntries(t: Tree, fs: FileSystem, cfg: Config, r: Tree)
    requires InvEntries(t, fs, cfg, r)
    ensures forall p | p in t.cache && p in fs && t.cache[p].modified == fs[p].mtime :: p in r.cache && r.cache[p] == t.cache[p]
    ensures forall p | p in r.cache :: r.cache[p] == Known(t, p) || (p in fs && r.cache[p] == Relist(fs, cfg, p))
  {
  }

  /** A completed pass handled every directory cached before it. */
  lemma PassCovers(t: Tree, fs: FileSystem, cfg: Config, r: Tree, done: set<Path>, visited: seq<Path>)
    requires InvDone(t, fs, r, {}, done, visited) && InvRelisted(t, fs, cfg, {}, done)
    ensures forall p | p in t.cache :: p in visited
    ensures forall d, f | d in visited && Stale(t, fs, d) && f in Relist(fs, cfg, d).folders :: f in visited
  {
  }

  /** A pass handles directories in the order `reindex`'s worklist allows, and leaves the cache as the disk says. */
  method RunPass(t: Tree, fs: FileSystem, cfg: Config, fuel: nat)
    returns (r: Tree, status: Status, visited: seq<Path>, steps: nat, requireSort: bool)
    requires Valid(t) && FsValid(fs)
    ensures Valid(r) && r.root == t.root && r.sortedTree == t.sortedTree
    ensures steps <= fuel && (status == TimedOut ==> steps == fuel)
    ensures |visited| <= steps <= 2 * |visited|
    ensures forall i, j | 0 <= i < j < |visited| :: visited[i] != visited[j]
    ensures QueuedInOrder(t, r.cache, visited)
    ensures HandledAsOnDisk(t, fs, cfg, r.cache, visited)
    ensures status == Completed ==> forall p | p in t.cache :: p in visited
    ensures status == Completed ==>
      forall d, f | d in visited && Stale(t, fs, d) && f in Relist(fs, cfg, d).folders :: f in visited
    ensures forall p | p in t.cache && p in fs && t.cache[p].modified == fs[p].mtime :: p in r.cache && r.cache[p] == t.cache[p]
    ensures forall p | p in r.cache :: r.cache[p] == Known(t, p) || (p in fs && r.cache[p] == Relist(fs, cfg, p))
    ensures forall p :: p in r.allPaths <==> Indexed(t, fs, cfg, visited, p)
    ensures r.lastModified == t.lastModified + Relists(t, fs, visited)
    ensures r.lastModified != t.lastModified <==> exists d | d in visited :: Stale(t, fs, d)
    ensures requireSort <==> r.lastModified != t.lastModified
    ensures Settled(t, fs) ==> r == t
    ensures status == Completed ==> Settled(r, fs)
    ensures status == Completed && ClosedIn(t, fs) ==> ClosedIn(r, fs)
  {
    ghost var checkDirs, done, skipped;
    r, status, visited, steps, requireSort, checkDirs, done, skipped := Loop(t, fs, cfg, fuel);
    PassCount(visited, done, checkDirs, skipped, steps);
    PassHandled(t, fs, cfg, r, checkDirs, done, visited);
    PassStamp(t, fs, r, visited);
    PassEntries(t, fs, cfg, r);
    if status == Completed {
      PassCovers(t, fs, cfg, r, done, visited);
      PassEnd(t, fs, cfg, r, done, visited, requireSort);
    }
  }

  /**
   * `reindex`: seed the worklist with every cached directory, handle each
   * directory at most once, queue the folders of every relisted directory,
   * and re-sort the index once at the end if anything was relisted. Every
   * loop iteration costs one unit of `fuel`; running out is the timeout,
   * which keeps the updates made so far but skips the sort. `visited` lists
   * the directories handled, in order, and `steps` counts the iterations:
   * one per handled directory, plus one for each directory popped a second
   * time after its parent's relisting queued it again.
   */
  method Reindex(t: Tree, fs: FileSystem, cfg: Config, fuel: nat) returns (r: Tree, status: Status, visited: seq<Path>, steps: nat)
    requires Valid(t) && FsValid(fs)
    ensures Valid(r) && r.root == t.root
    ensures steps <= fuel && (status == TimedOut ==> steps == fuel)
    ensures |visited| <= steps <= 2 * |visited|
    ensures forall i, j | 0 <= i < j < |visited| :: visited[i] != visited[j]
    ensures QueuedInOrder(t, r.cache, visited)
    ensures HandledAsOnDisk(t, fs, cfg, r.cache, visited)
    ensures status == Completed ==> forall p | p in t.cache :: p in visited
    ensures status == Completed ==>
      forall d, f | d in visited && Stale(t, fs, d) && f in Relist(fs, cfg, d).folders :: f in visited
    ensures forall p | p in t.cache && p in fs && t.cache[p].modified == fs[p].mtime :: p in r.cache && r.cache[p] == t.cache[p]
    ensures forall p | p in r.cache :: r.cache[p] == Known(t, p) || (p in fs && r.cache[p] == Relist(fs, cfg, p))
    ensures forall p :: p in r.allPaths <==> Indexed(t, fs, cfg, visited, p)
    ensures r.lastModified == t.lastModified + Relists(t, fs, visited)
    ensures r.lastModified != t.lastModified <==> exists d | d in visited :: Stale(t, fs, d)
    ensures Settled(t, fs) ==> r == t
    ensures status == TimedOut ==> r.sortedTree == t.sortedTree
    ensures status == Completed ==> Settled(r, fs)
    ensures status == Completed && ClosedIn(t, fs) ==> ClosedIn(r, fs)
    ensures status == Completed && r.lastModified == t.lastModified ==> r.sortedTree == t.sortedTree
    ensures status == Completed && r.lastModified != t.lastModified ==>
      SortedBy(r.sortedTree, FolderKeyOf(fs)) && multiset(r.sortedTree) == multiset(r.allPaths)
  {
    var requireSort;
    r, status, visited, steps, requireSort := RunPass(t, fs, cfg, fuel);
    if status == Completed && requireSort {
      var sorted := SortPaths(fs, r.allPaths);
      SortedInside(r, sorted);
      r := r.(sortedTree := sorted);
    }
  }

  /** A permutation of a valid tree's indexed paths may stand as its sorted index. */
  lemma SortedInside(r: Tree, sorted: seq<Path>)
    requires Valid(r) && multiset(sorted) == multiset(r.allPaths)
    ensures Valid(r.(sortedTree := sorted))
  {
    forall i | 0 <= i < |sorted|
      ensures Inside(sorted[i], r.root)
    {
      assert sorted[i] in multiset(r.allPaths);
    }
  }

  /** Running a second pass over an unchanged disk after a completed one changes nothing. */
  method ReindexAgain(t: Tree, fs: FileSystem, cfg: Config, fuel1: nat, fuel2: nat)
    returns (r1: Tree, s1: Status, r2: Tree, s2: Status)
    requires Valid(t) && FsValid(fs)
    ensures s1 == Completed ==> r2 == r1
  {
    var v1, v2, n1, n2;
    r1, s1, v1, n1 := Reindex(t, fs, cfg, fuel1);
    r2, s2, v2, n2 := Reindex(r1, fs, cfg, fuel2);
  }

  /**
   * The sorted index is determined by the set of paths alone: folders-first
   * keys of indexed paths never tie, so any two sorted arrangements agree.
   */
  lemma SortedTreeUnique(t: Tree, fs: FileSystem, a: seq<Path>, b: seq<Path>)
    requires Valid(t)
    requires SortedBy(a, FolderKeyOf(fs)) && multiset(a) == multiset(t.allPaths)
    requires SortedBy(b, FolderKeyOf(fs)) && multiset(b) == multiset(t.allPaths)
    ensures a == b
  {
    var xs := set x | x in a;
    forall p | p in xs
      ensures p.absolute && Canonical(p)
    {
      assert p in multiset(t.allPaths);
    }
    FolderKeyInjectiveOn(fs, xs);
    SortedUnique(a, b, FolderKeyOf(fs));
  }

  /** Why building a `DirectoryTree` can fail. */
  datatype BuildError = NotADirectory | IndexTimedOut

  /**
   * `DirectoryTree(root)`: the root must be a directory; the first pass runs
   * at once, and its timeout escapes the constructor.
   */
  method New(fs: FileSystem, cfg: Config, root: Path, fuel: nat) returns (r: Result<Tree, BuildError>)
    requires FsValid(fs) && root.absolute && Canonical(root)
    ensures r == Err(NotADirectory) <==> !IsDir(fs, root)
    ensures r.Ok? ==> Valid(r.value) && r.value.root == root && Settled(r.value, fs) && ClosedIn(r.value, fs)
    ensures r.Ok? ==> forall p | p in r.value.cache :: IsRelativeTo(p, root)
    ensures r.Ok? ==> forall p | p in r.value.cache && p in fs && fs[p].mtime != Never ::
      GetChildren(r.value, p) == Some(GetChildrenFromDisk(fs, cfg, p, true, true))
  {
    if !IsDir(fs, root) {
      return Err(NotADirectory);
    }
    var t := Initial(root);
    var t', status, visited, steps := Reindex(t, fs, cfg, fuel);
    if status == TimedOut {
      return Err(IndexTimedOut);
    }
    BuiltTree(fs, cfg, root, t');
    r := Ok(t');
  }

  /** What a completed first pass leaves: the facts `New` promises of its tree. */
  lemma BuiltTree(fs: FileSystem, cfg: Config, root: Path, r: Tree)
    requires root.absolute && Canonical(root)
    requires Valid(r) && r.root == root && Settled(r, fs)
    requires ClosedIn(Initial(root), fs) ==> ClosedIn(r, fs)
    requires forall p | p in r.cache :: r.cache[p] == Known(Initial(root), p) || (p in fs && r.cache[p] == Relist(fs, cfg, p))
    ensures ClosedIn(r, fs)
    ensures forall p | p in r.cache :: IsRelativeTo(p, root)
    ensures forall p | p in r.cache && p in fs && fs[p].mtime != Never ::
      GetChildren(r, p) == Some(GetChildrenFromDisk(fs, cfg, p, true, true))
  {
    var t := Initial(root);
    assert ClosedIn(t, fs);
    FreshListingsReplaced(t, r, fs, cfg);
    forall p | p in r.cache
      ensures IsRelativeTo(p, root)
    {
      assert EntryValid(p, r.cache[p], root);
    }
  }

  /**
   * After a pass from a cache of unlisted entries, every cached directory
   * whose modification time is not the "never" stamp holds its disk listing.
   */
  lemma FreshListingsReplaced(t: Tree, r: Tree, fs: FileSystem, cfg: Config)
    requires forall p | p in t.cache :: t.cache[p] == Fresh(p)
    requires forall p | p in r.cache :: r.cache[p] == Known(t, p) || (p in fs && r.cache[p] == Relist(fs, cfg, p))
    requires Settled(r, fs)
    ensures forall p | p in r.cache && p in fs && fs[p].mtime != Never :: r.cache[p].children == GetChildrenFromDisk(fs, cfg, p, true, true)
  {
  }

  /** `get_children(path)`: the cached listing, or `None` where `tree.py` raises `KeyError`. */
  function GetChildren(t: Tree, path: Path): (r: Option<seq<Path>>)
    requires Valid(t)
    ensures r.Some? <==> path in t.cache
    ensures r.Some? ==> r.value == t.cache[path].children
    ensures r.Some? ==> forall i | 0 <= i < |r.value| :: StrictlyBelow(r.value[i], path) && Parent(r.value[i]) == path
  {
    if path in t.cache then
      assert EntryValid(path, t.cache[path], t.root);
      Some(t.cache[path].children)
    else None
  }
}

=== FILE: disk_browser.dfy ===
/**
 * The disk browser of `editor/disk.py` (`Disk`): a list of paths with their
 * coloured representations, either the bookmarks or one directory's
 * listing, and the tree-drawn items the list shows. Resolving a bookmark,
 * `Session.repr_full_path` and `kx.escape_markup` are calls this model
 * takes as parameters.
 */
module DiskBrowser {
  import opened Wrappers
  import opened Strings
  import opened Paths
  import opened DirectoryTree

  const TreeTopPrefix: string := "╚╦═ "
  const TreeChildPrefix: string := " ╠═══ "
  const TreeChildPrefixLast: string := " ╚═══ "
  const MissingColor: string := "#ff0000"
  const FolderColor: string := "#0066ff"
  const FileColor: string := "#00ff66"
  const ParentColor: string := "#77aaff"

  /** `_wrap_color(t, color)`: Kivy markup for coloured text. */
  function WrapColor(t: string, color: string): string
  {
    "[color=" + color + "]" + t + "[/color]"
  }

  /** `_get_color(p)`: folders, files and missing paths each have their colour. */
  function ColorOf(fs: FileSystem, p: Path): (c: string)
    ensures c in {FolderColor, FileColor, MissingColor}
    ensures c == FolderColor <==> IsDir(fs, p)
    ensures c == MissingColor <==> p !in fs
  {
    if IsDir(fs, p) then FolderColor else if IsFile(fs, p) then FileColor else MissingColor
  }

  /**
   * `_path_repr(p, name_only)`: the name (or the full representation), with
   * a trailing "/" for a folder, in the path's colour.
   */
  function PathRepr(fs: FileSystem, fullRepr: Path -> string, p: Path, nameOnly: bool): (r: string)
    ensures var name := if nameOnly then Name(p) else fullRepr(p);
      r == WrapColor(if IsDir(fs, p) then name + "/" else name, ColorOf(fs, p))
  {
    var name := if nameOnly then Name(p) else fullRepr(p);
    if IsDir(fs, p) then WrapColor(name + "/", FolderColor)
    else if IsFile(fs, p) then WrapColor(name, FileColor)
    else WrapColor(name, MissingColor)
  }

  /**
   * What the browser shows: one path per row (`None` for the bookmarks
   * header) and the row's representation.
   */
  datatype View = View(paths: seq<Option<Path>>, reprs: seq<string>)
  {
    predicate Valid()
    {
      |paths| == |reprs| && |paths| > 0
    }
  }

  // ---------------------------------------------------------------------------
  // _refresh_items
  // ---------------------------------------------------------------------------

  /** The tree prefix of row `i` among `n`: the top, a middle child, or the last child. */
  function RowPrefix(i: nat, n: nat): string
  {
    if i == 0 then TreeTopPrefix else if i == n - 1 then TreeChildPrefixLast else TreeChildPrefix
  }

  /**
   * `_refresh_items`: the first representation under the top prefix, the
   * middle ones under the child prefix, and the last (when there are two
   * or more) under the last-child prefix.
   */
  function TreeItems(reprs: seq<string>): (items: seq<string>)
    requires |reprs| > 0
    ensures |items| == |reprs|
    ensures forall i | 0 <= i < |reprs| :: items[i] == RowPrefix(i, |reprs|) + reprs[i]
  {
    var n := |reprs|;
    if n > 1 then
      var middle := seq(n - 2, k requires 0 <= k < n - 2 => TreeChildPrefix + reprs[k + 1]);
      [TreeTopPrefix + reprs[0]] + middle + [TreeChildPrefixLast + reprs[n - 1]]
    else [TreeTopPrefix + reprs[0]]
  }

  /** Every item begins with a tree prefix and the representation follows it unchanged. */
  lemma TreeItemsKeepReprs(reprs: seq<string>)
    requires |reprs| > 0
    ensures forall i | 0 <= i < |reprs| ::
      var p := RowPrefix(i, |reprs|);
      StartsWith(TreeItems(reprs)[i], p) && TreeItems(reprs)[i][|p|..] == reprs[i]
  {
    forall i | 0 <= i < |reprs|
      ensures var p := RowPrefix(i, |reprs|);
        StartsWith(TreeItems(reprs)[i], p) && TreeItems(reprs)[i][|p|..] == reprs[i]
    {
      var p := RowPrefix(i, |reprs|);
      assert (p + reprs[i])[..|p|] == p;
      assert (p + reprs[i])[|p|..] == reprs[i];
    }
  }

  // ---------------------------------------------------------------------------
  // _set_dir
  // ---------------------------------------------------------------------------

  /** The anchor of `p`: "/" for an absolute path, "." for a relative one. */
  function Anchor(p: Path): Path
  {
    Path(p.absolute, [])
  }

  /**
   * The loop at the top of `_set_dir`: the nearest ancestor (or the path
   * itself) that is an existing directory. The anchor must be one, or the
   * loop would not end.
   */
  function Climb(fs: FileSystem, p: Path): (d: Path)
    requires IsDir(fs, Anchor(p))
    ensures IsDir(fs, d) && IsRelativeTo(p, d)
    ensures forall k | |d.parts| < k <= |p.parts| :: !IsDir(fs, Ancestor(p, k))
    decreases |p.parts|
  {
    if IsDir(fs, p) then
      assert p.parts[..|p.parts|] == p.parts;
      p
    else
      var q := Parent(p);
      assert Anchor(q) == Anchor(p);
      var d := Climb(fs, q);
      assert p.parts[..|d.parts|] == q.parts[..|d.parts|];
      assert forall k | |d.parts| < k <= |q.parts| :: Ancestor(q, k) == Ancestor(p, k);
      assert Ancestor(p, |p.parts|) == p;
      d
  }

  /**
   * `_set_dir(path)`: the nearest existing directory; its parent as the
   * first row, then its children as `get_children_from_disk` lists them
   * with no filtering, by name. Only the first row's full representation
   * goes through `escape`.
   */
  function SetDir(fs: FileSystem, cfg: Config, fullRepr: Path -> string, escape: string -> string, path: Path): (v: View)
    requires IsDir(fs, Anchor(path))
    ensures v.Valid()
    ensures v.paths[0] == Some(Parent(Climb(fs, path)))
    ensures v.reprs[0] == WrapColor(escape(fullRepr(Climb(fs, path))), ParentColor)
    ensures forall c :: Some(c) in v.paths[1..] <==> Listed(fs, cfg, Climb(fs, path), c, false, false)
    ensures forall i | 1 <= i < |v.paths| :: v.paths[i].Some? && v.reprs[i] == PathRepr(fs, fullRepr, v.paths[i].value, true)
    ensures var children := GetChildrenFromDisk(fs, cfg, Climb(fs, path), false, false);
      |v.paths| == |children| + 1 && forall i | 1 <= i < |v.paths| :: v.paths[i] == Some(children[i - 1])
  {
    var d := Climb(fs, path);
    var children := GetChildrenFromDisk(fs, cfg, d, false, false);
    var v := ListingView(fs, fullRepr, Parent(d), WrapColor(escape(fullRepr(d)), ParentColor), children);
    var rows := SomeRows(children);
    assert forall i | 0 <= i < |rows| :: v.paths[1..][i] == rows[i];
    assert v.paths[1..] == rows;
    v
  }

  /** A header row, then one row per child with its representation by name. */
  function ListingView(fs: FileSystem, fullRepr: Path -> string, head: Path, headRepr: string, children: seq<Path>): (v: View)
    ensures v.Valid() && v.paths[0] == Some(head) && v.reprs[0] == headRepr
    ensures |v.paths| == |children| + 1 && forall i | 1 <= i < |v.paths| :: v.paths[i] == Some(children[i - 1])
    ensures forall i | 1 <= i < |v.paths| :: v.reprs[i] == PathRepr(fs, fullRepr, children[i - 1], true)
  {
    View(
      seq(|children| + 1, i requires 0 <= i <= |children| => if i == 0 then Some(head) else Some(children[i - 1])),
      seq(|children| + 1, i requires 0 <= i <= |children| => if i == 0 then headRepr else PathRepr(fs, fullRepr, children[i - 1], true)))
  }

  /** Each path as a row. */
  function SomeRows(ps: seq<Path>): (rows: seq<Option<Path>>)
    ensures |rows| == |ps| && forall i | 0 <= i < |ps| :: rows[i] == Some(ps[i])
    ensures forall c :: Some(c) in rows <==> c in ps
  {
    var rows := seq(|ps|, i requires 0 <= i < |ps| => Some(ps[i]));
    assert forall c | c in ps :: Some(c) in rows by {
      forall c | c in ps ensures Some(c) in rows {
        var i :| 0 <= i < |ps| && ps[i] == c;
        assert rows[i] == Some(c);
      }
    }
    rows
  }

  // ---------------------------------------------------------------------------
  // Bookmarks
  // ---------------------------------------------------------------------------

  /** The `ValueError` of unpacking a bookmark with more than one ';'. */
  datatype BookmarkError = TooManyFields(bookmark: string)

  /**
   * One bookmark: `"file"` or `"file;name"`; the file is resolved by
   * `resolve`. With no name the label is the path's row representation,
   * itself coloured, coloured once more.
   */
  function Bookmark(fs: FileSystem, fullRepr: Path -> string, resolve: string -> Path, bm: string): (r: Result<(Path, string), BookmarkError>)
    ensures r.Err? <==> ';' in bm && |Split(bm, ';')| != 2
    ensures r.Ok? && ';' !in bm ==> r.value.0 == resolve(bm)
    ensures r.Ok? && ';' in bm ==> r.value.0 == resolve(Split(bm, ';')[0])
    ensures r.Ok? && (';' !in bm || Split(bm, ';')[1] == "") ==> r.value.1 == Unnamed(fs, fullRepr, r.value.0)
    ensures r.Ok? && ';' in bm && Split(bm, ';')[1] != "" ==> r.value.1 == WrapColor(Split(bm, ';')[1], ColorOf(fs, r.value.0))
  {
    var fields := Split(bm, ';');
    if ';' in bm && |fields| != 2 then Err(TooManyFields(bm))
    else
      var file, name := if ';' in bm then fields[0] else bm, if ';' in bm then fields[1] else "";
      var p := resolve(file);
      var shown := if name == "" then PathRepr(fs, fullRepr, p, false) else name;
      UnnamedWrapsTwice(fs, fullRepr, p);
      Ok((p, WrapColor(shown, ColorOf(fs, p))))
  }

  /** The label of an unnamed bookmark: the full representation, "/" for a folder, in the path's colour twice over. */
  function Unnamed(fs: FileSystem, fullRepr: Path -> string, p: Path): string
  {
    var color := ColorOf(fs, p);
    WrapColor(WrapColor(fullRepr(p) + (if IsDir(fs, p) then "/" else ""), color), color)
  }

  /** The unnamed label is the path's row representation coloured once more. */
  lemma UnnamedWrapsTwice(fs: FileSystem, fullRepr: Path -> string, p: Path)
    ensures WrapColor(PathRepr(fs, fullRepr, p, false), ColorOf(fs, p)) == Unnamed(fs, fullRepr, p)
  {
  }

  /** Each bookmark unpacked on its own. */
  function BookmarkResults(fs: FileSystem, fullRepr: Path -> string, resolve: string -> Path, bms: seq<string>)
    : (rs: seq<Result<(Path, string), BookmarkError>>)
    ensures |rs| == |bms| && forall i | 0 <= i < |bms| :: rs[i] == Bookmark(fs, fullRepr, resolve, bms[i])
  {
    seq(|bms|, i requires 0 <= i < |bms| => Bookmark(fs, fullRepr, resolve, bms[i]))
  }

  /** The index of the first error among `rs`, or `|rs|` when every one unpacked. */
  function FirstError<T, E>(rs: seq<Result<T, E>>): (k: nat)
    ensures k <= |rs| && forall j | 0 <= j < k :: rs[j].Ok?
    ensures k < |rs| ==> rs[k].Err?
  {
    if |rs| == 0 then 0
    else if rs[0].Err? then 0
    else 1 + FirstError(rs[1..])
  }

  /** The bookmarks in order, or the error of the first that cannot be unpacked. */
  function Bookmarks(fs: FileSystem, fullRepr: Path -> string, resolve: string -> Path, bms: seq<string>)
    : (r: Result<seq<(Path, string)>, BookmarkError>)
    ensures r.Ok? ==> |r.value| == |bms| && forall i | 0 <= i < |bms| :: Bookmark(fs, fullRepr, resolve, bms[i]) == Ok(r.value[i])
    ensures r.Err? ==> exists i | 0 <= i < |bms| ::
      Bookmark(fs, fullRepr, resolve, bms[i]) == Err(r.error)
      && forall j | 0 <= j < i :: Bookmark(fs, fullRepr, resolve, bms[j]).Ok?
    ensures r.Err? <==> exists i | 0 <= i < |bms| :: Bookmark(fs, fullRepr, resolve, bms[i]).Err?
  {
    var rs := BookmarkResults(fs, fullRepr, resolve, bms);
    var k := FirstError(rs);
    if k < |rs| then Err(rs[k].error)
    else Ok(seq(|rs|, i requires 0 <= i < |rs| => rs[i].value))
  }

  /**
   * `_create_bookmarks`: a `None` header row, one row per bookmark in the
   * setting's order, and the project folder last. A bookmark with more than
   * one ';' raises.
   */
  function CreateBookmarks(fs: FileSystem, fullRepr: Path -> string, resolve: string -> Path, bookmarks: seq<string>, root: Path)
    : (r: Result<View, BookmarkError>)
    ensures r.Err? <==> Bookmarks(fs, fullRepr, resolve, bookmarks).Err?
    ensures r.Ok? ==> r.value.Valid() && |r.value.paths| == |bookmarks| + 2
    ensures r.Ok? ==> r.value.paths[0] == None && r.value.reprs[0] == WrapColor("BOOKMARKS", ParentColor)
    ensures r.Ok? ==> (r.value.paths[|r.value.paths| - 1] == Some(root)
      && r.value.reprs[|r.value.reprs| - 1] == WrapColor("Project folder", FolderColor))
    ensures r.Ok? ==> forall i | 0 <= i < |bookmarks| ::
      var b := Bookmarks(fs, fullRepr, resolve, bookmarks).value[i];
      r.value.paths[i + 1] == Some(b.0) && r.value.reprs[i + 1] == b.1
  {
    match Bookmarks(fs, fullRepr, resolve, bookmarks)
    case Err(e) => Err(e)
    case Ok(bs) => Ok(BookmarkView(bs, root))
  }

  /**
   * The bookmarks view fails exactly when some bookmark cannot be unpacked;
   * otherwise row `i + 1` holds bookmark `i`'s path and representation.
   */
  lemma CreateBookmarksRows(fs: FileSystem, fullRepr: Path -> string, resolve: string -> Path, bookmarks: seq<string>, root: Path)
    ensures var r := CreateBookmarks(fs, fullRepr, resolve, bookmarks, root);
      r.Err? <==> exists i | 0 <= i < |bookmarks| :: Bookmark(fs, fullRepr, resolve, bookmarks[i]).Err?
    ensures var r := CreateBookmarks(fs, fullRepr, resolve, bookmarks, root);
      r.Ok? ==> forall i | 0 <= i < |bookmarks| ::
        var b := Bookmark(fs, fullRepr, resolve, bookmarks[i]);
        b.Ok? && r.value.paths[i + 1] == Some(b.value.0) && r.value.reprs[i + 1] == b.value.1
  {
    var r := CreateBookmarks(fs, fullRepr, resolve, bookmarks, root);
    if r.Ok? {
      var bs := Bookmarks(fs, fullRepr, resolve, bookmarks).value;
      forall i | 0 <= i < |bookmarks|
        ensures var b := Bookmark(fs, fullRepr, resolve, bookmarks[i]);
          b.Ok? && r.value.paths[i + 1] == Some(b.value.0) && r.value.reprs[i + 1] == b.value.1
      {
        assert r.value.paths[i + 1] == Some(bs[i].0) && r.value.reprs[i + 1] == bs[i].1;
      }
    }
  }

  /** The bookmark rows between the header and the project folder. */
  function BookmarkView(bs: seq<(Path, string)>, root: Path): (v: View)
    ensures v.Valid() && |v.paths| == |bs| + 2
    ensures v.paths[0] == None && v.reprs[0] == WrapColor("BOOKMARKS", ParentColor)
    ensures v.paths[|v.paths| - 1] == Some(root) && v.reprs[|v.reprs| - 1] == WrapColor("Project folder", FolderColor)
    ensures forall i | 0 <= i < |bs| :: v.paths[i + 1] == Some(bs[i].0) && v.reprs[i + 1] == bs[i].1
  {
    View([None] + BookmarkPaths(bs) + [Some(root)],
      [WrapColor("BOOKMARKS", ParentColor)] + BookmarkReprs(bs) + [WrapColor("Project folder", FolderColor)])
  }

  function BookmarkPaths(bs: seq<(Path, string)>): (r: seq<Option<Path>>)
    ensures |r| == |bs| && forall i | 0 <= i < |bs| :: r[i] == Some(bs[i].0)
  {
    seq(|bs|, i requires 0 <= i < |bs| => Some(bs[i].0))
  }

  function BookmarkReprs(bs: seq<(Path, string)>): (r: seq<string>)
    ensures |r| == |bs| && forall i | 0 <= i < |bs| :: r[i] == bs[i].1
  {
    seq(|bs|, i requires 0 <= i < |bs| => bs[i].1)
  }

  // ---------------------------------------------------------------------------
  // Navigation
  // ---------------------------------------------------------------------------

  /** `_browse_back`: list the first row's directory, unless the first row is the bookmarks header. */
  function BrowseBack(fs: FileSystem, cfg: Config, fullRepr: Path -> string, escape: string -> string, v: View): (r: View)
    requires v.Valid()
    requires v.paths[0].Some? ==> IsDir(fs, Anchor(v.paths[0].value))
    ensures v.paths[0].None? ==> r == v
    ensures v.paths[0].Some? ==> r == SetDir(fs, cfg, fullRepr, escape, v.paths[0].value)
  {
    match v.paths[0]
    case None => v
    case Some(p) => SetDir(fs, cfg, fullRepr, escape, p)
  }

  /**
   * Browsing back from a directory listed in its parent lists the parent,
   * and the directory just left is one of the rows.
   */
  lemma BackListsCurrent(fs: FileSystem, cfg: Config, fullRepr: Path -> string, escape: string -> string, d: Path)
    requires IsDir(fs, Anchor(d)) && IsDir(fs, d) && |d.parts| > 0
    requires IsDir(fs, Parent(d)) && Name(d) in fs[Parent(d)].entries
    ensures var back := BrowseBack(fs, cfg, fullRepr, escape, SetDir(fs, cfg, fullRepr, escape, d));
      back.reprs[0] == WrapColor(escape(fullRepr(Parent(d))), ParentColor) && Some(d) in back.paths[1..]
  {
    var q := Parent(d);
    assert Anchor(q) == Anchor(d);
    assert Climb(fs, q) == q;
    var names := fs[q].entries;
    var i :| 0 <= i < |names| && names[i] == Name(d);
    assert d == Child(q, Name(d));
    assert IterDir(fs, q)[i] == d;
    assert Listed(fs, cfg, q, d, false, false);
  }
}

=== FILE: file_util.dfy ===
/**
 * Path helpers of `util/file.py`: the `FileCursor` record, `try_relative`,
 * the directory-tree text and the recursive file search.
 */
module FileUtil {
  import opened Wrappers
  import opened Strings
  import opened Paths
  import opened Seqs
  import opened Sorting
  import opened SortKeys

  /** A file and a cursor position (line, column); the code types the cursor as a pair. */
  datatype FileCursor = FileCursor(file: Path, cursor: seq<int>)

  /** `FileCursor(file)`: the cursor defaults to line 1, column 0. */
  function NewFileCursor(file: Path): (fc: FileCursor)
    ensures fc.file == file && |fc.cursor| == 2 && fc.cursor[0] == 1 && fc.cursor[1] == 0
  {
    FileCursor(file, [1, 0])
  }

  /** `try_relative(path, dir)`: relative to `dir` when inside it, else unchanged. */
  function TryRelative(path: Path, dir: Path): (r: Path)
    ensures IsRelativeTo(path, dir) ==> !r.absolute && JoinPath(dir, r) == path
    ensures !IsRelativeTo(path, dir) ==> r == path
  {
    if IsRelativeTo(path, dir) then RelativeTo(path, dir) else path
  }

  /** Whatever `try_relative` returns, joining it back onto `dir` gives the path again. */
  lemma TryRelativeJoin(path: Path, dir: Path)
    requires path.absolute
    ensures JoinPath(dir, TryRelative(path, dir)) == path
  {
  }

  // ---------------------------------------------------------------------------
  // format_dir_tree
  // ---------------------------------------------------------------------------

  /** One listed path: two spaces, the path, and "/" when it is a directory. */
  function TreeLine(p: Path, isDir: bool): string
  {
    "  " + Str(p) + (if isDir then "/" else "")
  }

  /**
   * The lines of `format_dir_tree(files, relative_dir)` as written: each path
   * is made relative first and then asked `is_dir()`, which for a relative
   * path consults the process's working directory `cwd`.
   */
  function FormatLinesAsWritten(fs: FileSystem, cwd: Path, files: seq<Path>, relativeDir: Option<Path>): (r: seq<string>)
    ensures |r| == 1 + |files|
    ensures r[0] == Str(relativeDir.GetOr(Root))
  {
    var rd := relativeDir.GetOr(Root);
    [Str(rd)] + seq(|files|, i requires 0 <= i < |files| =>
      var f := TryRelative(files[i], rd);
      TreeLine(f, IsDir(fs, JoinPath(cwd, f))))
  }

  /** The intended lines: whether a path is a directory is decided before making it relative. */
  function FormatLines(fs: FileSystem, cwd: Path, files: seq<Path>, relativeDir: Option<Path>): (r: seq<string>)
    ensures |r| == 1 + |files|
    ensures r[0] == Str(relativeDir.GetOr(Root))
    ensures forall i | 0 <= i < |files| ::
      r[i + 1] == TreeLine(TryRelative(files[i], relativeDir.GetOr(Root)), IsDir(fs, JoinPath(cwd, files[i])))
  {
    var rd := relativeDir.GetOr(Root);
    [Str(rd)] + seq(|files|, i requires 0 <= i < |files| =>
      TreeLine(TryRelative(files[i], rd), IsDir(fs, JoinPath(cwd, files[i]))))
  }

  /** `format_dir_tree`: the header line and one line per path, joined by newlines. */
  function FormatDirTree(fs: FileSystem, cwd: Path, files: seq<Path>, relativeDir: Option<Path>): string
  {
    Join(FormatLines(fs, cwd, files, relativeDir), "\n")
  }

  /** A path none of whose components holds a newline. */
  predicate NoNewline(p: Path)
  {
    forall k | 0 <= k < |p.parts| :: '\n' !in p.parts[k]
  }

  lemma StrNoNewline(p: Path)
    requires NoNewline(p)
    ensures '\n' !in Str(p)
  {
    if p.absolute || |p.parts| > 0 {
      JoinAvoids(p.parts, '/', '\n');
    }
  }

  /** Making a path relative keeps its components, so no newline appears. */
  lemma TryRelativeNoNewline(path: Path, dir: Path)
    requires NoNewline(path)
    ensures NoNewline(TryRelative(path, dir))
  {
    var f := TryRelative(path, dir);
    if IsRelativeTo(path, dir) {
      forall j | 0 <= j < |f.parts|
        ensures '\n' !in f.parts[j]
      {
        assert f.parts[j] == path.parts[j + |dir.parts|];
      }
    }
  }

  /** A listed line holds a newline only if its path does. */
  lemma TreeLineNoNewline(p: Path, isDir: bool)
    requires NoNewline(p)
    ensures '\n' !in TreeLine(p, isDir)
  {
    StrNoNewline(p);
  }

  /**
   * When no path holds a newline, the text has exactly one line per listed
   * path after the header, and splitting it gives the lines back.
   */
  lemma FormatDirTreeLines(fs: FileSystem, cwd: Path, files: seq<Path>, relativeDir: Option<Path>)
    requires NoNewline(relativeDir.GetOr(Root))
    requires forall i | 0 <= i < |files| :: NoNewline(files[i])
    ensures Split(FormatDirTree(fs, cwd, files, relativeDir), '\n') == FormatLines(fs, cwd, files, relativeDir)
    ensures |Split(FormatDirTree(fs, cwd, files, relativeDir), '\n')| == 1 + |files|
  {
    var rd := relativeDir.GetOr(Root);
    var lines := FormatLines(fs, cwd, files, relativeDir);
    forall k | 0 <= k < |lines|
      ensures '\n' !in lines[k]
    {
      if k == 0 {
        StrNoNewline(rd);
      } else {
        TryRelativeNoNewline(files[k - 1], rd);
        TreeLineNoNewline(TryRelative(files[k - 1], rd), IsDir(fs, JoinPath(cwd, files[k - 1])));
      }
    }
    SplitJoin(lines, '\n');
  }

  /** When the working directory is the directory the paths are shown relative to, the two agree. */
  lemma FormatAsWrittenInRelativeDir(fs: FileSystem, files: seq<Path>, rd: Path)
    requires forall i | 0 <= i < |files| :: files[i].absolute
    ensures FormatLinesAsWritten(fs, rd, files, Some(rd)) == FormatLines(fs, rd, files, Some(rd))
  {
    var a := FormatLinesAsWritten(fs, rd, files, Some(rd));
    var b := FormatLines(fs, rd, files, Some(rd));
    forall i | 1 <= i < |a|
      ensures a[i] == b[i]
    {
      TryRelativeJoin(files[i - 1], rd);
    }
    assert a == b;
  }

  /**
   * Run from `/`, a directory `/p/d` listed relative to `/p` is looked up as
   * `/d`, so the line loses its trailing "/".
   */
  lemma FormatAsWrittenMissesDirectory()
    ensures var fs := map[Path(true, ["p"]) := Dir(0, ["d"]), Path(true, ["p", "d"]) := Dir(0, [])];
      var files := [Path(true, ["p", "d"])];
      FormatLinesAsWritten(fs, Root, files, Some(Path(true, ["p"])))[1] == "  d"
      && FormatLines(fs, Root, files, Some(Path(true, ["p"])))[1] == "  d/"
  {
    var fs := map[Path(true, ["p"]) := Dir(0, ["d"]), Path(true, ["p", "d"]) := Dir(0, [])];
    var rel := TryRelative(Path(true, ["p", "d"]), Path(true, ["p"]));
    assert Path(true, ["p", "d"]).parts[..1] == ["p"];
    assert rel == Path(false, ["d"]);
    assert JoinPath(Root, rel) == Path(true, ["d"]);
    assert Path(true, ["d"]) !in fs;
    assert Str(rel) == "d";
  }

  // ---------------------------------------------------------------------------
  // search_files
  // ---------------------------------------------------------------------------

  /** `child.suffix[1:]`: the extension without its dot. */
  function Extension(name: string): string
  {
    var s := Suffix(name);
    if |s| == 0 then "" else s[1..]
  }

  /** The filters of a search. */
  datatype SearchOptions = SearchOptions(
    pattern: string,
    ignoreNames: set<string>,
    ignoreMatches: seq<string>,
    fileTypes: set<string>)

  /** Some ignore match occurs in the path string. */
  predicate MatchesIgnored(opts: SearchOptions, c: Path)
  {
    exists k | 0 <= k < |opts.ignoreMatches| :: Contains(Str(c), opts.ignoreMatches[k])
  }

  /** A child the search neither yields nor enters. */
  predicate Skipped(opts: SearchOptions, c: Path)
  {
    Name(c) in opts.ignoreNames || MatchesIgnored(opts, c)
  }

  /** A file passes the pattern (through the fuzzy matcher) and the extension filter. */
  predicate FileWanted(opts: SearchOptions, c: Path, fuzzy: (string, string) -> bool)
  {
    (Lower(opts.pattern) == "" || fuzzy(Lower(opts.pattern), Lower(Str(c))))
    && (opts.fileTypes == {} || Extension(Name(c)) in opts.fileTypes)
  }

  /** `child_sort`: "1" for directories when breadth-first ("0" otherwise), then the path. */
  function ChildSortKey(fs: FileSystem, breadthFirst: bool): Path -> string
  {
    (c: Path) => (if (if breadthFirst then IsDir(fs, c) else !IsDir(fs, c)) then "1" else "0") + Str(c)
  }

  /** What the loop yields of a child it does not skip or descend into: a directory once the depth is used up, or a wanted file. */
  predicate Emitted(fs: FileSystem, opts: SearchOptions, depth: int, fuzzy: (string, string) -> bool, c: Path)
  {
    (IsDir(fs, c) && depth == 0) || (IsFile(fs, c) && FileWanted(opts, c, fuzzy))
  }

  /** A child the loop yields itself. */
  predicate YieldedDirectly(fs: FileSystem, opts: SearchOptions, depth: int, fuzzy: (string, string) -> bool, c: Path)
  {
    !Skipped(opts, c) && Emitted(fs, opts, depth, fuzzy, c)
  }

  /** The entries `search_files` looks at: the first `maxBranching` of the listing. */
  function Considered(fs: FileSystem, dir: Path, maxBranching: nat): seq<Path>
  {
    IterDir(fs, dir)[..Min(maxBranching, |IterDir(fs, dir)|)]
  }

  /** The entries a walk looks at in `d`: the first `limit` of the listing, or all of it. */
  function Entries(fs: FileSystem, d: Path, limit: Option<nat>): (r: seq<Path>)
    ensures forall i | 0 <= i < |r| :: r[i] in IterDir(fs, d)
  {
    match limit
    case None => IterDir(fs, d)
    case Some(n) => Considered(fs, d, n)
  }

  /**
   * A walk from `dir` at `depth` passes through the `k`-th ancestor of `c`:
   * a directory, not at the level where the depth runs out, that lists the
   * next ancestor among the entries it looks at.
   */
  predicate Descends(fs: FileSystem, dir: Path, depth: int, c: Path, k: nat, inner: Option<nat>)
    requires k < |c.parts|
  {
    k != |dir.parts| + 1 + depth && IsDir(fs, Ancestor(c, k)) && Ancestor(c, k + 1) in Entries(fs, Ancestor(c, k), inner)
  }

  /**
   * The walk from `dir` at `depth` arrives at `c` and yields it: each
   * directory strictly between `dir` and `c` exists, still has depth to
   * spend, and lists the next step among the entries `inner` lets it look
   * at; nothing from `dir`'s entry down to `c` is skipped; and `c` is yielded
   * with the depth that is left.
   */
  ghost predicate Walked(fs: FileSystem, dir: Path, opts: SearchOptions, inner: Option<nat>, depth: int,
    fuzzy: (string, string) -> bool, c: Path)
  {
    && StrictlyBelow(c, dir)
    && (forall k | |dir.parts| < k < |c.parts| :: Descends(fs, dir, depth, c, k, inner))
    && (forall k | |dir.parts| < k <= |c.parts| :: !Skipped(opts, Ancestor(c, k)))
    && Emitted(fs, opts, depth + |dir.parts| + 1 - |c.parts|, fuzzy, c)
  }

  /** What a walk of `dir` yields: the paths it arrives at through one of the entries `first` lets it look at. */
  ghost predicate Reached(fs: FileSystem, dir: Path, opts: SearchOptions, first: Option<nat>, inner: Option<nat>,
    depth: int, fuzzy: (string, string) -> bool, c: Path)
  {
    Walked(fs, dir, opts, inner, depth, fuzzy, c) && Ancestor(c, |dir.parts| + 1) in Entries(fs, dir, first)
  }

  /** The entry of `dir` that `c` lies under. */
  function Top(c: Path, dir: Path): Path
    requires StrictlyBelow(c, dir)
  {
    Ancestor(c, |dir.parts| + 1)
  }

  /**
   * `search_files(dir, pattern, ...)`: the first `maxBranching` entries of the
   * listing, sorted by `child_sort`, walked in order. Recursive calls use the
   * defaults for `breadth_first` (true) and `max_branching` (100). It yields
   * exactly the paths the walk reaches, grouped by the entry of `dir` they
   * lie under, in `child_sort` order of those entries.
   */
  function SearchFiles(fs: FileSystem, dir: Path, opts: SearchOptions, breadthFirst: bool, maxBranching: nat,
    depth: int, fuzzy: (string, string) -> bool): (r: seq<Path>)
    ensures forall c :: c in r <==> Reached(fs, dir, opts, Some(maxBranching), Some(100), depth, fuzzy, c)
    ensures forall i | 0 <= i < |r| :: StrictlyBelow(r[i], dir)
    ensures forall i, j | 0 <= i < j < |r| ::
      !LexLess(ChildSortKey(fs, breadthFirst)(Top(r[j], dir)), ChildSortKey(fs, breadthFirst)(Top(r[i], dir)))
    ensures DistinctListings(fs) ==> Distinct(r)
    decreases |Below(fs, dir)|, 1, 0
  {
    var considered := Considered(fs, dir, maxBranching);
    var ordered := SortBy(considered, ChildSortKey(fs, breadthFirst));
    EntriesReady(fs, dir, considered, ordered);
    ConsideredDistinct(fs, dir, maxBranching, ordered);
    SearchChildren(fs, dir, ordered, breadthFirst, opts, depth, fuzzy)
  }

  /**
   * A sorted arrangement of some of a directory's entries meets what the
   * loop asks of its children, and lies under the same entries.
   */
  lemma EntriesReady(fs: FileSystem, dir: Path, pool: seq<Path>, ordered: seq<Path>)
    requires forall i | 0 <= i < |pool| :: pool[i] in IterDir(fs, dir)
    requires multiset(ordered) == multiset(pool)
    ensures forall x :: x in ordered <==> x in pool
    ensures forall i | 0 <= i < |ordered| :: StrictlyBelow(ordered[i], dir) && |ordered[i].parts| == |dir.parts| + 1
  {
    SameMembers(ordered, pool);
    forall i | 0 <= i < |ordered|
      ensures StrictlyBelow(ordered[i], dir) && |ordered[i].parts| == |dir.parts| + 1
    {
      assert ordered[i] in pool;
      assert Parent(ordered[i]) == dir;
    }
  }

  function Min(a: int, b: int): int
  {
    if a < b then a else b
  }

  /**
   * The loop of `search_files` over the children `kids`, sorted by
   * `child_sort`: it yields exactly the walked paths under those children,
   * in the children's order.
   */
  function SearchChildren(fs: FileSystem, dir: Path, kids: seq<Path>, breadthFirst: bool, opts: SearchOptions,
    depth: int, fuzzy: (string, string) -> bool): (r: seq<Path>)
    requires forall i | 0 <= i < |kids| :: StrictlyBelow(kids[i], dir) && |kids[i].parts| == |dir.parts| + 1
    requires SortedBy(kids, ChildSortKey(fs, breadthFirst))
    ensures forall c :: c in r <==> Walked(fs, dir, opts, Some(100), depth, fuzzy, c) && Top(c, dir) in kids
    ensures forall i | 0 <= i < |r| :: StrictlyBelow(r[i], dir)
    ensures forall i, j | 0 <= i < j < |r| ::
      !LexLess(ChildSortKey(fs, breadthFirst)(Top(r[j], dir)), ChildSortKey(fs, breadthFirst)(Top(r[i], dir)))
    ensures DistinctListings(fs) && Distinct(kids) ==> Distinct(r)
    decreases |Below(fs, dir)|, 0, |kids|
  {
    if |kids| == 0 then []
    else
      var c := kids[0];
      SortedTail(kids, ChildSortKey(fs, breadthFirst));
      var rest := SearchChildren(fs, dir, kids[1..], breadthFirst, opts, depth, fuzzy);
      var block := (
        if !Skipped(opts, c) && IsDir(fs, c) && depth != 0 then
          BelowShrinks(fs, dir, c);
          BlockBelow(fs, dir, c, opts, Some(100), depth, fuzzy);
          SearchFiles(fs, c, opts, true, 100, depth - 1, fuzzy)
        else
          BlockOnly(fs, dir, c, opts, Some(100), depth, fuzzy);
          if YieldedDirectly(fs, opts, depth, fuzzy, c) then [c] else []);
      Assemble(fs, dir, kids, ChildSortKey(fs, breadthFirst), opts, Some(100), depth, fuzzy, block, rest);
      AssembleDistinct(fs, dir, kids, opts, Some(100), depth, fuzzy, block, rest);
      block + rest
  }

  /** Sorting the first entries of a listing without repeats leaves none. */
  lemma ConsideredDistinct(fs: FileSystem, dir: Path, maxBranching: nat, ordered: seq<Path>)
    requires multiset(ordered) == multiset(Considered(fs, dir, maxBranching))
    ensures DistinctListings(fs) ==> Distinct(ordered)
  {
    if DistinctListings(fs) {
      var all := IterDir(fs, dir);
      IterDirDistinct(fs, dir);
      var considered := Considered(fs, dir, maxBranching);
      assert Distinct(considered) by {
        forall i, j | 0 <= i < j < |considered|
          ensures considered[i] != considered[j]
        {
          assert considered[i] == all[i] && considered[j] == all[j];
        }
      }
      DistinctPermutation(considered, ordered);
    }
  }

  /**
   * The blocks of distinct children share no path, since each path lies
   * under one child; so the loop repeats nothing when no block does.
   */
  lemma AssembleDistinct(fs: FileSystem, dir: Path, kids: seq<Path>, opts: SearchOptions,
    inner: Option<nat>, depth: int, fuzzy: (string, string) -> bool, block: seq<Path>, rest: seq<Path>)
    requires |kids| > 0
    requires forall c :: c in block <==> Walked(fs, dir, opts, inner, depth, fuzzy, c) && Top(c, dir) == kids[0]
    requires forall c :: c in rest <==> Walked(fs, dir, opts, inner, depth, fuzzy, c) && Top(c, dir) in kids[1..]
    requires DistinctListings(fs) ==> Distinct(block)
    requires DistinctListings(fs) && Distinct(kids[1..]) ==> Distinct(rest)
    ensures DistinctListings(fs) && Distinct(kids) ==> Distinct(block + rest)
  {
    if DistinctListings(fs) && Distinct(kids) {
      var tail := kids[1..];
      assert Distinct(tail) by {
        forall i, j | 0 <= i < j < |tail|
          ensures tail[i] != tail[j]
        {
          assert tail[i] == kids[i + 1] && tail[j] == kids[j + 1];
        }
      }
      assert kids[0] !in tail by {
        forall k | 0 <= k < |tail|
          ensures tail[k] != kids[0]
        {
          assert tail[k] == kids[k + 1];
        }
      }
      DistinctAppend(block, rest);
    }
  }

  /** The tail of a sorted sequence is sorted. */
  lemma SortedTail<T>(s: seq<T>, key: T -> string)
    requires SortedBy(s, key) && |s| > 0
    ensures SortedBy(s[1..], key)
  {
    forall i, j | 0 <= i < j < |s[1..]|
      ensures !LexLess(key(s[1..][j]), key(s[1..][i]))
    {
      assert s[1..][i] == s[i + 1] && s[1..][j] == s[j + 1];
    }
  }

  /**
   * A child the loop does not descend into contributes itself when it is
   * yielded directly, and no walked path lies under it otherwise.
   */
  lemma BlockOnly(fs: FileSystem, dir: Path, c0: Path, opts: SearchOptions, inner: Option<nat>, depth: int,
    fuzzy: (string, string) -> bool)
    requires StrictlyBelow(c0, dir) && |c0.parts| == |dir.parts| + 1
    requires !(!Skipped(opts, c0) && IsDir(fs, c0) && depth != 0)
    ensures forall c :: ((Walked(fs, dir, opts, inner, depth, fuzzy, c) && Top(c, dir) == c0)
      <==> c == c0 && YieldedDirectly(fs, opts, depth, fuzzy, c0))
  {
    AncestorWhole(c0);
    forall c | Walked(fs, dir, opts, inner, depth, fuzzy, c) && Top(c, dir) == c0
      ensures c == c0
    {
      var d := |dir.parts|;
      if |c.parts| > d + 1 {
        PassesTop(fs, dir, opts, inner, depth, fuzzy, c);
        assert false;
      }
      AncestorWhole(c);
    }
    if YieldedDirectly(fs, opts, depth, fuzzy, c0) {
      assert Walked(fs, dir, opts, inner, depth, fuzzy, c0);
    }
  }

  /** A walked path below an entry of `dir` passes through that entry, which is not skipped. */
  lemma PassesTop(fs: FileSystem, dir: Path, opts: SearchOptions, inner: Option<nat>, depth: int,
    fuzzy: (string, string) -> bool, c: Path)
    requires Walked(fs, dir, opts, inner, depth, fuzzy, c) && |c.parts| > |dir.parts| + 1
    ensures Descends(fs, dir, depth, c, |dir.parts| + 1, inner) && !Skipped(opts, Top(c, dir))
  {
  }

  /**
   * Under a child the loop descends into, the walked paths are exactly what
   * the walk of that child reaches with one less depth.
   */
  lemma BlockBelow(fs: FileSystem, dir: Path, c0: Path, opts: SearchOptions, inner: Option<nat>, depth: int,
    fuzzy: (string, string) -> bool)
    requires StrictlyBelow(c0, dir) && |c0.parts| == |dir.parts| + 1
    requires !Skipped(opts, c0) && IsDir(fs, c0) && depth != 0
    ensures forall c :: ((Walked(fs, dir, opts, inner, depth, fuzzy, c) && Top(c, dir) == c0)
      <==> Reached(fs, c0, opts, inner, inner, depth - 1, fuzzy, c))
  {
    forall c | Walked(fs, dir, opts, inner, depth, fuzzy, c) && Top(c, dir) == c0
      ensures Reached(fs, c0, opts, inner, inner, depth - 1, fuzzy, c)
    {
      WalkDown(fs, dir, c0, opts, inner, depth, fuzzy, c);
    }
    forall c | Reached(fs, c0, opts, inner, inner, depth - 1, fuzzy, c)
      ensures Walked(fs, dir, opts, inner, depth, fuzzy, c) && Top(c, dir) == c0
    {
      WalkUp(fs, dir, c0, opts, inner, depth, fuzzy, c);
    }
  }

  lemma WalkDown(fs: FileSystem, dir: Path, c0: Path, opts: SearchOptions, inner: Option<nat>, depth: int,
    fuzzy: (string, string) -> bool, c: Path)
    requires StrictlyBelow(c0, dir) && |c0.parts| == |dir.parts| + 1
    requires !Skipped(opts, c0) && IsDir(fs, c0) && depth != 0
    requires Walked(fs, dir, opts, inner, depth, fuzzy, c) && Top(c, dir) == c0
    ensures Reached(fs, c0, opts, inner, inner, depth - 1, fuzzy, c)
  {
    var d := |dir.parts|;
    if |c.parts| == d + 1 {
      AncestorWhole(c);
      assert false;
    }
    PassesTop(fs, dir, opts, inner, depth, fuzzy, c);
    BelowTop(c, dir, c0);
    DescendsFromChild(fs, dir, c0, depth, depth - 1, inner, c);
  }

  /** A path deeper than the entry of `dir` it lies under lies strictly below that entry. */
  lemma BelowTop(c: Path, dir: Path, c0: Path)
    requires StrictlyBelow(c, dir) && |c.parts| > |dir.parts| + 1 && Top(c, dir) == c0
    ensures StrictlyBelow(c, c0)
  {
    assert c.parts[..|c0.parts|] == c0.parts;
  }

  /** The steps of a walk from `dir` below its entry `c0` are steps of the walk from `c0` with one less depth. */
  lemma DescendsFromChild(fs: FileSystem, dir: Path, c0: Path, depth: int, less: int, inner: Option<nat>, c: Path)
    requires |c0.parts| == |dir.parts| + 1 && less == depth - 1
    requires forall k | |dir.parts| < k < |c.parts| :: Descends(fs, dir, depth, c, k, inner)
    ensures forall k | |c0.parts| < k < |c.parts| :: Descends(fs, c0, less, c, k, inner)
  {
    forall k | |c0.parts| < k < |c.parts|
      ensures Descends(fs, c0, less, c, k, inner)
    {
      assert Descends(fs, dir, depth, c, k, inner);
    }
  }

  lemma WalkUp(fs: FileSystem, dir: Path, c0: Path, opts: SearchOptions, inner: Option<nat>, depth: int,
    fuzzy: (string, string) -> bool, c: Path)
    requires StrictlyBelow(c0, dir) && |c0.parts| == |dir.parts| + 1
    requires !Skipped(opts, c0) && IsDir(fs, c0) && depth != 0
    requires Reached(fs, c0, opts, inner, inner, depth - 1, fuzzy, c)
    ensures Walked(fs, dir, opts, inner, depth, fuzzy, c) && Top(c, dir) == c0
  {
    var d := |dir.parts|;
    assert c.parts[..d + 1] == c0.parts;
    assert c.parts[..d] == c0.parts[..d];
    assert Ancestor(c, d + 1) == c0;
    forall k | d < k < |c.parts|
      ensures Descends(fs, dir, depth, c, k, inner)
    {
      if k == d + 1 {
        assert Ancestor(c, k) == c0;
      } else {
        assert Descends(fs, c0, depth - 1, c, k, inner);
      }
    }
    forall k | d < k <= |c.parts|
      ensures !Skipped(opts, Ancestor(c, k))
    {
      if k == d + 1 {
        assert Ancestor(c, k) == c0;
      }
    }
  }

  /** The block of the first child followed by the rest is what the loop yields over all the children. */
  lemma Assemble(fs: FileSystem, dir: Path, kids: seq<Path>, key: Path -> string, opts: SearchOptions,
    inner: Option<nat>, depth: int, fuzzy: (string, string) -> bool, block: seq<Path>, rest: seq<Path>)
    requires |kids| > 0 && SortedBy(kids, key)
    requires forall c :: c in block <==> Walked(fs, dir, opts, inner, depth, fuzzy, c) && Top(c, dir) == kids[0]
    requires forall c :: c in rest <==> Walked(fs, dir, opts, inner, depth, fuzzy, c) && Top(c, dir) in kids[1..]
    requires forall i | 0 <= i < |rest| :: StrictlyBelow(rest[i], dir)
    requires forall i, j | 0 <= i < j < |rest| :: !LexLess(key(Top(rest[j], dir)), key(Top(rest[i], dir)))
    ensures forall c :: c in block + rest <==> Walked(fs, dir, opts, inner, depth, fuzzy, c) && Top(c, dir) in kids
    ensures forall i | 0 <= i < |block + rest| :: StrictlyBelow((block + rest)[i], dir)
    ensures forall i, j | 0 <= i < j < |block + rest| ::
      !LexLess(key(Top((block + rest)[j], dir)), key(Top((block + rest)[i], dir)))
  {
    var r := block + rest;
    assert forall x :: x in kids <==> x == kids[0] || x in kids[1..] by {
      assert kids == [kids[0]] + kids[1..];
    }
    forall i | 0 <= i < |r|
      ensures StrictlyBelow(r[i], dir)
    {
      if i < |block| {
        assert r[i] in block;
      }
    }
    forall i, j | 0 <= i < j < |r|
      ensures !LexLess(key(Top(r[j], dir)), key(Top(r[i], dir)))
    {
      if j < |block| {
        assert r[i] in block && r[j] in block;
        LexIrreflexive(key(kids[0]));
      } else if i < |block| {
        assert r[i] in block && r[j] == rest[j - |block|];
        assert r[j] in rest;
        assert Top(r[j], dir) in kids[1..];
        var m :| 0 <= m < |kids[1..]| && kids[1..][m] == Top(r[j], dir);
        assert kids[m + 1] == Top(r[j], dir);
      } else {
        assert r[i] == rest[i - |block|] && r[j] == rest[j - |block|];
      }
    }
  }

  /** At depth 0 nothing is descended into: a walk yields exactly the entries it looks at that it yields directly. */
  lemma ReachedAtDepthZero(fs: FileSystem, dir: Path, opts: SearchOptions, first: Option<nat>, inner: Option<nat>,
    fuzzy: (string, string) -> bool, c: Path)
    ensures Reached(fs, dir, opts, first, inner, 0, fuzzy, c) <==> c in Entries(fs, dir, first) && YieldedDirectly(fs, opts, 0, fuzzy, c)
  {
    if Reached(fs, dir, opts, first, inner, 0, fuzzy, c) {
      var c0 := Top(c, dir);
      assert Parent(c0) == dir;
      BlockOnly(fs, dir, c0, opts, inner, 0, fuzzy);
    }
    if c in Entries(fs, dir, first) && YieldedDirectly(fs, opts, 0, fuzzy, c) {
      assert Parent(c) == dir;
      BlockOnly(fs, dir, c, opts, inner, 0, fuzzy);
      AncestorWhole(c);
    }
  }
}

=== FILE: linter.dfy ===
/**
 * Reading flake8's report on the scratch copy of the code (`lint_text` in
 * `analyze/linter.py`): one `file:line:col: message` line per problem.
 * Running flake8 itself is outside the model; its output is the input here.
 */
module Linter {
  import opened Wrappers
  import opened Strings
  import opened Seqs

  /** `CodeError`: a message at a line and column. */
  datatype CodeError = CodeError(message: string, line: int, column: int)

  /** What one report line amounts to. */
  datatype LineResult =
    | Skip                     // empty, foreign, or with a field `int()` rejects
    | Report(error: CodeError)
    | Unpack                   // fewer than two ':' after the file name: the unpacking raises

  /** The unpacking error that escapes `lint_text`. */
  datatype LintError = NotEnoughFields(line: string)

  /** `line[FILE_STR_LEN:]`: what follows the file name and its ':' (empty when the line is shorter). */
  function AfterFile(fileStr: string, line: string): string
  {
    if |line| >= |fileStr| + 1 then line[|fileStr| + 1..] else ""
  }

  /** `max(0, col - 1)`: flake8 counts columns from 1. */
  function Column(col: int): (c: int)
    ensures c >= 0
    ensures col >= 1 ==> c == col - 1
  {
    if col - 1 > 0 then col - 1 else 0
  }

  /** One iteration of the loop in `lint_text`. */
  function ParseLine(fileStr: string, line: string): (r: LineResult)
    ensures line == "" || !StartsWith(line, fileStr) ==> r == Skip
    ensures r.Report? ==> r.error.column >= 0
    ensures r.Unpack? <==> line != "" && StartsWith(line, fileStr) && |SplitMax(AfterFile(fileStr, line), ':', 2)| < 3
  {
    if line == "" || !StartsWith(line, fileStr) then Skip
    else
      var fields := SplitMax(AfterFile(fileStr, line), ':', 2);
      if |fields| < 3 then Unpack
      else
        var message := if |fields[2]| > 0 then fields[2][1..] else "";
        match (ParseInt(fields[0]), ParseInt(fields[1]))
        case (Some(l), Some(c)) => Report(CodeError(message, l, Column(c)))
        case _ => Skip
  }

  predicate NonEmpty(line: string)
  {
    line != ""
  }

  /** The errors one line contributes: its report, if any. */
  function Reported(r: LineResult): seq<CodeError>
  {
    if r.Report? then [r.error] else []
  }

  /** Every report among the line results, in line order: what a readable report yields. */
  function Reports(rs: seq<LineResult>): seq<CodeError>
  {
    if |rs| == 0 then [] else Reported(rs[0]) + Reports(rs[1..])
  }

  /** The loop of `lint_text` once each line has been read: the first unpacking error escapes. */
  function Collect(lines: seq<string>, rs: seq<LineResult>): (r: Result<seq<CodeError>, LintError>)
    requires |rs| == |lines|
    ensures r.Ok? <==> forall i | 0 <= i < |rs| :: !rs[i].Unpack?
    ensures r.Ok? ==> r.value == Reports(rs)
    ensures r.Err? ==> exists i | 0 <= i < |rs| ::
      rs[i].Unpack? && r.error == NotEnoughFields(lines[i]) && forall j | 0 <= j < i :: !rs[j].Unpack?
  {
    if |rs| == 0 then Ok([])
    else if rs[0].Unpack? then Err(NotEnoughFields(lines[0]))
    else
      var rest := Collect(lines[1..], rs[1..]);
      if rest.Err? then
        var i :| 0 <= i < |rs[1..]| && rs[1..][i].Unpack? && rest.error == NotEnoughFields(lines[1..][i])
          && forall j | 0 <= j < i :: !rs[1..][j].Unpack?;
        assert rs[i + 1].Unpack? && lines[i + 1] == lines[1..][i];
        rest
      else Ok(Reported(rs[0]) + rest.value)
  }

  /** Each line read on its own. */
  function Results(fileStr: string, lines: seq<string>): (rs: seq<LineResult>)
    ensures |rs| == |lines| && forall i | 0 <= i < |lines| :: rs[i] == ParseLine(fileStr, lines[i])
  {
    seq(|lines|, i requires 0 <= i < |lines| => ParseLine(fileStr, lines[i]))
  }

  /**
   * The loop of `lint_text` over the report's lines: the errors of the
   * readable lines in order, or the unpacking error of the first line that
   * has too few fields.
   */
  function ParseLines(fileStr: string, lines: seq<string>): (r: Result<seq<CodeError>, LintError>)
    ensures r.Ok? <==> forall i | 0 <= i < |lines| :: !ParseLine(fileStr, lines[i]).Unpack?
    ensures r.Err? ==> exists i | 0 <= i < |lines| ::
      r.error == NotEnoughFields(lines[i]) && ParseLine(fileStr, lines[i]).Unpack?
      && forall j | 0 <= j < i :: !ParseLine(fileStr, lines[j]).Unpack?
    ensures r.Ok? ==> r.value == Reports(Results(fileStr, lines))
    ensures r.Ok? ==> forall k | 0 <= k < |r.value| :: r.value[k].column >= 0
  {
    var rs := Results(fileStr, lines);
    ReportsColumns(rs);
    Collect(lines, rs)
  }

  /** Reports keep the columns' bound. */
  lemma {:induction false} ReportsColumns(rs: seq<LineResult>)
    requires forall i | 0 <= i < |rs| :: rs[i].Report? ==> rs[i].error.column >= 0
    ensures forall k | 0 <= k < |Reports(rs)| :: Reports(rs)[k].column >= 0
  {
    if |rs| > 0 {
      ReportsColumns(rs[1..]);
    }
  }

  /** At most one error per non-empty line. */
  lemma {:induction false} ReportsBound(fileStr: string, lines: seq<string>)
    ensures |Reports(Results(fileStr, lines))| <= |Filter(lines, NonEmpty)|
  {
    if |lines| > 0 {
      ReportsBound(fileStr, lines[1..]);
      assert Results(fileStr, lines)[1..] == Results(fileStr, lines[1..]);
    }
  }

  /** `lint_text` after flake8 has run: the report split into lines. */
  function LintText(fileStr: string, output: string): (r: Result<seq<CodeError>, LintError>)
    ensures r.Ok? <==> forall i | 0 <= i < |Split(output, '\n')| :: !ParseLine(fileStr, Split(output, '\n')[i]).Unpack?
    ensures r.Err? ==> exists i | 0 <= i < |Split(output, '\n')| ::
      r.error == NotEnoughFields(Split(output, '\n')[i]) && ParseLine(fileStr, Split(output, '\n')[i]).Unpack?
      && forall j | 0 <= j < i :: !ParseLine(fileStr, Split(output, '\n')[j]).Unpack?
    ensures r.Ok? ==> r.value == Reports(Results(fileStr, Split(output, '\n')))
    ensures r.Ok? ==> |r.value| <= |Filter(Split(output, '\n'), NonEmpty)|
    ensures r.Ok? ==> forall k | 0 <= k < |r.value| :: r.value[k].column >= 0
  {
    var lines := Split(output, '\n');
    ReportsBound(fileStr, lines);
    var r := ParseLines(fileStr, lines);
    assert r.Ok? ==> forall i | 0 <= i < |lines| :: !ParseLine(fileStr, lines[i]).Unpack?;
    assert (forall i | 0 <= i < |lines| :: !ParseLine(fileStr, lines[i]).Unpack?) ==> r.Ok?;
    r
  }

  /** Reports of two runs of lines are the reports of each, one after the other. */
  lemma {:induction false} ReportsAppend(x: seq<LineResult>, y: seq<LineResult>)
    ensures Reports(x + y) == Reports(x) + Reports(y)
  {
    if |x| == 0 {
      assert x + y == y;
    } else {
      TailOfAppend(x, y);
      ReportsAppend(x[1..], y);
    }
  }

  /** Reading a report whose lines all unpack gives every report, in line order. */
  lemma CollectOk(lines: seq<string>, rs: seq<LineResult>)
    requires |rs| == |lines| && forall i | 0 <= i < |rs| :: !rs[i].Unpack?
    ensures Collect(lines, rs) == Ok(Reports(rs))
  {
  }

  /** Line results of two runs of lines, each free of unpacking errors, are free of them together. */
  lemma NoUnpackAppend(x: seq<LineResult>, y: seq<LineResult>)
    requires forall i | 0 <= i < |x| :: !x[i].Unpack?
    requires forall i | 0 <= i < |y| :: !y[i].Unpack?
    ensures forall i | 0 <= i < |x + y| :: !(x + y)[i].Unpack?
  {
    forall i | 0 <= i < |x + y|
      ensures !(x + y)[i].Unpack?
    {
      if i >= |x| {
        assert (x + y)[i] == y[i - |x|];
      }
    }
  }

  /** Each line is read on its own, so the results of two runs of lines are each run's results. */
  lemma ResultsAppend(fileStr: string, a: seq<string>, b: seq<string>)
    ensures Results(fileStr, a + b) == Results(fileStr, a) + Results(fileStr, b)
  {
    var r, ra, rb := Results(fileStr, a + b), Results(fileStr, a), Results(fileStr, b);
    forall i | 0 <= i < |a + b|
      ensures r[i] == (ra + rb)[i]
    {
      if i < |a| {
        assert (a + b)[i] == a[i];
      } else {
        assert (a + b)[i] == b[i - |a|];
      }
    }
  }

  /**
   * Reading a report is reading its parts one after the other, so errors
   * come out in the order of the lines that carry them.
   */
  lemma ParseLinesAppend(fileStr: string, a: seq<string>, b: seq<string>)
    requires ParseLines(fileStr, a).Ok? && ParseLines(fileStr, b).Ok?
    ensures ParseLines(fileStr, a + b).Ok?
    ensures ParseLines(fileStr, a + b).value == ParseLines(fileStr, a).value + ParseLines(fileStr, b).value
  {
    var ra, rb := Results(fileStr, a), Results(fileStr, b);
    ResultsAppend(fileStr, a, b);
    NoUnpackAppend(ra, rb);
    CollectOk(a + b, ra + rb);
    CollectOk(a, ra);
    CollectOk(b, rb);
    ReportsAppend(ra, rb);
  }

  /** The line flake8 writes for an error, as `lint_text` expects it. */
  function Format(fileStr: string, line: int, col: int, message: string): string
  {
    fileStr + ":" + IntToString(line) + ":" + IntToString(col) + ": " + message
  }

  /** A formatted line belongs to the file, and what follows the file name is its three fields. */
  lemma FormatFields(fileStr: string, line: int, col: int, message: string)
    ensures var s := Format(fileStr, line, col, message);
      s != "" && StartsWith(s, fileStr)
      && AfterFile(fileStr, s) == IntToString(line) + [':'] + IntToString(col) + [':'] + (" " + message)
  {
    var s := Format(fileStr, line, col, message);
    var rest := IntToString(line) + [':'] + IntToString(col) + [':'] + (" " + message);
    Regroup(fileStr, IntToString(line), IntToString(col), message);
    assert s[..|fileStr|] == fileStr;
    assert s[|fileStr| + 1..] == rest;
  }

  /** The formatted line is the file name, a colon, and the three fields joined by colons. */
  lemma Regroup(f: string, a: string, b: string, message: string)
    ensures f + ":" + a + ":" + b + ": " + message == f + ":" + (a + [':'] + b + [':'] + (" " + message))
  {
    assert ": " + message == [':'] + (" " + message);
  }

  /** Reading a well-formed report line gives back its error, the column moved to count from 0. */
  lemma FormatParse(fileStr: string, line: int, col: int, message: string)
    ensures ParseLine(fileStr, Format(fileStr, line, col, message)) == Report(CodeError(message, line, Column(col)))
  {
    var a, b, m := IntToString(line), IntToString(col), " " + message;
    FormatFields(fileStr, line, col, message);
    SplitMaxTwo(a, b, m, ':');
    assert m[1..] == message;
    IntRoundTrip(line);
    IntRoundTrip(col);
  }

  /** A non-integer line field makes the line be skipped, not reported. */
  lemma BadNumberSkipped(fileStr: string)
    ensures ParseLine(fileStr, fileStr + ":x:1: E1") == Skip
  {
    var s := fileStr + ":x:1: E1";
    assert s[..|fileStr|] == fileStr;
    assert AfterFile(fileStr, s) == "x" + [':'] + "1" + [':'] + " E1";
    SplitMaxTwo("x", "1", " E1", ':');
    assert TrimEnd(TrimStart("x")) == "x";
    assert !IsDigits("x");
  }

  /** A line from the file with only one ':' after its name cannot be unpacked. */
  lemma ShortLineRaises(fileStr: string)
    ensures ParseLine(fileStr, fileStr + ":12") == Unpack
  {
    var s := fileStr + ":12";
    assert s[..|fileStr|] == fileStr;
    assert AfterFile(fileStr, s) == "12";
    assert SplitMax("12", ':', 2) == ["12"];
  }
}

=== FILE: list_widget.dfy ===
/**
 * The selectable list of `kex/widgets/list.py` (`XList`): the selection
 * clamped to the items, the scroll clamped so the selection stays on
 * screen, moving an item with shift held, and the keys the list answers.
 * Textures, rectangles and the label cache are left out; a visible row is
 * the item it shows, or nothing for the empty texture.
 */
module ListWidget {
  import opened Wrappers
  import opened Strings

  /** `max(lo, min(x, hi))`. */
  function Clamp(x: int, lo: int, hi: int): (r: int)
    requires lo <= hi
    ensures lo <= r <= hi
    ensures lo <= x <= hi ==> r == x
    ensures x < lo ==> r == lo
    ensures x > hi ==> r == hi
  {
    if x < lo then lo else if x > hi then hi else x
  }

  /**
   * The state of an `XList`: its items, the selected index, the scroll (the
   * index shown in the first row), how many rows fit (`len(self._rects)`),
   * `paging_size` and `enable_shifting`.
   */
  datatype XList = XList(
    items: seq<string>,
    selection: int,
    scroll: int,
    rowCount: nat,
    pagingSize: Option<int>,
    enableShifting: bool)
  {
    /** The least scroll that still shows the selection in the last row. */
    function MinScroll(): int
    {
      if selection - rowCount + 1 > 0 then selection - rowCount + 1 else 0
    }

    /**
     * What the list keeps: items are never empty, the selection is one of
     * them, at least one row is drawn, and the scroll keeps the selection
     * on screen.
     */
    predicate Valid()
    {
      |items| > 0 && 0 <= selection < |items| && rowCount >= 1
      && MinScroll() <= scroll <= selection
    }
  }

  /** A list as `__init__` leaves it: one placeholder item, selected and scrolled to. */
  function Initial(rowCount: nat, pagingSize: Option<int>, enableShifting: bool): (l: XList)
    requires rowCount >= 1
    ensures l.Valid() && l.items == ["placeholder"] && l.selection == 0 && l.scroll == 0
  {
    XList(["placeholder"], 0, 0, rowCount, pagingSize, enableShifting)
  }

  /**
   * `_set_scroll`: the asked scroll clamped between the least scroll that
   * shows the selection and the selection itself; the flag says whether
   * the scroll changed.
   */
  function SetScroll(l: XList, scroll: int): (r: (XList, bool))
    requires 0 <= l.selection && l.rowCount >= 1
    ensures r.0 == l.(scroll := r.0.scroll)
    ensures l.MinScroll() <= r.0.scroll <= l.selection
    ensures l.MinScroll() <= scroll <= l.selection ==> r.0.scroll == scroll
    ensures r.1 <==> r.0.scroll != l.scroll
    ensures r.0.scroll <= l.selection < r.0.scroll + l.rowCount
  {
    var s := Clamp(scroll, l.MinScroll(), l.selection);
    (l.(scroll := s), s != l.scroll)
  }

  /**
   * `select(index, delta=...)`: the index (the current selection when none
   * is given) plus the delta, clamped to the items. A changed selection
   * fires `_on_selection`, which re-clamps the scroll.
   */
  function Select(l: XList, index: Option<int>, delta: int): (r: XList)
    requires |l.items| > 0 && l.rowCount >= 1
    ensures r.selection == Clamp(index.GetOr(l.selection) + delta, 0, |l.items| - 1)
    ensures r.items == l.items && r.rowCount == l.rowCount
    ensures r.pagingSize == l.pagingSize && r.enableShifting == l.enableShifting
    ensures l.Valid() ==> r.Valid()
  {
    var i := Clamp(index.GetOr(l.selection) + delta, 0, |l.items| - 1);
    if i == l.selection then l
    else SetScroll(l.(selection := i), l.scroll).0
  }

  /**
   * Assigning `items`. A new list fires `_on_items`, which asserts the list
   * is not empty (so callers must not assign one) and re-clamps the
   * selection.
   */
  function SetItems(l: XList, items: seq<string>): (r: XList)
    requires l.rowCount >= 1 && |items| > 0
    ensures r.items == items
    ensures 0 <= l.selection < |items| ==> r.selection == l.selection
    ensures l.selection >= |items| && items != l.items ==> r.selection == |items| - 1
    ensures l.Valid() ==> r.Valid()
  {
    if items == l.items then l
    else
      var r := Select(l.(items := items), None, 0);
      assert l.Valid() ==> r.Valid() by {
        if l.Valid() {
          assert l.(items := items).MinScroll() == l.MinScroll();
        }
      }
      r
  }

  /** `list.pop(i)`. */
  function RemoveAt<T>(s: seq<T>, i: nat): (r: seq<T>)
    requires i < |s|
    ensures |r| == |s| - 1
    ensures forall k | 0 <= k < i :: r[k] == s[k]
    ensures forall k | i <= k < |r| :: r[k] == s[k + 1]
  {
    s[..i] + s[i + 1..]
  }

  /** `list.insert(i, x)` for an index inside the list or at its end. */
  function InsertAt<T>(s: seq<T>, i: nat, x: T): (r: seq<T>)
    requires i <= |s|
    ensures |r| == |s| + 1 && r[i] == x
    ensures forall k | 0 <= k < i :: r[k] == s[k]
    ensures forall k | i < k < |r| :: r[k] == s[k - 1]
  {
    s[..i] + [x] + s[i..]
  }

  /** Where `shift` puts the moved item: `index + delta` clamped to the list. */
  function ShiftTarget(index: int, delta: int, n: nat): (t: int)
    requires n > 0
    ensures 0 <= t < n
  {
    Clamp(index + delta, 0, n - 1)
  }

  /** The items after moving the one at `index` by `delta`. */
  function Moved(items: seq<string>, index: nat, delta: int): (r: seq<string>)
    requires index < |items|
    ensures |r| == |items|
    ensures r[ShiftTarget(index, delta, |items|)] == items[index]
    ensures multiset(r) == multiset(items)
  {
    var rest := RemoveAt(items, index);
    var t := ShiftTarget(index, delta, |items|);
    assert items == items[..index] + [items[index]] + items[index + 1..];
    assert multiset(rest) + multiset{items[index]} == multiset(items);
    assert rest == rest[..t] + rest[t..];
    var r := InsertAt(rest, t, items[index]);
    assert multiset(r) == multiset(rest[..t]) + multiset{items[index]} + multiset(rest[t..]);
    r
  }

  /**
   * `shift(delta, index)`: nothing for a zero delta; otherwise the item at
   * the index (the selection by default) is popped and inserted back at
   * `index + delta` clamped, and the new list is assigned.
   */
  function Shift(l: XList, delta: int, index: Option<nat>): (r: XList)
    requires l.Valid()
    requires index.Some? ==> index.value < |l.items|
    ensures delta == 0 ==> r == l
    ensures delta != 0 ==> r.items == Moved(l.items, index.GetOr(l.selection), delta)
    ensures |r.items| == |l.items| && multiset(r.items) == multiset(l.items)
    ensures r.selection == l.selection && r.Valid()
  {
    if delta == 0 then l
    else SetItems(l, Moved(l.items, index.GetOr(l.selection), delta))
  }

  /** The page a page key asks for: `paging_size` when set and non-zero, otherwise half the rows, rounded down. */
  function Page(l: XList): int
  {
    match l.pagingSize
    case Some(p) => if p != 0 then p else l.rowCount / 2
    case None => l.rowCount / 2
  }

  /**
   * The step an arrow key takes: all items with ctrl, for page keys the
   * larger of 2 and the page, else one.
   */
  function ArrowStep(l: XList, paging: bool, ctrl: bool): (d: int)
    ensures ctrl ==> d == |l.items|
    ensures !ctrl && paging ==> d >= 2 && d >= Page(l) && (d == 2 || d == Page(l))
    ensures !ctrl && !paging ==> d == 1
  {
    var page := Page(l);
    var pagingSize := if page > 2 then page else 2;
    if ctrl then |l.items| else if paging then pagingSize else 1
  }

  /**
   * `_handle_arrow_key`: up keys step back and down keys forward; with
   * shifting enabled and shift held the selected item moves by the same
   * step before the selection does.
   */
  function HandleArrowKey(l: XList, key: string, mods: set<string>): (r: XList)
    requires l.Valid()
    ensures r.Valid()
    ensures multiset(r.items) == multiset(l.items)
    ensures !(l.enableShifting && "shift" in mods) ==> r.items == l.items
  {
    var d := ArrowStep(l, StartsWith(key, "page"), "ctrl" in mods);
    var step := if EndsWith(key, "up") then -d else if EndsWith(key, "down") then d else 0;
    var shift := if l.enableShifting && "shift" in mods then step else 0;
    Select(Shift(l, shift, None), None, step)
  }

  /** Without shifting an arrow key moves the selection by its step, clamped. */
  lemma ArrowMovesSelection(l: XList, key: string, mods: set<string>)
    requires l.Valid() && !(l.enableShifting && "shift" in mods)
    ensures var d := ArrowStep(l, StartsWith(key, "page"), "ctrl" in mods);
      var step := if EndsWith(key, "up") then -d else if EndsWith(key, "down") then d else 0;
      HandleArrowKey(l, key, mods).selection == Clamp(l.selection + step, 0, |l.items| - 1)
  {
  }

  /** With shifting, the selection follows the moved item: it still selects the item that was selected. */
  lemma ShiftedItemStaysSelected(l: XList, key: string, mods: set<string>)
    requires l.Valid() && l.enableShifting && "shift" in mods
    ensures var r := HandleArrowKey(l, key, mods);
      r.items[r.selection] == l.items[l.selection]
  {
    var d := ArrowStep(l, StartsWith(key, "page"), "ctrl" in mods);
    var step := if EndsWith(key, "up") then -d else if EndsWith(key, "down") then d else 0;
    ShiftThenSelect(l, step);
  }

  /** Moving the selected item by `step` and then the selection by `step` leaves the same item selected. */
  lemma ShiftThenSelect(l: XList, step: int)
    requires l.Valid()
    ensures var r := Select(Shift(l, step, None), None, step);
      r.items[r.selection] == l.items[l.selection]
  {
    if step != 0 {
      var s := Shift(l, step, None);
      assert s.items == Moved(l.items, l.selection, step);
      assert Select(s, None, step).selection == ShiftTarget(l.selection, step, |l.items|);
    }
  }

  /** What a rendered row shows: an item, or the empty texture. */
  function Visible(l: XList): (rows: seq<Option<string>>)
    requires l.Valid()
    ensures |rows| == l.rowCount
    ensures forall i | 0 <= i < l.rowCount ::
      rows[i] == if i + l.scroll < |l.items| then Some(l.items[i + l.scroll]) else None
  {
    seq(l.rowCount, i requires 0 <= i < l.rowCount =>
      if i + l.scroll < |l.items| then Some(l.items[i + l.scroll]) else None)
  }

  /**
   * The rows are a window onto the items: item `k` from `scroll` on is drawn
   * in row `k - scroll` while rows remain, and a row is empty exactly when
   * it lies past the last item.
   */
  lemma VisibleWindow(l: XList)
    requires l.Valid()
    ensures forall k | l.scroll <= k < |l.items| && k < l.scroll + l.rowCount :: Visible(l)[k - l.scroll] == Some(l.items[k])
    ensures forall i | 0 <= i < l.rowCount :: Visible(l)[i].None? <==> l.scroll + i >= |l.items|
  {
    var rows := Visible(l);
    forall k | l.scroll <= k < |l.items| && k < l.scroll + l.rowCount
      ensures rows[k - l.scroll] == Some(l.items[k])
    {
      assert (k - l.scroll) + l.scroll == k;
    }
  }

  /** The selected item is always drawn, in the row the selection rectangle covers. */
  lemma SelectionVisible(l: XList)
    requires l.Valid()
    ensures 0 <= l.selection - l.scroll < l.rowCount
    ensures Visible(l)[l.selection - l.scroll] == Some(l.items[l.selection])
  {
  }

  /** The `on_invoked` event: the index and its item. */
  datatype Invoked = Invoked(index: int, item: string)

  /** What a key press does to the list, the event it fires, and whether it is passed on to the focus behaviour. */
  datatype KeyResult = KeyResult(list: XList, invoked: Option<Invoked>, passedOn: bool)

  /** `keyboard_on_key_down`: arrows move, a number key selects and invokes, enter invokes, anything else is passed on. */
  function KeyDown(l: XList, key: string, mods: set<string>): (r: KeyResult)
    requires l.Valid()
    ensures r.list.Valid()
    ensures r.invoked.Some? ==> r.invoked.value == Invoked(r.list.selection, r.list.items[r.list.selection])
    ensures r.passedOn <==> key !in {"up", "down", "pageup", "pagedown", "enter", "numpadenter"} && !IsDigits(key)
  {
    if key in {"up", "down", "pageup", "pagedown"} then KeyResult(HandleArrowKey(l, key, mods), None, false)
    else if IsDigits(key) then
      var s := Select(l, Some(DigitsValue(key)), 0);
      KeyResult(s, Some(Invoked(s.selection, s.items[s.selection])), false)
    else if key in {"enter", "numpadenter"} then KeyResult(l, Some(Invoked(l.selection, l.items[l.selection])), false)
    else KeyResult(l, None, true)
  }

  /** A number key selects that index, clamped to the last item, and invokes it. */
  lemma NumberKeyInvokes(l: XList, n: nat)
    requires l.Valid()
    ensures var r := KeyDown(l, NatToString(n), {});
      var i := if n < |l.items| then n else |l.items| - 1;
      r.list.selection == i && r.invoked == Some(Invoked(i, l.items[i]))
  {
    DigitsOfNat(n);
  }
}

=== FILE: nide_directory.dfy ===
/**
 * The older project browser of `nide/util/directory.py`: a depth-first
 * walk filtered by the project settings, and its tree text.
 */
module NideDirectory {
  import opened Wrappers
  import opened Strings
  import opened Paths
  import opened Seqs
  import opened Sorting
  import opened SortKeys
  import opened FileUtil

  /** The settings the module reads once: `project.file_types`, `project.ignore_names`, `project.ignore_match`. */
  datatype ProjectFilter = ProjectFilter(fileTypes: set<string>, ignoreNames: set<string>, ignoreMatches: seq<string>)

  /** The filter as search options with no pattern. */
  function Options(cfg: ProjectFilter): (o: SearchOptions)
    ensures o.pattern == "" && o.fileTypes == cfg.fileTypes
  {
    SearchOptions("", cfg.ignoreNames, cfg.ignoreMatches, cfg.fileTypes)
  }

  /** With no pattern the matcher is never consulted; this one accepts everything. */
  function NoMatcher(): (string, string) -> bool
  {
    (pattern: string, text: string) => true
  }

  /**
   * `_recursive_files(dir, depth)`: every entry sorted directories-first
   * (the order `search_files` uses when not breadth-first), walked in order.
   * It yields exactly the paths a walk of the whole listing reaches, grouped
   * by the entry of `dir` they lie under, in that order of the entries.
   */
  function RecursiveFiles(fs: FileSystem, dir: Path, depth: int, cfg: ProjectFilter): (r: seq<Path>)
    ensures forall c :: c in r <==> Reached(fs, dir, Options(cfg), None, None, depth, NoMatcher(), c)
    ensures forall i | 0 <= i < |r| :: StrictlyBelow(r[i], dir)
    ensures forall i, j | 0 <= i < j < |r| ::
      !LexLess(ChildSortKey(fs, false)(Top(r[j], dir)), ChildSortKey(fs, false)(Top(r[i], dir)))
    ensures DistinctListings(fs) ==> Distinct(r)
    decreases |Below(fs, dir)|, 1, 0
  {
    var listing := IterDir(fs, dir);
    var ordered := SortBy(listing, ChildSortKey(fs, false));
    EntriesReady(fs, dir, listing, ordered);
    ListingDistinct(fs, dir, ordered);
    Walk(fs, dir, ordered, depth, cfg)
  }

  /** Sorting a listing without repeats leaves none. */
  lemma ListingDistinct(fs: FileSystem, dir: Path, ordered: seq<Path>)
    requires multiset(ordered) == multiset(IterDir(fs, dir))
    ensures DistinctListings(fs) ==> Distinct(ordered)
  {
    if DistinctListings(fs) {
      IterDirDistinct(fs, dir);
      DistinctPermutation(IterDir(fs, dir), ordered);
    }
  }

  /**
   * The loop of `_recursive_files` over the sorted children `kids`: it yields
   * exactly the walked paths under those children, in the children's order.
   */
  function Walk(fs: FileSystem, dir: Path, kids: seq<Path>, depth: int, cfg: ProjectFilter): (r: seq<Path>)
    requires forall i | 0 <= i < |kids| :: StrictlyBelow(kids[i], dir) && |kids[i].parts| == |dir.parts| + 1
    requires SortedBy(kids, ChildSortKey(fs, false))
    ensures forall c :: c in r <==> Walked(fs, dir, Options(cfg), None, depth, NoMatcher(), c) && Top(c, dir) in kids
    ensures forall i | 0 <= i < |r| :: StrictlyBelow(r[i], dir)
    ensures forall i, j | 0 <= i < j < |r| ::
      !LexLess(ChildSortKey(fs, false)(Top(r[j], dir)), ChildSortKey(fs, false)(Top(r[i], dir)))
    ensures DistinctListings(fs) && Distinct(kids) ==> Distinct(r)
    decreases |Below(fs, dir)|, 0, |kids|
  {
    if |kids| == 0 then []
    else
      var c, o := kids[0], Options(cfg);
      SortedTail(kids, ChildSortKey(fs, false));
      var rest := Walk(fs, dir, kids[1..], depth, cfg);
      var block := (
        if Skipped(o, c) then
          BlockOnly(fs, dir, c, o, None, depth, NoMatcher());
          []
        else if IsDir(fs, c) then
          if depth == 0 then
            BlockOnly(fs, dir, c, o, None, depth, NoMatcher());
            [c]
          else
            BelowShrinks(fs, dir, c);
            BlockBelow(fs, dir, c, o, None, depth, NoMatcher());
            RecursiveFiles(fs, c, depth - 1, cfg)
        else if IsFile(fs, c) && FileWanted(o, c, NoMatcher()) then
          BlockOnly(fs, dir, c, o, None, depth, NoMatcher());
          [c]
        else
          BlockOnly(fs, dir, c, o, None, depth, NoMatcher());
          []);
      Assemble(fs, dir, kids, ChildSortKey(fs, false), o, None, depth, NoMatcher(), block, rest);
      AssembleDistinct(fs, dir, kids, o, None, depth, NoMatcher(), block, rest);
      block + rest
  }

  /** A file passes exactly when the extension filter is off or lists its extension. */
  lemma FileFilter(cfg: ProjectFilter, c: Path)
    ensures FileWanted(Options(cfg), c, NoMatcher()) <==> cfg.fileTypes == {} || Extension(Name(c)) in cfg.fileTypes
  {
    assert Lower("") == "";
  }

  /**
   * At depth zero nothing is descended into, so the walk yields what
   * `search_files` yields with no pattern, depth-first order and no branching
   * limit; deeper, the two differ, because `search_files` recurses with its
   * defaults.
   */
  lemma {:induction false} WalkAgreesWithSearch(fs: FileSystem, dir: Path, kids: seq<Path>, cfg: ProjectFilter)
    requires forall i | 0 <= i < |kids| :: StrictlyBelow(kids[i], dir) && |kids[i].parts| == |dir.parts| + 1
    requires SortedBy(kids, ChildSortKey(fs, false))
    ensures Walk(fs, dir, kids, 0, cfg) == SearchChildren(fs, dir, kids, false, Options(cfg), 0, NoMatcher())
    decreases |kids|
  {
    if |kids| > 0 {
      SortedTail(kids, ChildSortKey(fs, false));
      WalkAgreesWithSearch(fs, dir, kids[1..], cfg);
    }
  }

  lemma RecursiveFilesAtDepthZero(fs: FileSystem, dir: Path, cfg: ProjectFilter)
    ensures RecursiveFiles(fs, dir, 0, cfg) == SearchFiles(fs, dir, Options(cfg), false, |IterDir(fs, dir)|, 0, NoMatcher())
  {
    var listing := IterDir(fs, dir);
    assert Considered(fs, dir, |listing|) == listing;
    var ordered := SortBy(listing, ChildSortKey(fs, false));
    EntriesReady(fs, dir, listing, ordered);
    WalkAgreesWithSearch(fs, dir, ordered, cfg);
  }

  // ---------------------------------------------------------------------------
  // format_dir_tree
  // ---------------------------------------------------------------------------

  /**
   * `format_dir_tree(dir, depth)` as written: the walked paths are made
   * relative to `dir` before `is_dir()` is asked, so the check resolves
   * against the working directory `cwd`.
   */
  function FormatDirTreeAsWritten(fs: FileSystem, cwd: Path, dir: Path, depth: int, cfg: ProjectFilter): (r: seq<string>)
    ensures |r| == 1 + |RecursiveFiles(fs, dir, depth, cfg)| && r[0] == Str(dir)
  {
    FormatLinesAsWritten(fs, cwd, RecursiveFiles(fs, dir, depth, cfg), Some(dir))
  }

  /** The intended tree text: whether a walked path is a directory is decided on the path itself. */
  function FormatDirTree(fs: FileSystem, cwd: Path, dir: Path, depth: int, cfg: ProjectFilter): (r: seq<string>)
    ensures var files := RecursiveFiles(fs, dir, depth, cfg);
      |r| == 1 + |files| && r[0] == Str(dir)
      && forall i | 0 <= i < |files| ::
        r[i + 1] == "  " + Str(RelativeTo(files[i], dir)) + (if IsDir(fs, JoinPath(cwd, files[i])) then "/" else "")
  {
    FormatLines(fs, cwd, RecursiveFiles(fs, dir, depth, cfg), Some(dir))
  }

  /** Every walked directory line of the intended text ends in "/" when `dir` is absolute. */
  lemma FormatDirTreeMarksDirectories(fs: FileSystem, cwd: Path, dir: Path, depth: int, cfg: ProjectFilter, i: nat)
    requires dir.absolute
    requires i < |RecursiveFiles(fs, dir, depth, cfg)|
    requires IsDir(fs, RecursiveFiles(fs, dir, depth, cfg)[i])
    ensures EndsWith(FormatDirTree(fs, cwd, dir, depth, cfg)[i + 1], "/")
  {
    var files := RecursiveFiles(fs, dir, depth, cfg);
    assert StrictlyBelow(files[i], dir);
    assert JoinPath(cwd, files[i]) == files[i];
  }

  /** Walking `/p`, which holds only the directory `d`, to depth 0 yields `/p/d`. */
  lemma SampleWalk()
    ensures var fs := map[Path(true, ["p"]) := Dir(0, ["d"]), Path(true, ["p", "d"]) := Dir(0, [])];
      RecursiveFiles(fs, Path(true, ["p"]), 0, ProjectFilter({}, {}, [])) == [Path(true, ["p", "d"])]
  {
    var fs := map[Path(true, ["p"]) := Dir(0, ["d"]), Path(true, ["p", "d"]) := Dir(0, [])];
    var cfg := ProjectFilter({}, {}, []);
    var p, d := Path(true, ["p"]), Path(true, ["p", "d"]);
    assert p.parts + ["d"] == ["p", "d"];
    assert Child(p, "d") == d;
    assert IterDir(fs, p) == [d];
    assert SortBy([d], ChildSortKey(fs, false)) == [d];
    assert !Skipped(Options(cfg), d) by {
      assert Name(d) == "d";
    }
  }

  /** Run from `/`, the directory `/p/d` walked from `/p` is looked up as `/d` and loses its "/". */
  lemma FormatAsWrittenMissesDirectory()
    ensures var fs := map[Path(true, ["p"]) := Dir(0, ["d"]), Path(true, ["p", "d"]) := Dir(0, [])];
      var cfg := ProjectFilter({}, {}, []);
      FormatDirTreeAsWritten(fs, Root, Path(true, ["p"]), 0, cfg) == ["/p", "  d"]
      && FormatDirTree(fs, Root, Path(true, ["p"]), 0, cfg) == ["/p", "  d/"]
  {
    var fs := map[Path(true, ["p"]) := Dir(0, ["d"]), Path(true, ["p", "d"]) := Dir(0, [])];
    var p, d := Path(true, ["p"]), Path(true, ["p", "d"]);
    SampleWalk();
    FormatOfWalk(fs, Root, p, 0, ProjectFilter({}, {}, []), [d]);
    SampleLines();
  }

  /** The tree texts of a walk are the file tree lines of the walked paths. */
  lemma FormatOfWalk(fs: FileSystem, cwd: Path, dir: Path, depth: int, cfg: ProjectFilter, files: seq<Path>)
    requires RecursiveFiles(fs, dir, depth, cfg) == files
    ensures FormatDirTreeAsWritten(fs, cwd, dir, depth, cfg) == FormatLinesAsWritten(fs, cwd, files, Some(dir))
    ensures FormatDirTree(fs, cwd, dir, depth, cfg) == FormatLines(fs, cwd, files, Some(dir))
  {
  }

  /** The two texts for `/p/d` listed relative to `/p`, run from `/`. */
  lemma SampleLines()
    ensures var fs := map[Path(true, ["p"]) := Dir(0, ["d"]), Path(true, ["p", "d"]) := Dir(0, [])];
      var p, d := Path(true, ["p"]), Path(true, ["p", "d"]);
      FormatLinesAsWritten(fs, Root, [d], Some(p)) == ["/p", "  d"]
      && FormatLines(fs, Root, [d], Some(p)) == ["/p", "  d/"]
  {
    var fs := map[Path(true, ["p"]) := Dir(0, ["d"]), Path(true, ["p", "d"]) := Dir(0, [])];
    var p, d := Path(true, ["p"]), Path(true, ["p", "d"]);
    FileUtil.FormatAsWrittenMissesDirectory();
    assert Str(p) == "/p";
    var a, b := FormatLinesAsWritten(fs, Root, [d], Some(p)), FormatLines(fs, Root, [d], Some(p));
    assert a == [a[0], a[1]] && b == [b[0], b[1]];
  }
}

=== FILE: paths.dfy ===
/**
 * POSIX paths as `pathlib.PurePosixPath` treats them, and the abstract
 * filesystem every module reads: a finite map from path to node.
 */
module Paths {
  import opened Strings
  import opened Seqs

  /** A path: rooted at `/` or relative, and its components (no empty or "." parts). */
  datatype Path = Path(absolute: bool, parts: seq<string>)

  /** `Path("/")`. */
  const Root: Path := Path(true, [])

  /** A component `pathlib` keeps: non-empty, not ".", without a separator. */
  predicate ValidPart(s: string)
  {
    |s| > 0 && s != "." && '/' !in s
  }

  /** The normal form `pathlib` produces for every path it constructs. */
  predicate Canonical(p: Path)
  {
    forall i | 0 <= i < |p.parts| :: ValidPart(p.parts[i])
  }

  /** `str(p)`: "/" for the root, "." for the empty relative path. */
  function Str(p: Path): string
  {
    if p.absolute then "/" + Join(p.parts, "/")
    else if |p.parts| == 0 then "."
    else Join(p.parts, "/")
  }

  /** The components `Path(s)` keeps out of the split on '/'. */
  function KeepParts(fields: seq<string>): (r: seq<string>)
    ensures forall i | 0 <= i < |r| :: r[i] in fields && r[i] != "" && r[i] != "."
  {
    if |fields| == 0 then []
    else if fields[0] == "" || fields[0] == "." then KeepParts(fields[1..])
    else [fields[0]] + KeepParts(fields[1..])
  }

  /** `Path(s)`: a leading '/' makes it absolute; empty and "." components vanish. */
  function Parse(s: string): (p: Path)
    ensures Canonical(p)
    ensures p.absolute <==> StartsWith(s, "/")
  {
    Path(|s| > 0 && s[0] == '/', KeepParts(Split(s, '/')))
  }

  lemma {:induction false} KeepValidParts(parts: seq<string>)
    requires forall i | 0 <= i < |parts| :: ValidPart(parts[i])
    ensures KeepParts(parts) == parts
    decreases |parts|
  {
    if |parts| > 0 {
      KeepValidParts(parts[1..]);
      assert parts == [parts[0]] + parts[1..];
    }
  }

  /** `Path(str(p)) == p` for every canonical path, so `str` loses nothing. */
  lemma ParseStr(p: Path)
    requires Canonical(p)
    ensures Parse(Str(p)) == p
  {
    if |p.parts| == 0 {
      ParseEmpty(p.absolute);
    } else {
      forall k | 0 <= k < |p.parts|
        ensures '/' !in p.parts[k]
      {
        assert ValidPart(p.parts[k]);
      }
      KeepValidParts(p.parts);
      if p.absolute {
        ParseAbsolute(p.parts);
      } else {
        ParseRelative(p.parts);
      }
    }
  }

  /** "/" parses back to the root and "." to the empty relative path. */
  lemma ParseEmpty(absolute: bool)
    ensures Parse(Str(Path(absolute, []))) == Path(absolute, [])
  {
    var s := Str(Path(absolute, []));
    if absolute {
      assert s == "/";
      assert Split(s, '/') == ["", ""] by {
        assert s[0] == '/';
        IndexOfUnique(s, '/', 0);
        assert s[1..] == "";
      }
    } else {
      assert s == ".";
      assert Split(s, '/') == ["."];
    }
  }

  /** The components after the leading '/' come back out of the split. */
  lemma ParseAbsolute(parts: seq<string>)
    requires |parts| > 0 && KeepParts(parts) == parts
    requires forall k | 0 <= k < |parts| :: '/' !in parts[k]
    ensures Parse("/" + Join(parts, "/")) == Path(true, parts)
  {
    var fields := [""] + parts;
    assert Join(fields, "/") == "/" + Join(parts, "/");
    forall k | 0 <= k < |fields|
      ensures '/' !in fields[k]
    {
      if k > 0 {
        assert fields[k] == parts[k - 1];
      }
    }
    SplitJoin(fields, '/');
    assert fields[1..] == parts;
  }

  /** A relative path's components come back out of the split, and it does not start with '/'. */
  lemma ParseRelative(parts: seq<string>)
    requires |parts| > 0 && KeepParts(parts) == parts && |parts[0]| > 0
    requires forall k | 0 <= k < |parts| :: '/' !in parts[k]
    ensures Parse(Join(parts, "/")) == Path(false, parts)
  {
    SplitJoin(parts, '/');
    assert Join(parts, "/")[0] == parts[0][0] by {
      assert Join(parts, "/") == parts[0] || Join(parts, "/") == parts[0] + "/" + Join(parts[1..], "/");
    }
    assert parts[0][0] != '/' by {
      assert parts[0][0] in parts[0];
    }
  }

  /** `str` is injective on canonical paths. */
  lemma StrInjective(a: Path, b: Path)
    requires Canonical(a) && Canonical(b)
    requires Str(a) == Str(b)
    ensures a == b
  {
    ParseStr(a);
    ParseStr(b);
  }

  /** `p.name`: the last component, "" for the root and for ".". */
  function Name(p: Path): string
  {
    if |p.parts| == 0 then "" else p.parts[|p.parts| - 1]
  }

  /** The first `k` components of `p`: one of its ancestors, or `p` itself. */
  function Ancestor(p: Path, k: nat): Path
    requires k <= |p.parts|
  {
    Path(p.absolute, p.parts[..k])
  }

  /** All of a path's components lead back to the path. */
  lemma AncestorWhole(p: Path)
    ensures Ancestor(p, |p.parts|) == p
  {
    assert p.parts[..|p.parts|] == p.parts;
  }

  /** `p.parent`: the root and "." are their own parents. */
  function Parent(p: Path): (r: Path)
    ensures r.absolute == p.absolute
    ensures |r.parts| == if |p.parts| == 0 then 0 else |p.parts| - 1
  {
    if |p.parts| == 0 then p else Path(p.absolute, p.parts[..|p.parts| - 1])
  }

  /** `p / name` for a single component. */
  function Child(p: Path, name: string): (r: Path)
    ensures Name(r) == name && Parent(r) == p
  {
    Path(p.absolute, p.parts + [name])
  }

  /** `len(p.parents)`: one ancestor per component. */
  function Depth(p: Path): nat
  {
    |p.parts|
  }

  /** `p.is_relative_to(d)`: same anchor and `d`'s components lead `p`'s. */
  predicate IsRelativeTo(p: Path, d: Path)
  {
    p.absolute == d.absolute && |d.parts| <= |p.parts| && p.parts[..|d.parts|] == d.parts
  }

  /** `p` lies strictly inside `d`. */
  predicate StrictlyBelow(p: Path, d: Path)
  {
    IsRelativeTo(p, d) && |d.parts| < |p.parts|
  }

  /** `p.relative_to(d)`, which raises unless `p.is_relative_to(d)`. */
  function RelativeTo(p: Path, d: Path): (r: Path)
    requires IsRelativeTo(p, d)
    ensures !r.absolute
    ensures JoinPath(d, r) == p
  {
    assert p.parts == p.parts[..|d.parts|] + p.parts[|d.parts|..];
    Path(false, p.parts[|d.parts|..])
  }

  /** `d / r`: an absolute `r` replaces `d`. */
  function JoinPath(d: Path, r: Path): Path
  {
    if r.absolute then r else Path(d.absolute, d.parts + r.parts)
  }

  /** Joining and then taking the relative path gives the relative path back. */
  lemma RelativeJoin(d: Path, r: Path)
    requires !r.absolute
    ensures IsRelativeTo(JoinPath(d, r), d)
    ensures RelativeTo(JoinPath(d, r), d) == r
  {
    var j := JoinPath(d, r);
    assert j.parts[..|d.parts|] == d.parts;
    assert j.parts[|d.parts|..] == r.parts;
  }

  /** `Path(name).suffix`: from the last '.', unless it starts the name or ends it. */
  function Suffix(name: string): (r: string)
    ensures r == "" || (StartsWith(r, ".") && EndsWith(name, r) && |r| < |name|)
  {
    var i := RFind(name, ".");
    if 0 < i < |name| - 1 then name[i..] else ""
  }

  /** A suffix holds exactly one dot, its first character. */
  lemma SuffixSingleDot(name: string)
    requires Suffix(name) != ""
    ensures '.' !in Suffix(name)[1..]
  {
    var i := RFind(name, ".");
    var r := Suffix(name);
    forall k | 1 <= k < |r|
      ensures r[k] != '.'
    {
      assert r[k] == name[i + k];
      assert !OccursAt(name, ".", i + k);
      assert name[i + k..i + k + 1] == [name[i + k]];
    }
  }

  // ---------------------------------------------------------------------------
  // The filesystem
  // ---------------------------------------------------------------------------

  /** What exists at a path: a directory with its modification time and entry names, or a file. */
  datatype Node = Dir(mtime: int, entries: seq<string>) | File(mtime: int)

  /** The disk as seen at one instant. */
  type FileSystem = map<Path, Node>

  /** `p.is_dir()`: false for a path that does not exist. */
  predicate IsDir(fs: FileSystem, p: Path)
  {
    p in fs && fs[p].Dir?
  }

  /** `p.is_file()`: false for a path that does not exist. */
  predicate IsFile(fs: FileSystem, p: Path)
  {
    p in fs && fs[p].File?
  }

  /** `p.iterdir()` in listing order; a non-directory lists nothing. */
  function IterDir(fs: FileSystem, p: Path): (r: seq<Path>)
    ensures |r| == if IsDir(fs, p) then |fs[p].entries| else 0
    ensures forall i | 0 <= i < |r| :: Parent(r[i]) == p && StrictlyBelow(r[i], p)
  {
    if IsDir(fs, p) then
      var names := fs[p].entries;
      seq(|names|, i requires 0 <= i < |names| => Child(p, names[i]))
    else []
  }

  /** No directory lists the same name twice, as no real one does. */
  predicate DistinctListings(fs: FileSystem)
  {
    forall d | d in fs && fs[d].Dir? :: Distinct(fs[d].entries)
  }

  /** Then no listing yields the same path twice. */
  lemma IterDirDistinct(fs: FileSystem, p: Path)
    requires DistinctListings(fs)
    ensures Distinct(IterDir(fs, p))
  {
    var r := IterDir(fs, p);
    forall i, j | 0 <= i < j < |r|
      ensures r[i] != r[j]
    {
      var names := fs[p].entries;
      assert r[i].parts[|p.parts|] == names[i] && r[j].parts[|p.parts|] == names[j];
    }
  }

  /** Every path of `fs` strictly inside `d`; recursion into a subdirectory shrinks it. */
  function Below(fs: FileSystem, d: Path): set<Path>
  {
    set p | p in fs && StrictlyBelow(p, d)
  }

  /** A subdirectory has strictly fewer paths below it than its parent. */
  lemma BelowShrinks(fs: FileSystem, d: Path, c: Path)
    requires c in fs && StrictlyBelow(c, d)
    ensures Below(fs, c) < Below(fs, d)
    ensures |Below(fs, c)| < |Below(fs, d)|
  {
    forall p | p in Below(fs, c)
      ensures p in Below(fs, d)
    {
      assert p.parts[..|d.parts|] == p.parts[..|c.parts|][..|d.parts|];
    }
    assert c in Below(fs, d) && c !in Below(fs, c);
    assert Below(fs, d) == Below(fs, c) + (Below(fs, d) - Below(fs, c));
  }
}

=== FILE: project_tree.dfy ===
/**
 * The project-tree modal's view of the index (`ProjectTree`): the search
 * filter over the indexed paths, the quick file, and the title refresh.
 */
module ProjectTree {
  import opened Wrappers
  import opened Strings
  import opened Paths
  import opened Seqs
  import opened Sorting
  import opened SortKeys
  import opened DirectoryTree

  /** `str(path.relative_to(root)).lower()`: what the search pattern is matched against. */
  function SearchText(p: Path, root: Path): string
    requires IsRelativeTo(p, root)
  {
    Lower(Str(RelativeTo(p, root)))
  }

  /**
   * Whether `path` survives the filter: the substring test, or in fuzzy mode
   * the fuzzy matcher, which is an opaque parameter here.
   */
  predicate Matches(pattern: string, text: string, doFuzzy: bool, fuzzy: (string, string) -> bool)
  {
    if doFuzzy then fuzzy(pattern, text) else Contains(text, pattern)
  }

  /** `fuzzy_enabled`: fuzzy search only while the index is small enough. */
  function FuzzyEnabled(indexed: seq<Path>, threshold: int): (b: bool)
    ensures b <==> |indexed| <= threshold
  {
    |indexed| <= threshold
  }

  /**
   * `_get_tree_files`: with an empty search text every indexed path, otherwise
   * those whose root-relative string matches the lower-cased text; always
   * sorted folders-first.
   */
  function GetTreeFiles(fs: FileSystem, root: Path, allPaths: seq<Path>, text: string, threshold: int,
    fuzzy: (string, string) -> bool): (r: seq<Path>)
    requires forall i | 0 <= i < |allPaths| :: IsRelativeTo(allPaths[i], root)
    ensures SortedBy(r, FolderKeyOf(fs))
    ensures Lower(text) == "" ==> multiset(r) == multiset(allPaths)
    ensures Lower(text) != "" ==> forall p ::
      p in r <==> p in allPaths && Matches(Lower(text), SearchText(p, root), FuzzyEnabled(allPaths, threshold), fuzzy)
    ensures Lower(text) != "" ==> forall p | p in allPaths ::
      multiset(r)[p] ==
        if Matches(Lower(text), SearchText(p, root), FuzzyEnabled(allPaths, threshold), fuzzy) then multiset(allPaths)[p] else 0
  {
    var pattern := Lower(text);
    var doFuzzy := FuzzyEnabled(allPaths, threshold);
    var files := if pattern != "" then
      Filter(allPaths, p => IsRelativeTo(p, root) && Matches(pattern, SearchText(p, root), doFuzzy, fuzzy))
    else allPaths;
    FilterMembers(allPaths, p => IsRelativeTo(p, root) && Matches(pattern, SearchText(p, root), doFuzzy, fuzzy));
    var r := SortBy(files, FolderKeyOf(fs));
    SameMembers(r, files);
    TreeFilesCount(root, allPaths, pattern, doFuzzy, fuzzy);
    r
  }

  /** The filter keeps each matching path as often as the index holds it. */
  lemma TreeFilesCount(root: Path, allPaths: seq<Path>, pattern: string, doFuzzy: bool, fuzzy: (string, string) -> bool)
    requires forall i | 0 <= i < |allPaths| :: IsRelativeTo(allPaths[i], root)
    ensures forall p | p in allPaths ::
      multiset(Filter(allPaths, p => IsRelativeTo(p, root) && Matches(pattern, SearchText(p, root), doFuzzy, fuzzy)))[p] ==
        if Matches(pattern, SearchText(p, root), doFuzzy, fuzzy) then multiset(allPaths)[p] else 0
  {
    var keep := p => IsRelativeTo(p, root) && Matches(pattern, SearchText(p, root), doFuzzy, fuzzy);
    forall p | p in allPaths
      ensures multiset(Filter(allPaths, keep))[p] == if Matches(pattern, SearchText(p, root), doFuzzy, fuzzy) then multiset(allPaths)[p] else 0
    {
      FilterCount(allPaths, keep, p);
    }
  }

  /**
   * With a search text, a small index is searched with the fuzzy matcher
   * and a large one, past the threshold, by plain substring.
   */
  lemma TreeSearchMode(fs: FileSystem, root: Path, allPaths: seq<Path>, text: string, threshold: int,
    fuzzy: (string, string) -> bool)
    requires forall i | 0 <= i < |allPaths| :: IsRelativeTo(allPaths[i], root)
    ensures Lower(text) != "" && |allPaths| <= threshold ==> forall p ::
      p in GetTreeFiles(fs, root, allPaths, text, threshold, fuzzy) <==> p in allPaths && fuzzy(Lower(text), SearchText(p, root))
    ensures Lower(text) != "" && |allPaths| > threshold ==> forall p ::
      p in GetTreeFiles(fs, root, allPaths, text, threshold, fuzzy) <==> p in allPaths && Contains(SearchText(p, root), Lower(text))
  {
  }

  /** `ProjectTree._files` for an indexed tree: the paths lie under its root. */
  lemma TreeFilesDefined(t: Tree)
    requires Valid(t)
    ensures forall i | 0 <= i < |t.sortedTree| :: IsRelativeTo(t.sortedTree[i], t.root)
  {
  }

  /** Colour of a tree row; a `Plain` row carries no colour markup. */
  datatype Color = Missing | Folder | FileColor | Plain

  /** One row of the tree list: its text and its colour. */
  datatype Row = Row(text: string, color: Color)

  /** The first file in `files`, the quick file that Enter opens from the search box. */
  function QuickFile(fs: FileSystem, files: seq<Path>): (r: Option<Path>)
    ensures r.None? <==> forall i | 0 <= i < |files| :: !IsFile(fs, files[i])
    ensures r.Some? ==> exists i | 0 <= i < |files| ::
      files[i] == r.value && IsFile(fs, files[i]) && forall j | 0 <= j < i :: !IsFile(fs, files[j])
  {
    if |files| == 0 then None
    else if IsFile(fs, files[0]) then Some(files[0])
    else
      var rest := QuickFile(fs, files[1..]);
      if rest.Some? then
        var i :| 0 <= i < |files[1..]| && files[1..][i] == rest.value && IsFile(fs, files[1..][i])
          && forall j | 0 <= j < i :: !IsFile(fs, files[1..][j]);
        assert files[i + 1] == rest.value;
        rest
      else rest
  }

  /** A row's colour: a folder, a file or a missing path, each its own. */
  function RowColor(fs: FileSystem, f: Path): (c: Color)
    ensures c == Folder <==> IsDir(fs, f)
    ensures c == FileColor <==> IsFile(fs, f)
    ensures c == Missing <==> f !in fs
  {
    if IsDir(fs, f) then Folder else if IsFile(fs, f) then FileColor else Missing
  }

  /**
   * `_do_refresh_tree`: one row per listed path, its `$/`-prefixed relative
   * text passed through `escape` (`kx.escape_markup`), or the root alone and
   * uncoloured when the list is empty (the list widget never holds an empty
   * list), plus the quick file: the first row coloured as a file.
   */
  function RefreshTree(fs: FileSystem, root: Path, files: seq<Path>, escape: string -> string): (r: (seq<Row>, Option<Path>))
    requires forall i | 0 <= i < |files| :: IsRelativeTo(files[i], root)
    ensures |r.0| > 0
    ensures |files| == 0 ==> r.0 == [Row(Str(root), Plain)] && r.1.None?
    ensures |files| > 0 ==> |r.0| == |files| && forall i | 0 <= i < |files| ::
      r.0[i] == Row(escape("$/" + Str(RelativeTo(files[i], root))), RowColor(fs, files[i]))
    ensures r.1.None? <==> forall i | 0 <= i < |r.0| :: r.0[i].color != FileColor
    ensures r.1.Some? ==> exists i | 0 <= i < |files| ::
      files[i] == r.1.value && r.0[i].color == FileColor && forall j | 0 <= j < i :: r.0[j].color != FileColor
  {
    if |files| == 0 then ([Row(Str(root), Plain)], None)
    else
      var rows := seq(|files|, i requires 0 <= i < |files| =>
        Row(escape("$/" + Str(RelativeTo(files[i], root))), RowColor(fs, files[i])));
      assert forall i | 0 <= i < |files| :: rows[i].color == RowColor(fs, files[i]);
      (rows, QuickFile(fs, files))
  }

  /** How many indexed paths are files. */
  function FileCount(fs: FileSystem, paths: seq<Path>): (n: nat)
    ensures n <= |paths|
  {
    if |paths| == 0 then 0 else (if IsFile(fs, paths[0]) then 1 else 0) + FileCount(fs, paths[1..])
  }

  /** The title text: the file count, a warning when fuzzy search is off, and the root. */
  datatype Title = Title(fileCount: nat, fuzzy: bool, root: Path)

  /**
   * `_refresh_title`: recompute the title only when the index's modification
   * stamp differs from the last one seen; return the stamp now seen.
   */
  function RefreshTitle(seen: int, t: Tree, fs: FileSystem, threshold: int): (r: (int, Option<Title>))
    ensures r.0 == t.lastModified
    ensures r.1.None? <==> seen == t.lastModified
    ensures r.1.Some? ==> r.1.value.fileCount <= |t.sortedTree| && r.1.value.root == t.root
  {
    if t.lastModified == seen then (seen, None)
    else (t.lastModified, Some(Title(FileCount(fs, t.sortedTree), FuzzyEnabled(t.sortedTree, threshold), t.root)))
  }

  /** Refreshing the title twice without a reindex in between recomputes it only once. */
  lemma RefreshTitleOnce(seen: int, t: Tree, fs: FileSystem, threshold: int)
    ensures RefreshTitle(RefreshTitle(seen, t, fs, threshold).0, t, fs, threshold).1.None?
  {
  }
}

=== FILE: seqs.dfy ===
/** Sequence helpers: filtering (Python's list comprehension with `if`) and set enumeration. */
module Seqs {

  /** `[x for x in s if keep(x)]`. */
  function Filter<T>(s: seq<T>, keep: T -> bool): (r: seq<T>)
    ensures |r| <= |s|
    ensures forall i | 0 <= i < |r| :: r[i] in s && keep(r[i])
    ensures forall i | 0 <= i < |s| && keep(s[i]) :: s[i] in r
    decreases |s|
  {
    if |s| == 0 then []
    else if keep(s[0]) then [s[0]] + Filter(s[1..], keep)
    else Filter(s[1..], keep)
  }

  /** Membership in a filtered sequence. */
  lemma FilterMembers<T>(s: seq<T>, keep: T -> bool)
    ensures forall x :: x in Filter(s, keep) <==> x in s && keep(x)
  {
    var r := Filter(s, keep);
    forall x
      ensures x in r <==> x in s && keep(x)
    {
      if x in r {
        var i :| 0 <= i < |r| && r[i] == x;
      }
      if x in s && keep(x) {
        var i :| 0 <= i < |s| && s[i] == x;
      }
    }
  }

  /** Sequences with the same elements counted with multiplicity have the same members. */
  lemma SameMembers<T>(a: seq<T>, b: seq<T>)
    requires multiset(a) == multiset(b)
    ensures forall x :: x in a <==> x in b
  {
    forall x
      ensures x in a <==> x in b
    {
      assert x in a <==> x in multiset(a);
      assert x in b <==> x in multiset(b);
    }
  }

  /** Dropping the head of a concatenation drops the head of its first part. */
  lemma TailOfAppend<T>(a: seq<T>, b: seq<T>)
    requires |a| > 0
    ensures (a + b)[0] == a[0] && (a + b)[1..] == a[1..] + b
  {
  }

  /** Concatenation is associative. */
  lemma AppendAssoc<T>(a: seq<T>, b: seq<T>, c: seq<T>)
    ensures a + b + c == a + (b + c)
  {
  }

  /** A sequence of two elements is the display of its two elements. */
  lemma TwoElements<T>(s: seq<T>)
    requires |s| == 2
    ensures s == [s[0], s[1]]
  {
  }

  /** Filtering a concatenation filters each half in place, so relative order is kept. */
  lemma {:induction false} FilterAppend<T>(a: seq<T>, b: seq<T>, keep: T -> bool)
    ensures Filter(a + b, keep) == Filter(a, keep) + Filter(b, keep)
    decreases |a|
  {
    if |a| > 0 {
      assert (a + b)[0] == a[0];
      assert (a + b)[1..] == a[1..] + b;
      FilterAppend(a[1..], b, keep);
    } else {
      assert a + b == b;
    }
  }

  /** A filter that keeps every element changes nothing. */
  lemma {:induction false} FilterKeepsAll<T>(s: seq<T>, keep: T -> bool)
    requires forall i | 0 <= i < |s| :: keep(s[i])
    ensures Filter(s, keep) == s
    decreases |s|
  {
    if |s| > 0 {
      FilterKeepsAll(s[1..], keep);
      assert s == [s[0]] + s[1..];
    }
  }

  /** The kept and the dropped elements together are the original elements. */
  lemma {:induction false} FilterPartition<T>(s: seq<T>, keep: T -> bool)
    ensures multiset(Filter(s, keep)) + multiset(Filter(s, x => !keep(x))) == multiset(s)
    decreases |s|
  {
    if |s| > 0 {
      FilterPartition(s[1..], keep);
      assert s == [s[0]] + s[1..];
    }
  }

  /** A kept element appears as often as in the original, and a dropped one not at all. */
  lemma {:induction false} FilterCount<T>(s: seq<T>, keep: T -> bool, x: T)
    ensures multiset(Filter(s, keep))[x] == if keep(x) then multiset(s)[x] else 0
    decreases |s|
  {
    if |s| > 0 {
      FilterCount(s[1..], keep, x);
      assert s == [s[0]] + s[1..];
    }
  }

  /** No element occurs twice. */
  predicate Distinct<T(==)>(s: seq<T>)
  {
    forall i, j | 0 <= i < j < |s| :: s[i] != s[j]
  }

  /** An element of a sequence without repeats occurs in it at most once. */
  lemma {:induction false} DistinctCount<T>(s: seq<T>, x: T)
    requires Distinct(s)
    ensures multiset(s)[x] <= 1
    decreases |s|
  {
    if |s| > 0 {
      var t := s[1..];
      assert Distinct(t) by {
        forall i, j | 0 <= i < j < |t|
          ensures t[i] != t[j]
        {
          assert t[i] == s[i + 1] && t[j] == s[j + 1];
        }
      }
      DistinctCount(t, x);
      assert s == [s[0]] + t;
      assert s[0] !in t by {
        forall k | 0 <= k < |t|
          ensures t[k] != s[0]
        {
          assert t[k] == s[k + 1];
        }
      }
    }
  }

  /** An element at two positions occurs at least twice. */
  lemma CountPair<T>(s: seq<T>, i: nat, j: nat)
    requires i < j < |s|
    ensures s[i] == s[j] ==> multiset(s)[s[i]] >= 2
  {
    assert s == s[..j] + s[j..];
    assert s[i] == s[..j][i];
    assert s[j] == s[j..][0];
  }

  /** A rearrangement of a sequence without repeats has none. */
  lemma DistinctPermutation<T>(a: seq<T>, b: seq<T>)
    requires Distinct(a) && multiset(a) == multiset(b)
    ensures Distinct(b)
  {
    forall i, j | 0 <= i < j < |b|
      ensures b[i] != b[j]
    {
      DistinctCount(a, b[i]);
      CountPair(b, i, j);
    }
  }

  /** Filtering a sequence without repeats leaves none. */
  lemma FilterDistinct<T>(s: seq<T>, keep: T -> bool)
    requires Distinct(s)
    ensures Distinct(Filter(s, keep))
  {
    var r := Filter(s, keep);
    forall i, j | 0 <= i < j < |r|
      ensures r[i] != r[j]
    {
      FilterCount(s, keep, r[i]);
      DistinctCount(s, r[i]);
      CountPair(r, i, j);
    }
  }

  /** Two sequences without repeats and with no element in common make one without repeats. */
  lemma DistinctAppend<T>(a: seq<T>, b: seq<T>)
    requires Distinct(a) && Distinct(b)
    requires forall x | x in a :: x !in b
    ensures Distinct(a + b)
  {
    var r := a + b;
    forall i, j | 0 <= i < j < |r|
      ensures r[i] != r[j]
    {
      if j < |a| {
        assert r[i] == a[i] && r[j] == a[j];
      } else if i >= |a| {
        assert r[i] == b[i - |a|] && r[j] == b[j - |a|];
      } else {
        assert r[i] == a[i] && r[j] == b[j - |a|];
        assert a[i] in a && b[j - |a|] in b;
      }
    }
  }

  /** The elements of a set in some order, each once. */
  method Enumerate<T>(s: set<T>) returns (r: seq<T>)
    ensures multiset(r) == multiset(s)
  {
    r := [];
    var rest := s;
    while rest != {}
      invariant rest <= s
      invariant multiset(r) + multiset(rest) == multiset(s)
      decreases |rest|
    {
      var x :| x in rest;
      r := r + [x];
      rest := rest - {x};
    }
  }

  /** A slice bound as Python normalises it: negative counts from the end, then clamped to `[0, n]`. */
  function SliceBound(i: int, n: nat): (r: nat)
    ensures r <= n
    ensures 0 <= i <= n ==> r == i
    ensures i < 0 ==> r == if i + n < 0 then 0 else i + n
  {
    if i < 0 then (if i + n < 0 then 0 else i + n) else if i > n then n else i
  }

  /** `s[a:b]` with Python's rules for out-of-range and negative bounds. */
  function PySlice<T>(s: seq<T>, a: int, b: int): (r: seq<T>)
    ensures 0 <= a <= b <= |s| ==> r == s[a..b]
    ensures |r| <= |s|
  {
    var x, y := SliceBound(a, |s|), SliceBound(b, |s|);
    if x < y then s[x..y] else []
  }
}

=== FILE: session.dfy ===
/**
 * The non-analysis half of the project `Session`: the cached file cursors
 * (their `path::line,col` encoding and the per-project merge), the path
 * display with its prefix precedence, and the path icons.
 */
module Session {
  import opened Wrappers
  import opened Strings
  import opened Paths
  import opened Sorting
  import opened FileUtil
  import opened Seqs

  // ---------------------------------------------------------------------------
  // The file-cursor encoding
  // ---------------------------------------------------------------------------

  /** `_convert_filecursor_str`: the path, "::", the line, ",", the column. */
  function EncodeCursor(fc: FileCursor): (s: string)
    requires |fc.cursor| >= 2
    ensures StartsWith(s, Str(fc.file))
    ensures RFind(s, "::") == |Str(fc.file)|
  {
    var fields := IntToString(fc.cursor[0]) + "," + IntToString(fc.cursor[1]);
    RFindLastSeparator(Str(fc.file), fields);
    Str(fc.file) + "::" + fields
  }

  /** `int()` raised on a cursor field. */
  datatype DecodeError = BadInteger(field: string)

  /** `tuple(int(c) for c in fields)`: the first field `int()` rejects raises. */
  function ParseInts(fields: seq<string>): (r: Result<seq<int>, DecodeError>)
    ensures r.Ok? <==> forall i | 0 <= i < |fields| :: ParseInt(fields[i]).Some?
    ensures r.Ok? ==> |r.value| == |fields| && forall i | 0 <= i < |fields| :: ParseInt(fields[i]) == Some(r.value[i])
  {
    if |fields| == 0 then Ok([])
    else
      match ParseInt(fields[0])
      case None => Err(BadInteger(fields[0]))
      case Some(v) =>
        var rest := ParseInts(fields[1..]);
        if rest.Err? then
          assert exists i | 0 <= i < |fields| :: ParseInt(fields[i]).None? by {
            var i :| 0 <= i < |fields[1..]| && ParseInt(fields[1..][i]).None?;
            assert fields[i + 1] == fields[1..][i];
          }
          rest
        else
          Ok([v] + rest.value)
  }

  /**
   * `_convert_str_filecursor`: without "::" the whole string is the path and
   * the cursor is the default; otherwise the path ends at the last "::" and
   * the rest is a comma-separated tuple of integers of any length.
   */
  function DecodeCursor(s: string): (r: Result<FileCursor, DecodeError>)
    ensures !Contains(s, "::") ==> r == Ok(NewFileCursor(Parse(s)))
    ensures Contains(s, "::") ==> r.Ok? ==>
      r.value.file == Parse(s[..RFind(s, "::")])
      && |r.value.cursor| == |Split(s[RFind(s, "::") + 2..], ',')|
  {
    if !Contains(s, "::") then Ok(NewFileCursor(Parse(s)))
    else
      ContainsRFind(s, "::");
      var i := RFind(s, "::");
      var cursor :- ParseInts(Split(s[i + 2..], ','));
      Ok(FileCursor(Parse(s[..i]), cursor))
  }

  /**
   * Encoding and then decoding gives the cursor back, also for paths that
   * themselves contain "::", because the decoder splits at the last one.
   */
  lemma CursorRoundTrip(fc: FileCursor)
    requires Canonical(fc.file) && |fc.cursor| == 2
    ensures DecodeCursor(EncodeCursor(fc)) == Ok(fc)
  {
    var fields := IntToString(fc.cursor[0]) + "," + IntToString(fc.cursor[1]);
    DecodeAtLastSeparator(Str(fc.file), fields);
    FieldsRoundTrip(fc.cursor[0], fc.cursor[1]);
    ParseStr(fc.file);
    TwoElements(fc.cursor);
  }

  /** A string `f::fields` with no colon in `fields` decodes the path `f` and the fields. */
  lemma DecodeAtLastSeparator(f: string, fields: string)
    requires ':' !in fields
    ensures DecodeCursor(f + "::" + fields) ==
      match ParseInts(Split(fields, ','))
      case Ok(c) => Ok(FileCursor(Parse(f), c))
      case Err(e) => Err(e)
  {
    var s := f + "::" + fields;
    RFindLastSeparator(f, fields);
    assert OccursAt(s, "::", |f|);
    assert s[..|f|] == f;
    assert s[|f| + 2..] == fields;
  }

  /** The two written integers read back as themselves. */
  lemma FieldsRoundTrip(x: int, y: int)
    ensures ParseInts(Split(IntToString(x) + "," + IntToString(y), ',')) == Ok([x, y])
  {
    var a, b := IntToString(x), IntToString(y);
    SplitTwo(a, b);
    IntRoundTrip(x);
    IntRoundTrip(y);
    assert [b][1..] == [];
    assert ParseInts([]) == Ok([]);
    assert ParseInt([b][0]) == Some(y);
    assert ParseInts([b]) == Ok([y] + []);
    assert [a, b][1..] == [b];
    assert ParseInt([a, b][0]) == Some(x);
    var r := ParseInts([a, b]);
    assert r.Ok?;
    assert r.value[0] == x;
    assert r.value == [x, y];
  }

  /** Two fields joined by a comma split back into the two. */
  lemma SplitTwo(a: string, b: string)
    requires ',' !in a && ',' !in b
    ensures Split(a + "," + b, ',') == [a, b]
  {
    assert Join([a, b], [',']) == a + "," + b;
    SplitJoin([a, b], ',');
  }

  /** A cursor field `int()` rejects makes the whole entry fail to decode. */
  lemma EmptyCursorFails()
    ensures DecodeCursor("/a::").Err?
  {
    var s := "/a::";
    assert OccursAt(s, "::", 2);
    ContainsRFind(s, "::");
    assert !OccursAt(s, "::", 3) && !OccursAt(s, "::", 4);
    assert RFind(s, "::") == 2;
    assert s[4..] == "";
    assert Split("", ',') == [""];
  }

  // ---------------------------------------------------------------------------
  // The per-project cache of open files
  // ---------------------------------------------------------------------------

  /** The sessions cache file: project path string to encoded cursors. */
  type SessionCache = map<string, seq<string>>

  /** A session: the single file it was opened on, if any, and the project directory. */
  datatype Session = Session(fileMode: Option<Path>, projectPath: Path)

  /** `Session(project_path)`: a path that is not a directory opens its parent in single-file mode. */
  function NewSession(fs: FileSystem, projectPath: Path): (s: Session)
    ensures s.fileMode.None? <==> IsDir(fs, projectPath)
    ensures s.fileMode.Some? ==> s.fileMode.value == projectPath && Parent(projectPath) == s.projectPath
    ensures s.fileMode.None? ==> s.projectPath == projectPath
  {
    if IsDir(fs, projectPath) then Session(None, projectPath) else Session(Some(projectPath), Parent(projectPath))
  }

  /** In single-file mode the file lies directly inside the project directory. */
  lemma FileModeInsideProject(fs: FileSystem, projectPath: Path)
    requires |projectPath.parts| > 0
    requires NewSession(fs, projectPath).fileMode.Some?
    ensures StrictlyBelow(projectPath, NewSession(fs, projectPath).projectPath)
  {
  }

  /** Decode every cached entry; the first bad one raises. */
  function DecodeAll(entries: seq<string>): (r: Result<seq<FileCursor>, DecodeError>)
    ensures r.Ok? <==> forall i | 0 <= i < |entries| :: DecodeCursor(entries[i]).Ok?
    ensures r.Ok? ==> |r.value| == |entries| && forall i | 0 <= i < |entries| :: DecodeCursor(entries[i]) == Ok(r.value[i])
  {
    if |entries| == 0 then Ok([])
    else
      match DecodeCursor(entries[0])
      case Err(e) => Err(e)
      case Ok(fc) =>
        var rest := DecodeAll(entries[1..]);
        if rest.Err? then
          assert exists i | 0 <= i < |entries| :: DecodeCursor(entries[i]).Err? by {
            var i :| 0 <= i < |entries[1..]| && DecodeCursor(entries[1..][i]).Err?;
            assert entries[i + 1] == entries[1..][i];
          }
          rest
        else
          Ok([fc] + rest.value)
  }

  /** The cache key of a session: the project path as a string. */
  function Key(s: Session): string
  {
    Str(s.projectPath)
  }

  /**
   * `get_file_cursors`: the opened file alone in single-file mode, nothing
   * for a project the cache does not know, else the decoded entries.
   */
  function GetFileCursors(s: Session, cache: SessionCache): (r: Result<seq<FileCursor>, DecodeError>)
    ensures s.fileMode.Some? ==> r == Ok([NewFileCursor(s.fileMode.value)])
    ensures s.fileMode.None? && Key(s) !in cache ==> r == Ok([])
    ensures s.fileMode.None? && Key(s) in cache ==> r == DecodeAll(cache[Key(s)])
  {
    if s.fileMode.Some? then Ok([NewFileCursor(s.fileMode.value)])
    else if Key(s) !in cache then Ok([])
    else DecodeAll(cache[Key(s)])
  }

  function EncodeAll(fcs: seq<FileCursor>): (r: seq<string>)
    requires forall i | 0 <= i < |fcs| :: |fcs[i].cursor| >= 2
    ensures |r| == |fcs| && forall i | 0 <= i < |fcs| :: r[i] == EncodeCursor(fcs[i])
  {
    seq(|fcs|, i requires 0 <= i < |fcs| => EncodeCursor(fcs[i]))
  }

  /** Decoding the encoded cursors gives them back, in order. */
  lemma EncodeAllRoundTrip(fcs: seq<FileCursor>)
    requires forall i | 0 <= i < |fcs| :: Canonical(fcs[i].file) && |fcs[i].cursor| == 2
    ensures DecodeAll(EncodeAll(fcs)) == Ok(fcs)
  {
    var stored := EncodeAll(fcs);
    forall i | 0 <= i < |fcs|
      ensures DecodeCursor(stored[i]) == Ok(fcs[i])
    {
      CursorRoundTrip(fcs[i]);
    }
    var got := DecodeAll(stored);
    DecodedPrefix(stored, fcs, got.value);
    assert got.value == got.value[..|fcs|];
  }

  /**
   * `save_file_cursors`: nothing in single-file mode; otherwise the project's
   * entry becomes the new cursors, followed by the cached entries beyond
   * their count when the cached list was longer.
   */
  function SaveFileCursors(s: Session, cache: SessionCache, fcs: seq<FileCursor>): (r: SessionCache)
    requires forall i | 0 <= i < |fcs| :: |fcs[i].cursor| >= 2
    ensures s.fileMode.Some? ==> r == cache
    ensures s.fileMode.None? ==> r.Keys == cache.Keys + {Key(s)}
    ensures s.fileMode.None? ==> forall k | k in cache && k != Key(s) :: r[k] == cache[k]
    ensures s.fileMode.None? ==>
      var existing := if Key(s) in cache then cache[Key(s)] else [];
      var stored := r[Key(s)];
      |stored| == (if |existing| > |fcs| then |existing| else |fcs|)
      && (forall i | 0 <= i < |fcs| :: stored[i] == EncodeCursor(fcs[i]))
      && (forall i | |fcs| <= i < |stored| :: stored[i] == existing[i])
  {
    if s.fileMode.Some? then cache
    else
      var existing := if Key(s) in cache then cache[Key(s)] else [];
      cache[Key(s) := Overwrite(existing, EncodeAll(fcs))]
  }

  /** The new entries over the old list: the new ones first, then any old ones beyond them. */
  function Overwrite(existing: seq<string>, encoded: seq<string>): (m: seq<string>)
    ensures |m| == if |existing| > |encoded| then |existing| else |encoded|
    ensures forall i | 0 <= i < |encoded| :: m[i] == encoded[i]
    ensures forall i | |encoded| <= i < |m| :: m[i] == existing[i]
  {
    if |existing| > |encoded| then encoded + existing[|encoded|..] else encoded
  }

  /**
   * Reading back what was just saved gives the saved cursors first; exactly
   * them when the cache held no longer list for the project.
   */
  lemma SaveThenGet(s: Session, cache: SessionCache, fcs: seq<FileCursor>)
    requires s.fileMode.None?
    requires forall i | 0 <= i < |fcs| :: Canonical(fcs[i].file) && |fcs[i].cursor| == 2
    ensures var got := GetFileCursors(s, SaveFileCursors(s, cache, fcs));
      got.Ok? ==> |got.value| >= |fcs| && got.value[..|fcs|] == fcs
    ensures Key(s) !in cache || |cache[Key(s)]| <= |fcs| ==>
      GetFileCursors(s, SaveFileCursors(s, cache, fcs)) == Ok(fcs)
  {
    var stored := SaveFileCursors(s, cache, fcs)[Key(s)];
    StoredDecodes(s, cache, fcs);
    var got := DecodeAll(stored);
    if got.Ok? {
      DecodedPrefix(stored, fcs, got.value);
    }
    if Key(s) !in cache || |cache[Key(s)]| <= |fcs| {
      assert |stored| == |fcs|;
      assert got.Ok?;
      DecodedPrefix(stored, fcs, got.value);
      assert got.value == got.value[..|fcs|];
    }
  }

  /** The first saved entries decode to the saved cursors. */
  lemma StoredDecodes(s: Session, cache: SessionCache, fcs: seq<FileCursor>)
    requires s.fileMode.None?
    requires forall i | 0 <= i < |fcs| :: Canonical(fcs[i].file) && |fcs[i].cursor| == 2
    ensures var stored := SaveFileCursors(s, cache, fcs)[Key(s)];
      |stored| >= |fcs| && forall i | 0 <= i < |fcs| :: DecodeCursor(stored[i]) == Ok(fcs[i])
  {
    forall i | 0 <= i < |fcs|
      ensures DecodeCursor(EncodeCursor(fcs[i])) == Ok(fcs[i])
    {
      CursorRoundTrip(fcs[i]);
    }
  }

  /** Entries that decode to `fcs` one by one give `fcs` as the decoded prefix. */
  lemma DecodedPrefix(stored: seq<string>, fcs: seq<FileCursor>, decoded: seq<FileCursor>)
    requires |stored| >= |fcs| && forall i | 0 <= i < |fcs| :: DecodeCursor(stored[i]) == Ok(fcs[i])
    requires |decoded| == |stored| && forall i | 0 <= i < |stored| :: DecodeCursor(stored[i]) == Ok(decoded[i])
    ensures decoded[..|fcs|] == fcs
  {
    forall i | 0 <= i < |fcs|
      ensures decoded[i] == fcs[i]
    {
      assert DecodeCursor(stored[i]).value == decoded[i];
    }
  }

  /** Saving the same cursors twice stores the same as saving them once. */
  lemma SaveIdempotent(s: Session, cache: SessionCache, fcs: seq<FileCursor>)
    requires forall i | 0 <= i < |fcs| :: |fcs[i].cursor| >= 2
    ensures SaveFileCursors(s, SaveFileCursors(s, cache, fcs), fcs) == SaveFileCursors(s, cache, fcs)
  {
    if s.fileMode.None? {
      var once := SaveFileCursors(s, cache, fcs);
      var twice := SaveFileCursors(s, once, fcs);
      var existing := if Key(s) in cache then cache[Key(s)] else [];
      assert twice[Key(s)] == once[Key(s)];
      assert twice.Keys == once.Keys;
    }
  }

  // ---------------------------------------------------------------------------
  // Path display
  // ---------------------------------------------------------------------------

  /** `_relative_without_empty`: the path relative to `relative`, or "" for `relative` itself. */
  function RelativeWithoutEmpty(p: Path, relative: Path): (r: string)
    requires IsRelativeTo(p, relative)
    ensures Canonical(p) ==> (r == "" <==> p == relative)
  {
    if p == relative then ""
    else
      var rel := RelativeTo(p, relative);
      assert |p.parts| > |relative.parts|;
      assert rel.parts[0] == p.parts[|relative.parts|];
      JoinStartsWithFirst(rel.parts, "/");
      Str(rel)
  }

  lemma {:induction false} JoinStartsWithFirst(parts: seq<string>, sep: string)
    requires |parts| > 0
    ensures |Join(parts, sep)| >= |parts[0]|
  {
  }

  /** The displayed relative part parses back to the path once joined to `relative`. */
  lemma RelativeWithoutEmptyResolves(p: Path, relative: Path)
    requires IsRelativeTo(p, relative) && Canonical(p)
    ensures JoinPath(relative, Parse(RelativeWithoutEmpty(p, relative))) == p
  {
    if p != relative {
      var rel := RelativeTo(p, relative);
      assert Canonical(rel) by {
        forall i | 0 <= i < |rel.parts|
          ensures ValidPart(rel.parts[i])
        {
          assert rel.parts[i] == p.parts[i + |relative.parts|];
        }
      }
      ParseStr(rel);
    } else {
      assert Split("", '/') == [""];
      assert Parse("") == Path(false, []);
      assert relative.parts + [] == relative.parts;
    }
  }

  /** `_Prefixes`: the labels for the project, the config directory and home, and the custom replacements. */
  datatype Prefixes = Prefixes(proj: string, config: string, home: string, paths: seq<(Path, string)>)

  /** A custom replacement that did not split into exactly two fields on ";". */
  datatype PrefixError = BadReplacement(entry: string)

  /**
   * The lexical part of `Path(s).expanduser().resolve()`: a leading "~"
   * becomes `home`, and a relative path is joined to `cwd`. What `resolve()`
   * does beyond that (collapsing ".." and following symbolic links, which
   * needs the file system) is the parameter `resolve` of `ParseCustom`.
   */
  function ExpandAbsolute(home: Path, cwd: Path, s: string): (p: Path)
    requires home.absolute && cwd.absolute
    ensures p.absolute
  {
    var q := Parse(s);
    var e := if !q.absolute && |q.parts| > 0 && q.parts[0] == "~" then JoinPath(home, Path(false, q.parts[1..])) else q;
    JoinPath(cwd, e)
  }

  /** Unpack each `original;new` entry, resolving the original path. */
  function ParseCustom(home: Path, cwd: Path, resolve: Path -> Path, custom: seq<string>): (r: Result<seq<(Path, string)>, PrefixError>)
    requires home.absolute && cwd.absolute
    ensures r.Ok? <==> forall k | 0 <= k < |custom| :: |Split(custom[k], ';')| == 2
    ensures r.Ok? ==> |r.value| == |custom| && forall k | 0 <= k < |custom| ::
      r.value[k] == (resolve(ExpandAbsolute(home, cwd, Split(custom[k], ';')[0])), Split(custom[k], ';')[1])
  {
    if |custom| == 0 then Ok([])
    else
      var fields := Split(custom[0], ';');
      if |fields| != 2 then Err(BadReplacement(custom[0]))
      else
        var rest := ParseCustom(home, cwd, resolve, custom[1..]);
        if rest.Err? then
          assert exists k | 0 <= k < |custom| :: |Split(custom[k], ';')| != 2 by {
            var k :| 0 <= k < |custom[1..]| && |Split(custom[1..][k], ';')| != 2;
            assert custom[k + 1] == custom[1..][k];
          }
          rest
        else
          Ok([(resolve(ExpandAbsolute(home, cwd, fields[0])), fields[1])] + rest.value)
  }

  /** An entry written as `original;new`, with no ";" in either half, unpacks to its two halves. */
  lemma CustomEntry(home: Path, cwd: Path, resolve: Path -> Path, original: string, replacement: string)
    requires home.absolute && cwd.absolute
    requires ';' !in original && ';' !in replacement
    ensures ParseCustom(home, cwd, resolve, [original + ";" + replacement])
      == Ok([(resolve(ExpandAbsolute(home, cwd, original)), replacement)])
  {
    assert Join([original, replacement], [';']) == original + ";" + replacement;
    SplitJoin([original, replacement], ';');
    var entry := original + ";" + replacement;
    assert Split(entry, ';') == [original, replacement];
    assert [entry][1..] == [];
    assert ParseCustom(home, cwd, resolve, []) == Ok([]);
    assert Split([entry][0], ';') == [original, replacement];
    var r := ParseCustom(home, cwd, resolve, [entry]);
    assert r.Ok?;
    assert r.value[0] == (resolve(ExpandAbsolute(home, cwd, original)), replacement);
    assert r.value == [(resolve(ExpandAbsolute(home, cwd, original)), replacement)];
  }

  /** The sort key of a replacement: minus the depth of its path. */
  function NegDepth(e: (Path, string)): int
  {
    -(Depth(e.0) as int)
  }

  /** `_update_settings`: read the labels and the replacements, deepest replacement path first. */
  function UpdatePrefixes(home: Path, cwd: Path, resolve: Path -> Path, proj: string, config: string, homeLabel: string, custom: seq<string>)
    : (r: Result<Prefixes, PrefixError>)
    requires home.absolute && cwd.absolute
    ensures r.Ok? <==> ParseCustom(home, cwd, resolve, custom).Ok?
    ensures r.Ok? ==> r.value.proj == proj && r.value.config == config && r.value.home == homeLabel
    ensures r.Ok? ==> multiset(r.value.paths) == multiset(ParseCustom(home, cwd, resolve, custom).value)
    ensures r.Ok? ==> forall i, j | 0 <= i < j < |r.value.paths| :: Depth(r.value.paths[i].0) >= Depth(r.value.paths[j].0)
    ensures r.Ok? ==> forall k :: Filter(r.value.paths, WithKey(NegDepth, k)) == Filter(ParseCustom(home, cwd, resolve, custom).value, WithKey(NegDepth, k))
  {
    var parsed :- ParseCustom(home, cwd, resolve, custom);
    var sorted := SortByInt(parsed, NegDepth);
    Ok(Prefixes(proj, config, homeLabel, sorted))
  }

  /** Replacements that all lie at one depth keep their order in the settings. */
  lemma EqualDepthKeepsOrder(home: Path, cwd: Path, resolve: Path -> Path, proj: string, config: string, homeLabel: string,
    custom: seq<string>, parsed: seq<(Path, string)>)
    requires home.absolute && cwd.absolute
    requires ParseCustom(home, cwd, resolve, custom) == Ok(parsed)
    requires forall i | 0 <= i < |parsed| :: Depth(parsed[i].0) == Depth(parsed[0].0)
    ensures UpdatePrefixes(home, cwd, resolve, proj, config, homeLabel, custom) == Ok(Prefixes(proj, config, homeLabel, parsed))
  {
    var r := UpdatePrefixes(home, cwd, resolve, proj, config, homeLabel, custom);
    if |parsed| > 0 {
      var c := NegDepth(parsed[0]);
      forall i | 0 <= i < |parsed|
        ensures NegDepth(parsed[i]) == c
      {
      }
      StableOneKey(r.value.paths, parsed, NegDepth, c);
    } else {
      assert multiset(r.value.paths) == multiset{};
    }
  }

  /** Where `repr_full_path` looks: the user directory and the home directory. */
  datatype Env = Env(userDir: Path, home: Path)

  /** A replacement `repr_full_path` may use: it holds `p`, and is not skipped for holding the project. */
  predicate Eligible(prefix: Path, project: Path, toProject: bool, p: Path)
  {
    !(toProject && IsRelativeTo(project, prefix)) && IsRelativeTo(p, prefix)
  }

  /** The first eligible replacement, in list order. */
  function FirstEligible(paths: seq<(Path, string)>, project: Path, toProject: bool, p: Path): (r: Option<nat>)
    ensures r.None? <==> forall j | 0 <= j < |paths| :: !Eligible(paths[j].0, project, toProject, p)
    ensures r.Some? ==>
      && r.value < |paths|
      && Eligible(paths[r.value].0, project, toProject, p)
      && (forall j | 0 <= j < r.value :: !Eligible(paths[j].0, project, toProject, p))
  {
    if |paths| == 0 then None
    else if Eligible(paths[0].0, project, toProject, p) then Some(0)
    else
      match FirstEligible(paths[1..], project, toProject, p)
      case None => None
      case Some(i) => Some(i + 1)
  }

  /**
   * The directory a path is shown relative to and its caption, in the order
   * `repr_full_path` tries them: the user directory, the first eligible
   * replacement, the project (when asked for), home; else none.
   */
  function DisplayBase(env: Env, prefixes: Prefixes, project: Path, p: Path, toProject: bool): (r: Option<(Path, string)>)
    ensures r.Some? ==> IsRelativeTo(p, r.value.0)
    ensures IsRelativeTo(p, env.userDir) ==> r == Some((env.userDir, prefixes.config))
    ensures !IsRelativeTo(p, env.userDir) && FirstEligible(prefixes.paths, project, toProject, p).Some? ==>
      r == Some(prefixes.paths[FirstEligible(prefixes.paths, project, toProject, p).value])
    ensures r.None? <==>
      !IsRelativeTo(p, env.userDir) && FirstEligible(prefixes.paths, project, toProject, p).None?
      && !(toProject && IsRelativeTo(p, project)) && !IsRelativeTo(p, env.home)
  {
    if IsRelativeTo(p, env.userDir) then Some((env.userDir, prefixes.config))
    else match FirstEligible(prefixes.paths, project, toProject, p)
      case Some(i) => Some(prefixes.paths[i])
      case None =>
        if toProject && IsRelativeTo(p, project) then Some((project, prefixes.proj))
        else if IsRelativeTo(p, env.home) then Some((env.home, prefixes.home))
        else None
  }

  /** `repr_full_path(p)` for a resolved `p`: icon, caption, "/", the relative rest; or the bare path. */
  function ReprFullPath(fs: FileSystem, env: Env, prefixes: Prefixes, project: Path, p: Path, toProject: bool, includeIcon: bool)
    : (r: string)
    ensures DisplayBase(env, prefixes, project, p, toProject).None? ==> r == Str(p)
    ensures DisplayBase(env, prefixes, project, p, toProject).Some? ==>
      var (base, caption) := DisplayBase(env, prefixes, project, p, toProject).value;
      r == IconPart(fs, env, p, includeIcon) + caption + "/" + RelativeWithoutEmpty(p, base)
  {
    match DisplayBase(env, prefixes, project, p, toProject)
    case None => Str(p)
    case Some((base, caption)) => IconPart(fs, env, p, includeIcon) + caption + "/" + RelativeWithoutEmpty(p, base)
  }

  /** The icon and a space, or nothing. */
  function IconPart(fs: FileSystem, env: Env, p: Path, includeIcon: bool): string
  {
    if includeIcon then GetPathIcon(fs, env.home, p) + " " else ""
  }

  /** What follows the caption and "/" in a displayed path leads back to the path from its base. */
  lemma ReprFullPathResolves(fs: FileSystem, env: Env, prefixes: Prefixes, project: Path, p: Path, toProject: bool,
    includeIcon: bool)
    requires Canonical(p)
    requires DisplayBase(env, prefixes, project, p, toProject).Some?
    ensures var (base, caption) := DisplayBase(env, prefixes, project, p, toProject).value;
      var head := IconPart(fs, env, p, includeIcon) + caption + "/";
      var r := ReprFullPath(fs, env, prefixes, project, p, toProject, includeIcon);
      StartsWith(r, head) && JoinPath(base, Parse(r[|head|..])) == p
  {
    var (base, caption) := DisplayBase(env, prefixes, project, p, toProject).value;
    var head := IconPart(fs, env, p, includeIcon) + caption + "/";
    var r := ReprFullPath(fs, env, prefixes, project, p, toProject, includeIcon);
    assert r == head + RelativeWithoutEmpty(p, base);
    assert r[|head|..] == RelativeWithoutEmpty(p, base);
    RelativeWithoutEmptyResolves(p, base);
  }

  /**
   * With the replacements sorted deepest first, the one chosen is the
   * deepest of those eligible.
   */
  lemma DeepestReplacementChosen(env: Env, prefixes: Prefixes, project: Path, p: Path, toProject: bool)
    requires forall i, j | 0 <= i < j < |prefixes.paths| :: Depth(prefixes.paths[i].0) >= Depth(prefixes.paths[j].0)
    requires FirstEligible(prefixes.paths, project, toProject, p).Some?
    ensures var i := FirstEligible(prefixes.paths, project, toProject, p).value;
      forall j | 0 <= j < |prefixes.paths| && Eligible(prefixes.paths[j].0, project, toProject, p) ::
        Depth(prefixes.paths[j].0) <= Depth(prefixes.paths[i].0)
  {
  }

  /** When showing paths relative to the project, a replacement that holds the project is never used. */
  lemma ProjectReplacementSkipped(env: Env, prefixes: Prefixes, project: Path, p: Path, k: nat)
    requires k < |prefixes.paths| && IsRelativeTo(project, prefixes.paths[k].0)
    requires !IsRelativeTo(p, env.userDir)
    ensures FirstEligible(prefixes.paths, project, true, p) != Some(k)
  {
  }

  // ---------------------------------------------------------------------------
  // Icons
  // ---------------------------------------------------------------------------

  const LanguageIcon := "\U{e73c}"
  const ArchiveIcon := "\U{f187}"
  const DefaultIcon := "\U{f4a5}"
  const GitIcon := "\U{e702}"
  const LicenseIcon := "\U{eb12}"
  const HomeIcon := "\U{f015}"
  const FolderIcon := "\U{e5fe}"

  /** `FILE_TYPE_ICONS`: an icon per suffix. */
  const FileTypeIcons: map<string, string> := map[
    ".py" := LanguageIcon, ".pyc" := LanguageIcon, ".pyx" := LanguageIcon, ".pxd" := LanguageIcon,
    ".js" := "\U{e74e}", ".ts" := "\U{e628}", ".rs" := "\U{e7a8}", ".c" := "\U{e61e}",
    ".cpp" := "\U{e61d}", ".php" := "\U{f81e}", ".html" := "\U{e736}", ".css" := "\U{e749}",
    ".zip" := ArchiveIcon, ".tar.gz" := ArchiveIcon, ".7zip" := ArchiveIcon,
    ".wav" := "\U{fc58}", ".mp3" := "\U{fc58}", ".flac" := "\U{fc58}", ".ogg" := "\U{fc58}", ".m4a" := "\U{fc58}",
    ".png" := "\U{f7ee}", ".jpg" := "\U{f7ee}", ".jpeg" := "\U{f7ee}",
    ".mp4" := "\U{fa66}", ".ogv" := "\U{fa66}", ".mkv" := "\U{fa66}",
    ".yml" := "\U{e615}", ".yaml" := "\U{e615}", ".toml" := "\U{e615}", ".ini" := "\U{e615}", ".cfg" := "\U{e615}",
    ".md" := "\U{f48a}", ".json" := "\U{fb25}", ".log" := "\U{eaaf}", ".sh" := "\U{e795}", ".bak" := "\U{f56e}"
  ]

  /** `FILE_TYPE_ICONS.get(key, default)`. */
  function TableIcon(key: string): string
  {
    if key in FileTypeIcons then FileTypeIcons[key] else DefaultIcon
  }

  /** The rules before the table: ".git" in the name, "LICENSE" in the name, a directory. */
  function SpecialIcon(fs: FileSystem, home: Path, p: Path): Option<string>
  {
    if Contains(Name(p), ".git") then Some(GitIcon)
    else if Contains(Name(p), "LICENSE") then Some(LicenseIcon)
    else if IsDir(fs, p) then Some(if p == home then HomeIcon else FolderIcon)
    else None
  }

  /** `get_path_icon` as written: the table is looked up by `p.suffix`, which is only the last extension. */
  function GetPathIconAsWritten(fs: FileSystem, home: Path, p: Path): string
  {
    match SpecialIcon(fs, home, p)
    case Some(icon) => icon
    case None => TableIcon(Suffix(Name(p)))
  }

  /** The key the table is meant to be looked up by: ".tar.gz" for such archives, else the suffix. */
  function IconKey(name: string): (k: string)
    ensures EndsWith(name, ".tar.gz") && |name| > 7 ==> k == ".tar.gz"
    ensures !EndsWith(name, ".tar.gz") ==> k == Suffix(name)
  {
    if EndsWith(name, ".tar.gz") && |name| > 7 then ".tar.gz" else Suffix(name)
  }

  /** `get_path_icon`, with the ".tar.gz" entry reachable. */
  function GetPathIcon(fs: FileSystem, home: Path, p: Path): (r: string)
    ensures Contains(Name(p), ".git") ==> r == GitIcon
    ensures !Contains(Name(p), ".git") && Contains(Name(p), "LICENSE") ==> r == LicenseIcon
    ensures SpecialIcon(fs, home, p).None? ==> r == TableIcon(IconKey(Name(p)))
    ensures IsDir(fs, p) ==> r in {GitIcon, LicenseIcon, HomeIcon, FolderIcon}
  {
    match SpecialIcon(fs, home, p)
    case Some(icon) => icon
    case None => TableIcon(IconKey(Name(p)))
  }

  /** The two lookups agree on every name that does not end in ".tar.gz". */
  lemma IconAgreesOffTarGz(fs: FileSystem, home: Path, p: Path)
    requires !EndsWith(Name(p), ".tar.gz")
    ensures GetPathIcon(fs, home, p) == GetPathIconAsWritten(fs, home, p)
  {
  }

  /** No name has ".tar.gz" as its suffix, so that table entry is never reached as written. */
  lemma TarGzUnreachable(name: string)
    ensures Suffix(name) != ".tar.gz"
  {
    if Suffix(name) != "" {
      SuffixSingleDot(name);
      assert ".tar.gz"[1..][3] == '.';
    }
  }

  /** The table has an archive icon for ".tar.gz" and nothing for ".gz". */
  lemma TarGzEntries()
    ensures TableIcon(".tar.gz") == ArchiveIcon && TableIcon(".gz") == DefaultIcon
  {
  }

  /** "a.tar.gz" holds neither ".git" nor "LICENSE", and its suffix is ".gz". */
  lemma TarGzName()
    ensures !Contains("a.tar.gz", ".git") && !Contains("a.tar.gz", "LICENSE")
    ensures Suffix("a.tar.gz") == ".gz" && IconKey("a.tar.gz") == ".tar.gz"
  {
    assert !Contains("a.tar.gz", ".git") by {
      forall i | 0 <= i <= 8
        ensures !OccursAt("a.tar.gz", ".git", i)
      {
        if i + 4 <= 8 {
          assert "a.tar.gz"[i..i + 4] != ".git" by {
            assert "a.tar.gz"[i..i + 4][1] == "a.tar.gz"[i + 1];
          }
        }
      }
    }
    assert !Contains("a.tar.gz", "LICENSE") by {
      forall i | 0 <= i <= 8
        ensures !OccursAt("a.tar.gz", "LICENSE", i)
      {
        if i + 7 <= 8 {
          assert "a.tar.gz"[i..i + 7][0] == "a.tar.gz"[i];
        }
      }
    }
    assert EndsWith("a.tar.gz", ".tar.gz");
    assert Suffix("a.tar.gz") == ".gz" by {
      assert OccursAt("a.tar.gz", ".", 5);
      assert "a.tar.gz"[6..7] == "g" && "a.tar.gz"[7..8] == "z";
      assert RFind("a.tar.gz", ".") == 5;
    }
  }

  /** A plain file `/a.tar.gz` gets the default icon as written, and the archive icon as intended. */
  lemma TarGzIcon()
    ensures GetPathIconAsWritten(map[Path(true, ["a.tar.gz"]) := File(0)], Root, Path(true, ["a.tar.gz"])) == DefaultIcon
    ensures GetPathIcon(map[Path(true, ["a.tar.gz"]) := File(0)], Root, Path(true, ["a.tar.gz"])) == ArchiveIcon
  {
    var p := Path(true, ["a.tar.gz"]);
    assert Name(p) == "a.tar.gz";
    TarGzName();
    TarGzEntries();
  }

}

=== FILE: settings.dfy ===
/**
 * The settings store (`util/settings.py`, and its two identical copies in
 * the older `nide` package): the default and the user TOML documents are
 * flattened to dotted keys, the user's known keys override the defaults,
 * and `get` looks a key up. Reading and writing the TOML files is outside
 * the model; the parsed documents are the inputs.
 */
module Settings {
  import opened Wrappers
  import opened Strings
  import opened Seqs

  /** A parsed TOML value: a leaf, or a table of keys in file order. */
  datatype Node<V> = Leaf(value: V) | Table(items: seq<(string, Node<V>)>)

  /** Flattened settings: dotted key to leaf value. */
  type Flat<V> = map<string, V>

  /** A table's keys are distinct, all the way down, as in a dict built by the TOML reader. */
  predicate DistinctKeys<V(==)>(d: Node<V>)
    decreases d
  {
    d.Table? ==>
      (forall i, j | 0 <= i < j < |d.items| :: d.items[i].0 != d.items[j].0)
      && forall i | 0 <= i < |d.items| :: DistinctKeys(d.items[i].1)
  }

  /** The position of the first item with key `k`. */
  function FirstKey<V(==)>(items: seq<(string, Node<V>)>, k: string): (r: Option<nat>)
    ensures r.None? <==> forall j | 0 <= j < |items| :: items[j].0 != k
    ensures r.Some? ==>
      r.value < |items| && items[r.value].0 == k && forall j | 0 <= j < r.value :: items[j].0 != k
  {
    if |items| == 0 then None
    else if items[0].0 == k then Some(0)
    else
      match FirstKey(items[1..], k)
      case None => None
      case Some(i) => Some(i + 1)
  }

  /** The value reached by following the key path `ks` from `d`: `d[ks[0]][ks[1]]...`. */
  function Lookup<V(==)>(d: Node<V>, ks: seq<string>): Option<Node<V>>
    decreases |ks|
  {
    if |ks| == 0 then Some(d)
    else if d.Leaf? then None
    else
      match FirstKey(d.items, ks[0])
      case None => None
      case Some(i) => Lookup(d.items[i].1, ks[1..])
  }

  /** `ks` leads from `d` to the leaf `v`. */
  predicate LeafAt<V(==)>(d: Node<V>, ks: seq<string>, v: V)
  {
    |ks| > 0 && Lookup(d, ks) == Some(Leaf(v))
  }

  /**
   * `_yield_flat_dict(d, path)` from the `i`-th item on: each leaf as its
   * dot-joined key path and value, each table recursed into, in order.
   */
  function YieldFlat<V>(d: Node<V>, path: seq<string>, i: nat): (r: seq<(string, V)>)
    requires d.Table? && i <= |d.items|
    decreases d, |d.items| - i
  {
    if i == |d.items| then []
    else Entry(d.items[i].0, d.items[i].1, path) + YieldFlat(d, path, i + 1)
  }

  /** What one item `k = c` of a table at `path` yields. */
  function Entry<V>(k: string, c: Node<V>, path: seq<string>): (r: seq<(string, V)>)
    decreases c, if c.Table? then |c.items| + 1 else 0
  {
    match c
    case Leaf(x) => [(Join(path + [k], "."), x)]
    case Table(_) => YieldFlat(c, path + [k], 0)
  }

  /**
   * The dict comprehension over the yielded pairs: every key appears, and
   * a repeated key keeps the value of its last pair.
   */
  function ToMap<V(==)>(pairs: seq<(string, V)>): (r: Flat<V>)
    ensures r.Keys == set i | 0 <= i < |pairs| :: pairs[i].0
    ensures forall k | k in r :: exists i | 0 <= i < |pairs| ::
      pairs[i] == (k, r[k]) && forall j | i < j < |pairs| :: pairs[j].0 != k
  {
    if |pairs| == 0 then map[]
    else
      var n := |pairs| - 1;
      var front := ToMap(pairs[..n]);
      ToMapStep(pairs[..n], pairs[n], front);
      assert pairs == pairs[..n] + [pairs[n]];
      front[pairs[n].0 := pairs[n].1]
  }

  /** One more pair sets its key to its value and leaves every other key's last pair alone. */
  lemma ToMapStep<V>(init: seq<(string, V)>, last: (string, V), front: Flat<V>)
    requires front.Keys == set i | 0 <= i < |init| :: init[i].0
    requires forall k | k in front :: exists i | 0 <= i < |init| ::
      init[i] == (k, front[k]) && forall j | i < j < |init| :: init[j].0 != k
    ensures var pairs, r := init + [last], front[last.0 := last.1];
      r.Keys == (set i | 0 <= i < |pairs| :: pairs[i].0)
      && forall k | k in r :: exists i | 0 <= i < |pairs| ::
        pairs[i] == (k, r[k]) && forall j | i < j < |pairs| :: pairs[j].0 != k
  {
    var pairs, r := init + [last], front[last.0 := last.1];
    assert r.Keys == (set i | 0 <= i < |pairs| :: pairs[i].0) by {
      forall k | k in r
        ensures k in (set i | 0 <= i < |pairs| :: pairs[i].0)
      {
        if k != last.0 {
          var i :| 0 <= i < |init| && init[i].0 == k;
          assert pairs[i].0 == k;
        } else {
          assert pairs[|init|].0 == k;
        }
      }
    }
    forall k | k in r
      ensures exists i | 0 <= i < |pairs| :: pairs[i] == (k, r[k]) && forall j | i < j < |pairs| :: pairs[j].0 != k
    {
      if k == last.0 {
        assert pairs[|init|] == (k, r[k]);
      } else {
        var i :| 0 <= i < |init| && init[i] == (k, front[k]) && forall j | i < j < |init| :: init[j].0 != k;
        assert pairs[i] == (k, r[k]);
      }
    }
  }

  /** `_flatten_dict`: a document's settings under their dotted names. */
  function Flatten<V(==)>(doc: Node<V>): Flat<V>
    requires doc.Table?
  {
    ToMap(YieldFlat(doc, [], 0))
  }

  /** The load's merge: the defaults, with every user value whose key the defaults know. */
  function Merge<V(==)>(defaults: Flat<V>, user: Flat<V>): (r: Flat<V>)
    ensures r.Keys == defaults.Keys
    ensures forall k | k in defaults && k in user :: r[k] == user[k]
    ensures forall k | k in defaults && k !in user :: r[k] == defaults[k]
  {
    var known := map k | k in user && k in defaults :: user[k];
    defaults + known
  }

  /**
   * `_load_settings`: a missing user file is first made a copy of the
   * defaults, then both documents are flattened and merged.
   */
  function Load<V(==)>(defaultsDoc: Node<V>, userDoc: Option<Node<V>>): Flat<V>
    requires defaultsDoc.Table? && (userDoc.Some? ==> userDoc.value.Table?)
  {
    Merge(Flatten(defaultsDoc), Flatten(userDoc.GetOr(defaultsDoc)))
  }

  /** The failure of `get`: the `KeyError` for an unknown name. */
  datatype SettingsError = UnknownSetting(name: string)

  /** `get(setting_name)`. */
  function Get<V(==)>(settings: Flat<V>, name: string): (r: Result<V, SettingsError>)
    ensures r.Err? <==> name !in settings
    ensures r.Err? ==> r.error == UnknownSetting(name)
    ensures r.Ok? ==> r.value == settings[name]
  {
    if name in settings then Ok(settings[name]) else Err(UnknownSetting(name))
  }

  // ---------------------------------------------------------------------------
  // Flattening: every leaf, and only leaves
  // ---------------------------------------------------------------------------

  /** Every yielded pair is a leaf of `d`, keyed by `path` and the leaf's key path joined with ".". */
  lemma {:induction false} YieldSound<V>(d: Node<V>, path: seq<string>, i: nat, e: (string, V))
    requires d.Table? && i <= |d.items| && DistinctKeys(d)
    requires e in YieldFlat(d, path, i)
    ensures exists ks :: LeafAt(d, ks, e.1) && e.0 == Join(path + ks, ".")
    decreases d, |d.items| - i
  {
    if e in Entry(d.items[i].0, d.items[i].1, path) {
      EntrySound(d, path, i, e);
    } else {
      YieldSound(d, path, i + 1, e);
    }
  }

  /** A pair the `i`-th item yields is a leaf under that item's key. */
  lemma {:induction false} EntrySound<V>(d: Node<V>, path: seq<string>, i: nat, e: (string, V))
    requires d.Table? && i < |d.items| && DistinctKeys(d)
    requires e in Entry(d.items[i].0, d.items[i].1, path)
    ensures exists ks :: LeafAt(d, ks, e.1) && e.0 == Join(path + ks, ".")
    decreases d.items[i].1, if d.items[i].1.Table? then |d.items[i].1.items| + 1 else 0
  {
    var k, c := d.items[i].0, d.items[i].1;
    FirstKeyDistinct(d.items, i);
    if c.Leaf? {
      LeafUnderItem(d, i, [], e.1);
      assert [k] + [] == [k];
    } else {
      YieldSound(c, path + [k], 0, e);
      var ks :| LeafAt(c, ks, e.1) && e.0 == Join(path + [k] + ks, ".");
      LeafUnderItem(d, i, ks, e.1);
      AppendAssoc(path, [k], ks);
    }
  }

  /** A leaf reached from item `i`, the first with its key, is reached from `d` through that key. */
  lemma LeafUnderItem<V>(d: Node<V>, i: nat, ks: seq<string>, v: V)
    requires d.Table? && i < |d.items| && FirstKey(d.items, d.items[i].0) == Some(i)
    requires |ks| == 0 ==> d.items[i].1 == Leaf(v)
    requires |ks| > 0 ==> LeafAt(d.items[i].1, ks, v)
    ensures LeafAt(d, [d.items[i].0] + ks, v)
  {
    assert ([d.items[i].0] + ks)[1..] == ks;
  }

  /** With distinct keys, the first item keyed like the `i`-th is the `i`-th. */
  lemma FirstKeyDistinct<V>(items: seq<(string, Node<V>)>, i: nat)
    requires i < |items|
    requires forall a, b | 0 <= a < b < |items| :: items[a].0 != items[b].0
    ensures FirstKey(items, items[i].0) == Some(i)
  {
  }

  /** Every leaf of `d` reached through item `i` or a later one is yielded, under its dotted key. */
  lemma {:induction false} YieldComplete<V>(d: Node<V>, path: seq<string>, i: nat, ks: seq<string>, v: V)
    requires d.Table? && i <= |d.items|
    requires LeafAt(d, ks, v)
    requires FirstKey(d.items, ks[0]).value >= i
    ensures (Join(path + ks, "."), v) in YieldFlat(d, path, i)
    decreases d, |d.items| - i
  {
    var j := FirstKey(d.items, ks[0]).value;
    if j == i {
      EntryComplete(d, path, i, ks, v);
    } else {
      YieldComplete(d, path, i + 1, ks, v);
    }
  }

  /** A leaf reached through item `i` is among what that item yields. */
  lemma {:induction false} EntryComplete<V>(d: Node<V>, path: seq<string>, i: nat, ks: seq<string>, v: V)
    requires d.Table? && i < |d.items|
    requires LeafAt(d, ks, v)
    requires FirstKey(d.items, ks[0]) == Some(i)
    ensures (Join(path + ks, "."), v) in Entry(d.items[i].0, d.items[i].1, path)
    decreases d.items[i].1, if d.items[i].1.Table? then |d.items[i].1.items| + 1 else 0
  {
    var k, c := d.items[i].0, d.items[i].1;
    assert Lookup(d, ks) == Lookup(c, ks[1..]);
    if |ks| == 1 {
      assert c == Leaf(v);
      assert ks == [k];
    } else {
      assert c.Table?;
      FirstKeyFound(c, ks[1..]);
      YieldComplete(c, path + [k], 0, ks[1..], v);
      assert path + [k] + ks[1..] == path + ks;
    }
  }

  /** A non-empty key path that reaches something starts with a key the table has. */
  lemma FirstKeyFound<V>(d: Node<V>, ks: seq<string>)
    requires |ks| > 0 && Lookup(d, ks).Some?
    ensures d.Table? && FirstKey(d.items, ks[0]).Some?
  {
  }

  /** Each flattened setting is a leaf of the document whose key path joins to its name. */
  lemma FlattenSound<V>(doc: Node<V>, name: string)
    requires doc.Table? && DistinctKeys(doc)
    requires name in Flatten(doc)
    ensures exists ks :: LeafAt(doc, ks, Flatten(doc)[name]) && Join(ks, ".") == name
  {
    var pairs := YieldFlat(doc, [], 0);
    var i :| 0 <= i < |pairs| && pairs[i] == (name, Flatten(doc)[name])
      && forall j | i < j < |pairs| :: pairs[j].0 != name;
    YieldSound(doc, [], 0, pairs[i]);
    var ks :| LeafAt(doc, ks, pairs[i].1) && pairs[i].0 == Join([] + ks, ".");
    assert [] + ks == ks;
  }

  /** Each leaf of the document is a setting under its joined key path. */
  lemma FlattenComplete<V>(doc: Node<V>, ks: seq<string>, v: V)
    requires doc.Table?
    requires LeafAt(doc, ks, v)
    ensures Join(ks, ".") in Flatten(doc)
  {
    var pairs := YieldFlat(doc, [], 0);
    FirstKeyFound(doc, ks);
    YieldComplete(doc, [], 0, ks, v);
    assert [] + ks == ks;
    var i :| 0 <= i < |pairs| && pairs[i] == (Join(ks, "."), v);
    assert Join(ks, ".") == pairs[i].0;
  }

  /**
   * Flattening keeps exactly the leaves: a dotted name is a setting when
   * some key path to a leaf joins to it, and its value is one such leaf.
   */
  lemma FlattenLeaves<V>(doc: Node<V>, name: string)
    requires doc.Table? && DistinctKeys(doc)
    ensures name in Flatten(doc) <==> exists ks, v :: LeafAt(doc, ks, v) && Join(ks, ".") == name
    ensures name in Flatten(doc) ==> exists ks :: LeafAt(doc, ks, Flatten(doc)[name]) && Join(ks, ".") == name
  {
    if name in Flatten(doc) {
      FlattenSound(doc, name);
      var ks :| LeafAt(doc, ks, Flatten(doc)[name]) && Join(ks, ".") == name;
      assert LeafAt(doc, ks, Flatten(doc)[name]);
    }
    if exists ks, v :: LeafAt(doc, ks, v) && Join(ks, ".") == name {
      var ks, v :| LeafAt(doc, ks, v) && Join(ks, ".") == name;
      FlattenComplete(doc, ks, v);
    }
  }

  /** An empty sub-table contributes nothing. */
  lemma EmptyTableVanishes<V>(items: seq<(string, Node<V>)>, k: string, path: seq<string>)
    ensures YieldFlat(Table([(k, Table([]))] + items), path, 0) == YieldFlat(Table(items), path, 0)
  {
    var empty: Node<V> := Table([]);
    assert YieldFlat(empty, path + [k], 0) == [];
    YieldShift(items, [(k, Table([]))], path, 0);
  }

  /** Items in front do not change what the later items yield. */
  lemma {:induction false} YieldShift<V>(items: seq<(string, Node<V>)>, front: seq<(string, Node<V>)>, path: seq<string>, i: nat)
    requires i <= |items|
    ensures YieldFlat(Table(front + items), path, |front| + i) == YieldFlat(Table(items), path, i)
    decreases |items| - i
  {
    if i < |items| {
      assert (front + items)[|front| + i] == items[i];
      YieldShift(items, front, path, i + 1);
    }
  }

  // ---------------------------------------------------------------------------
  // Merging and lookup
  // ---------------------------------------------------------------------------

  /** A user key the defaults do not know is dropped; every default key stays. */
  lemma UnknownDropped<V>(defaultsDoc: Node<V>, userDoc: Node<V>, name: string)
    requires defaultsDoc.Table? && userDoc.Table?
    ensures name in Load(defaultsDoc, Some(userDoc)) <==> name in Flatten(defaultsDoc)
  {
  }

  /** Merging again with the same defaults changes nothing. */
  lemma MergeIdempotent<V>(defaults: Flat<V>, user: Flat<V>)
    ensures Merge(defaults, Merge(defaults, user)) == Merge(defaults, user)
  {
  }

  /** A first start, where the user file is a fresh copy of the defaults, loads the defaults. */
  lemma FirstStartLoadsDefaults<V>(defaultsDoc: Node<V>)
    requires defaultsDoc.Table?
    ensures Load(defaultsDoc, None) == Flatten(defaultsDoc)
  {
  }

  /**
   * `get` after loading succeeds exactly for the dotted leaf paths of the
   * defaults, and gives the user's value when the user file sets that name.
   */
  lemma GetAfterLoad<V>(defaultsDoc: Node<V>, userDoc: Node<V>, name: string)
    requires defaultsDoc.Table? && userDoc.Table? && DistinctKeys(defaultsDoc)
    ensures Get(Load(defaultsDoc, Some(userDoc)), name).Ok?
      <==> exists ks, v :: LeafAt(defaultsDoc, ks, v) && Join(ks, ".") == name
    ensures Get(Load(defaultsDoc, Some(userDoc)), name).Ok? && name in Flatten(userDoc) ==>
      Get(Load(defaultsDoc, Some(userDoc)), name).value == Flatten(userDoc)[name]
  {
    FlattenLeaves(defaultsDoc, name);
  }
}

=== FILE: sort_keys.dfy ===
/**
 * The two orders the directory indexer sorts paths by
 * (`DirectoryTree.sort_folders_key` and `DirectoryTree.sort_tree_key`).
 */
module SortKeys {
  import opened Strings
  import opened Paths
  import opened Sorting

  // ---------------------------------------------------------------------------
  // Folders first, then files by depth
  // ---------------------------------------------------------------------------

  /** The part of the folders-first key in front of the path string. */
  function FolderPrefix(fs: FileSystem, c: Path): string
  {
    if IsFile(fs, c) then "1" + PadLeft(NatToString(Depth(c)), 3, '0') else "0000"
  }

  /**
   * `sort_folders_key(c)`: "0000" and the path for anything that is not a
   * file; "1", the depth padded to three digits, and the path for a file.
   */
  function FolderKey(fs: FileSystem, c: Path): (k: string)
    ensures |k| > 0 && k[0] == if IsFile(fs, c) then '1' else '0'
    ensures EndsWith(k, Str(c))
  {
    FolderPrefix(fs, c) + Str(c)
  }

  /** The key as a function value, as `sorted(..., key=...)` receives it. */
  function FolderKeyOf(fs: FileSystem): Path -> string
  {
    (c: Path) => FolderKey(fs, c)
  }

  /** Anything that is not a file sorts before every file. */
  lemma FoldersBeforeFiles(fs: FileSystem, a: Path, b: Path)
    requires !IsFile(fs, a) && IsFile(fs, b)
    ensures LexLess(FolderKey(fs, a), FolderKey(fs, b))
  {
    LexFirstDifference(FolderKey(fs, a), FolderKey(fs, b), 0);
  }

  lemma OneDigit(n: nat)
    requires n < 10
    ensures NatToString(n) == [DigitChar(n)]
  {
  }

  lemma TwoDigits(n: nat)
    requires 10 <= n < 100
    ensures NatToString(n) == [DigitChar(n / 10), DigitChar(n % 10)]
  {
    OneDigit(n / 10);
  }

  lemma ThreeDigits(n: nat)
    requires 100 <= n < 1000
    ensures NatToString(n) == [DigitChar(n / 100), DigitChar(n / 10 % 10), DigitChar(n % 10)]
  {
    TwoDigits(n / 10);
    assert n / 10 / 10 == n / 100;
  }

  /** The three-digit field is the hundreds, tens and units digit of the depth. */
  lemma PadThree(n: nat)
    requires n < 1000
    ensures PadLeft(NatToString(n), 3, '0') == [DigitChar(n / 100), DigitChar(n / 10 % 10), DigitChar(n % 10)]
  {
    if n < 10 {
      OneDigit(n);
      assert Repeat('0', 2) == ['0'] + Repeat('0', 1);
      assert DigitChar(0) == '0';
    } else if n < 100 {
      TwoDigits(n);
      assert Repeat('0', 1) == ['0'] + Repeat('0', 0);
      assert DigitChar(0) == '0';
    } else {
      ThreeDigits(n);
    }
  }

  /** Three-digit fields compare as the numbers they spell. */
  lemma ThreeDigitOrder(m: nat, n: nat, x: string, y: string)
    requires m < n < 1000
    ensures LexLess([DigitChar(m / 100), DigitChar(m / 10 % 10), DigitChar(m % 10)] + x,
                    [DigitChar(n / 100), DigitChar(n / 10 % 10), DigitChar(n % 10)] + y)
  {
    var a := [DigitChar(m / 100), DigitChar(m / 10 % 10), DigitChar(m % 10)] + x;
    var b := [DigitChar(n / 100), DigitChar(n / 10 % 10), DigitChar(n % 10)] + y;
    DigitsOrder(m, n);
    if m / 100 != n / 100 {
      LexFirstDifference(a, b, 0);
    } else if m / 10 % 10 != n / 10 % 10 {
      assert a[..1] == b[..1];
      LexFirstDifference(a, b, 1);
    } else {
      assert a[..2] == b[..2];
      LexFirstDifference(a, b, 2);
    }
  }

  /** Of two numbers below 1000, the smaller has the smaller first differing decimal digit. */
  lemma DigitsOrder(m: nat, n: nat)
    requires m < n < 1000
    ensures m / 100 <= n / 100 && m / 100 < 10 && n / 100 < 10
    ensures m / 100 == n / 100 ==> m / 10 % 10 <= n / 10 % 10
    ensures m / 100 == n / 100 && m / 10 % 10 == n / 10 % 10 ==> m % 10 < n % 10
  {
    assert m == 100 * (m / 100) + 10 * (m / 10 % 10) + m % 10;
    assert n == 100 * (n / 100) + 10 * (n / 10 % 10) + n % 10;
  }

  /** Between files, a shallower one sorts first (while depths stay below 1000). */
  lemma ShallowerFilesFirst(fs: FileSystem, a: Path, b: Path)
    requires IsFile(fs, a) && IsFile(fs, b)
    requires Depth(a) < Depth(b) < 1000
    ensures LexLess(FolderKey(fs, a), FolderKey(fs, b))
  {
    var m, n := Depth(a), Depth(b);
    PadThree(m);
    PadThree(n);
    ThreeDigitOrder(m, n, Str(a), Str(b));
    var da := [DigitChar(m / 100), DigitChar(m / 10 % 10), DigitChar(m % 10)];
    var db := [DigitChar(n / 100), DigitChar(n / 10 % 10), DigitChar(n % 10)];
    assert FolderKey(fs, a) == "1" + (da + Str(a));
    assert FolderKey(fs, b) == "1" + (db + Str(b));
    LexCommonPrefix("1", da + Str(a), db + Str(b));
  }

  lemma PadLeftDigits(s: string, w: int)
    requires forall i | 0 <= i < |s| :: IsDigit(s[i])
    ensures forall i | 0 <= i < |PadLeft(s, w, '0')| :: IsDigit(PadLeft(s, w, '0')[i])
  {
    var r := PadLeft(s, w, '0');
    var z := Repeat('0', w - |s|);
    forall i | 0 <= i < |r|
      ensures IsDigit(r[i])
    {
      if i < |z| {
        assert r[i] == z[i];
      } else {
        assert r[i] == s[i - |z|];
      }
    }
  }

  /** Distinct absolute canonical paths get distinct folders-first keys. */
  lemma FolderKeyInjective(fs: FileSystem, a: Path, b: Path)
    requires a.absolute && Canonical(a) && b.absolute && Canonical(b)
    requires FolderKey(fs, a) == FolderKey(fs, b)
    ensures a == b
  {
    var pa, pb := FolderPrefix(fs, a), FolderPrefix(fs, b);
    PrefixHasNoSlash(fs, a);
    PrefixHasNoSlash(fs, b);
    var k := FolderKey(fs, a);
    assert k[|pa|] == '/' && k[..|pa|] == pa;
    IndexOfUnique(k, '/', |pa|);
    assert FolderKey(fs, b)[|pb|] == '/' && FolderKey(fs, b)[..|pb|] == pb;
    IndexOfUnique(k, '/', |pb|);
    assert Str(a) == k[|pa|..] == Str(b);
    StrInjective(a, b);
  }

  lemma PrefixHasNoSlash(fs: FileSystem, c: Path)
    ensures '/' !in FolderPrefix(fs, c)
  {
    if IsFile(fs, c) {
      var d := NatToString(Depth(c));
      PadLeftDigits(d, 3);
      var p := PadLeft(d, 3, '0');
      assert '/' !in p by {
        forall i | 0 <= i < |p|
          ensures p[i] != '/'
        {
          assert IsDigit(p[i]);
        }
      }
      assert '/' !in "1" + p;
    }
  }

  /** Over a set of absolute canonical paths the folders-first key is injective. */
  lemma FolderKeyInjectiveOn(fs: FileSystem, xs: set<Path>)
    requires forall p | p in xs :: p.absolute && Canonical(p)
    ensures KeyInjective(xs, FolderKeyOf(fs))
  {
    forall a, b | a in xs && b in xs && FolderKeyOf(fs)(a) == FolderKeyOf(fs)(b)
      ensures a == b
    {
      FolderKeyInjective(fs, a, b);
    }
  }

  // ---------------------------------------------------------------------------
  // Tree order
  // ---------------------------------------------------------------------------

  /** One field of the tree key: "0" for a directory, "1" otherwise, then the name. */
  function Segment(fs: FileSystem, p: Path): string
  {
    (if IsDir(fs, p) then "0" else "1") + Name(p)
  }

  /**
   * `sort_tree_key(c)`: the segments of every ancestor from the top down,
   * then of `c` itself, joined by "/".
   */
  function TreeKey(fs: FileSystem, c: Path): string
  {
    Join(seq(|c.parts| + 1, k requires 0 <= k <= |c.parts| => Segment(fs, Ancestor(c, k))), "/")
  }

  /** A child's tree key extends its parent's by "/" and the child's segment. */
  lemma TreeKeyChild(fs: FileSystem, p: Path, name: string)
    ensures TreeKey(fs, Child(p, name)) == TreeKey(fs, p) + "/" + Segment(fs, Child(p, name))
  {
    var c := Child(p, name);
    var segsP := seq(|p.parts| + 1, k requires 0 <= k <= |p.parts| => Segment(fs, Ancestor(p, k)));
    var segsC := seq(|c.parts| + 1, k requires 0 <= k <= |c.parts| => Segment(fs, Ancestor(c, k)));
    forall k | 0 <= k <= |p.parts|
      ensures segsC[k] == segsP[k]
    {
      assert c.parts[..k] == p.parts[..k];
    }
    assert Ancestor(c, |c.parts|) == c;
    assert segsC == segsP + [Segment(fs, c)];
    JoinSnoc(segsP, Segment(fs, c), "/");
  }

  /** A directory sorts before everything inside it. */
  lemma ParentBeforeChild(fs: FileSystem, p: Path, name: string)
    ensures LexLess(TreeKey(fs, p), TreeKey(fs, Child(p, name)))
  {
    TreeKeyChild(fs, p, name);
    LexProperPrefix(TreeKey(fs, p), "/" + Segment(fs, Child(p, name)));
    assert TreeKey(fs, p) + "/" + Segment(fs, Child(p, name)) == TreeKey(fs, p) + ("/" + Segment(fs, Child(p, name)));
  }

  /** A directory sorts before everything inside it, at any depth. */
  lemma {:induction false} AncestorBeforeDescendant(fs: FileSystem, p: Path, c: Path)
    requires StrictlyBelow(c, p)
    ensures LexLess(TreeKey(fs, p), TreeKey(fs, c))
    decreases |c.parts|
  {
    var q := Parent(c);
    assert c == Child(q, Name(c));
    ParentBeforeChild(fs, q, Name(c));
    if |q.parts| > |p.parts| {
      assert q.parts[..|p.parts|] == c.parts[..|p.parts|];
      AncestorBeforeDescendant(fs, p, q);
      LexTransitive(TreeKey(fs, p), TreeKey(fs, q), TreeKey(fs, c));
    } else {
      assert q == p;
    }
  }

  /** Among siblings, a directory sorts before a non-directory. */
  lemma DirBeforeFileSibling(fs: FileSystem, p: Path, d: string, f: string)
    requires IsDir(fs, Child(p, d)) && !IsDir(fs, Child(p, f))
    ensures LexLess(TreeKey(fs, Child(p, d)), TreeKey(fs, Child(p, f)))
  {
    TreeKeyChild(fs, p, d);
    TreeKeyChild(fs, p, f);
    var pre := TreeKey(fs, p) + "/";
    var sd, sf := Segment(fs, Child(p, d)), Segment(fs, Child(p, f));
    assert TreeKey(fs, Child(p, d)) == pre + sd;
    assert TreeKey(fs, Child(p, f)) == pre + sf;
    LexFirstDifference(sd, sf, 0);
    LexCommonPrefix(pre, sd, sf);
  }
}

=== FILE: sorting.dfy ===
/**
 * Python's `sorted(xs, key=f)` for string keys: a stable sort under the
 * code-point order on the keys.
 */
module Sorting {
  import opened Strings
  import opened Seqs

  /** No later element has a smaller key than an earlier one. */
  predicate SortedBy<T>(s: seq<T>, key: T -> string)
  {
    forall i, j | 0 <= i < j < |s| :: !LexLess(key(s[j]), key(s[i]))
  }

  /** Distinct elements of `xs` have distinct keys. */
  predicate KeyInjective<T>(xs: set<T>, key: T -> string)
  {
    forall a, b | a in xs && b in xs && key(a) == key(b) :: a == b
  }

  /** Put `x` in front of the first element whose key is not smaller than its own. */
  function Insert<T>(x: T, s: seq<T>, key: T -> string): (r: seq<T>)
    requires SortedBy(s, key)
    ensures SortedBy(r, key)
    ensures multiset(r) == multiset(s) + multiset{x}
    decreases |s|
  {
    if |s| == 0 then [x]
    else if !LexLess(key(s[0]), key(x)) then
      InFront(x, s, key);
      [x] + s
    else
      var rest := Insert(x, s[1..], key);
      BehindHead(x, s, rest, key);
      assert s == [s[0]] + s[1..];
      [s[0]] + rest
  }

  /** An element whose key is at most the head's may go in front of a sorted sequence. */
  lemma InFront<T>(x: T, s: seq<T>, key: T -> string)
    requires SortedBy(s, key) && |s| > 0 && !LexLess(key(s[0]), key(x))
    ensures SortedBy([x] + s, key)
  {
    forall j | 0 <= j < |s|
      ensures !LexLess(key(s[j]), key(x))
    {
      if j > 0 {
        NotLessTransitive(key(x), key(s[0]), key(s[j]));
      }
    }
  }

  /** Every element of `rest` is `x` or comes from `s`. */
  lemma DrawnFrom<T>(x: T, s: seq<T>, rest: seq<T>)
    requires multiset(rest) == multiset(s) + multiset{x}
    ensures forall j | 0 <= j < |rest| :: rest[j] == x || rest[j] in s
  {
    forall j | 0 <= j < |rest|
      ensures rest[j] == x || rest[j] in s
    {
      assert rest[j] in multiset(rest);
    }
  }

  /**
   * The head of a sorted sequence may stay in front of the tail with an
   * element of larger key inserted.
   */
  lemma BehindHead<T>(x: T, s: seq<T>, rest: seq<T>, key: T -> string)
    requires SortedBy(s, key) && |s| > 0 && LexLess(key(s[0]), key(x))
    requires SortedBy(rest, key) && multiset(rest) == multiset(s[1..]) + multiset{x}
    ensures SortedBy([s[0]] + rest, key)
  {
    DrawnFrom(x, s[1..], rest);
    forall j | 0 <= j < |rest|
      ensures !LexLess(key(rest[j]), key(s[0]))
    {
      if rest[j] != x {
        var k :| 0 <= k < |s[1..]| && s[1..][k] == rest[j];
        assert s[k + 1] == rest[j];
      } else {
        LexAsymmetric(key(s[0]), key(x));
      }
    }
  }

  /** `a <= b` and `b <= c` give `a <= c`: the non-strict order is transitive. */
  lemma NotLessTransitive(a: string, b: string, c: string)
    requires !LexLess(b, a) && !LexLess(c, b)
    ensures !LexLess(c, a)
  {
    LexTotalOrEqual(a, b);
    LexTotalOrEqual(b, c);
    if a != b && b != c {
      LexTransitive(a, b, c);
      LexAsymmetric(a, c);
    } else if a != b {
      LexAsymmetric(a, b);
    } else if b != c {
      LexAsymmetric(b, c);
    } else {
      LexIrreflexive(a);
    }
  }

  /** Two strings are equal or ordered one way or the other. */
  lemma LexTotalOrEqual(a: string, b: string)
    ensures a == b || LexLess(a, b) || LexLess(b, a)
  {
    if a != b {
      LexTotal(a, b);
    }
  }

  /** `sorted(s, key=key)`. */
  function SortBy<T>(s: seq<T>, key: T -> string): (r: seq<T>)
    ensures SortedBy(r, key)
    ensures multiset(r) == multiset(s)
    decreases |s|
  {
    if |s| == 0 then []
    else
      assert s == [s[0]] + s[1..];
      Insert(s[0], SortBy(s[1..], key), key)
  }

  /** Of two sorted arrangements of the same elements with distinct keys, the heads agree. */
  lemma SortedHeads<T>(a: seq<T>, b: seq<T>, key: T -> string)
    requires SortedBy(a, key) && SortedBy(b, key)
    requires multiset(a) == multiset(b) && |a| > 0
    requires KeyInjective((set x | x in a), key)
    ensures a[0] == b[0]
  {
    assert a[0] in multiset(b) && a[0] in a;
    var j :| 0 <= j < |b| && b[j] == a[0];
    assert b[0] in multiset(a);
    var k :| 0 <= k < |a| && a[k] == b[0];
    assert !LexLess(key(a[0]), key(b[0])) by {
      if j > 0 {
        assert !LexLess(key(b[j]), key(b[0]));
      } else {
        LexIrreflexive(key(a[0]));
      }
    }
    assert !LexLess(key(b[0]), key(a[0])) by {
      if k > 0 {
        assert !LexLess(key(a[k]), key(a[0]));
      } else {
        LexIrreflexive(key(b[0]));
      }
    }
    LexTotalOrEqual(key(a[0]), key(b[0]));
    assert a[k] in a;
  }

  /** Dropping equal heads keeps the multisets equal. */
  lemma TailMultiset<T>(a: seq<T>, b: seq<T>)
    requires multiset(a) == multiset(b) && |a| > 0 && |b| > 0 && a[0] == b[0]
    ensures multiset(a[1..]) == multiset(b[1..])
  {
    assert a == [a[0]] + a[1..] && b == [b[0]] + b[1..];
    assert multiset(a[1..]) == multiset(a) - multiset{a[0]};
    assert multiset(b[1..]) == multiset(b) - multiset{b[0]};
  }

  /**
   * When no two elements share a key, the sorted order is unique: two sorted
   * arrangements of the same elements are the same sequence.
   */
  lemma {:induction false} SortedUnique<T>(a: seq<T>, b: seq<T>, key: T -> string)
    requires SortedBy(a, key) && SortedBy(b, key)
    requires multiset(a) == multiset(b)
    requires KeyInjective((set x | x in a), key)
    ensures a == b
    decreases |a|
  {
    assert |a| == |multiset(a)| == |multiset(b)| == |b|;
    if |a| > 0 {
      SortedHeads(a, b, key);
      TailMultiset(a, b);
      assert (set x | x in a[1..]) <= (set x | x in a);
      SortedUnique(a[1..], b[1..], key);
      assert a == [a[0]] + a[1..] && b == [b[0]] + b[1..];
    }
  }

  // ---------------------------------------------------------------------------
  // Integer keys
  // ---------------------------------------------------------------------------

  /** No later element has a smaller integer key than an earlier one. */
  predicate SortedByInt<T>(s: seq<T>, key: T -> int)
  {
    forall i, j | 0 <= i < j < |s| :: key(s[i]) <= key(s[j])
  }

  /** Put `x` in front of the first element whose key is not smaller than its own. */
  function InsertInt<T>(x: T, s: seq<T>, key: T -> int): (r: seq<T>)
    requires SortedByInt(s, key)
    ensures SortedByInt(r, key)
    ensures multiset(r) == multiset(s) + multiset{x}
    decreases |s|
  {
    if |s| == 0 then [x]
    else if key(x) <= key(s[0]) then [x] + s
    else
      var rest := InsertInt(x, s[1..], key);
      BehindHeadInt(x, s, rest, key);
      assert s == [s[0]] + s[1..];
      [s[0]] + rest
  }

  /** The integer-key counterpart of `BehindHead`. */
  lemma BehindHeadInt<T>(x: T, s: seq<T>, rest: seq<T>, key: T -> int)
    requires SortedByInt(s, key) && |s| > 0 && key(s[0]) < key(x)
    requires SortedByInt(rest, key) && multiset(rest) == multiset(s[1..]) + multiset{x}
    ensures SortedByInt([s[0]] + rest, key)
  {
    DrawnFrom(x, s[1..], rest);
    forall j | 0 <= j < |rest| && rest[j] != x
      ensures key(s[0]) <= key(rest[j])
    {
      var k :| 0 <= k < |s[1..]| && s[1..][k] == rest[j];
      assert s[k + 1] == rest[j];
    }
  }

  /** The elements whose integer key is `k`. */
  function WithKey<T>(key: T -> int, k: int): T -> bool
  {
    x => key(x) == k
  }

  /**
   * Inserting `x` puts it in front of every element with the same key, so
   * among the elements with key `k` the order is `x`, if its key is `k`, then `s`'s.
   */
  lemma {:induction false} InsertIntStableAt<T>(x: T, s: seq<T>, key: T -> int, k: int)
    requires SortedByInt(s, key)
    ensures Filter(InsertInt(x, s, key), WithKey(key, k)) == Filter([x], WithKey(key, k)) + Filter(s, WithKey(key, k))
    decreases |s|
  {
    var same := WithKey(key, k);
    if |s| == 0 {
    } else if key(x) <= key(s[0]) {
      FilterAppend([x], s, same);
    } else {
      var rest := InsertInt(x, s[1..], key);
      InsertIntStableAt(x, s[1..], key, k);
      FilterAppend([s[0]], rest, same);
      FilterAppend([s[0]], s[1..], same);
      assert s == [s[0]] + s[1..];
      if key(x) == k {
        assert Filter([s[0]], same) == [];
      } else {
        assert Filter([x], same) == [];
      }
    }
  }

  /** `InsertIntStableAt` for every key. */
  lemma InsertIntStable<T>(x: T, s: seq<T>, key: T -> int)
    requires SortedByInt(s, key)
    ensures forall k :: Filter(InsertInt(x, s, key), WithKey(key, k)) == Filter([x], WithKey(key, k)) + Filter(s, WithKey(key, k))
  {
    forall k
      ensures Filter(InsertInt(x, s, key), WithKey(key, k)) == Filter([x], WithKey(key, k)) + Filter(s, WithKey(key, k))
    {
      InsertIntStableAt(x, s, key, k);
    }
  }

  /** The elements with key `k` of `s` are its head's, if its key is `k`, then its tail's. */
  lemma FilterHead<T>(s: seq<T>, key: T -> int)
    requires |s| > 0
    ensures forall k :: Filter(s, WithKey(key, k)) == Filter([s[0]], WithKey(key, k)) + Filter(s[1..], WithKey(key, k))
  {
    forall k
      ensures Filter(s, WithKey(key, k)) == Filter([s[0]], WithKey(key, k)) + Filter(s[1..], WithKey(key, k))
    {
      assert s == [s[0]] + s[1..];
      FilterAppend([s[0]], s[1..], WithKey(key, k));
    }
  }

  /** A stable rearrangement of elements that all share one key is no rearrangement. */
  lemma StableOneKey<T>(r: seq<T>, s: seq<T>, key: T -> int, c: int)
    requires multiset(r) == multiset(s)
    requires Filter(r, WithKey(key, c)) == Filter(s, WithKey(key, c))
    requires forall i | 0 <= i < |s| :: key(s[i]) == c
    ensures r == s
  {
    var same := WithKey(key, c);
    FilterKeepsAll(s, same);
    forall i | 0 <= i < |r|
      ensures same(r[i])
    {
      assert r[i] in multiset(s);
    }
    FilterKeepsAll(r, same);
  }

  /**
   * `sorted(s, key=key)` for an integer key: ordered, a permutation, and
   * stable, elements with equal keys keeping their order in `s`.
   */
  function SortByInt<T>(s: seq<T>, key: T -> int): (r: seq<T>)
    ensures SortedByInt(r, key)
    ensures multiset(r) == multiset(s)
    ensures forall k :: Filter(r, WithKey(key, k)) == Filter(s, WithKey(key, k))
    decreases |s|
  {
    if |s| == 0 then []
    else
      assert s == [s[0]] + s[1..];
      var rest := SortByInt(s[1..], key);
      InsertIntStable(s[0], rest, key);
      FilterHead(s, key);
      InsertInt(s[0], rest, key)
  }
}

=== FILE: strings.dfy ===
/** The Python `str` operations the editor relies on, over `seq<char>`. */
module Strings {
  import opened Wrappers

  // ---------------------------------------------------------------------------
  // Joining and splitting
  // ---------------------------------------------------------------------------

  /** `sep.join(parts)`. */
  function Join(parts: seq<string>, sep: string): string
  {
    if |parts| == 0 then ""
    else if |parts| == 1 then parts[0]
    else parts[0] + sep + Join(parts[1..], sep)
  }

  /** Appending one more part adds the separator and the part at the end. */
  lemma {:induction false} JoinSnoc(parts: seq<string>, x: string, sep: string)
    requires |parts| >= 1
    ensures Join(parts + [x], sep) == Join(parts, sep) + sep + x
    decreases |parts|
  {
    if |parts| > 1 {
      assert (parts + [x])[1..] == parts[1..] + [x];
      JoinSnoc(parts[1..], x, sep);
    } else {
      assert (parts + [x])[1..] == [x];
    }
  }

  /** Position of the first `c` in `s`. */
  function IndexOf(s: string, c: char): (i: nat)
    requires c in s
    ensures i < |s| && s[i] == c && c !in s[..i]
  {
    if s[0] == c then 0 else 1 + IndexOf(s[1..], c)
  }

  lemma {:induction false} IndexOfUnique(s: string, c: char, i: nat)
    requires i < |s| && s[i] == c && c !in s[..i]
    ensures IndexOf(s, c) == i
    decreases i
  {
    if i > 0 {
      assert s[0] == s[..i][0];
      assert s[1..][..i - 1] == s[..i][1..];
      IndexOfUnique(s[1..], c, i - 1);
    }
  }

  /** `s.split(c)` for a one-character separator. */
  function Split(s: string, c: char): (r: seq<string>)
    ensures |r| >= 1
    ensures forall k | 0 <= k < |r| :: c !in r[k]
    decreases |s|
  {
    if c in s then
      var i := IndexOf(s, c);
      [s[..i]] + Split(s[i + 1..], c)
    else [s]
  }

  /** `s.split(c, n)`: at most `n` splits, so at most `n + 1` fields. */
  function SplitMax(s: string, c: char, n: nat): (r: seq<string>)
    ensures 1 <= |r| <= n + 1
    ensures forall k | 0 <= k < |r| - 1 :: c !in r[k]
    decreases n
  {
    if n > 0 && c in s then
      var i := IndexOf(s, c);
      [s[..i]] + SplitMax(s[i + 1..], c, n - 1)
    else [s]
  }

  /** `s.split(c, 1)` on a string with `c` first occurring after `a`. */
  lemma SplitMaxFirst(a: string, c: char, rest: string, n: nat)
    requires c !in a && n > 0
    ensures SplitMax(a + [c] + rest, c, n) == [a] + SplitMax(rest, c, n - 1)
  {
    var s := a + [c] + rest;
    assert s[..|a|] == a;
    IndexOfUnique(s, c, |a|);
    assert s[|a| + 1..] == rest;
  }

  /** Two colon-free fields and a free remainder split back apart with `split(":", 2)`. */
  lemma SplitMaxTwo(a: string, b: string, rest: string, c: char)
    requires c !in a && c !in b
    ensures SplitMax(a + [c] + b + [c] + rest, c, 2) == [a, b, rest]
  {
    assert a + [c] + b + [c] + rest == a + [c] + (b + [c] + rest);
    SplitMaxFirst(a, c, b + [c] + rest, 2);
    SplitMaxFirst(b, c, rest, 1);
  }

  /** `split` cuts at the first separator: a separator-free head comes off as the first field. */
  lemma SplitFirst(a: string, c: char, rest: string)
    requires c !in a
    ensures Split(a + [c] + rest, c) == [a] + Split(rest, c)
  {
    var s := a + [c] + rest;
    assert s[..|a|] == a;
    IndexOfUnique(s, c, |a|);
    assert s[|a| + 1..] == rest;
  }

  /** Splitting what was joined on a character that no part contains gives the parts back. */
  lemma {:induction false} SplitJoin(parts: seq<string>, c: char)
    requires |parts| >= 1
    requires forall k | 0 <= k < |parts| :: c !in parts[k]
    ensures Split(Join(parts, [c]), c) == parts
    decreases |parts|
  {
    if |parts| > 1 {
      var rest := Join(parts[1..], [c]);
      assert c !in parts[0];
      SplitFirst(parts[0], c, rest);
      SplitJoin(parts[1..], c);
      assert parts == [parts[0]] + parts[1..];
    }
  }

  /** A joined string contains the separator character only where the join put it. */
  lemma {:induction false} JoinAvoids(parts: seq<string>, sep: char, c: char)
    requires c != sep
    requires forall k | 0 <= k < |parts| :: c !in parts[k]
    ensures c !in Join(parts, [sep])
    decreases |parts|
  {
    if |parts| > 1 {
      JoinAvoids(parts[1..], sep, c);
    }
  }

  // ---------------------------------------------------------------------------
  // Substrings
  // ---------------------------------------------------------------------------

  predicate StartsWith(s: string, prefix: string)
  {
    |prefix| <= |s| && s[..|prefix|] == prefix
  }

  predicate EndsWith(s: string, suffix: string)
  {
    |suffix| <= |s| && s[|s| - |suffix|..] == suffix
  }

  /** `pat` occurs in `s` starting at index `i`. */
  predicate OccursAt(s: string, pat: string, i: int)
  {
    0 <= i && i + |pat| <= |s| && s[i..i + |pat|] == pat
  }

  /** `pat in s`. */
  predicate Contains(s: string, pat: string)
  {
    exists i | 0 <= i <= |s| :: OccursAt(s, pat, i)
  }

  /** `s.rfind(pat)`, searching the start positions `<= from` downwards. */
  function RFindFrom(s: string, pat: string, from: int): (r: int)
    ensures r == -1 || (0 <= r <= from && OccursAt(s, pat, r))
    ensures r == -1 ==> forall j | 0 <= j <= from :: !OccursAt(s, pat, j)
    ensures r >= 0 ==> forall j | r < j <= from :: !OccursAt(s, pat, j)
    decreases from + 1
  {
    if from < 0 then -1
    else if OccursAt(s, pat, from) then from
    else RFindFrom(s, pat, from - 1)
  }

  /** `s.rfind(pat)`: the last start of `pat` in `s`, or -1. */
  function RFind(s: string, pat: string): int
  {
    RFindFrom(s, pat, |s| - |pat|)
  }

  /** In `a + "::" + b` where `b` has no colon, the last `::` is the one placed after `a`. */
  lemma RFindLastSeparator(a: string, b: string)
    requires ':' !in b
    ensures RFind(a + "::" + b, "::") == |a|
  {
    var s := a + "::" + b;
    assert OccursAt(s, "::", |a|);
    forall j | |a| < j <= |s| - 2
      ensures !OccursAt(s, "::", j)
    {
      assert s[j + 1] == b[j + 1 - |a| - 2];
    }
  }

  /** When `pat` occurs in `s`, `rfind` finds an occurrence, and none later. */
  lemma ContainsRFind(s: string, pat: string)
    requires Contains(s, pat)
    ensures 0 <= RFind(s, pat) <= |s| - |pat| && OccursAt(s, pat, RFind(s, pat))
    ensures forall j | RFind(s, pat) < j <= |s| - |pat| :: !OccursAt(s, pat, j)
  {
    var i :| 0 <= i <= |s| && OccursAt(s, pat, i);
  }

  /** `s.replace(target, repl)`, scanning left to right without overlaps. */
  function Replace(s: string, target: string, repl: string): string
    requires |target| > 0
    decreases |s|
  {
    if |s| == 0 then ""
    else if StartsWith(s, target) then repl + Replace(s[|target|..], target, repl)
    else [s[0]] + Replace(s[1..], target, repl)
  }

  /** Replacing a substring that does not occur changes nothing. */
  lemma {:induction false} ReplaceAbsent(s: string, target: string, repl: string)
    requires |target| > 0
    requires !Contains(s, target)
    ensures Replace(s, target, repl) == s
    decreases |s|
  {
    if |s| > 0 {
      assert !OccursAt(s, target, 0);
      assert !StartsWith(s, target);
      forall i | 0 <= i <= |s[1..]|
        ensures !OccursAt(s[1..], target, i)
      {
        assert !OccursAt(s, target, i + 1);
        if i + |target| <= |s[1..]| {
          assert s[1..][i..i + |target|] == s[i + 1..i + 1 + |target|];
        }
      }
      ReplaceAbsent(s[1..], target, repl);
      assert s == [s[0]] + s[1..];
    }
  }

  /** `s.removesuffix(suffix)`. */
  function RemoveSuffix(s: string, suffix: string): string
  {
    if |suffix| > 0 && EndsWith(s, suffix) then s[..|s| - |suffix|] else s
  }

  // ---------------------------------------------------------------------------
  // Characters and case
  // ---------------------------------------------------------------------------

  /** Python's `str.isspace()`, which is also what the regular expression `\s` matches. */
  predicate IsSpace(c: char)
  {
    c == ' ' || ('\t' <= c <= '\r') || ('\U{1c}' <= c <= '\U{1f}') || c == '\U{85}' || c == '\U{a0}'
    || c == '\U{1680}' || ('\U{2000}' <= c <= '\U{200a}') || c == '\U{2028}' || c == '\U{2029}'
    || c == '\U{202f}' || c == '\U{205f}' || c == '\U{3000}'
  }

  /** The whitespace that `int()` strips: `isspace()` without the separators U+1C to U+1F. */
  predicate IsIntSpace(c: char)
  {
    IsSpace(c) && !('\U{1c}' <= c <= '\U{1f}')
  }

  /** `str.lower()` restricted to ASCII letters. */
  function LowerChar(c: char): char
  {
    if 'A' <= c <= 'Z' then (c as int + 32) as char else c
  }

  function Lower(s: string): (r: string)
    ensures |r| == |s|
    ensures forall i | 0 <= i < |s| :: r[i] == LowerChar(s[i])
  {
    seq(|s|, i requires 0 <= i < |s| => LowerChar(s[i]))
  }

  /** `c * n` for a one-character string `c`; non-positive counts give "". */
  function Repeat(c: char, n: int): (r: string)
    ensures |r| == if n <= 0 then 0 else n
    ensures forall i | 0 <= i < |r| :: r[i] == c
    decreases n
  {
    if n <= 0 then "" else [c] + Repeat(c, n - 1)
  }

  /** `f"{s:c>w}"`: right-align `s` in a field of width `w`. */
  function PadLeft(s: string, w: int, c: char): (r: string)
    ensures EndsWith(r, s)
    ensures |r| == if |s| < w then w else |s|
  {
    Repeat(c, w - |s|) + s
  }

  /** `f"{s:<w}"`: left-align `s` in a field of width `w`. */
  function PadRight(s: string, w: int): (r: string)
    ensures StartsWith(r, s)
    ensures |r| == if |s| < w then w else |s|
  {
    s + Repeat(' ', w - |s|)
  }

  // ---------------------------------------------------------------------------
  // Integers
  // ---------------------------------------------------------------------------

  predicate IsDigit(c: char)
  {
    '0' <= c <= '9'
  }

  function DigitChar(d: nat): (c: char)
    requires d < 10
    ensures IsDigit(c)
  {
    (48 + d) as char
  }

  /** `str(n)` for a natural number. */
  function NatToString(n: nat): (r: string)
    ensures |r| > 0
    ensures forall i | 0 <= i < |r| :: IsDigit(r[i])
  {
    if n < 10 then [DigitChar(n)] else NatToString(n / 10) + [DigitChar(n % 10)]
  }

  /** `str(i)`. */
  function IntToString(i: int): (r: string)
    ensures |r| > 0
    ensures forall k | 0 <= k < |r| :: IsDigit(r[k]) || r[k] == '-'
  {
    if i < 0 then "-" + NatToString(-i) else NatToString(i)
  }

  predicate IsDigits(s: string)
  {
    |s| > 0 && forall i | 0 <= i < |s| :: IsDigit(s[i])
  }

  function DigitsValue(s: string): nat
    requires forall i | 0 <= i < |s| :: IsDigit(s[i])
  {
    if |s| == 0 then 0
    else
      assert IsDigit(s[|s| - 1]);
      DigitsValue(s[..|s| - 1]) * 10 + (s[|s| - 1] as int - 48)
  }

  lemma {:induction false} DigitsOfNat(n: nat)
    ensures DigitsValue(NatToString(n)) == n
  {
    if n >= 10 {
      var s := NatToString(n);
      assert s[..|s| - 1] == NatToString(n / 10);
      DigitsOfNat(n / 10);
    }
  }

  function TrimStart(s: string): string
  {
    if |s| > 0 && IsIntSpace(s[0]) then TrimStart(s[1..]) else s
  }

  function TrimEnd(s: string): string
  {
    if |s| > 0 && IsIntSpace(s[|s| - 1]) then TrimEnd(s[..|s| - 1]) else s
  }

  /** Python's `int(s)` for base 10: optional surrounding whitespace, an optional sign, digits. */
  function ParseInt(s: string): (r: Option<int>)
  {
    var t := TrimEnd(TrimStart(s));
    if |t| > 0 && (t[0] == '-' || t[0] == '+') then
      if IsDigits(t[1..]) then
        var v: int := DigitsValue(t[1..]);
        Some(if t[0] == '-' then -v else v)
      else None
    else if IsDigits(t) then Some(DigitsValue(t))
    else None
  }

  /** A string starting and ending with a digit or '-' has nothing for `int()` to strip. */
  lemma NoTrim(t: string)
    requires |t| > 0
    requires IsDigit(t[0]) || t[0] == '-'
    requires IsDigit(t[|t| - 1])
    ensures TrimEnd(TrimStart(t)) == t
  {
    assert !IsIntSpace(t[0]);
    assert TrimStart(t) == t;
    assert !IsIntSpace(t[|t| - 1]);
  }

  /** `int(str(i)) == i`. */
  lemma IntRoundTrip(i: int)
    ensures ParseInt(IntToString(i)) == Some(i)
  {
    var t := IntToString(i);
    if i < 0 {
      var d := NatToString(-i);
      assert t == "-" + d && t[1..] == d;
      NoTrim(t);
      DigitsOfNat(-i);
    } else {
      NoTrim(t);
      DigitsOfNat(i);
    }
  }

  // ---------------------------------------------------------------------------
  // Code-point order on strings (Python's `<` on `str`)
  // ---------------------------------------------------------------------------

  predicate LexLess(a: string, b: string)
    decreases |a|
  {
    |b| > 0 && (|a| == 0 || a[0] < b[0] || (a[0] == b[0] && LexLess(a[1..], b[1..])))
  }

  lemma {:induction false} LexIrreflexive(a: string)
    ensures !LexLess(a, a)
    decreases |a|
  {
    if |a| > 0 {
      LexIrreflexive(a[1..]);
    }
  }

  lemma {:induction false} LexAsymmetric(a: string, b: string)
    ensures !(LexLess(a, b) && LexLess(b, a))
    decreases |a|
  {
    if |a| > 0 && |b| > 0 && a[0] == b[0] {
      LexAsymmetric(a[1..], b[1..]);
    }
  }

  lemma {:induction false} LexTransitive(a: string, b: string, c: string)
    requires LexLess(a, b) && LexLess(b, c)
    ensures LexLess(a, c)
    decreases |a|
  {
    if |a| > 0 && a[0] == b[0] && b[0] == c[0] {
      LexTransitive(a[1..], b[1..], c[1..]);
    }
  }

  lemma {:induction false} LexTotal(a: string, b: string)
    requires a != b
    ensures LexLess(a, b) || LexLess(b, a)
    decreases |a|
  {
    if |a| > 0 && |b| > 0 && a[0] == b[0] {
      assert a == [a[0]] + a[1..] && b == [b[0]] + b[1..];
      LexTotal(a[1..], b[1..]);
    }
  }

  /** A common prefix does not change the order. */
  lemma {:induction false} LexCommonPrefix(p: string, a: string, b: string)
    ensures LexLess(p + a, p + b) == LexLess(a, b)
    decreases |p|
  {
    if |p| > 0 {
      assert (p + a)[0] == p[0] == (p + b)[0];
      assert |p + a| > 0 && |p + b| > 0;
      assert (p + a)[1..] == p[1..] + a;
      assert (p + b)[1..] == p[1..] + b;
      LexCommonPrefix(p[1..], a, b);
    } else {
      assert p + a == a && p + b == b;
    }
  }

  /** Strings that first differ at `i` compare as their characters at `i` do. */
  lemma {:induction false} LexFirstDifference(a: string, b: string, i: nat)
    requires i < |a| && i < |b| && a[..i] == b[..i] && a[i] < b[i]
    ensures LexLess(a, b)
    decreases i
  {
    if i > 0 {
      assert a[0] == a[..i][0] == b[..i][0] == b[0];
      assert a[1..][..i - 1] == a[1..i] == a[..i][1..];
      assert b[1..][..i - 1] == b[1..i] == b[..i][1..];
      LexFirstDifference(a[1..], b[1..], i - 1);
    }
  }

  /** A proper prefix sorts first. */
  lemma {:induction false} LexProperPrefix(a: string, b: string)
    requires |b| > 0
    ensures LexLess(a, a + b)
    decreases |a|
  {
    if |a| > 0 {
      assert (a + b)[0] == a[0];
      assert (a + b)[1..] == a[1..] + b;
      LexProperPrefix(a[1..], b);
    }
  }
}

=== FILE: wrappers.dfy ===
/** Option and Result, the failure-carrying values used by every module. */
module Wrappers {

  /** A value that may be absent (Python's `None`). */
  datatype Option<+T> = None | Some(value: T) {
    function GetOr(default: T): T
    {
      match this
      case Some(v) => v
      case None => default
    }
  }

  /** The outcome of an operation that raises in the code. */
  datatype Result<+R, +E> = Ok(value: R) | Err(error: E) {
    predicate IsFailure()
    {
      Err?
    }

    function PropagateFailure<U>(): Result<U, E>
      requires Err?
    {
      Err(error)
    }

    function Extract(): R
      requires Ok?
    {
      value
    }
  }
}
